=== FILE: README.md ===
# math-rendering: the rendering core in Dafny

This project models the rendering core of the Java library `math-rendering`,
which turns an expression tree (`RenderableExpression`) into text. There are
three forms:

- an inline string;
- a multi-line ASCII or Unicode picture (`AsciiArt`);
- LaTeX source.

The model has these parts:

- **Canvas** (`canvas.dfy`): the `AsciiArt` canvas algebra. A rectangular
  block of rows with a center row, built from text or a row generator, drawn
  onto another block, and appended above, below or beside it. The written
  `draw` is proved equal to a cell-by-cell reference definition.
- **Helpers** (`strings.dfy`, `utils.dfy`, `charset.dfy`, `numbers.dfy`,
  `rational.dfy`, `precedence.dfy`, `java.dfy`):
  - line splitting and joining;
  - the `Utils` token classifiers and the super- and subscript tables;
  - the `CharacterSet` family, as predicates on characters;
  - the power-of-ten helpers and the `Rational` constructors;
  - the `Precedence` table;
  - Java's 32-bit increment, product and halving.
- **Options** (`options.dfy`): `RenderOptions` and its setters.
- **Nodes and builders** (`expr.dfy`, `glyphs.dfy`, `builders.dfy`): one
  `Node` constructor per node class, the `SpecialLiteral` constants, and the
  static builders of `RenderableExpression`. The renderers accept a tree
  that is well formed (`Expr.WellFormed`): every grid in it is rectangular,
  and the two grids of an augmented grid have equally many rows. This is what
  the library's grid constructors enforce. Each builder states when its
  result is well formed.
- **The wrapper** (`render.dfy`): the precedence of every node, and the
  automatic parenthesis rule of `RenderableExpression.render`. A node is
  drawn in round brackets, and at the lowest precedence inside them, when
  automatic parentheses are on and the surrounding precedence is higher than
  the node's own. Three node kinds override this rule:
  - `Exp` is never wrapped;
  - `Integral` is never wrapped inline or in LaTeX;
  - `MatrixBrackets` renders as a `Brackets` node of the configured kind.
- **Layout** (`brackets.dfy`, `tables.dfy`, `layout.dfy`): the layout pieces
  of the pictures. These are bracket shapes, grid and augmented-grid tables,
  fraction bars, root signs, script placement, big symbols, integral signs,
  and delimited lists.
- **Renderers**: one per form. `inline.dfy` (module `Inline`) gives the
  inline text, `art.dfy` (module `Pictures`) the picture, and `latex.dfy`
  (module `Latex`) the LaTeX.

The entry points `Pictures.Picture`, `Inline.Inline` and `Latex.Latex`, the
`Glyphs` constants and the builders follow the corrected code of the rows of
"## Findings", not the library as written. Their output therefore differs
from the library's in these places:

- Findings row 1: pictures of brackets, subscripts and super-subscripts
  append below with `Canvas.AppendBottom`, which keeps the base block's
  center row. The library's version is `Canvas.AppendBottomAsWritten`.
- Findings row 2: `Inline.Inline` prints an augmented grid's right-hand cells
  after the bar (`Inline.AugmentedInline`). The library's version is
  `Inline.AugmentedInlineAsWritten`.
- Findings rows 3 and 4: `Glyphs.INT_NUMS` shows `ℤ` and
  `Glyphs.NOT_GREATER_OR_EQUAL` shows `!>=` in ASCII. The library's values are
  `Glyphs.INT_NUMS_AS_WRITTEN` and `Glyphs.NOT_GREATER_OR_EQUAL_AS_WRITTEN`.
- Findings row 5: `Builders.Percent` and `Builders.Deg` put the operand first.
  The library's versions are `Builders.PercentAsWritten` and
  `Builders.DegAsWritten`.
- Findings row 6: `Pictures.FractionPicture` uses the corrected
  `Pictures.ShouldRenderInline`, which stacks a fraction whose operand text is
  empty. The library's test is `Pictures.ShouldRenderInlineAsWritten`, which
  throws there.
- Findings row 7: `Pictures.SuperscriptPicture` draws the base just above
  power precedence and the exponent at `MIN`. So `-1` squared is drawn
  `(-1)²`, where the library draws `-1²`. The library's version is
  `Pictures.SuperscriptPictureAsWritten`.
- Findings row 8: `Pictures.MiddlePicture` draws the bar with `│` wherever the
  character set has it (`Pictures.MiddleGlyph`). The library's choice is
  `Pictures.MiddleGlyphAsWritten`.

Some node classes have renderers that are not part of this model. These are:

- plain literals;
- simple infix, prefix and postfix operators;
- negation;
- rationals;
- single bracket literals.

Such nodes are kept as data. Their precedence and their three renderings come
from a `Foreign` record that every renderer takes as a parameter.

Java's `int` fields are modelled as the `Int32` subset of `int`. Two
operations that can overflow are written out with wrap-around:

- a `+ 1` (`Java.Succ`);
- the product `m * n` in the size check of `grid` (`Java.Mul`).

## Model

| member | source | states |
|---|---|---|
| Canvas.MaxLen | src/main/java/com/github/rccookie/math/rendering/AsciiArt.java:44-52 | the padding width is the length of the longest line: no line is longer, and some line reaches it when there is one |
| Canvas.Pad | src/main/java/com/github/rccookie/math/rendering/AsciiArt.java:44-52 | `pad` keeps the number of lines and every existing character, and fills each line with spaces up to the longest line |
| Canvas.PadEven | src/main/java/com/github/rccookie/math/rendering/AsciiArt.java:44-52 | lines that are already equally long come back unchanged, so padding is idempotent |
| Canvas.SameCells | src/main/java/com/github/rccookie/math/rendering/AsciiArt.java:58-64 | a well-formed block is fully determined by its width, its height and its cells |
| Canvas.FromLines | src/main/java/com/github/rccookie/math/rendering/AsciiArt.java:33-37 | the lines constructor gives a rectangular block, one row per line, as wide as the longest line, each line's characters kept and blanks after them, centered on the middle row |
| Canvas.FromText | src/main/java/com/github/rccookie/math/rendering/AsciiArt.java:19-23 | the text constructor gives a rectangular block with one row per line of the text, as wide as the longest line, each line's characters kept and blanks after them, centered on the middle row |
| Canvas.FromTextToString | src/main/java/com/github/rccookie/math/rendering/AsciiArt.java:75-77 | `toString` followed by the text constructor gives back the same rows, centered on the middle row, for blocks of non-zero width whose rows hold no line breaks |
| Canvas.FromTextSingleLine | src/main/java/com/github/rccookie/math/rendering/AsciiArt.java:19-23 | a non-empty text without line breaks is a one-row block centered on that row |
| Canvas.FromTextLineFeed | src/main/java/com/github/rccookie/math/rendering/AsciiArt.java:19-23 | a lone line feed ends one empty line: a block of one empty row |
| Canvas.FromTextTwoLines | src/main/java/com/github/rccookie/math/rendering/AsciiArt.java:19-23 | two lines joined by a line feed build the same block as the lines constructor on those two lines |
| Canvas.FromGenerator | src/main/java/com/github/rccookie/math/rendering/AsciiArt.java:25-31 | the generator constructor calls the generator once per row: row `i` shows `gen(i)` padded with blanks, the width is that of the longest generated row, the center is the middle row |
| Canvas.Empty | src/main/java/com/github/rccookie/math/rendering/AsciiArt.java:178-183 | `empty(w, h)` is an all-blank block of `h` rows, `w` wide when it has rows, centered on the middle row |
| Canvas.SetCenter | src/main/java/com/github/rccookie/math/rendering/AsciiArt.java:79-81 | `setCenter` keeps every row and moves only the anchor row |
| Canvas.RecalculateCenter | src/main/java/com/github/rccookie/math/rendering/AsciiArt.java:83-85 | `recalculateCenter` keeps every row and anchors on the middle row |
| Canvas.Place | src/main/java/com/github/rccookie/math/rendering/AsciiArt.java:138-176 | `draw` shifts the origin so that neither block has negative coordinates: one of the two blocks stays at column 0 and one at row 0, their offsets differ by the requested position, and the result spans both |
| Canvas.Draw | src/main/java/com/github/rccookie/math/rendering/AsciiArt.java:138-176 | `draw(a, x, y)` is exactly as tall and wide as the union of both placed blocks, and keeps the anchor of the base block or takes that of the drawn block |
| Canvas.DrawCells | src/main/java/com/github/rccookie/math/rendering/AsciiArt.java:138-176 | every cell of a drawing shows the drawn block where it covers the cell, else the base block, else a blank |
| Canvas.DrawLineCells | src/main/java/com/github/rccookie/math/rendering/AsciiArt.java:151-173 | each row assembled from base prefix, drawn block and base suffix agrees cell by cell with the cell-wise reading of `draw` |
| Canvas.UnshiftedLineCells | src/main/java/com/github/rccookie/math/rendering/AsciiArt.java:150-157 | a row of both blocks with the base block at column 0 shows the drawn line on its own columns and the base line elsewhere, blanks where the base line is too short |
| Canvas.ShiftedLineCells | src/main/java/com/github/rccookie/math/rendering/AsciiArt.java:158-164 | a row of both blocks with the drawn block at column 0 shows the drawn line first, then the base line from its offset on, blanks in any gap between them |
| Canvas.PaddedLineCells | src/main/java/com/github/rccookie/math/rendering/AsciiArt.java:167-171 | a row of only one block shows that block's line at its offset and blanks everywhere else |
| Canvas.AppendTop | src/main/java/com/github/rccookie/math/rendering/AsciiArt.java:93-100 | top alignment puts the two blocks side by side with their first rows level; the height is the larger one, the width the sum, the shorter block is padded below |
| Canvas.AppendTopOneRow | src/main/java/com/github/rccookie/math/rendering/AsciiArt.java:93-100 | two one-row blocks appended at the top are the concatenation of their rows |
| Canvas.AppendTopIsDraw | src/main/java/com/github/rccookie/math/rendering/AsciiArt.java:93-100 | appending at the top is drawing the second block at the first block's right edge on row 0 |
| Canvas.BottomRows | src/main/java/com/github/rccookie/math/rendering/AsciiArt.java:108-115 | bottom alignment joins the rows so that the last rows of both blocks are level |
| Canvas.AppendBottomAsWritten | src/main/java/com/github/rccookie/math/rendering/AsciiArt.java:108-115 | as written, `appendBottom` keeps the base block's center unshifted even when the base block moved down |
| Canvas.AppendBottom | src/main/java/com/github/rccookie/math/rendering/AsciiArt.java:108-115 | bottom alignment with the anchor of the kept block moved down with it: side by side, last rows level, the height the larger one, the width the sum |
| Canvas.AppendBottomOneRow | src/main/java/com/github/rccookie/math/rendering/AsciiArt.java:108-115 | two one-row blocks appended at the bottom are the concatenation of their rows |
| Canvas.AppendBottomIsDraw | src/main/java/com/github/rccookie/math/rendering/AsciiArt.java:108-115 | appending at the bottom is drawing the second block at the first block's right edge so that the last rows coincide |
| Canvas.AppendBottomAsWrittenDiffers | src/main/java/com/github/rccookie/math/rendering/AsciiArt.java:114 | the as-written and the corrected bottom alignment agree exactly when the base block's anchor is not kept or the base block is at least as tall |
| Canvas.AppendBottomAsWrittenCounterexample | src/main/java/com/github/rccookie/math/rendering/AsciiArt.java:114 | `x` appended at the bottom to a three-row block keeps its anchor on row 0 as written, a row that now holds only a blank, whereas `x` itself sits on row 2 |
| Canvas.AppendCenter | src/main/java/com/github/rccookie/math/rendering/AsciiArt.java:118-120 | center alignment gives a well-formed block |
| Canvas.AppendCenterLayout | src/main/java/com/github/rccookie/math/rendering/AsciiArt.java:118-120 | center alignment puts both anchors on one row: the new anchor is the larger of the two, the height covers the tallest part above and below it, and each block's cells keep their place relative to its anchor |
| Canvas.AppendCenterWidth | src/main/java/com/github/rccookie/math/rendering/AsciiArt.java:118-120 | the width of a center alignment is the sum of the widths |
| Canvas.AppendCenterOnto | src/main/java/com/github/rccookie/math/rendering/AsciiArt.java:118-120 | a block that fits above and below the base block's anchor leaves the base block's rows and anchor unchanged |
| Canvas.AppendCenterUnder | src/main/java/com/github/rccookie/math/rendering/AsciiArt.java:118-120 | a base block that fits within the appended block's extent takes over the appended block's rows and anchor |
| Canvas.AppendCenterOneRow | src/main/java/com/github/rccookie/math/rendering/AsciiArt.java:118-120 | two one-row blocks appended at the center are the concatenation of their rows |
| Strings.Blank | src/main/java/com/github/rccookie/math/rendering/Utils.java:66-69 | `blank(n)` is exactly `n` spaces |
| Strings.LinesJoinLines | src/main/java/com/github/rccookie/math/rendering/AsciiArt.java:19-23 | splitting the text of joined lines at its line breaks gives back those lines, when no line holds a break and the last one is not empty |
| Charsets.Restrict | src/main/java/com/github/rccookie/math/rendering/CharacterSet.java:36-38 | a filtered charset shows a character exactly when the base shows it and the filter admits it |
| Charsets.ModUnicode | src/main/java/com/github/rccookie/math/rendering/CharacterSet.java:16-17 | `MOD_UNICODE` shows every character except the eight arrow and definition glyphs |
| Charsets.Intersection | src/main/java/com/github/rccookie/math/rendering/CharacterSet.java:73-75 | the intersection shows exactly what both charsets show |
| Charsets.RestrictIsIntersection | src/main/java/com/github/rccookie/math/rendering/CharacterSet.java:36-38 | filtering a charset is intersecting it with the filter's own charset |
| Charsets.CharsetsNested | src/main/java/com/github/rccookie/math/rendering/CharacterSet.java:13-15 | whatever ASCII shows, ISO-8859-1 shows, and whatever ISO-8859-1 shows, Unicode shows |
| Charsets.CanDisplayChar | src/main/java/com/github/rccookie/math/rendering/CharacterSet.java:40-42 | the cached answer is the charset's answer; the cache stays sound, keeps every old entry and gains the asked character |
| Charsets.CanDisplayString | src/main/java/com/github/rccookie/math/rendering/CharacterSet.java:44-49 | a text is displayable exactly when every one of its characters is |
| Charsets.CanDisplayJoined | src/main/java/com/github/rccookie/math/rendering/CharacterSet.java:51-53 | the joined text of some lines is displayable exactly when every cell is and, with two or more lines, the line feed is |
| Charsets.CanDisplayConcat | src/main/java/com/github/rccookie/math/rendering/CharacterSet.java:44-49 | a concatenation is displayable exactly when both parts are |
| Charsets.CanDisplayArtCells | src/main/java/com/github/rccookie/math/rendering/CharacterSet.java:51-53 | a block is displayable exactly when every cell is and, with two or more rows, the line feed is |
| Charsets.CanDisplaySingle | src/main/java/com/github/rccookie/math/rendering/CharacterSet.java:40-49 | a one-character text is displayable exactly when its character is |
| Charsets.OrFallback | src/main/java/com/github/rccookie/math/rendering/CharacterSet.java:63-65 | the preferred text when it is displayable, the fallback otherwise |
| Charsets.OrFallbackChar | src/main/java/com/github/rccookie/math/rendering/CharacterSet.java:55-57 | the preferred character when it is displayable, the fallback otherwise |
| Charsets.OrFallbackArt | src/main/java/com/github/rccookie/math/rendering/CharacterSet.java:67-69 | the preferred block when it is displayable, the fallback otherwise |
| Charsets.OrFallbackDisplayable | src/main/java/com/github/rccookie/math/rendering/CharacterSet.java:63-65 | the choice is one of the two texts, and a displayable fallback makes the result displayable |
| Utils.OneNumber | src/main/java/com/github/rccookie/math/rendering/Utils.java:71-77 | `oneNumber` accepts exactly a leading digit or minus sign followed by digits only |
| Utils.OneVarFrom | src/main/java/com/github/rccookie/math/rendering/Utils.java:88-95 | the private `oneVar` accepts exactly a word of letters and digits not starting with a digit, or, when a minus is allowed, a minus followed by such a word |
| Utils.OneVar | src/main/java/com/github/rccookie/math/rendering/Utils.java:79-81 | `oneVar` accepts exactly a word or a minus followed by a word |
| Utils.OneNumOrVar | src/main/java/com/github/rccookie/math/rendering/Utils.java:83-85 | `oneNumOrVar` accepts exactly what one of the two token tests accepts |
| Utils.NumberNotVar | src/main/java/com/github/rccookie/math/rendering/Utils.java:71-95 | no text is both a number token and a variable token |
| Utils.ToScript | src/main/java/com/github/rccookie/math/rendering/Utils.java:102-110 | script conversion succeeds exactly when every character has a script form, and then maps each character to its form, keeping the length |
| Utils.ToSuperscript | src/main/java/com/github/rccookie/math/rendering/Utils.java:102-110 | `toSuperscript` is non-null exactly when every character appears in the superscript table |
| Utils.ToSubscript | src/main/java/com/github/rccookie/math/rendering/Utils.java:116-124 | `toSubscript` is non-null exactly when every character appears in the subscript table |
| Utils.ScriptTablesInjective | src/main/java/com/github/rccookie/math/rendering/Utils.java:31-64 | no two characters share a superscript form, and no two share a subscript form |
| Utils.ToScriptInjective | src/main/java/com/github/rccookie/math/rendering/Utils.java:102-110 | two texts with the same script form are the same text |
| Utils.SuperscriptRecognised | src/main/java/com/github/rccookie/math/rendering/Utils.java:98-100 | a converted superscript is recognised as superscript and not as subscript |
| Utils.SubscriptRecognised | src/main/java/com/github/rccookie/math/rendering/Utils.java:112-114 | a converted subscript is recognised as subscript and not as superscript |
| Utils.ScriptsPrintable | src/main/java/com/github/rccookie/math/rendering/Utils.java:31-64 | converted scripts contain no line breaks |
| Utils.AsciiEndNotScript | src/main/java/com/github/rccookie/math/rendering/Utils.java:98-114 | a text ending in an ASCII character is neither superscript nor subscript |
| Utils.ScriptNotIterable | src/main/java/com/github/rccookie/math/rendering/Utils.java:102-124 | a script form has no script form of its own |
| Utils.PadLine | src/main/java/com/github/rccookie/math/rendering/Utils.java:188-192 | a non-empty line with a space on both sides has padding |
| Utils.HasPaddingLines | src/main/java/com/github/rccookie/math/rendering/Utils.java:188-192 | a text of two or more lines has padding exactly when each of its lines does |
| NumberTheory.GetFactorToPowerOfTen | src/main/java/com/github/rccookie/math/rendering/Utils.java:146-174 | 1 gives 1; zero and negatives fail with an arithmetic error; a returned factor is a power of 2 or of 5 that turns the input into a power of ten; null means no power of ten is a multiple of the input |
| NumberTheory.NoPowerOfTenMultiple | src/main/java/com/github/rccookie/math/rendering/Utils.java:165 | a number with a prime factor other than 2 and 5 divides no power of ten |
| NumberTheory.CompleteToPowerOfTen | src/main/java/com/github/rccookie/math/rendering/Utils.java:167-172 | the factor picked from the counts of twos and fives completes the number to a power of ten |
| NumberTheory.Log | src/main/java/com/github/rccookie/math/rendering/Utils.java:176-186 | a non-positive base or argument fails with an arithmetic error; otherwise the result `k` is the integer logarithm: `base^k <= x < base^(k+1)` |
| NumberTheory.LogStep | src/main/java/com/github/rccookie/math/rendering/Utils.java:181-184 | each division of the loop keeps the input between the two powers and makes progress |
| Rationals.FromParts | src/main/java/com/github/rccookie/math/rendering/Rational.java:24-37 | the fraction constructor fails with an arithmetic error exactly when the denominator is zero |
| Rationals.FromPartsNormal | src/main/java/com/github/rccookie/math/rendering/Rational.java:24-37 | the stored fraction is in lowest terms with a positive denominator and has the value `n / d` |
| Rationals.FromPartsShortcuts | src/main/java/com/github/rccookie/math/rendering/Rational.java:27-32 | the zero and `n == d` shortcuts give what the general gcd reduction gives |
| Rationals.ReduceSpec | src/main/java/com/github/rccookie/math/rendering/Rational.java:33-35 | dividing both parts by the gcd carrying the denominator's sign keeps the value and reaches lowest terms |
| Rationals.NormalUnique | src/main/java/com/github/rccookie/math/rendering/Rational.java:24-37 | two fractions in lowest terms with equal values are equal, so every value has a single stored form |
| Rationals.FromPartsIdempotent | src/main/java/com/github/rccookie/math/rendering/Rational.java:24-37 | constructing from an already stored fraction changes nothing |
| Rationals.FromDecimalValue | src/main/java/com/github/rccookie/math/rendering/Rational.java:39-60 | the decimal constructor stores the lowest-terms fraction of `unscaled * 10^-scale` |
| Rationals.FromDecimalAgrees | src/main/java/com/github/rccookie/math/rendering/Rational.java:39-60 | for a positive scale the decimal constructor stores what the fraction constructor stores for `unscaled / 10^scale` |
| Precedence.Ordering | src/main/java/com/github/rccookie/math/Precedence.java:8-59 | the binding strengths are ordered: comma loosest, then definitions, logic, comparisons, membership, mid, grids, sums, negation, products, implicit products and calls, fractions, powers, factorials, degrees, and brackets, roots and subscripts tightest |
| Java.Succ | src/main/java/com/github/rccookie/math/rendering/List.java:28-34 | `p + 1` on a 32-bit `int` is the successor, except that the largest value wraps to the smallest |
| Java.Mul | src/main/java/com/github/rccookie/math/rendering/RenderableExpression.java:366 | Java `int` multiplication: congruent to the true product modulo 2^32, and equal to it when it fits in 32 bits |
| Java.Half | src/main/java/com/github/rccookie/math/rendering/Superscript.java:50-55 | Java's `x / 2`, as in `-b.height()/2`, truncates toward zero: for a negative `x` the half is rounded up |
| Options.New | src/main/java/com/github/rccookie/math/rendering/RenderableExpression.java:758-768 | the constructor fails with an illegal-argument error exactly when the precision is below one or the size limit is negative, and otherwise stores every argument as given |
| Options.SetPrecision | src/main/java/com/github/rccookie/math/rendering/RenderableExpression.java:805-807 | fails exactly when the constructor would; otherwise only the precision changes |
| Options.SetDecimalMode | src/main/java/com/github/rccookie/math/rendering/RenderableExpression.java:809-811 | only the decimal mode changes |
| Options.SetScientific | src/main/java/com/github/rccookie/math/rendering/RenderableExpression.java:813-815 | only the scientific flag changes |
| Options.SetSmallFractionsSizeLimit | src/main/java/com/github/rccookie/math/rendering/RenderableExpression.java:817-819 | fails exactly when the constructor would; otherwise only the size limit changes |
| Options.SetMatrixBrackets | src/main/java/com/github/rccookie/math/rendering/RenderableExpression.java:821-823 | only the matrix bracket kind changes |
| Options.SetCharset | src/main/java/com/github/rccookie/math/rendering/RenderableExpression.java:825-827 | only the charset changes |
| Options.SetAutoParenthesis | src/main/java/com/github/rccookie/math/rendering/RenderableExpression.java:829-831 | only the automatic parenthesis flag changes |
| Options.SetOutsidePrecedence | src/main/java/com/github/rccookie/math/rendering/RenderableExpression.java:833-835 | only the outside precedence changes |
| Options.SetSpaceMode | src/main/java/com/github/rccookie/math/rendering/RenderableExpression.java:837-839 | only the space mode changes |
| Options.EqualsIgnoresOnlyCharset | src/main/java/com/github/rccookie/math/rendering/RenderableExpression.java:786-798 | two options are equal exactly when they agree on every field but the charset |
| Options.EqualsEquivalence | src/main/java/com/github/rccookie/math/rendering/RenderableExpression.java:786-798 | option equality is reflexive, symmetric and transitive |
| Options.SettersAndEquals | src/main/java/com/github/rccookie/math/rendering/RenderableExpression.java:786-839 | a changed charset is invisible to `equals`, while a changed precedence or space mode is seen exactly when it differs |
| Render.Prec | src/main/java/com/github/rccookie/math/rendering/Grid.java:33-37 | the `precedence()` of every class: a number binds tightest unless it starts with a minus sign, a text node at its given precedence, a one-by-one grid, a one-element list and a plain concatenation bind like their contents, an implicit product at `IMPLICIT`, a list of two or more at its delimiter's; the per-class facts are `Render.NumberPrecedence` and `Render.TransparentPrecedence` |
| Render.WillWrap | src/main/java/com/github/rccookie/math/rendering/RenderableExpression.java:38-42 | the test of `render`: automatic parentheses on and the outside precedence above the node's; `Render.NoWrap` shows it never holds at `MIN`, for bracket nodes or with the parentheses off |
| Render.OverridesRender | src/main/java/com/github/rccookie/math/rendering/Exp.java:43-45 | the classes whose own `render` replaces the wrapper in every mode: `Exp` and `MatrixBrackets` (`Integral` overrides only the inline and LaTeX modes) |
| Render.RenderSpace | src/main/java/com/github/rccookie/math/rendering/Concatenation.java:70-83 | `Concatenation.renderSpace`; its cases are stated one by one in `Render.RenderSpaceCases` |
| Render.At | src/main/java/com/github/rccookie/math/rendering/RenderableExpression.java:833-835 | rendering at another precedence changes only the outside precedence |
| Render.AtTwice | src/main/java/com/github/rccookie/math/rendering/RenderableExpression.java:833-835 | setting the precedence twice keeps only the second value |
| Render.NoWrap | src/main/java/com/github/rccookie/math/rendering/RenderableExpression.java:38-42 | nothing is wrapped at the lowest outside precedence or with automatic parentheses off, and bracket nodes and special literals are never wrapped |
| Render.NumberPrecedence | src/main/java/com/github/rccookie/math/rendering/NumberLiteral.java:17-19 | a number literal binds like a negation exactly when it starts with a minus sign, and otherwise as tightly as possible |
| Render.TransparentPrecedence | src/main/java/com/github/rccookie/math/rendering/Concatenation.java:24-26 | a one-cell grid and a one-element list bind like their content; an explicit concatenation binds no tighter than either part; an implicit one binds like implicit multiplication |
| Render.ListInner | src/main/java/com/github/rccookie/math/rendering/List.java:28-34 | the elements of a list are rendered one step above the delimiter's precedence, wrapping to the lowest precedence after the largest |
| Render.RenderSpaceCases | src/main/java/com/github/rccookie/math/rendering/Concatenation.java:63-83 | an implicit product gets a space when forced; otherwise never next to brackets, fractions or grids; always between other operands; and between two numbers only where two digits would touch or a number spans lines |
| BracketShapes.SymbolsMirror | src/main/java/com/github/rccookie/math/rendering/BracketLiteral.java:7-12 | in both the ASCII and the Unicode table, every right bracket symbol is the mirror image of the left one |
| BracketShapes.MirrorInvolution | src/main/java/com/github/rccookie/math/rendering/BracketLiteral.java:7-12 | mirroring a row twice gives it back |
| BracketShapes.UnicodeShape | src/main/java/com/github/rccookie/math/rendering/BracketLiteral.java:55-103 | a Unicode bracket is as tall as asked (at least one row) and centered; one row gives the plain symbol, and a two-row curly brace is the pair of moustache glyphs |
| BracketShapes.AsciiShape | src/main/java/com/github/rccookie/math/rendering/BracketLiteral.java:105-153 | an ASCII bracket is as tall as asked, square and ceiling brackets one row taller for their top bar, and centered; one row gives the plain symbol, and a two-row curly brace is a slash over a backslash |
| BracketShapes.GeneratorMirror | src/main/java/com/github/rccookie/math/rendering/AsciiArt.java:25-31 | generated blocks whose padded rows are mirror images, row by row, are mirror images |
| BracketShapes.AsciiRowsMirror | src/main/java/com/github/rccookie/math/rendering/BracketLiteral.java:105-153 | each generated ASCII row of a right bracket is the mirrored row of the left one, once both are padded to the bracket's width |
| BracketShapes.AngleRowMirror | src/main/java/com/github/rccookie/math/rendering/BracketLiteral.java:55-153 | the rows of an angle bracket of odd height are mirror images |
| BracketShapes.AsciiMirror | src/main/java/com/github/rccookie/math/rendering/BracketLiteral.java:105-153 | every ASCII right bracket is the left bracket of the same kind and height flipped left to right |
| BracketShapes.UnicodeRowsMirror | src/main/java/com/github/rccookie/math/rendering/BracketLiteral.java:55-103 | each generated Unicode row of a right bracket is the mirrored row of the left one |
| BracketShapes.UnicodeMirror | src/main/java/com/github/rccookie/math/rendering/BracketLiteral.java:55-103 | every Unicode right bracket is the left bracket of the same kind and height flipped left to right |
| Glyphs.Special | src/main/java/com/github/rccookie/math/rendering/SpecialLiteral.java:69-83 | a special literal keeps its inline and LaTeX texts and turns its ASCII and Unicode texts into padded blocks, one row per line |
| Glyphs.GlyphIsSpecial | src/main/java/com/github/rccookie/math/rendering/SpecialLiteral.java:69-74 | a glyph whose ASCII and Unicode texts are single non-empty lines is the special literal built from those texts: each text becomes a one-row block anchored on that row |
| Glyphs.Figure | src/main/java/com/github/rccookie/math/rendering/SpecialLiteral.java:9-61 | a multi-line glyph is the padded block of its lines with the given anchor row |
| Glyphs.Arrow | src/main/java/com/github/rccookie/math/rendering/RenderableExpression.java:215-219 | `arrow(right, doubleLine)` points right, left or both ways (Java's null), with a double or a single shaft |
| Glyphs.IntegersAsWrittenAreRationals | src/main/java/com/github/rccookie/math/rendering/SpecialLiteral.java:13 | as written, the integers glyph is exactly the rationals glyph |
| Glyphs.IntegersDistinct | src/main/java/com/github/rccookie/math/rendering/SpecialLiteral.java:13 | the corrected integers glyph differs from the rationals glyph in its inline, ASCII and LaTeX forms |
| Glyphs.NotGeqAsWrittenCollides | src/main/java/com/github/rccookie/math/rendering/SpecialLiteral.java:41 | as written, "not greater or equal" has the same ASCII picture as "not less or equal" while its inline form differs |
| Glyphs.NotGeqDistinct | src/main/java/com/github/rccookie/math/rendering/SpecialLiteral.java:41 | the corrected ASCII picture `!>=` differs from that of "not less or equal" and extends that of "not greater" |
| Builders.Num | src/main/java/com/github/rccookie/math/rendering/RenderableExpression.java:239-245 | `num(n, d)` fails with an arithmetic error exactly when `d` is zero, and otherwise is a rational in lowest terms with the value `n / d` |
| Builders.NumInteger | src/main/java/com/github/rccookie/math/rendering/RenderableExpression.java:223-237 | `num(value)` is the value over one |
| Builders.NumLiteral | src/main/java/com/github/rccookie/math/rendering/RenderableExpression.java:263-265 | `num(String)` keeps the text verbatim as a number literal, which every renderer accepts |
| Builders.SpecialOf | src/main/java/com/github/rccookie/math/rendering/RenderableExpression.java:273-277 | a named glyph is refused with an illegal-argument error exactly when its inline text spans lines, and is otherwise the special literal of its four texts |
| Builders.SpecialArtOf | src/main/java/com/github/rccookie/math/rendering/RenderableExpression.java:283-287 | the overload with ready-made pictures is refused exactly when the inline text spans lines, and otherwise keeps the pictures as given |
| Builders.TextOf | src/main/java/com/github/rccookie/math/rendering/RenderableExpression.java:660-662 | `text(s)` keeps the text and binds as tightly as possible; the node is one every renderer accepts |
| Builders.Par | src/main/java/com/github/rccookie/math/rendering/RenderableExpression.java:311-313 | `par(x)` puts `x` in round brackets, and the result is one the renderers accept exactly when `x` is |
| Builders.GridRows | src/main/java/com/github/rccookie/math/rendering/Grid.java:16-25 | a grid is refused with an illegal-argument error exactly when its rows are empty or unequal in length, and keeps the rows otherwise |
| Builders.FillRows | src/main/java/com/github/rccookie/math/rendering/RenderableExpression.java:365-372 | an `m` by `n` grid filled row by row puts element `i*n + j` in row `i`, column `j` |
| Builders.GridOf | src/main/java/com/github/rccookie/math/rendering/RenderableExpression.java:365-372 | `grid(m, n, xs)` succeeds exactly for a positive size whose true product is the number of elements, with element `i*n + j` in row `i` and column `j`; the size check compares the 32-bit product, so a wrapped product that matches passes it and then fails on the allocation (negative `n`) or in the copy (true product too large); every other misfit, including an empty grid, is an illegal-argument error |
| Builders.GridOfWraps | src/main/java/com/github/rccookie/math/rendering/RenderableExpression.java:366-370 | two overflowing sizes: `2` by `-2^31` and `2^16` by `2^16` with no elements pass the size check and fail on the allocation and in the copy respectively |
| Builders.RowGrid | src/main/java/com/github/rccookie/math/rendering/RenderableExpression.java:357-359 | `row(xs)` is the one-row grid of the elements, refused when there are none |
| Builders.ColumnGrid | src/main/java/com/github/rccookie/math/rendering/RenderableExpression.java:361-363 | `column(xs)` is the one-column grid with one row per element, refused when there are none |
| Builders.Matrix | src/main/java/com/github/rccookie/math/rendering/RenderableExpression.java:410-412 | `matrix(k, rows)` is the grid of the rows inside brackets of kind `k`, refused when the rows are not rectangular |
| Builders.Vec | src/main/java/com/github/rccookie/math/rendering/RenderableExpression.java:382-387 | a column vector is refused exactly when it has no elements; otherwise it is the one-column grid of the elements (`Builders.ColumnGrid`), in brackets of the given kind when one is given |
| Builders.RowVec | src/main/java/com/github/rccookie/math/rendering/RenderableExpression.java:393-395 | a row vector is refused exactly when it has no elements; otherwise it is the one-row grid of the elements (`Builders.RowGrid`), in brackets of the given kind when one is given |
| Builders.MatrixRows | src/main/java/com/github/rccookie/math/rendering/RenderableExpression.java:406-408 | `matrix(rows)` leaves the bracket kind to the options at rendering time |
| Builders.MatrixOf | src/main/java/com/github/rccookie/math/rendering/RenderableExpression.java:397-399 | `matrix(m, n, xs)` succeeds exactly when `grid(m, n, xs)` does, holds that grid in brackets chosen at rendering time, and otherwise fails with the same error |
| Builders.Mid | src/main/java/com/github/rccookie/math/rendering/RenderableExpression.java:424-428 | `mid(a, b)` is an augmented grid exactly when both sides are grids with the same number of rows, and a vertical bar between them otherwise |
| Builders.AugMatrix | src/main/java/com/github/rccookie/math/rendering/RenderableExpression.java:418-420 | `augMatrix(k, a, b)` is `mid(a, b)`, inside brackets of kind `k` when one is given; the result is one the renderers accept exactly when both sides are |
| Builders.SetOf | src/main/java/com/github/rccookie/math/rendering/RenderableExpression.java:430-436 | `set(pattern, condition)` is `mid(pattern, condition)` in curly braces, accepted by the renderers exactly when both parts are |
| Builders.ListOf | src/main/java/com/github/rccookie/math/rendering/RenderableExpression.java:438-444 | `list(xs)` is the list of the elements separated by commas, accepted by the renderers exactly when every element is |
| Builders.Tuple | src/main/java/com/github/rccookie/math/rendering/RenderableExpression.java:446-448 | `tuple(xs)` is the comma list in round brackets, accepted by the renderers exactly when every element is |
| Builders.Call | src/main/java/com/github/rccookie/math/rendering/RenderableExpression.java:456-460 | `call(f, params)` is `f` followed by its parameters in round brackets; a single parameter that is already in round brackets is not bracketed again, and several or no parameters form a comma list |
| Builders.OpSymbolLeaf | src/main/java/com/github/rccookie/math/rendering/RenderableExpression.java:91-195 | every operator symbol is a plain or special literal |
| Builders.Binary | src/main/java/com/github/rccookie/math/rendering/RenderableExpression.java:472-574 | a binary operator keeps its operands, symbol, precedence and associativity, except that adding a negation becomes a subtraction of the negated value |
| Builders.InfixNamed | src/main/java/com/github/rccookie/math/rendering/RenderableExpression.java:580-584 | `infix(String, ...)` is refused with an illegal-argument error exactly when the symbol spans lines |
| Builders.Not | src/main/java/com/github/rccookie/math/rendering/RenderableExpression.java:590-592 | `not(x)` is the prefix "not" sign at the precedence of logical negation, accepted by the renderers exactly when `x` is |
| Builders.PrefixNamed | src/main/java/com/github/rccookie/math/rendering/RenderableExpression.java:598-602 | `prefix(String, ...)` is refused with an illegal-argument error exactly when the symbol spans lines |
| Builders.PostfixOf | src/main/java/com/github/rccookie/math/rendering/RenderableExpression.java:616-618 | `postfix(symbol, x, p)` keeps the symbol, the operand and the precedence, and is accepted by the renderers exactly when symbol and operand are |
| Builders.PostfixNamed | src/main/java/com/github/rccookie/math/rendering/RenderableExpression.java:620-624 | `postfix(String, ...)` is refused with an illegal-argument error exactly when the symbol spans lines |
| Builders.Factorial | src/main/java/com/github/rccookie/math/rendering/RenderableExpression.java:604-606 | `factorial(x)` is `x` followed by the factorial sign at factorial precedence, accepted by the renderers exactly when `x` is |
| Builders.PercentAsWritten | src/main/java/com/github/rccookie/math/rendering/RenderableExpression.java:608-610 | as written, `percent(x)` makes the percent sign the operand and `x` the symbol |
| Builders.DegAsWritten | src/main/java/com/github/rccookie/math/rendering/RenderableExpression.java:612-614 | as written, `deg(x)` makes the degree sign the operand and `x` the symbol |
| Builders.PercentAsWrittenSwapped | src/main/java/com/github/rccookie/math/rendering/RenderableExpression.java:608-614 | for any operand other than the signs themselves, the as-written `percent` and `deg` differ from the postfix operation on that operand |
| Builders.Percent | src/main/java/com/github/rccookie/math/rendering/RenderableExpression.java:608-610 | `percent(x)` is `x` followed by the percent sign at percent precedence |
| Builders.Deg | src/main/java/com/github/rccookie/math/rendering/RenderableExpression.java:612-614 | `deg(x)` is `x` followed by the degree sign at degree precedence |
| Builders.Sup | src/main/java/com/github/rccookie/math/rendering/RenderableExpression.java:632-636 | a superscript on a subscripted base joins it into one super-and-subscript, and only then |
| Builders.Sub | src/main/java/com/github/rccookie/math/rendering/RenderableExpression.java:638-642 | a subscript on a superscripted base joins it into one super-and-subscript, and only then |
| Builders.ScriptsCommute | src/main/java/com/github/rccookie/math/rendering/RenderableExpression.java:632-642 | adding a superscript and a subscript to a plain base gives the same node in either order |
| Builders.ExpPowerWellFormed | src/main/java/com/github/rccookie/math/rendering/Exp.java:51-53 | `e` raised to the value is a well-formed superscript |
| Builders.Sqrt | src/main/java/com/github/rccookie/math/rendering/RenderableExpression.java:648-650 | `sqrt(x)` is a root with an empty degree, accepted by the renderers exactly when `x` is; its rendering is given by `Inline.SqrtInline` and `Latex.SqrtLatex` |
| Builders.Cbrt | src/main/java/com/github/rccookie/math/rendering/RenderableExpression.java:652-654 | `cbrt(x)` is a root of degree 3, accepted by the renderers exactly when `x` is; its inline text is given by `Inline.CbrtInline` |
| Builders.Big | src/main/java/com/github/rccookie/math/rendering/RenderableExpression.java:688-690 | `big` keeps its symbol, its optional scripts and its value, and is accepted by the renderers exactly when all its present parts are |
| Builders.Sum | src/main/java/com/github/rccookie/math/rendering/RenderableExpression.java:664-670 | `sum` is the big sigma with its bounds, accepted by the renderers exactly when the bounds and the value are |
| Builders.Prod | src/main/java/com/github/rccookie/math/rendering/RenderableExpression.java:672-678 | `prod` is the big pi with its bounds, accepted by the renderers exactly when the bounds and the value are |
| Builders.Lim | src/main/java/com/github/rccookie/math/rendering/RenderableExpression.java:680-686 | `lim(v, t, x)` is "lim" with `v -> t` underneath and nothing above, accepted by the renderers exactly when `v`, `t` and `x` are |
| Builders.IntegralOf | src/main/java/com/github/rccookie/math/rendering/RenderableExpression.java:692-698 | `integral(lo, hi, x, v)` keeps its bounds and integrates `x` followed by ` d` and the variable; it is accepted by the renderers exactly when the present bounds, `x` and `v` are |
| Tables.DrawAllSize | src/main/java/com/github/rccookie/math/rendering/Grid.java:67-73 | drawing stamps at non-negative offsets one after another never moves the origin: the canvas becomes as tall as the lowest stamp reaches, keeps its anchor, and becomes as wide as the rightmost stamp reaches once it has a row |
| Tables.DrawAllWidth | src/main/java/com/github/rccookie/math/rendering/Grid.java:67-73 | once a stamp with a row has been drawn and no earlier stamp reaches further right, the canvas is exactly as wide as the rightmost stamp reaches |
| Tables.ColumnWidth | src/main/java/com/github/rccookie/math/rendering/Grid.java:60-65 | `widths[j]` is at least the width of every cell of column `j` |
| Tables.ColumnWidthAttained | src/main/java/com/github/rccookie/math/rendering/Grid.java:60-65 | a positive column width is the width of some cell of that column |
| Tables.RowHeight | src/main/java/com/github/rccookie/math/rendering/Grid.java:60-65 | `heights[i]` is at least the height of every cell of row `i` |
| Tables.RowHeightAttained | src/main/java/com/github/rccookie/math/rendering/Grid.java:60-65 | a positive row height is the height of some cell of that row |
| Tables.Widths | src/main/java/com/github/rccookie/math/rendering/Grid.java:60-65 | one width per column, each the column's widest cell |
| Tables.Heights | src/main/java/com/github/rccookie/math/rendering/Grid.java:60-65 | one height per row, each the row's tallest cell |
| Tables.TableWidthSum | src/main/java/com/github/rccookie/math/rendering/Grid.java:69 | the last column ends after all column widths plus one gap between each two neighbours |
| Tables.CellStamp | src/main/java/com/github/rccookie/math/rendering/Grid.java:70 | a cell is drawn inside its slot, centered with the extra column or row going to the left or top, and flush with the slot when it fills it |
| Tables.CenterOffset | src/main/java/com/github/rccookie/math/rendering/Grid.java:70 | the centering offset `(w - c + 1) / 2` keeps a fitting cell inside its slot and is zero for a cell that fills it |
| Tables.RowStamps | src/main/java/com/github/rccookie/math/rendering/Grid.java:69-71 | one stamp per cell of a row, each centered in its column's slot |
| Tables.RowStampsBox | src/main/java/com/github/rccookie/math/rendering/Grid.java:69-71 | the stamps of a row with fitting cells stay inside the row's box: no lower than its height, no further right than the table width |
| Tables.RowStampsReach | src/main/java/com/github/rccookie/math/rendering/Grid.java:69-71 | a row whose last cell fills the last column reaches the right end of the table |
| Tables.RowTopNext | src/main/java/com/github/rccookie/math/rendering/Grid.java:68 | each row starts where the previous one ends |
| Tables.GridRows | src/main/java/com/github/rccookie/math/rendering/Grid.java:68-72 | row `i` of the grid is drawn at the sum of the heights above it |
| Tables.GridBox | src/main/java/com/github/rccookie/math/rendering/Grid.java:56-74 | all cells lie inside the grid, which reaches exactly the sum of the row heights and no further right than the column widths and gaps |
| Tables.GridReach | src/main/java/com/github/rccookie/math/rendering/Grid.java:56-74 | some cell reaches the right end of the last column |
| Tables.GridLayout | src/main/java/com/github/rccookie/math/rendering/Grid.java:56-74 | a grid picture is as tall as its row heights together, centered on its middle row, and as wide as its column widths with two blanks between columns, exactly so when the top-left cell has rows |
| Tables.AugmentedGap | src/main/java/com/github/rccookie/math/rendering/AugmentedGrid.java:78-81 | the gap between columns is one blank when compact, two when forced, and otherwise two exactly for a single row |
| Tables.BarSpace | src/main/java/com/github/rccookie/math/rendering/AugmentedGrid.java:82 | one blank each side of the bar, none when compact |
| Tables.BarArt | src/main/java/com/github/rccookie/math/rendering/AugmentedGrid.java:92 | the bar segment is one cell: a plain `\|` on the last row and the charset's vertical line elsewhere |
| Tables.Joined | src/main/java/com/github/rccookie/math/rendering/AugmentedGrid.java:62-68 | the pictures of both grids are joined row by row, left cells first |
| Tables.AugmentedRowBox | src/main/java/com/github/rccookie/math/rendering/AugmentedGrid.java:84-98 | the stamps of one row of an augmented grid stay inside the row, which is at least one row tall, and end no further right than the right grid's columns |
| Tables.AugmentedRowBar | src/main/java/com/github/rccookie/math/rendering/AugmentedGrid.java:91-92 | the bar of each row is drawn right after the left cells, each of which ends before the bar's column |
| Tables.AugmentedRowReach | src/main/java/com/github/rccookie/math/rendering/AugmentedGrid.java:94-98 | a row whose last right cell fills its column reaches the right end |
| Tables.AugmentedRows | src/main/java/com/github/rccookie/math/rendering/AugmentedGrid.java:84-99 | row `i` of an augmented grid is drawn at the sum of the heights above it, with the last-row bar only on the last row |
| Tables.AugmentedBox | src/main/java/com/github/rccookie/math/rendering/AugmentedGrid.java:84-99 | all stamps lie inside the picture, which ends at the top of the last row plus that row's height, at least one |
| Tables.AugmentedFits | src/main/java/com/github/rccookie/math/rendering/AugmentedGrid.java:70-74 | the cells of both grids fit the column widths and row heights measured over the joined rows |
| Tables.AugmentedWidest | src/main/java/com/github/rccookie/math/rendering/AugmentedGrid.java:70-74 | some row's last right cell is as wide as the last column |
| Tables.AugmentedRowsLayout | src/main/java/com/github/rccookie/math/rendering/AugmentedGrid.java:84-101 | the augmented picture's height, middle-row center and width follow from the row heights and column widths |
| Tables.AugmentedLayout | src/main/java/com/github/rccookie/math/rendering/AugmentedGrid.java:56-102 | an augmented grid picture is as tall as its row heights together, the last row counting at least one for the bar, centered on its middle row, and as wide as the left columns with their gaps, the bar with its spaces, and the right columns with their gaps |
| Tables.AugmentedSized | src/main/java/com/github/rccookie/math/rendering/AugmentedGrid.java:70-101 | for any gap and bar space, the frame drawn from the measured widths and heights has that height, center and width |
| Tables.GridArt | src/main/java/com/github/rccookie/math/rendering/Grid.java:56-74 | every cell drawn into its box, columns two blanks apart, anchored at the middle row (`Tables.GridLayout`) |
| Tables.AugmentedArt | src/main/java/com/github/rccookie/math/rendering/AugmentedGrid.java:56-102 | columns sized over both grids together, the bar between them, anchored at the middle row (`Tables.AugmentedLayout`, `Tables.AugmentedSized`) |
| Layout.Line | src/main/java/com/github/rccookie/math/rendering/AsciiArt.java:19-23 | a one-line text is a one-row block anchored on that row; the empty text has no rows |
| Layout.LineIsFromText | src/main/java/com/github/rccookie/math/rendering/AsciiArt.java:19-23 | the one-line block is what the general text constructor builds from a text without line breaks |
| Layout.FractionStack | src/main/java/com/github/rccookie/math/rendering/Fraction.java:43-46 | a stacked fraction is the numerator rows, then one bar row of dashes on which the fraction is anchored, then the denominator rows, each operand centered over the bar |
| Layout.FractionFits | src/main/java/com/github/rccookie/math/rendering/Fraction.java:43-45 | the bar is one row of dashes that both operands fit under and over |
| Layout.CenteredFits | src/main/java/com/github/rccookie/math/rendering/Fraction.java:44-45 | an operand centered on the bar stays within the bar |
| Layout.StackBelow | src/main/java/com/github/rccookie/math/rendering/AsciiArt.java:138-176 | drawing a narrower block right below another adds its rows underneath and leaves the upper rows and the anchor unchanged |
| Layout.StackAbove | src/main/java/com/github/rccookie/math/rendering/AsciiArt.java:138-176 | drawing a narrower block right above another adds its rows on top and moves the anchor down by as many rows |
| Layout.SandwichLayout | src/main/java/com/github/rccookie/math/rendering/Fraction.java:46 | drawing one block under a middle block and one over it gives exactly the three bands, top to bottom |
| Layout.BarHeight | src/main/java/com/github/rccookie/math/rendering/Root.java:78-80 | the left stroke of a root sign is at least one row and, for two or more rows, shorter than the sign |
| Layout.RootShapeLayout | src/main/java/com/github/rccookie/math/rendering/Root.java:68-76 | a root sign of height `h` has the right diagonal on the anti-diagonal and the left diagonal in its lowest `barHeight` rows, blanks elsewhere; a one-row sign is `\` and the right diagonal |
| Layout.RootSideLayout | src/main/java/com/github/rccookie/math/rendering/Root.java:56-59 | the sign beside the radicand: as tall as the radicand, centered on its middle row, the sign's cells then the radicand's, one column wider from three rows up |
| Layout.RootBodyLayout | src/main/java/com/github/rccookie/math/rendering/Root.java:56-60 | the root picture gains a top row with a line of underscores exactly over the radicand, and everything else moves down by one row |
| Layout.BarOver | src/main/java/com/github/rccookie/math/rendering/Root.java:60 | drawing a bar of underscores on the row above a block adds one row holding the bar over exactly its columns |
| Layout.BesideAt | src/main/java/com/github/rccookie/math/rendering/AsciiArt.java:138-176 | drawing a block at the right edge at a vertical offset puts both side by side, each shifted down by the part of the offset that concerns it |
| Layout.SubscriptLayout | src/main/java/com/github/rccookie/math/rendering/Subscript.java:50-55 | a subscript beside its base starts at least one row down and reaches at least half its height below the base, keeps the base's anchor, and leaves both pictures intact side by side |
| Layout.SuperscriptLayout | src/main/java/com/github/rccookie/math/rendering/Superscript.java:50-55 | a superscript beside its base ends at least half its height above the base's top (one row above a nested superscript), the base moves down by as much with its anchor, and both pictures stay intact side by side |
| Layout.MiddleArt | src/main/java/com/github/rccookie/math/rendering/Middle.java:37-48 | a vertical bar between two pictures anchors all three on one row, reaches as high as the higher and as deep as the deeper side, and is as wide as both sides, the bar and its spaces |
| Layout.MiddleBarColumn | src/main/java/com/github/rccookie/math/rendering/Middle.java:46 | the bar column holds the bar glyph on every row except the last, which holds a plain `\|` |
| Layout.MiddleBarLayout | src/main/java/com/github/rccookie/math/rendering/Middle.java:44-46 | the bar picture is as tall as the taller side above and below the common anchor, anchored on that row |
| Layout.MiddleLeft | src/main/java/com/github/rccookie/math/rendering/Middle.java:47 | the left side keeps its cells, moved down to the common anchor row, and the bar follows it |
| Layout.MiddleRight | src/main/java/com/github/rccookie/math/rendering/Middle.java:47 | the right side keeps its cells, moved down to the common anchor row, after the bar |
| Layout.BigSymbolHead | src/main/java/com/github/rccookie/math/rendering/BigSymbol.java:56-65 | the symbol with its scripts is the superscript rows, the symbol rows, then the subscript rows, anchored on the symbol's anchor, each script centered on the symbol |
| Layout.BoundsAround | src/main/java/com/github/rccookie/math/rendering/BigSymbol.java:58-65 | bounds drawn right under and right over a symbol they fit form exactly three bands, anchored on the symbol |
| Layout.IntegralSymbolLayout | src/main/java/com/github/rccookie/math/rendering/Integral.java:62-66 | an integral sign of two or more rows is a top piece, middle pieces and a bottom piece in the first column with a blank column after them, anchored on its middle row, whatever its one-row glyph |
| Layout.IntegralHead | src/main/java/com/github/rccookie/math/rendering/Integral.java:50-58 | the bounds of an integral add their rows above and below the sign, whose anchor moves down by the upper bound's rows |
| Layout.IntegralCenter | src/main/java/com/github/rccookie/math/rendering/Integral.java:59 | the integrand joins the sign on a common anchor row |
| Layout.ChooseSidesDisplayable | src/main/java/com/github/rccookie/math/rendering/Brackets.java:43-50 | the Unicode left bracket is kept when displayable, otherwise both sides fall back to ASCII; the right side falls back alone when only it is not displayable; a displayable fallback gives a displayable side |
| Layout.BottomAlignedLayout | src/main/java/com/github/rccookie/math/rendering/Brackets.java:51 | the left shape, the content and the right shape aligned at their last rows: as tall as the tallest of the three, as wide as all three, anchored on the left shape's anchor, and the content's columns show the content moved down so that the last rows coincide, blank above it |
| Layout.BracketsHeight | src/main/java/com/github/rccookie/math/rendering/Brackets.java:41-52 | brackets around content of two or more rows are as tall as the content and anchored on its middle row, except ASCII square and ceiling brackets, which add a row for the top bar; one-row content gives one-row brackets |
| Layout.BracketsOneRow | src/main/java/com/github/rccookie/math/rendering/Brackets.java:41-52 | round, square and curly brackets around one row are the row between the ASCII bracket symbols |
| Layout.Padded | src/main/java/com/github/rccookie/math/rendering/List.java:48-50 | padding the delimiter adds one blank column on its anchor row and keeps its cells |
| Layout.JoinLayout | src/main/java/com/github/rccookie/math/rendering/List.java:52-55 | a list picture anchors all parts on one row, reaches as high as the highest and as deep as the deepest part, and is as wide as all elements and delimiters |
| Layout.JoinStep | src/main/java/com/github/rccookie/math/rendering/List.java:53-54 | one step of the list loop appends a delimiter and an element on the common anchor row |
| Layout.ConcatLayout | src/main/java/com/github/rccookie/math/rendering/Concatenation.java:40-45 | a concatenation picture anchors both parts on one row, with one blank column between them when spaced, and keeps each part's cells in place |
| Layout.RootArt | src/main/java/com/github/rccookie/math/rendering/Root.java:48-66 | the radical of `Layout.RootBodyLayout` with the degree drawn over its left stroke; where the degree goes is stated by `Layout.RootArtLayout` |
| Layout.RootArtLayout | src/main/java/com/github/rccookie/math/rendering/Root.java:61-64 | without a radicand the degree is dropped and the radical alone comes back; otherwise the radical moves right by as much as the degree is wider than `2·barHeight−1` and down by as much as the degree reaches above the top, the degree starts in column 0 with its last row on the row above the left stroke, and every cell of the radical right of the degree or in the left stroke's rows is kept |
| Layout.RootMeasures | src/main/java/com/github/rccookie/math/rendering/Root.java:61-63 | the left stroke is lower than the radical's top row, and twice its height fits in the radical's width, so the degree's column `2·barHeight−1` lies inside the radical |
| Layout.DegreeOver | src/main/java/com/github/rccookie/math/rendering/Root.java:62-64 | drawing a block at x = min(0, 2·bh−1−width) and with its last row bh rows above the bottom of another block gives the height, width, center and cells stated for the root |
| Layout.SubscriptArt | src/main/java/com/github/rccookie/math/rendering/Subscript.java:50-55 | as written, including the bound that uses the base's width: the index drawn against the base's lower right corner (`Layout.SubscriptLayout`) |
| Layout.SuperscriptArt | src/main/java/com/github/rccookie/math/rendering/Superscript.java:50-55 | the exponent drawn against the base's upper right corner, at least half of it above the base (`Layout.SuperscriptLayout`) |
| Layout.BigSymbolArt | src/main/java/com/github/rccookie/math/rendering/BigSymbol.java:54-67 | the head (symbol with centered bounds), one blank column, then the operand on the head's center row (`Layout.BigSymbolHead`, `Layout.BoundsAround`) |
| Layout.IntegralSymbol | src/main/java/com/github/rccookie/math/rendering/Integral.java:62-66 | `createSymbol`: at least the minimum height; one row shows the one-line glyph, more rows a top, middle and bottom piece each followed by a blank (`Layout.IntegralSymbolLayout`) |
| Layout.IntegralArt | src/main/java/com/github/rccookie/math/rendering/Integral.java:43-60 | the sign with the lower bound below and the upper bound above, both centered (rounded left), then the integrand on the center row (`Layout.IntegralCenter`) |
| Layout.BracketsArt | src/main/java/com/github/rccookie/math/rendering/Brackets.java:41-52 | the shapes of the kind around the contents, aligned at their last rows with the corrected `Canvas.AppendBottom` (Findings row 1) (`Layout.BottomAlignedLayout`, `Layout.BracketsHeight`) |
| Layout.ListArt | src/main/java/com/github/rccookie/math/rendering/List.java:42-56 | two or more element pictures joined on their common center by the delimiter, padded with blanks where needed (`Layout.JoinLayout`) |
| Layout.ConcatArt | src/main/java/com/github/rccookie/math/rendering/Concatenation.java:40-45 | both operand pictures on a common center with an optional blank column (`Layout.ConcatLayout`) |
| Inline.Inline | src/main/java/com/github/rccookie/math/rendering/RenderableExpression.java:38-42 | `render(INLINE, o)`: the wrapper for every class except `Exp`, `Integral` and `MatrixBrackets`; stated by `Inline.WrapRule` and `Inline.OverridesInline` |
| Inline.TightInline | src/main/java/com/github/rccookie/math/rendering/NumberLiteral.java:27-29 | the inline text of a number or text node is its text with every line feed replaced by a blank, a special literal's is its inline form; the other tight classes hand over to their own functions |
| Inline.IntegralInline | src/main/java/com/github/rccookie/math/rendering/Integral.java:38-40 | the inline text of the big symbol with the integral sign (`Inline.IntegralAsBigSymbol`) |
| Inline.ExpInline | src/main/java/com/github/rccookie/math/rendering/Exp.java:23-25 | the inline text of the call `exp(v)` (`Inline.ExpAsCall`) |
| Inline.GridInline | src/main/java/com/github/rccookie/math/rendering/Grid.java:40-53 | cells at `MIN`, two blanks between cells, a comma (and a blank unless compact) between rows; a one-by-one grid is its cell (`Inline.UnitGridInline`) |
| Inline.FractionInline | src/main/java/com/github/rccookie/math/rendering/Fraction.java:31-33 | numerator at `DIVIDE`, a slash, denominator one level tighter |
| Inline.SubscriptInline | src/main/java/com/github/rccookie/math/rendering/Subscript.java:30-37 | the displayable subscript form of the index after a base that is not already a subscript, else `_` and the index at `MAX` |
| Inline.SuperscriptInline | src/main/java/com/github/rccookie/math/rendering/Superscript.java:30-37 | the displayable superscript form of the exponent after a base (just above power precedence) that is not already a superscript, else `^` and the exponent at `MAX`; a `SuperSubscript` renders this way on its subscripted base (`Inline.SuperSubscriptInline`) |
| Inline.ConcatInline | src/main/java/com/github/rccookie/math/rendering/Concatenation.java:34-37 | both operands at the concatenation's precedence, a blank between them exactly where `Render.RenderSpace` asks |
| Inline.MiddleInline | src/main/java/com/github/rccookie/math/rendering/Middle.java:30-34 | both sides just above `MID` around `\|`, with blanks unless compact |
| Inline.BracketsInline | src/main/java/com/github/rccookie/math/rendering/Brackets.java:31-38 | contents at `MIN` as `ceil(…)` and `floor(…)` calls, between the ASCII symbols for every other kind |
| Inline.RootInline | src/main/java/com/github/rccookie/math/rendering/Root.java:31-45 | a square root as `√` or a `sqrt` call (`Inline.SqrtInline`); another degree raised before `√` when displayable, else `root(d, v)` |
| Inline.ListInline | src/main/java/com/github/rccookie/math/rendering/List.java:82-93 | nothing for no elements, one element as itself (`Inline.SingletonListInline`), more joined by the delimiter's text at one level above its precedence |
| Inline.BigSymbolInline | src/main/java/com/github/rccookie/math/rendering/BigSymbol.java:39-51 | the symbol with the bounds as sub- and superscripts, then the operand, all at `ITERATION` |
| Inline.AugmentedInline | src/main/java/com/github/rccookie/math/rendering/AugmentedGrid.java:32-53 | corrected (Findings row 2): each row's left cells, the bar, then the right grid's cells (`Inline.AugmentedInlineUnit`) |
| Inline.AugmentedInlineAsWritten | src/main/java/com/github/rccookie/math/rendering/AugmentedGrid.java:32-53 | as written: the cells after the bar are read from the left grid again (`Inline.AugmentedInlineIgnoresRight`) |
| Inline.WrapRule | src/main/java/com/github/rccookie/math/rendering/RenderableExpression.java:38-42 | when automatic parentheses are on and the outside operator binds tighter, the inline text is the node in round brackets, rendered inside at the lowest precedence, exactly as `par(node)` renders; otherwise it is the node's own text |
| Inline.OverridesInline | src/main/java/com/github/rccookie/math/rendering/MatrixBrackets.java:46-48 | an exponential and an integral are never wrapped inline, and a matrix bracket renders as a bracket node of the configured kind |
| Inline.BodyIgnoresPrecedence | src/main/java/com/github/rccookie/math/rendering/RenderableExpression.java:38-42 | every node class of the core except lists, integrals and exponentials sets its operands' precedence itself, so its own inline text does not depend on the outside precedence: the outside precedence acts only through the wrapper |
| Inline.LooseIgnoresPrecedence | src/main/java/com/github/rccookie/math/rendering/Concatenation.java:34-37 | concatenations, vertical bars and big symbols render their operands at their own precedence, whatever the outside precedence |
| Inline.RootIgnoresPrecedence | src/main/java/com/github/rccookie/math/rendering/Root.java:31-45 | a root renders its degree and radicand at fixed precedences, whatever the outside precedence |
| Inline.TableIgnoresPrecedence | src/main/java/com/github/rccookie/math/rendering/Grid.java:40-53 | grids, augmented grids and fractions render their cells at fixed precedences, whatever the outside precedence |
| Inline.ScriptIgnoresPrecedence | src/main/java/com/github/rccookie/math/rendering/Superscript.java:30-37 | scripts render base and script at fixed precedences, whatever the outside precedence |
| Inline.BracketsIgnorePrecedence | src/main/java/com/github/rccookie/math/rendering/Brackets.java:31-38 | brackets render their content at the lowest precedence, whatever the outside precedence |
| Inline.SingletonListInline | src/main/java/com/github/rccookie/math/rendering/List.java:82-93 | a one-element list renders as its element |
| Inline.UnitGridInline | src/main/java/com/github/rccookie/math/rendering/Grid.java:40-53 | a one-by-one grid renders inline as its only cell |
| Inline.SqrtInline | src/main/java/com/github/rccookie/math/rendering/Root.java:31-39 | a square root renders like a root of degree 2, and as `√` before the radicand at the tightest precedence when the charset shows `√` |
| Inline.CbrtInline | src/main/java/com/github/rccookie/math/rendering/Root.java:31-45 | a cube root is written as `³√` before the radicand at the highest precedence when the charset shows `√³`, and as the call `root(3, x)` otherwise |
| Inline.SuperSubscriptInline | src/main/java/com/github/rccookie/math/rendering/SuperSubscript.java:32-34 | a super-and-subscript renders as the superscript of the subscript |
| Inline.IntegralAsBigSymbol | src/main/java/com/github/rccookie/math/rendering/Integral.java:38-40 | an integral renders inline as the big symbol `∫` with its bounds as scripts |
| Inline.ExpAsCall | src/main/java/com/github/rccookie/math/rendering/Exp.java:23-25 | an exponential renders inline as the call `exp(value)`, a well-formed node |
| Inline.AugmentedInlineIgnoresRight | src/main/java/com/github/rccookie/math/rendering/AugmentedGrid.java:47-50 | as written, the inline text of an augmented grid does not depend on the right grid at all |
| Inline.AugmentedInlineCounterexample | src/main/java/com/github/rccookie/math/rendering/AugmentedGrid.java:47-50 | as written, `1` beside `2` renders as `1 \| 1`, where the corrected text is `1 \| 2` |
| Inline.AugmentedInlineUnit | src/main/java/com/github/rccookie/math/rendering/AugmentedGrid.java:32-53 | a one-cell augmented grid renders as its left cell, the bar, and its right cell, both at the precedence of the bar |
| Latex.Latex | src/main/java/com/github/rccookie/math/rendering/RenderableExpression.java:38-42 | `render(LATEX, o)`: the wrapper, with `\left(` and `\right)`, for every class except `Exp`, `Integral` and `MatrixBrackets`; stated by `Latex.WrapRuleLatex` and `Latex.OverridesLatex` |
| Latex.TightLatex | src/main/java/com/github/rccookie/math/rendering/Text.java:41-43 | a text node in `\text{…}`, a number as its text (`Latex.NumberLatexIsInline`), a special literal as its LaTeX form, a grid as a `matrix` environment (`Latex.GridLatexRows`); the other tight classes hand over to their own functions |
| Latex.BracketsLatex | src/main/java/com/github/rccookie/math/rendering/Brackets.java:55-57 | contents at `MIN` between the stretching `\left` and `\right` delimiters of the kind |
| Latex.FractionLatex | src/main/java/com/github/rccookie/math/rendering/Fraction.java:56-59 | `\frac` with both operands at `MIN` |
| Latex.RootLatex | src/main/java/com/github/rccookie/math/rendering/Root.java:83-86 | `\sqrt` with the degree as optional argument, both at `MIN` (`Latex.SqrtLatex`) |
| Latex.SubscriptLatex | src/main/java/com/github/rccookie/math/rendering/Subscript.java:58-60 | the braced base at `MAX`, `_`, the braced index at `MIN` |
| Latex.SuperscriptLatex | src/main/java/com/github/rccookie/math/rendering/Superscript.java:58-60 | the braced base just above power precedence, `^`, the braced exponent at `MIN` |
| Latex.SuperSubscriptLatex | src/main/java/com/github/rccookie/math/rendering/SuperSubscript.java:57-59 | the braced base at `MAX`, then exponent and index braced at `MIN` |
| Latex.ListLatex | src/main/java/com/github/rccookie/math/rendering/List.java:59-61 | as the inline text, with LaTeX parts (`Latex.SingletonListLatex`) |
| Latex.ConcatLatex | src/main/java/com/github/rccookie/math/rendering/Concatenation.java:48-53 | both operands at the concatenation's precedence, ` \; ` between them where `Render.RenderSpace` asks, a plain blank otherwise |
| Latex.MiddleLatex | src/main/java/com/github/rccookie/math/rendering/Middle.java:51-55 | both sides just above `MID` inside `\left.` … `\right.` around `\middle\|`, with `\;` unless compact |
| Latex.BigSymbolLatex | src/main/java/com/github/rccookie/math/rendering/BigSymbol.java:70-76 | the symbol at `ITERATION`, the bounds as braced sub- and superscripts at `MIN`, then the braced operand |
| Latex.IntegralLatex | src/main/java/com/github/rccookie/math/rendering/Integral.java:69-71 | the LaTeX of the big symbol with the integral sign (`Latex.IntegralAsBigSymbolLatex`) |
| Latex.ExpLatex | src/main/java/com/github/rccookie/math/rendering/Exp.java:33-35 | the LaTeX of the power `e^v` (`Latex.ExpAsPowerLatex`) |
| Latex.AugmentedLatex | src/main/java/com/github/rccookie/math/rendering/AugmentedGrid.java:105-118 | a `matrix` environment whose rows are the left cells each followed by `&`, `\bigm\|`, then `&` before each right cell (`Latex.AugmentedLatexUnit`) |
| Latex.WrapRuleLatex | src/main/java/com/github/rccookie/math/rendering/RenderableExpression.java:38-42 | when the wrapper applies, the LaTeX is the node between `\left(` and `\right)`, rendered inside at the lowest precedence, exactly as `par(node)` renders; otherwise it is the node's own LaTeX |
| Latex.OverridesLatex | src/main/java/com/github/rccookie/math/rendering/Integral.java:74-78 | an exponential and an integral are never wrapped in LaTeX, and a matrix bracket renders as a bracket node of the configured kind |
| Latex.LatexBodyIgnoresPrecedence | src/main/java/com/github/rccookie/math/rendering/RenderableExpression.java:38-42 | every node class of the core except lists, integrals and exponentials produces LaTeX that does not depend on the outside precedence |
| Latex.LooseLatexIgnoresPrecedence | src/main/java/com/github/rccookie/math/rendering/Concatenation.java:48-53 | concatenations, vertical bars and big symbols reset the outside precedence to their own before rendering their parts, so they render the same LaTeX under options that differ only in it |
| Latex.TightLatexIgnoresPrecedence | src/main/java/com/github/rccookie/math/rendering/Fraction.java:56-59 | every other node class of the core (fractions, roots, grids, augmented grids, scripts, brackets and literals) renders the same LaTeX under options that differ only in the outside precedence |
| Latex.TableLatexIgnoresPrecedence | src/main/java/com/github/rccookie/math/rendering/Grid.java:77-89 | fractions, roots, grids, augmented grids and literals render the same LaTeX under options that differ only in the outside precedence |
| Latex.ScriptLatexIgnoresPrecedence | src/main/java/com/github/rccookie/math/rendering/SuperSubscript.java:57-59 | subscripts, superscripts, super-and-subscripts, brackets and matrix brackets render the same LaTeX under options that differ only in the outside precedence |
| Latex.SingletonListLatex | src/main/java/com/github/rccookie/math/rendering/List.java:82-93 | a one-element list renders as its element |
| Latex.IntegralAsBigSymbolLatex | src/main/java/com/github/rccookie/math/rendering/Integral.java:69-71 | an integral renders in LaTeX as the big symbol `∫` with its bounds as scripts |
| Latex.ExpAsPowerLatex | src/main/java/com/github/rccookie/math/rendering/Exp.java:33-35 | an exponential renders in LaTeX as `e` raised to the value |
| Latex.SqrtLatex | src/main/java/com/github/rccookie/math/rendering/Root.java:83-86 | a square root renders as `\sqrt[]{...}` with an empty degree and the radicand at the lowest precedence |
| Latex.AugmentedLatexUnit | src/main/java/com/github/rccookie/math/rendering/AugmentedGrid.java:105-118 | a one-cell augmented grid renders as a `matrix` environment holding the left cell, the `\bigm\|` separator and the right cell, both cells at the precedence of a vertical bar |
| Latex.GridLatexRows | src/main/java/com/github/rccookie/math/rendering/Grid.java:77-89 | each row of a grid renders as its cells separated by `&` |
| Latex.NumberLatexIsInline | src/main/java/com/github/rccookie/math/rendering/NumberLiteral.java:27-39 | a number literal's LaTeX is its text, which is also its inline text exactly when the text has no line feed |
| Pictures.Picture | src/main/java/com/github/rccookie/math/rendering/RenderableExpression.java:38-42 | `render(ASCII_ART, o)`: the wrapper applies to every class except `Exp` and `MatrixBrackets`, and also to `Integral`, whose override only bypasses it inline and in LaTeX; stated by `Pictures.WrapRulePicture` and `Pictures.OverridesPicture` |
| Pictures.LiteralPicture | src/main/java/com/github/rccookie/math/rendering/SpecialLiteral.java:101-103 | a special literal shows its Unicode picture when the charset can, its ASCII picture otherwise; a number's or text's picture is its text split into rows (`Pictures.NumberPicture`) |
| Pictures.BracketsPicture | src/main/java/com/github/rccookie/math/rendering/Brackets.java:41-52 | corrected (Findings row 1): the contents at `MIN` between the stretched shapes, aligned at their last rows with the corrected `Canvas.AppendBottom`, so the left shape's center row is kept; shape in `Pictures.BracketsPictureIsArt` and `Layout.BracketsHeight` |
| Pictures.GridPicture | src/main/java/com/github/rccookie/math/rendering/Grid.java:56-74 | the cells at `MIN`, laid out by `Tables.GridArt` (layout in `Tables.GridLayout`) |
| Pictures.AugmentedPicture | src/main/java/com/github/rccookie/math/rendering/AugmentedGrid.java:56-102 | the cells of both grids at `MID`, the bar drawn with `│` when the charset has it, `\|` otherwise, laid out by `Tables.AugmentedArt` (layout in `Tables.AugmentedLayout`) |
| Pictures.ShouldRenderInline | src/main/java/com/github/rccookie/math/rendering/Fraction.java:49-53 | corrected (Findings row 6): both operands one row high, narrower than the limit, each one number or one variable, where an empty text is neither; agrees with the source wherever the source does not throw (`Pictures.ShouldRenderInlineAgrees`) |
| Pictures.FractionPicture | src/main/java/com/github/rccookie/math/rendering/Fraction.java:36-47 | corrected (Findings row 6): small simple operands around a slash on one row, otherwise stacked over a bar; shape in `Pictures.FractionPictureShape` |
| Pictures.RootPicture | src/main/java/com/github/rccookie/math/rendering/Root.java:48-66 | degree and radicand at `MIN`, the radical drawn with `╲`, `╱`, `│` when the charset has them and `\\`, `/`, `\|` otherwise, laid out by `Layout.RootArt` |
| Pictures.SubscriptPicture | src/main/java/com/github/rccookie/math/rendering/Subscript.java:40-48 | corrected (Findings row 1): base at `MAX`, index at `MIN`; a displayable one-row subscript form is appended at the base's last row with the corrected `Canvas.AppendBottom`, keeping the base's center; otherwise `Layout.SubscriptArt` (placement in `Layout.SubscriptLayout`) |
| Pictures.SuperscriptPicture | src/main/java/com/github/rccookie/math/rendering/Superscript.java:40-48 | corrected (Findings row 7): the base at the precedence just above a power and the exponent at `MIN`, as the inline and LaTeX forms have them, so `(-1)²` keeps its brackets (`Pictures.NegativePower`, `Pictures.SuperscriptIgnoresPrecedence`) |
| Pictures.SuperscriptOn | src/main/java/com/github/rccookie/math/rendering/Superscript.java:42-47 | a displayable one-row superscript form is appended at the base's first row unless the base already ends in superscript characters; otherwise `Layout.SuperscriptArt` (placement in `Layout.SuperscriptLayout`) |
| Pictures.SuperscriptPictureAsWritten | src/main/java/com/github/rccookie/math/rendering/Superscript.java:40-48 | as written: base and exponent at the options the superscript itself was given, so `-1` squared is drawn `-1²` (`Pictures.NegativePowerAsWritten`) |
| Pictures.SuperSubscriptPicture | src/main/java/com/github/rccookie/math/rendering/SuperSubscript.java:37-54 | as written, including the test of the index picture for subscript characters; the base at `MAX`, exponent and index at `MIN`; the appended index uses the corrected `Canvas.AppendBottom` (Findings row 1) |
| Pictures.ListPicture | src/main/java/com/github/rccookie/math/rendering/List.java:42-56 | no elements give an empty picture, one element its own picture (`Pictures.SingletonListPicture`), more are joined by the delimiter one level above its precedence (`Layout.JoinLayout`) |
| Pictures.ConcatPicture | src/main/java/com/github/rccookie/math/rendering/Concatenation.java:40-45 | both operands at the concatenation's precedence, laid out by `Layout.ConcatArt` with a blank column where `Render.RenderSpace` asks (`Layout.ConcatLayout`) |
| Pictures.MiddlePicture | src/main/java/com/github/rccookie/math/rendering/Middle.java:37-48 | corrected (Findings row 8): both sides just above `MID`, the bar of `Pictures.MiddleGlyph`, laid out by `Layout.MiddleArt` |
| Pictures.BigSymbolPicture | src/main/java/com/github/rccookie/math/rendering/BigSymbol.java:54-67 | symbol and operand at `ITERATION`, bounds at `MIN`, laid out by `Layout.BigSymbolArt` (`Layout.BigSymbolHead`, `Layout.BoundsAround`) |
| Pictures.IntegralSign | src/main/java/com/github/rccookie/math/rendering/Integral.java:46-48 | the Unicode pieces when the charset shows all four, else the ASCII sign of at least three rows (`Pictures.IntegralSignShape`) |
| Pictures.IntegralPicture | src/main/java/com/github/rccookie/math/rendering/Integral.java:43-60 | as written: integrand and bounds rendered by their classes at the surrounding options, without the wrapper; the sign as high as the integrand (`Layout.IntegralHead`, `Layout.IntegralCenter`) |
| Pictures.ExpPicture | src/main/java/com/github/rccookie/math/rendering/Exp.java:28-30 | the picture of the power `e^v` (`Pictures.ExpAsPowerPicture`) |
| Pictures.WrapRulePicture | src/main/java/com/github/rccookie/math/rendering/RenderableExpression.java:38-42 | when the wrapper applies, the picture is the node's picture at the lowest precedence between round brackets, exactly as `par(node)` draws it; otherwise it is the node's own picture |
| Pictures.OverridesPicture | src/main/java/com/github/rccookie/math/rendering/MatrixBrackets.java:31-33 | an exponential is never wrapped in a picture, and a matrix bracket draws as a bracket node of the configured kind |
| Pictures.PictureBodyIgnoresPrecedence | src/main/java/com/github/rccookie/math/rendering/RenderableExpression.java:38-42 | every node class of the core except lists, integrals and exponentials draws a picture that does not depend on the outside precedence |
| Pictures.ConcatenationKeepsPicture | src/main/java/com/github/rccookie/math/rendering/Concatenation.java:40-45 | a concatenation draws the same picture under options that differ only in the outside precedence |
| Pictures.MiddleKeepsPicture | src/main/java/com/github/rccookie/math/rendering/Middle.java:37-48 | a vertical bar draws the same picture under options that differ only in the outside precedence |
| Pictures.BigSymbolKeepsPicture | src/main/java/com/github/rccookie/math/rendering/BigSymbol.java:54-67 | a big symbol draws the same picture under options that differ only in the outside precedence |
| Pictures.GridKeepsPicture | src/main/java/com/github/rccookie/math/rendering/Grid.java:56-74 | a grid draws the same picture under options that differ only in the outside precedence |
| Pictures.AugmentedGridKeepsPicture | src/main/java/com/github/rccookie/math/rendering/AugmentedGrid.java:56-102 | an augmented grid draws the same picture under options that differ only in the outside precedence |
| Pictures.FractionKeepsPicture | src/main/java/com/github/rccookie/math/rendering/Fraction.java:36-47 | a fraction draws the same picture under options that differ only in the outside precedence |
| Pictures.RootKeepsPicture | src/main/java/com/github/rccookie/math/rendering/Root.java:48-66 | a root draws the same picture under options that differ only in the outside precedence |
| Pictures.SubscriptKeepsPicture | src/main/java/com/github/rccookie/math/rendering/Subscript.java:40-48 | a subscript draws the same picture under options that differ only in the outside precedence |
| Pictures.SuperscriptKeepsPicture | src/main/java/com/github/rccookie/math/rendering/Superscript.java:40-48 | the corrected superscript draws the same picture under options that differ only in the outside precedence |
| Pictures.SuperSubscriptKeepsPicture | src/main/java/com/github/rccookie/math/rendering/SuperSubscript.java:37-54 | a super-and-subscript draws the same picture under options that differ only in the outside precedence |
| Pictures.BracketsKeepsPicture | src/main/java/com/github/rccookie/math/rendering/Brackets.java:41-52 | brackets draw the same picture under options that differ only in the outside precedence |
| Pictures.MatrixBracketsKeepsPicture | src/main/java/com/github/rccookie/math/rendering/MatrixBrackets.java:31-33 | a matrix bracket draws the same picture under options that differ only in the outside precedence |
| Pictures.LiteralKeepsPicture | src/main/java/com/github/rccookie/math/rendering/Text.java:36-38 | number literals, texts and special literals draw the same picture under options that differ only in the outside precedence |
| Pictures.SingletonListPicture | src/main/java/com/github/rccookie/math/rendering/List.java:42-44 | a one-element list draws as its element |
| Pictures.ExpAsPowerPicture | src/main/java/com/github/rccookie/math/rendering/Exp.java:28-30 | an exponential draws as `e` raised to the value |
| Pictures.BracketsPictureIsArt | src/main/java/com/github/rccookie/math/rendering/Brackets.java:41-52 | brackets draw their content at the lowest precedence between bracket shapes of the content's height |
| Pictures.ScriptForm | src/main/java/com/github/rccookie/math/rendering/Superscript.java:41-44 | a one-row script has a compact form exactly when it converts to script characters that the charset shows, and that form has no line breaks |
| Pictures.IntegralSignShape | src/main/java/com/github/rccookie/math/rendering/Integral.java:46-48 | with the Unicode pieces available the sign is `∫` on one row and otherwise a `⌠`, `⎮`..., `⌡` column as tall as the integrand; without them it is a `/`, `\|`..., `/` column at least three rows tall; a blank column follows a multi-row sign |
| Pictures.FractionPictureShape | src/main/java/com/github/rccookie/math/rendering/Fraction.java:36-47 | a small fraction of one-row operands is drawn inline as `a/b`; otherwise it is the numerator, a row of dashes on which it is anchored, and the denominator |
| Pictures.ShouldRenderInlineAsWritten | src/main/java/com/github/rccookie/math/rendering/Fraction.java:49-53 | as written, the inline test fails only when a one-row operand prints as the empty text, where the token test reads a character that does not exist |
| Pictures.ShouldRenderInlineAgrees | src/main/java/com/github/rccookie/math/rendering/Fraction.java:49-53 | where the as-written test returns, it agrees with the corrected one; it fails exactly when both operands are one row and under the size limit and either the numerator prints empty, or the numerator is a single number or variable and the denominator prints empty |
| Pictures.NumberPicture | src/main/java/com/github/rccookie/math/rendering/NumberLiteral.java:32-34 | an unwrapped number literal draws as the block of its text |
| Pictures.FractionOfEmptyRow | src/main/java/com/github/rccookie/math/rendering/Fraction.java:49-53 | with the default options, a fraction whose numerator is the literal line feed makes the as-written test fail, while the corrected test says to stack it |
| Pictures.EmptyRowOverOne | src/main/java/com/github/rccookie/math/rendering/Fraction.java:49-53 | an empty row over `1` makes the as-written test fail for any size limit above one, while the corrected test says to stack it |
| Pictures.SuperscriptIgnoresPrecedence | src/main/java/com/github/rccookie/math/rendering/Superscript.java:40-46 | the corrected superscript renders its base at a fixed precedence just above that of a power, so its picture does not depend on the surrounding precedence |
| Pictures.NegativePowerAsWritten | src/main/java/com/github/rccookie/math/rendering/Superscript.java:40-44 | as written, a negative number with an exponent that has a script form, at the lowest surrounding precedence, draws as the bare number followed by the script, which reads as the negation of a power |
| Pictures.NegativePower | src/main/java/com/github/rccookie/math/rendering/Superscript.java:40-44 | corrected, the same power draws the base in round brackets whenever automatic parentheses are on |
| Pictures.SuperscriptOfNegative | src/main/java/com/github/rccookie/math/rendering/Superscript.java:40-44 | `-1` squared with the default options draws as `-1²` as written and as `(-1)²` corrected |
| Pictures.MiddleGlyph | src/main/java/com/github/rccookie/math/rendering/Middle.java:41 | the vertical bar uses the box-drawing line exactly when the charset shows it, and a plain `\|` otherwise |
| Pictures.MiddleGlyphAsWritten | src/main/java/com/github/rccookie/math/rendering/Middle.java:41 | as written, the bar is a plain `\|` exactly when the charset shows one, and the box-drawing line otherwise |
| Pictures.MiddleGlyphAsWrittenDiffers | src/main/java/com/github/rccookie/math/rendering/Middle.java:41 | with a charset that shows both glyphs, such as Unicode, the as-written bar is the plain `\|` where the box-drawing line is intended |

## Left out

- MathML output: every `renderMathMLNode`, the MathML render modes and the XML helpers of `Utils`. They build nodes of an XML library that is not part of this model.
- The older `Expression` classes (`Expression`, `SpecialValue`, `SimpleInfixOperation`, `SimplePrefixOperation`, `SimplePostfixOperation`, `Number`, `Literal`) and `Transposition`. They belong to an earlier interface and do not match the constructors `RenderableExpression` calls. The builders still create their nodes as data, and the `Foreign` record renders them.
- Number formatting: the render methods of `Rational` return nothing yet, so only its normalising constructors are modelled. `num(double)` and `Rational(double)` go through floating point and are left out.
- `CharacterSet` internals: the encoder probing and the per-character cache. A character set is modelled as a predicate on characters plus the fallback rule; the ASCII set is taken to be the characters below 128.
- `AsciiArt.append` with an `OperatorAlignment`: the alignment type is not part of this model.
- Thread-safety of the character-set cache: concurrency is not modelled.
- Characters outside the Basic Multilingual Plane: a Dafny `char` is one Unicode scalar value, so such a character counts 1 where Java's `String.length` counts 2. Widths are exact only for text inside the Basic Multilingual Plane, which every glyph of the library is; other characters are left out.
- Canvas.SetCenter: the range check of `setCenter` throws in the source; here it is a precondition. The upper bound is taken as inclusive so that the empty block keeps center 0.
- Utils.OneNumber: `charAt(0)` throws on the empty string in the source; here non-emptiness is a precondition. Finding 6 shows the one caller that can pass an empty string.
- Utils.OneVarFrom: the empty string is excluded by a precondition, as for `Utils.OneNumber`.
- Utils.OneVar: the empty string is excluded by a precondition, as for `Utils.OneNumber`.
- Utils.OneNumOrVar: the empty string is excluded by a precondition, as for `Utils.OneNumber`.
- NumberTheory.Log: with base 1 and a positive argument the source loops forever; that input is excluded by a precondition.
- Tables.GridLayout: the width of a grid is stated exactly only when the top-left cell is not empty; otherwise only an upper bound is proved.
- Pictures.BracketsPictureIsArt: states the picture through `Layout.BracketsArt`, whose shape is given by `Layout.BottomAlignedLayout` and `Layout.BracketsHeight`, instead of repeating that layout.
- Latex.LatexBodyIgnoresPrecedence: lists, integrals, exponentials and foreign nodes are excluded. A list of one element and an exponential pass the surrounding options on, and a foreign node's rendering is a parameter.
- Pictures.PictureBodyIgnoresPrecedence: excludes lists, integrals, exponentials and foreign nodes, for the same reasons.
- Inline.BodyIgnoresPrecedence: excludes lists, integrals, exponentials and foreign nodes, for the same reasons.
- Builders.GridOf: a grid too large for memory makes the source throw `OutOfMemoryError` when it allocates the rows. That error is not modelled; only the sizes that fit an `int` are.
- The renderers follow the corrected code wherever "## Findings" logs a bug; the introduction lists each place and the member that keeps the library's behaviour. Apart from those places, three behaviours that look unintended are modelled as written, because the intended value is not evident:
  - the integral's picture renders its value and bounds without automatic brackets, at the surrounding options (`Integral.java:43-60`);
  - `SuperSubscript`'s picture tests whether the subscript, not the base, already ends in subscript characters (`SuperSubscript.java:42`);
  - `Subscript.renderArt` clamps with the base's width where a height would be expected (`Subscript.java:53`).
- Two behaviours of the library are kept although they may surprise a reader. A small fraction is drawn inline in every space mode, because `Fraction.shouldRenderInline` (`Fraction.java:49-53`) never tests the space mode. `call` with one argument that is not in round brackets puts that argument alone in round brackets (`RenderableExpression.java:456-460`).

## Findings

| source | as written | input that shows it | evidently intended | confidence | as-written member | corrected member |
|---|---|---|---|---|---|---|
| src/main/java/com/github/rccookie/math/rendering/AsciiArt.java:108-115 | with `keepCenter`, the center offset is `max(0, a.height - result.height)`, which is always 0, so the base block's center is not moved down with its rows | the block `x` (center 0) with the three rows `a`, `b`, `c` appended at the bottom: the result reports row 0 as center, but `x` sits on row 2 | offset `result.height - this.height`, so the center follows the base block's row | high; not executed | Canvas.AppendBottomAsWritten, Canvas.AppendBottomAsWrittenCounterexample | Canvas.AppendBottom, Canvas.AppendBottomIsDraw |
| src/main/java/com/github/rccookie/math/rendering/AugmentedGrid.java:47-50 | the cells after the bar are read from the left grid `a` again | left cell `1`, right cell `2`: the inline text is `1 \| 1` | read the right grid, giving `1 \| 2` | high; not executed | Inline.AugmentedInlineCounterexample, Inline.AugmentedInlineIgnoresRight | Inline.AugmentedInlineUnit |
| src/main/java/com/github/rccookie/math/rendering/SpecialLiteral.java:13 | `INT_NUMS` uses the glyphs of the rationals (`ℚ`, `Q`, `\QQ`) | rendering `INT_NUMS` in any form prints the rationals' symbol | the integers' symbol `ℤ`, `Z`, `\ZZ` | high; not executed | Glyphs.IntegersAsWrittenAreRationals | Glyphs.IntegersDistinct |
| src/main/java/com/github/rccookie/math/rendering/SpecialLiteral.java:41 | the ASCII form of "not greater or equal" is `!<=` | `NOT_GREATER_OR_EQUAL` and `NOT_LESS_OR_EQUAL` print the same ASCII picture | `!>=` | high; not executed | Glyphs.NotGeqAsWrittenCollides | Glyphs.NotGeqDistinct |
| src/main/java/com/github/rccookie/math/rendering/RenderableExpression.java:608-614 | `percent` and `deg` pass the sign as the operand and the operand as the sign of the postfix node | `percent(x)` for any operand `x` other than the sign builds a node different from `postfix(percent(), x, PERCENT)` | operand first, sign second, as `factorial` does | medium; not executed | Builders.PercentAsWritten, Builders.PercentAsWrittenSwapped | Builders.Percent, Builders.Deg |
| src/main/java/com/github/rccookie/math/rendering/Fraction.java:49-53 | the inline test calls `oneNumOrVar` on each operand's text, and `oneNumber` reads `charAt(0)` of an empty text | the fraction of the literal line feed over `1`, with the default options: the numerator's picture is one empty row, and the test throws | an empty operand is not a number or variable, so the fraction is stacked | medium; not executed | Pictures.ShouldRenderInlineAsWritten, Pictures.FractionOfEmptyRow | Pictures.ShouldRenderInlineAgrees, Pictures.FractionPictureShape |
| src/main/java/com/github/rccookie/math/rendering/Superscript.java:40-41 | the picture renders the base at the surrounding options, not at the precedence just above a power as the inline and LaTeX forms do | `-1` squared with the default options is drawn `-1²` | the base in brackets, `(-1)²` | medium; not executed | Pictures.NegativePowerAsWritten, Pictures.SuperscriptOfNegative | Pictures.NegativePower, Pictures.SuperscriptIgnoresPrecedence |
| src/main/java/com/github/rccookie/math/rendering/Middle.java:41 | `orFallback("\|", "│")` prefers the ASCII bar and falls back to the box-drawing line, the reverse of every other `orFallback` call | any character set that shows both, such as Unicode, gets the plain `\|` | `orFallback("│", "\|")` | medium; not executed | Pictures.MiddleGlyphAsWritten, Pictures.MiddleGlyphAsWrittenDiffers | Pictures.MiddleGlyph |

=== FILE: art.dfy ===
/** `renderAsciiArt` of every node class, reached through
    `render(ASCII_ART, o)`: the automatic parentheses of
    `RenderableExpression.render`, here as a stretched round bracket pair,
    around the class's own picture. */
module Pictures {
  import opened Java
  import opened Wrappers
  import opened Strings
  import opened Canvas
  import opened Expr
  import opened Options
  import opened Charsets
  import opened BracketShapes
  import opened Render
  import Utils
  import Precedence
  import Builders
  import Layout
  import Tables

  /** `n.render(ASCII_ART, o)`: an exponential renders itself directly, a
      matrix bracket renders as the configured bracket node, and any other
      node (an integral too: its override only bypasses the brackets for
      the text and LaTeX modes) is put in round brackets exactly when the
      surrounding operator binds tighter. */
  function Picture(n: Node, o: Options, env: Foreign): Block
    requires WellFormed(n)
    decreases Size(n), if WillWrap(n, o, env) then 6 else 4
  {
    if n.Exp? then PictureBody(n, o, env)
    else if n.MatrixBrackets? then Picture(Brackets(o.matrixBrackets, n.inner), o, env)
    else if WillWrap(n, o, env) then BracketsPicture(Round, n, o, env)
    else PictureBody(n, o, env)
  }

  /** `renderAsciiArt` of each class. */
  function PictureBody(n: Node, o: Options, env: Foreign): Block
    requires WellFormed(n)
    decreases Size(n), 3
  {
    if n.NumberLiteral? || n.Text? || n.SpecialLiteral? || n.Grid? || n.AugmentedGrid? || n.Fraction?
       || n.Root? || n.Subscript? || n.Superscript? || n.SuperSubscript? || n.Brackets? || n.MatrixBrackets?
    then TightPicture(n, o, env)
    else LoosePicture(n, o, env)
  }

  /** `renderAsciiArt` of literals, tables, fractions, roots, scripts and
      brackets. */
  function TightPicture(n: Node, o: Options, env: Foreign): Block
    requires WellFormed(n)
    decreases Size(n), 2
  {
    match n
    case NumberLiteral(_) => LiteralPicture(n, o)
    case Text(_, _) => LiteralPicture(n, o)
    case SpecialLiteral(_, _, _, _) => LiteralPicture(n, o)
    case Grid(rows) => GridPicture(rows, o, env)
    case AugmentedGrid(l, r) => AugmentedPicture(l, r, o, env)
    case Fraction(a, b) => FractionPicture(a, b, o, env)
    case Root(d, v) => RootPicture(d, v, o, env)
    case Subscript(a, b) => SubscriptPicture(a, b, o, env)
    case Superscript(a, b) => SuperscriptPicture(a, b, o, env)
    case SuperSubscript(m, p, b) => SuperSubscriptPicture(m, p, b, o, env)
    case Brackets(k, x) => BracketsPicture(k, x, o, env)
    case MatrixBrackets(x) => BracketsPicture(o.matrixBrackets, x, o, env)
    case _ => LoosePicture(n, o, env)
  }

  /** `renderAsciiArt` of lists, concatenations, bars, big operators,
      integrals, exponentials and the classes outside this model. */
  function LoosePicture(n: Node, o: Options, env: Foreign): Block
    requires WellFormed(n)
    decreases Size(n), 1
  {
    match n
    case List(d, xs) => ListPicture(d, xs, o, env)
    case Concatenation(a, b, maybeSpace) => ConcatPicture(a, b, maybeSpace, o, env)
    case Middle(a, b) => MiddlePicture(a, b, o, env)
    case BigSymbol(s, u, v, x) => BigSymbolPicture(s, u, v, x, o, env)
    case Integral(l, u, v) => IntegralPicture(l, u, v, o, env)
    case Exp(v) => ExpPicture(v, o, env)
    case _ => env.art(n, o)
  }

  /** `renderAsciiArt` of the literals: the text of a number or a text node
      split into rows, and the Unicode picture of a special literal when the
      charset shows it, its ASCII picture otherwise. */
  function LiteralPicture(n: Node, o: Options): Block
    requires n.NumberLiteral? || n.Text? || n.SpecialLiteral?
  {
    match n
    case NumberLiteral(d) => FromText(d)
    case Text(t, _) => FromText(t)
    case SpecialLiteral(_, ascii, unicode, _) => OrFallbackArt(o.charset, unicode, ascii)
  }

  /** `Brackets.renderAsciiArt`: the contents at the lowest precedence
      between shapes of the kind stretched to their height. */
  function BracketsPicture(k: Bracket, x: Node, o: Options, env: Foreign): Block
    requires WellFormed(x)
    decreases Size(x), 5
  {
    Layout.BracketsArt(k, Picture(x, At(o, Precedence.MIN), env), o.charset)
  }

  /** `Grid.renderAsciiArt`: the cells at the lowest precedence in columns
      two blanks apart. */
  function GridPicture(rows: seq<Row>, o: Options, env: Foreign): Block
    requires Rectangular(rows) && CellsWellFormed(rows)
    decreases 1 + SizeRows(rows), 0
  {
    var cells := PictureCells(rows, At(o, Precedence.MIN), env);
    Tables.GridArt(cells)
  }

  /** `AugmentedGrid.renderAsciiArt`: the cells of both grids at the bar's
      precedence, the bar drawn with the box-drawing line when the charset
      has it. */
  function AugmentedPicture(l: seq<Row>, r: seq<Row>, o: Options, env: Foreign): Block
    requires Rectangular(l) && Rectangular(r) && |l| == |r| && CellsWellFormed(l) && CellsWellFormed(r)
    decreases 1 + SizeRows(l) + SizeRows(r), 0
  {
    var o' := At(o, Precedence.MID);
    Tables.AugmentedArt(PictureCells(l, o', env), PictureCells(r, o', env), OrFallbackChar(o.charset, '│', '|'), o.spaceMode)
  }

  /** Which operands `Fraction.shouldRenderInline` accepts as a number or a
      variable; the empty text is neither. */
  predicate NumOrVar(s: string) {
    Utils.NumberToken(s) || Utils.VarToken(s)
  }

  /** `Fraction.shouldRenderInline`: both operands one row high, narrower
      than the configured limit, each a single number or variable. */
  predicate ShouldRenderInline(a: Block, b: Block, limit: int) {
    && a.Height() == 1 && b.Height() == 1
    && a.Width() < limit && b.Width() < limit
    && NumOrVar(ToString(a)) && NumOrVar(ToString(b))
  }

  /** `Fraction.renderAsciiArt`: small simple operands around a slash on one
      row, otherwise stacked over a bar. */
  function FractionPicture(a: Node, b: Node, o: Options, env: Foreign): Block
    requires WellFormed(a) && WellFormed(b)
    decreases 1 + Size(a) + Size(b), 0
  {
    var low := At(o, Precedence.MIN);
    var pa, pb := Picture(a, low, env), Picture(b, low, env);
    if ShouldRenderInline(pa, pb, o.smallFractionsSizeLimit) then AppendCenter(AppendCenter(pa, Layout.Line("/")), pb)
    else Layout.FractionStack(pa, pb)
  }

  /** `Root.renderAsciiArt`: the radical drawn from diagonals and a bar, with
      the box-drawing glyphs when the charset has them. */
  function RootPicture(d: Node, v: Node, o: Options, env: Foreign): Block
    requires WellFormed(d) && WellFormed(v)
    decreases 1 + Size(d) + Size(v), 0
  {
    var cs, low := o.charset, At(o, Precedence.MIN);
    Layout.RootArt(Picture(d, low, env), Picture(v, low, env),
      OrFallbackChar(cs, '╲', '\\'), OrFallbackChar(cs, '╱', '/'), OrFallbackChar(cs, '│', '|'))
  }

  /** The Unicode form of a one-row script, when it has one the charset
      shows; the form has no line break. */
  function ScriptForm(s: string, sub: bool, cs: CharSet): (r: Option<string>)
    ensures r.Some? ==> NoTerminator(r.value) && CanDisplay(cs, r.value)
    ensures r.Some? <==> (if sub then Utils.ToSubscript(s) else Utils.ToSuperscript(s)).Some?
                         && CanDisplay(cs, (if sub then Utils.ToSubscript(s) else Utils.ToSuperscript(s)).value)
  {
    Utils.ScriptsPrintable(s);
    var t := if sub then Utils.ToSubscript(s) else Utils.ToSuperscript(s);
    if t.Some? && CanDisplay(cs, t.value) then t else None
  }

  /** `Subscript.renderAsciiArt`: a one-row index with a displayable
      subscript form is appended in that form at the base's last row, unless
      the base already ends in a subscript; otherwise the index is drawn
      against the base's lower right corner. */
  function SubscriptPicture(a: Node, b: Node, o: Options, env: Foreign): Block
    requires WellFormed(a) && WellFormed(b)
    decreases 1 + Size(a) + Size(b), 0
  {
    var pa, pb := Picture(a, At(o, Precedence.MAX), env), Picture(b, At(o, Precedence.MIN), env);
    var form := if pb.Height() == 1 && !Utils.IsSubscript(ToString(pa)) then ScriptForm(pb.lines[0], true, o.charset) else None;
    if form.Some? then AppendBottom(pa, Layout.Line(form.value), true)
    else Layout.SubscriptArt(pa, pb, a.Subscript? || a.SuperSubscript?, pa.Width(), pa.Height())
  }

  /** `Superscript.renderAsciiArt`, with the base just above power precedence
      and the exponent at the lowest, as the other renderings have them: a
      one-row exponent with a displayable superscript form is appended in
      that form at the base's first row, unless the base already ends in a
      superscript; otherwise the exponent is drawn against the base's upper
      right corner. */
  function SuperscriptPicture(a: Node, b: Node, o: Options, env: Foreign): Block
    requires WellFormed(a) && WellFormed(b)
    decreases 1 + Size(a) + Size(b), 0
  {
    var pa, pb := Picture(a, At(o, Precedence.SUPERSCRIPT + 1), env), Picture(b, At(o, Precedence.MIN), env);
    SuperscriptOn(a, pa, pb, o.charset)
  }

  /** The superscript step shared by the corrected rendering and the
      rendering as written, from the pictures of base and exponent. */
  function SuperscriptOn(a: Node, pa: Block, pb: Block, cs: CharSet): Block {
    var form := if pb.Height() == 1 && !Utils.IsSuperscript(ToString(pa)) then ScriptForm(pb.lines[0], false, cs) else None;
    if form.Some? then AppendTop(pa, Layout.Line(form.value), true)
    else Layout.SuperscriptArt(pa, pb, a.Superscript? || a.SuperSubscript?, pa.Width(), pa.Height())
  }

  /** `SuperSubscript.renderAsciiArt`: with a one-row index that has a
      displayable subscript form (and is not one already), the base with
      the index appended gets the exponent drawn on; otherwise exponent and
      index are drawn against the base's corners. */
  function SuperSubscriptPicture(m: Node, p: Node, s: Node, o: Options, env: Foreign): Block
    requires WellFormed(m) && WellFormed(p) && WellFormed(s)
    decreases 3 + Size(m) + Size(p) + Size(s), 0
  {
    var low := At(o, Precedence.MIN);
    var pm, pp, ps := Picture(m, At(o, Precedence.MAX), env), Picture(p, low, env), Picture(s, low, env);
    var aIsSup, aIsSub := m.Superscript? || m.SuperSubscript?, m.Subscript? || m.SuperSubscript?;
    var form := if ps.Height() == 1 && !Utils.IsSubscript(ToString(ps)) then ScriptForm(ToString(ps), true, o.charset) else None;
    if form.Some? then
      Layout.SuperscriptArt(AppendBottom(pm, Layout.Line(form.value), true), pp, aIsSup, pm.Width(), pm.Height())
    else
      Layout.SubscriptArt(Layout.SuperscriptArt(pm, pp, aIsSup, pm.Width(), pm.Height()), ps, aIsSub, pm.Width(), pm.Height())
  }

  /** `List.renderAsciiArt`: nothing for no elements, a single element as if
      the list were not there, otherwise the elements one level above the
      delimiter, joined on their common center by the (possibly padded)
      delimiter. */
  function ListPicture(d: Node, xs: seq<Node>, o: Options, env: Foreign): Block
    requires WellFormed(d) && ListWellFormed(xs)
    decreases 1 + Size(d) + SizeList(xs), 0
  {
    if |xs| == 0 then FromText("")
    else if |xs| == 1 then
      assert WellFormed(xs[0]);
      Picture(xs[0], o, env)
    else Layout.ListArt(Picture(d, o, env), PictureList(xs, At(o, ListInner(d, env)), env), o.spaceMode)
  }

  /** `Concatenation.renderAsciiArt`: both operands at the concatenation's
      own precedence, on a common center, a blank column between them where
      the spacing rule asks. */
  function ConcatPicture(a: Node, b: Node, maybeSpace: bool, o: Options, env: Foreign): Block
    requires WellFormed(a) && WellFormed(b)
    decreases 1 + Size(a) + Size(b), 0
  {
    var o' := At(o, Prec(Concatenation(a, b, maybeSpace), env));
    Layout.ConcatArt(Picture(a, o', env), Picture(b, o', env), RenderSpace(a, b, maybeSpace, o.spaceMode))
  }

  /** `Middle.renderAsciiArt`, with the bar drawn from the box-drawing line
      when the charset has it: both sides just above the bar's precedence,
      the bar between them as high as they are, padded with blanks unless
      spacing is compact. */
  function MiddlePicture(a: Node, b: Node, o: Options, env: Foreign): Block
    requires WellFormed(a) && WellFormed(b)
    decreases 1 + Size(a) + Size(b), 0
  {
    var o' := At(o, Precedence.MID + 1);
    Layout.MiddleArt(Picture(a, o', env), Picture(b, o', env), if o.spaceMode == Compact then "" else " ",
      MiddleGlyph(o.charset))
  }

  /** The glyph of the bar's upper rows: the box-drawing line where the
      charset has it, the ASCII bar otherwise. */
  function MiddleGlyph(cs: CharSet): (c: char)
    ensures cs.accepts('│') <==> c == '│'
    ensures c == '│' || c == '|'
  {
    OrFallbackChar(cs, '│', '|')
  }

  /** `BigSymbol.renderAsciiArt`: the symbol with the lower bound centered
      below and the upper bound above, then a blank and the operand on the
      symbol's center row, symbol and operand at iteration precedence. */
  function BigSymbolPicture(s: Node, u: Option<Node>, v: Option<Node>, x: Node, o: Options, env: Foreign): Block
    requires WellFormed(s) && OptWellFormed(u) && OptWellFormed(v) && WellFormed(x)
    decreases 4 + Size(s) + SizeOpt(u) + SizeOpt(v) + Size(x), 0
  {
    var o', low := At(o, Precedence.ITERATION), At(o, Precedence.MIN);
    var sub := if u.Some? then Some(Picture(u.value, low, env)) else None;
    var sup := if v.Some? then Some(Picture(v.value, low, env)) else None;
    Layout.BigSymbolArt(Picture(s, o', env), sub, sup, Picture(x, o', env))
  }

  /** The integral sign for an integrand of `h` rows: the Unicode pieces
      when the charset has all of them, else an ASCII sign of at least three
      rows. */
  function IntegralSign(h: nat, cs: CharSet): Block {
    if CanDisplay(cs, "∫⌠⎮⌡") then Layout.IntegralSymbol(h, 1, "∫", "⌠", "⎮", "⌡")
    else Layout.IntegralSymbol(h, 3, "", "/", "|", "/")
  }

  /** `Integral.renderAsciiArt`: integrand and bounds are rendered by their
      classes directly, at the surrounding options and without automatic
      brackets; the sign is as high as the integrand, the bounds centered
      below and above it. */
  function IntegralPicture(l: Option<Node>, u: Option<Node>, v: Node, o: Options, env: Foreign): Block
    requires OptWellFormed(l) && OptWellFormed(u) && WellFormed(v)
    decreases 6 + SizeOpt(l) + SizeOpt(u) + Size(v), 0
  {
    var value := PictureBody(v, o, env);
    var lower := if l.Some? then Some(PictureBody(l.value, o, env)) else None;
    var upper := if u.Some? then Some(PictureBody(u.value, o, env)) else None;
    Layout.IntegralArt(IntegralSign(value.Height(), o.charset), lower, upper, value)
  }

  /** `Exp.renderAsciiArt`: the power `e^v`. */
  function ExpPicture(v: Node, o: Options, env: Foreign): Block
    requires WellFormed(v)
    decreases 10 + Size(v), 0
  {
    Builders.ExpPowerWellFormed(v);
    Picture(Builders.Sup(Builders.Name("e"), v), o, env)
  }

  /** The picture of every cell, row by row. */
  function PictureCells(rows: seq<Row>, o: Options, env: Foreign): (cs: seq<seq<Block>>)
    requires CellsWellFormed(rows)
    ensures |cs| == |rows|
    ensures forall i :: 0 <= i < |rows| ==> |cs[i]| == |rows[i].cells|
    ensures Rectangular(rows) ==> Tables.Rectangle(cs)
    decreases SizeRows(rows), 8
  {
    if rows == [] then []
    else [PictureList(rows[0].cells, o, env)] + PictureCells(rows[1..], o, env)
  }

  /** The picture of each node of a sequence. */
  function PictureList(xs: seq<Node>, o: Options, env: Foreign): (ps: seq<Block>)
    requires ListWellFormed(xs)
    ensures |ps| == |xs|
    decreases SizeList(xs), 7
  {
    if xs == [] then [] else [Picture(xs[0], o, env)] + PictureList(xs[1..], o, env)
  }
  // ---------------------------------------------------------------------------
  // The automatic parentheses

  /** A class keeping the default `render` is put between stretched round
      brackets exactly when its precedence is below the surrounding one, and
      is then drawn inside them at the lowest precedence, as an explicit
      round bracket node around it would be; otherwise it is drawn as its
      class draws it. */
  lemma WrapRulePicture(n: Node, o: Options, env: Foreign)
    requires WellFormed(n)
    requires !n.Exp? && !n.MatrixBrackets?
    ensures WillWrap(n, o, env) ==>
      Picture(n, o, env) == Layout.BracketsArt(Round, PictureBody(n, At(o, Precedence.MIN), env), o.charset)
    ensures WillWrap(n, o, env) ==> Picture(n, o, env) == Picture(Brackets(Round, n), o, env)
    ensures !WillWrap(n, o, env) ==> Picture(n, o, env) == PictureBody(n, o, env)
  {
    if WillWrap(n, o, env) {
      var low := At(o, Precedence.MIN);
      NoWrap(n, low, env);
      NoWrap(Brackets(Round, n), o, env);
      assert Picture(n, low, env) == PictureBody(n, low, env);
      assert Picture(n, o, env) == BracketsPicture(Round, n, o, env);
      assert Picture(Brackets(Round, n), o, env) == TightPicture(Brackets(Round, n), o, env);
    }
  }

  /** An exponential is never bracketed, and a matrix bracket is drawn
      exactly as a bracket node of the configured kind. */
  lemma OverridesPicture(n: Node, o: Options, env: Foreign)
    requires WellFormed(n)
    ensures n.Exp? ==> Picture(n, o, env) == PictureBody(n, o, env)
    ensures n.MatrixBrackets? ==>
      Picture(n, o, env) == Picture(Brackets(o.matrixBrackets, n.inner), o, env) == PictureBody(n, o, env)
  {
    if n.MatrixBrackets? {
      var b := Brackets(o.matrixBrackets, n.inner);
      NoWrap(b, o, env);
      assert Picture(b, o, env) == TightPicture(b, o, env) == BracketsPicture(o.matrixBrackets, n.inner, o, env);
      assert PictureBody(n, o, env) == TightPicture(n, o, env);
    }
  }

  /** Every class draws its operands at precedences of its own choosing
      (lists, integrals, exponentials and the classes outside this model
      aside), so the surrounding precedence only decides the automatic
      brackets. The superscript as written is the one class that breaks
      this. */
  lemma PictureBodyIgnoresPrecedence(n: Node, o: Options, p: Int32, env: Foreign)
    requires WellFormed(n)
    requires !IsForeign(n) && !n.Exp? && !n.Integral? && !n.List?
    ensures PictureBody(n, At(o, p), env) == PictureBody(n, o, env)
  {
    var o' := At(o, p);
    forall q: Int32 ensures At(o', q) == At(o, q) {
      AtTwice(o, p, q);
    }
    match n
    case Concatenation(_, _, _) => ConcatenationKeepsPicture(n, o, o', env);
    case Middle(_, _) => MiddleKeepsPicture(n, o, o', env);
    case BigSymbol(_, _, _, _) => BigSymbolKeepsPicture(n, o, o', env);
    case Grid(_) => GridKeepsPicture(n, o, o', env);
    case AugmentedGrid(_, _) => AugmentedGridKeepsPicture(n, o, o', env);
    case Fraction(_, _) => FractionKeepsPicture(n, o, o', env);
    case Root(_, _) => RootKeepsPicture(n, o, o', env);
    case Subscript(_, _) => SubscriptKeepsPicture(n, o, o', env);
    case Superscript(_, _) => SuperscriptKeepsPicture(n, o, o', env);
    case SuperSubscript(_, _, _) => SuperSubscriptKeepsPicture(n, o, o', env);
    case Brackets(_, _) => BracketsKeepsPicture(n, o, o', env);
    case MatrixBrackets(_) => MatrixBracketsKeepsPicture(n, o, o', env);
    case NumberLiteral(_) => LiteralKeepsPicture(n, o, o', env);
    case Text(_, _) => LiteralKeepsPicture(n, o, o', env);
    case SpecialLiteral(_, _, _, _) => LiteralKeepsPicture(n, o, o', env);
  }

  lemma ConcatenationKeepsPicture(n: Node, o: Options, o': Options, env: Foreign)
    requires WellFormed(n) && n.Concatenation?
    requires o'.(outsidePrecedence := o.outsidePrecedence) == o
    requires forall q: Int32 :: At(o', q) == At(o, q)
    ensures PictureBody(n, o', env) == PictureBody(n, o, env)
  {
    assert PictureBody(n, o', env) == LoosePicture(n, o', env) == ConcatPicture(n.a, n.b, n.maybeSpace, o', env);
    assert PictureBody(n, o, env) == LoosePicture(n, o, env) == ConcatPicture(n.a, n.b, n.maybeSpace, o, env);
  }

  lemma MiddleKeepsPicture(n: Node, o: Options, o': Options, env: Foreign)
    requires WellFormed(n) && n.Middle?
    requires o'.(outsidePrecedence := o.outsidePrecedence) == o
    requires forall q: Int32 :: At(o', q) == At(o, q)
    ensures PictureBody(n, o', env) == PictureBody(n, o, env)
  {
    assert o'.spaceMode == o.spaceMode && o'.charset == o.charset;
    assert At(o', Precedence.MID + 1) == At(o, Precedence.MID + 1);
    assert PictureBody(n, o', env) == LoosePicture(n, o', env) == MiddlePicture(n.a, n.b, o', env);
    assert PictureBody(n, o, env) == LoosePicture(n, o, env) == MiddlePicture(n.a, n.b, o, env);
  }

  lemma BigSymbolKeepsPicture(n: Node, o: Options, o': Options, env: Foreign)
    requires WellFormed(n) && n.BigSymbol?
    requires o'.(outsidePrecedence := o.outsidePrecedence) == o
    requires forall q: Int32 :: At(o', q) == At(o, q)
    ensures PictureBody(n, o', env) == PictureBody(n, o, env)
  {
    assert PictureBody(n, o', env) == LoosePicture(n, o', env) == BigSymbolPicture(n.symbol, n.under, n.over, n.value, o', env);
    assert PictureBody(n, o, env) == LoosePicture(n, o, env) == BigSymbolPicture(n.symbol, n.under, n.over, n.value, o, env);
  }

  lemma GridKeepsPicture(n: Node, o: Options, o': Options, env: Foreign)
    requires WellFormed(n) && n.Grid?
    requires o'.(outsidePrecedence := o.outsidePrecedence) == o
    requires forall q: Int32 :: At(o', q) == At(o, q)
    ensures PictureBody(n, o', env) == PictureBody(n, o, env)
  {
    assert PictureBody(n, o', env) == TightPicture(n, o', env) == GridPicture(n.rows, o', env);
    assert PictureBody(n, o, env) == TightPicture(n, o, env) == GridPicture(n.rows, o, env);
  }

  lemma AugmentedGridKeepsPicture(n: Node, o: Options, o': Options, env: Foreign)
    requires WellFormed(n) && n.AugmentedGrid?
    requires o'.(outsidePrecedence := o.outsidePrecedence) == o
    requires forall q: Int32 :: At(o', q) == At(o, q)
    ensures PictureBody(n, o', env) == PictureBody(n, o, env)
  {
    assert PictureBody(n, o', env) == TightPicture(n, o', env) == AugmentedPicture(n.left, n.right, o', env);
    assert PictureBody(n, o, env) == TightPicture(n, o, env) == AugmentedPicture(n.left, n.right, o, env);
  }

  lemma FractionKeepsPicture(n: Node, o: Options, o': Options, env: Foreign)
    requires WellFormed(n) && n.Fraction?
    requires o'.(outsidePrecedence := o.outsidePrecedence) == o
    requires forall q: Int32 :: At(o', q) == At(o, q)
    ensures PictureBody(n, o', env) == PictureBody(n, o, env)
  {
    assert PictureBody(n, o', env) == TightPicture(n, o', env) == FractionPicture(n.a, n.b, o', env);
    assert PictureBody(n, o, env) == TightPicture(n, o, env) == FractionPicture(n.a, n.b, o, env);
  }

  lemma RootKeepsPicture(n: Node, o: Options, o': Options, env: Foreign)
    requires WellFormed(n) && n.Root?
    requires o'.(outsidePrecedence := o.outsidePrecedence) == o
    requires forall q: Int32 :: At(o', q) == At(o, q)
    ensures PictureBody(n, o', env) == PictureBody(n, o, env)
  {
    assert PictureBody(n, o', env) == TightPicture(n, o', env) == RootPicture(n.degree, n.value, o', env);
    assert PictureBody(n, o, env) == TightPicture(n, o, env) == RootPicture(n.degree, n.value, o, env);
  }

  lemma SubscriptKeepsPicture(n: Node, o: Options, o': Options, env: Foreign)
    requires WellFormed(n) && n.Subscript?
    requires o'.(outsidePrecedence := o.outsidePrecedence) == o
    requires forall q: Int32 :: At(o', q) == At(o, q)
    ensures PictureBody(n, o', env) == PictureBody(n, o, env)
  {
    assert PictureBody(n, o', env) == TightPicture(n, o', env) == SubscriptPicture(n.a, n.b, o', env);
    assert PictureBody(n, o, env) == TightPicture(n, o, env) == SubscriptPicture(n.a, n.b, o, env);
  }

  lemma SuperscriptKeepsPicture(n: Node, o: Options, o': Options, env: Foreign)
    requires WellFormed(n) && n.Superscript?
    requires o'.(outsidePrecedence := o.outsidePrecedence) == o
    requires forall q: Int32 :: At(o', q) == At(o, q)
    ensures PictureBody(n, o', env) == PictureBody(n, o, env)
  {
    assert PictureBody(n, o', env) == TightPicture(n, o', env) == SuperscriptPicture(n.a, n.b, o', env);
    assert PictureBody(n, o, env) == TightPicture(n, o, env) == SuperscriptPicture(n.a, n.b, o, env);
  }

  lemma SuperSubscriptKeepsPicture(n: Node, o: Options, o': Options, env: Foreign)
    requires WellFormed(n) && n.SuperSubscript?
    requires o'.(outsidePrecedence := o.outsidePrecedence) == o
    requires forall q: Int32 :: At(o', q) == At(o, q)
    ensures PictureBody(n, o', env) == PictureBody(n, o, env)
  {
    assert PictureBody(n, o', env) == TightPicture(n, o', env) == SuperSubscriptPicture(n.main, n.sup, n.sub, o', env);
    assert PictureBody(n, o, env) == TightPicture(n, o, env) == SuperSubscriptPicture(n.main, n.sup, n.sub, o, env);
  }

  lemma BracketsKeepsPicture(n: Node, o: Options, o': Options, env: Foreign)
    requires WellFormed(n) && n.Brackets?
    requires o'.(outsidePrecedence := o.outsidePrecedence) == o
    requires forall q: Int32 :: At(o', q) == At(o, q)
    ensures PictureBody(n, o', env) == PictureBody(n, o, env)
  {
    assert PictureBody(n, o', env) == TightPicture(n, o', env) == BracketsPicture(n.kind, n.inner, o', env);
    assert PictureBody(n, o, env) == TightPicture(n, o, env) == BracketsPicture(n.kind, n.inner, o, env);
  }

  lemma MatrixBracketsKeepsPicture(n: Node, o: Options, o': Options, env: Foreign)
    requires WellFormed(n) && n.MatrixBrackets?
    requires o'.(outsidePrecedence := o.outsidePrecedence) == o
    requires forall q: Int32 :: At(o', q) == At(o, q)
    ensures PictureBody(n, o', env) == PictureBody(n, o, env)
  {
    assert PictureBody(n, o', env) == TightPicture(n, o', env) == BracketsPicture(o.matrixBrackets, n.inner, o', env);
    assert PictureBody(n, o, env) == TightPicture(n, o, env) == BracketsPicture(o.matrixBrackets, n.inner, o, env);
  }

  lemma LiteralKeepsPicture(n: Node, o: Options, o': Options, env: Foreign)
    requires n.NumberLiteral? || n.Text? || n.SpecialLiteral?
    requires o'.(outsidePrecedence := o.outsidePrecedence) == o
    ensures PictureBody(n, o', env) == PictureBody(n, o, env)
  {
    assert PictureBody(n, o', env) == TightPicture(n, o', env) == LiteralPicture(n, o');
    assert PictureBody(n, o, env) == TightPicture(n, o, env) == LiteralPicture(n, o);
  }

  // ---------------------------------------------------------------------------
  // Transparent wrappers and delegations

  /** A one-element list is drawn as its element alone, bracketed exactly
      when the element would be. */
  lemma SingletonListPicture(d: Node, x: Node, o: Options, env: Foreign)
    requires WellFormed(d) && WellFormed(x)
    requires !x.Exp? || !WillWrap(x, o, env)
    ensures Picture(List(d, [x]), o, env) == Picture(x, o, env)
  {
    var n := List(d, [x]);
    assert Prec(n, env) == Prec(x, env);
    assert PictureBody(n, o, env) == LoosePicture(n, o, env) == ListPicture(d, [x], o, env) == Picture(x, o, env);
    if WillWrap(n, o, env) {
      var low := At(o, Precedence.MIN);
      NoWrap(n, low, env);
      NoWrap(x, low, env);
      NoWrap(x, o, env);
      assert PictureBody(n, low, env) == LoosePicture(n, low, env) == ListPicture(d, [x], low, env);
      WrapRulePicture(n, o, env);
      WrapRulePicture(x, o, env);
    } else {
      WrapRulePicture(n, o, env);
    }
  }

  /** An exponential is drawn as the power `e^v`, bracketed as that power
      would be. */
  lemma ExpAsPowerPicture(v: Node, o: Options, env: Foreign)
    requires WellFormed(v)
    ensures WellFormed(Superscript(Builders.Name("e"), v))
    ensures Picture(Exp(v), o, env) == Picture(Superscript(Builders.Name("e"), v), o, env)
  {
    Builders.ExpPowerWellFormed(v);
    var n := Exp(v);
    assert Picture(n, o, env) == PictureBody(n, o, env) == LoosePicture(n, o, env) == ExpPicture(v, o, env);
  }

  /** Brackets are never bracketed again: at any surrounding precedence
      the picture is the stretched pair around the contents drawn at the
      lowest precedence (whose layout `Layout.BottomAlignedLayout` states). */
  lemma BracketsPictureIsArt(k: Bracket, x: Node, o: Options, env: Foreign)
    requires WellFormed(x)
    ensures Picture(Brackets(k, x), o, env) == Layout.BracketsArt(k, Picture(x, At(o, Precedence.MIN), env), o.charset)
  {
    var n := Brackets(k, x);
    NoWrap(n, o, env);
    assert Picture(n, o, env) == PictureBody(n, o, env) == TightPicture(n, o, env) == BracketsPicture(k, x, o, env);
  }

  // ---------------------------------------------------------------------------
  // The integral sign

  /** The integral sign for an integrand `h` rows high: with a charset that
      shows the Unicode pieces, the one-row glyph for at most one row and
      otherwise `h` rows of top piece, extenders and bottom piece; without
      them, at least three rows of slashes and bars. Every sign of two rows
      or more has a blank column on its right. */
  lemma IntegralSignShape(h: nat, cs: CharSet)
    ensures var r := IntegralSign(h, cs);
      && (CanDisplay(cs, "∫⌠⎮⌡") && h <= 1 ==> r == Art(["∫"], 0))
      && (CanDisplay(cs, "∫⌠⎮⌡") && h >= 2 ==>
            && r.Height() == h && r.Width() == 2 && r.center == h / 2
            && r.lines[0][0] == '⌠' && r.lines[h - 1][0] == '⌡'
            && (forall i :: 0 < i < h - 1 ==> r.lines[i][0] == '⎮'))
      && (!CanDisplay(cs, "∫⌠⎮⌡") ==>
            && r.Height() == Max(h, 3) && r.Width() == 2 && r.center == Max(h, 3) / 2
            && r.lines[0][0] == '/' && r.lines[Max(h, 3) - 1][0] == '/'
            && (forall i :: 0 < i < Max(h, 3) - 1 ==> r.lines[i][0] == '|'))
      && (r.Height() >= 2 ==> forall i :: 0 <= i < r.Height() ==> r.lines[i][1] == ' ')
  {
    if CanDisplay(cs, "∫⌠⎮⌡") {
      if h <= 1 {
        FromTextSingleLine("∫");
      } else {
        Layout.IntegralSymbolLayout(h, 1, "∫", '⌠', '⎮', '⌡');
      }
    } else {
      Layout.IntegralSymbolLayout(h, 3, "", '/', '|', '/');
    }
  }

  // ---------------------------------------------------------------------------
  // Fractions

  /** A fraction is either the operands on both sides of a slash, one row
      when both are anchored on their only row, or the numerator rows over a
      bar of dashes (its center row) over the denominator rows. */
  lemma FractionPictureShape(a: Node, b: Node, o: Options, env: Foreign)
    requires WellFormed(a) && WellFormed(b)
    ensures var low := At(o, Precedence.MIN);
      var pa, pb, r := Picture(a, low, env), Picture(b, low, env), FractionPicture(a, b, o, env);
      && (ShouldRenderInline(pa, pb, o.smallFractionsSizeLimit) ==>
            && r.Width() == pa.Width() + 1 + pb.Width()
            && (pa.center == 0 && pb.center == 0 ==> r == Art([pa.lines[0] + "/" + pb.lines[0]], 0)))
      && (!ShouldRenderInline(pa, pb, o.smallFractionsSizeLimit) && Layout.BarWidth(pa, pb) > 0 ==>
            r.Height() == pa.Height() + 1 + pb.Height() && r.center == pa.Height()
            && forall j :: 0 <= j < Layout.BarWidth(pa, pb) ==> r.lines[pa.Height()][j] == '-')
  {
    var low := At(o, Precedence.MIN);
    var pa, pb := Picture(a, low, env), Picture(b, low, env);
    if ShouldRenderInline(pa, pb, o.smallFractionsSizeLimit) {
      var s := Layout.Line("/");
      AppendCenterWidth(pa, s);
      AppendCenterWidth(AppendCenter(pa, s), pb);
      if pa.center == 0 && pb.center == 0 {
        AppendCenterOneRow(pa, s);
        AppendCenterOneRow(AppendCenter(pa, s), pb);
      }
    }
  }

  /** `Fraction.shouldRenderInline` as written: `Utils.oneNumOrVar` reads
      the first character of its argument, so a one-row operand of width
      zero throws instead of failing the test. The other conjuncts are
      evaluated first and short-circuit. */
  function ShouldRenderInlineAsWritten(a: Block, b: Block, limit: int): (r: Result<bool>)
    ensures r.Err? ==> a.Height() == 1 && b.Height() == 1 && (ToString(a) == [] || ToString(b) == [])
  {
    if !(a.Height() == 1 && b.Height() == 1 && a.Width() < limit && b.Width() < limit) then Ok(false)
    else if ToString(a) == [] then Err(IndexOutOfBounds)
    else if !NumOrVar(ToString(a)) then Ok(false)
    else if ToString(b) == [] then Err(IndexOutOfBounds)
    else Ok(NumOrVar(ToString(b)))
  }

  /** Wherever the test as written returns, it agrees with the corrected
      one; it throws exactly when it reaches an empty operand text. */
  lemma ShouldRenderInlineAgrees(a: Block, b: Block, limit: int)
    ensures ShouldRenderInlineAsWritten(a, b, limit).Ok? ==>
      ShouldRenderInlineAsWritten(a, b, limit).value == ShouldRenderInline(a, b, limit)
    ensures ShouldRenderInlineAsWritten(a, b, limit).Err? <==>
      && a.Height() == 1 && b.Height() == 1 && a.Width() < limit && b.Width() < limit
      && (ToString(a) == [] || (NumOrVar(ToString(a)) && ToString(b) == []))
  {
  }

  /** A number literal left unbracketed is drawn as its text, one row per
      line. */
  lemma NumberPicture(d: string, o: Options, env: Foreign)
    requires !WillWrap(NumberLiteral(d), o, env)
    ensures Picture(NumberLiteral(d), o, env) == PictureBody(NumberLiteral(d), o, env) == FromText(d)
  {
    var n := NumberLiteral(d);
    assert Picture(n, o, env) == PictureBody(n, o, env) == TightPicture(n, o, env);
  }

  /** The number literal made of a single line feed is one empty row: over
      `1` with the default options, the test as written throws, while the
      corrected one declines and the fraction is stacked. */
  lemma FractionOfEmptyRow(env: Foreign)
    ensures var low := At(DEFAULT, Precedence.MIN);
      var pa, pb := Picture(NumberLiteral("\n"), low, env), Picture(NumberLiteral("1"), low, env);
      && ShouldRenderInlineAsWritten(pa, pb, DEFAULT.smallFractionsSizeLimit) == Err(IndexOutOfBounds)
      && !ShouldRenderInline(pa, pb, DEFAULT.smallFractionsSizeLimit)
  {
    var low := At(DEFAULT, Precedence.MIN);
    NoWrap(NumberLiteral("\n"), low, env);
    NoWrap(NumberLiteral("1"), low, env);
    NumberPicture("\n", low, env);
    NumberPicture("1", low, env);
    FromTextLineFeed();
    FromTextSingleLine("1");
    EmptyRowOverOne(DEFAULT.smallFractionsSizeLimit);
  }

  /** An empty row over the row `1`, for any size limit above 1. */
  lemma EmptyRowOverOne(limit: int)
    requires limit > 1
    ensures ShouldRenderInlineAsWritten(Art([""], 0), Art(["1"], 0), limit) == Err(IndexOutOfBounds)
    ensures !ShouldRenderInline(Art([""], 0), Art(["1"], 0), limit)
  {
    assert ToString(Art([""], 0)) == [];
  }
  // ---------------------------------------------------------------------------
  // Superscripts

  /** `Superscript.renderAsciiArt` as written: base and exponent are drawn
      at the options the superscript itself was given, so the base is only
      bracketed when the superscript as a whole would be. */
  function SuperscriptPictureAsWritten(a: Node, b: Node, o: Options, env: Foreign): Block
    requires WellFormed(a) && WellFormed(b)
  {
    SuperscriptOn(a, Picture(a, o, env), Picture(b, o, env), o.charset)
  }

  /** Unlike the rendering as written, the corrected superscript depends on
      everything in the options but the surrounding precedence. */
  lemma SuperscriptIgnoresPrecedence(a: Node, b: Node, o: Options, o': Options, env: Foreign)
    requires WellFormed(a) && WellFormed(b)
    requires o'.(outsidePrecedence := o.outsidePrecedence) == o
    ensures SuperscriptPicture(a, b, o', env) == SuperscriptPicture(a, b, o, env)
  {
    assert At(o', Precedence.SUPERSCRIPT + 1) == At(o, Precedence.SUPERSCRIPT + 1);
    assert At(o', Precedence.MIN) == At(o, Precedence.MIN);
  }

  /** A negative number raised to a one-row exponent that has a displayable
      superscript form: as written, at the lowest surrounding precedence,
      the base stays bare and the picture reads as the negation of a power. */
  lemma NegativePowerAsWritten(d: string, e: string, o: Options, env: Foreign)
    requires NoTerminator(d) && d != [] && d[0] == '-' && d[|d| - 1] < 128 as char
    requires NoTerminator(e) && e != [] && ScriptForm(e, false, o.charset).Some?
    requires o.outsidePrecedence == Precedence.MIN
    ensures SuperscriptPictureAsWritten(NumberLiteral(d), NumberLiteral(e), o, env)
      == Art([d + ScriptForm(e, false, o.charset).value], 0)
  {
    UnbracketedRow(d, o, env);
    UnbracketedRow(e, o, env);
    Utils.AsciiEndNotScript(d);
    AfterBase(NumberLiteral(d), d, e, o.charset);
  }

  /** The corrected rendering of the same power brackets the base whenever
      automatic parentheses are on, at any surrounding precedence. */
  lemma NegativePower(d: string, e: string, o: Options, env: Foreign)
    requires NoTerminator(d) && d != [] && d[0] == '-'
    requires NoTerminator(e) && e != [] && ScriptForm(e, false, o.charset).Some?
    requires o.autoParenthesis
    ensures SuperscriptPicture(NumberLiteral(d), NumberLiteral(e), o, env)
      == Art(["(" + d + ")" + ScriptForm(e, false, o.charset).value], 0)
  {
    var high, low := At(o, Precedence.SUPERSCRIPT + 1), At(o, Precedence.MIN);
    UnbracketedRow(e, low, env);
    NegativeBinds(d, high, env);
    BracketedRow(d, high, env);
    var t := "(" + d + ")";
    Utils.AsciiEndNotScript(t);
    AfterBase(NumberLiteral(d), t, e, o.charset);
  }

  /** `-1` squared with the default options: as written the picture is
      `-1²`, the negation of `1²`, while the corrected one is `(-1)²`. */
  lemma SuperscriptOfNegative(env: Foreign)
    ensures SuperscriptPictureAsWritten(NumberLiteral("-1"), NumberLiteral("2"), DEFAULT, env) == Art(["-1²"], 0)
    ensures SuperscriptPicture(NumberLiteral("-1"), NumberLiteral("2"), DEFAULT, env) == Art(["(-1)²"], 0)
  {
    SquareForm();
    assert NoTerminator("-1") && NoTerminator("2");
    NegativePowerAsWritten("-1", "2", DEFAULT, env);
    NegativePower("-1", "2", DEFAULT, env);
    SquaredTexts();
  }

  lemma SquaredTexts()
    ensures "-1" + "²" == "-1²" && "(" + "-1" + ")" + "²" == "(-1)²"
  {
  }

  /** A one-line number literal at the lowest precedence is its one row. */
  lemma UnbracketedRow(d: string, o: Options, env: Foreign)
    requires NoTerminator(d) && d != [] && o.outsidePrecedence == Precedence.MIN
    ensures Picture(NumberLiteral(d), o, env) == Art([d], 0)
  {
    NoWrap(NumberLiteral(d), o, env);
    NumberPicture(d, o, env);
    FromTextSingleLine(d);
  }

  /** A one-line number literal bound tighter than it binds is its row in
      round brackets. */
  lemma BracketedRow(d: string, o: Options, env: Foreign)
    requires NoTerminator(d) && d != [] && WillWrap(NumberLiteral(d), o, env)
    ensures Picture(NumberLiteral(d), o, env) == Art(["(" + d + ")"], 0)
    ensures NoTerminator("(" + d + ")")
  {
    var n, low := NumberLiteral(d), At(o, Precedence.MIN);
    WrapRulePicture(n, o, env);
    NoWrap(n, low, env);
    NumberPicture(d, low, env);
    FromTextSingleLine(d);
    Layout.BracketsOneRow(Round, Art([d], 0), o.charset);
    NoTerminatorConcat("(", d);
    NoTerminatorConcat("(" + d, ")");
  }

  /** A number with a leading minus binds looser than a power. */
  lemma NegativeBinds(d: string, o: Options, env: Foreign)
    requires d != [] && d[0] == '-' && o.autoParenthesis && o.outsidePrecedence == Precedence.SUPERSCRIPT + 1
    ensures WillWrap(NumberLiteral(d), o, env)
  {
    NumberPrecedence(d, env);
  }

  /** The exponent `2` has the displayable superscript form `²`. */
  lemma SquareForm()
    ensures ScriptForm("2", false, DEFAULT.charset) == Some("²")
  {
    var t := Utils.ToSuperscript("2");
    assert "2"[0] in Utils.SUPERSCRIPT;
    assert t.Some? && |t.value| == 1 && t.value[0] == '²';
    assert t.value == "²";
  }

  /** A one-row base that is not a superscript already takes the
      superscript form of a one-row exponent on its row. */
  lemma AfterBase(a: Node, t: string, e: string, cs: CharSet)
    requires NoTerminator(t) && t != [] && !Utils.IsSuperscript(t)
    requires e != [] && ScriptForm(e, false, cs).Some?
    ensures SuperscriptOn(a, Art([t], 0), Art([e], 0), cs) == Art([t + ScriptForm(e, false, cs).value], 0)
  {
    var f := ScriptForm(e, false, cs).value;
    assert |f| == |e|;
    assert ToString(Art([t], 0)) == t;
    AppendTopOneRow(Art([t], 0), Layout.Line(f));
  }

  // ---------------------------------------------------------------------------
  // The bar of a middle

  /** `Middle.renderAsciiArt` as written asks for `|` and falls back to the
      box-drawing bar, the reverse of every other bar in the renderer. */
  function MiddleGlyphAsWritten(cs: CharSet): (c: char)
    ensures cs.accepts('|') <==> c == '|'
    ensures c == '│' || c == '|'
  {
    OrFallbackChar(cs, '|', '│')
  }

  /** Every charset that shows both bars gets the ASCII one as written,
      among them the Unicode charset, where the corrected glyph is the
      box-drawing bar. */
  lemma MiddleGlyphAsWrittenDiffers(cs: CharSet)
    requires cs.accepts('|') && cs.accepts('│')
    ensures MiddleGlyphAsWritten(cs) == '|' && MiddleGlyph(cs) == '│'
    ensures MiddleGlyphAsWritten(Unicode()) != MiddleGlyph(Unicode())
  {
  }
}

=== FILE: brackets.dfy ===
/** The bracket kinds, their one-glyph symbol tables and the stretched shapes
    `BracketLiteral.renderBracketUnicode` / `renderBracketAscii` build for a
    content of a given height. */
module BracketShapes {
  import opened Strings
  import opened Canvas

  /** `Bracket`, in declaration order. */
  datatype Bracket = Round | Square | Curly | Angle | Ceil | Floor | Abs

  /** `LEFT_SYMBOLS_ASCII` / `RIGHT_SYMBOLS_ASCII`. */
  function AsciiSymbol(k: Bracket, left: bool): string {
    match k
    case Round => if left then "(" else ")"
    case Square => if left then "[" else "]"
    case Curly => if left then "{" else "}"
    case Angle => if left then "<" else ">"
    case Ceil => if left then "[" else "]"
    case Floor => if left then "|_" else "_|"
    case Abs => "|"
  }

  /** `LEFT_SYMBOLS_UNICODE` / `RIGHT_SYMBOLS_UNICODE`. */
  function UnicodeSymbol(k: Bracket, left: bool): string {
    match k
    case Round => if left then "(" else ")"
    case Square => if left then "[" else "]"
    case Curly => if left then "{" else "}"
    case Angle => if left then "⟨" else "⟩"
    case Ceil => if left then "⌈" else "⌉"
    case Floor => if left then "⌊" else "⌋"
    case Abs => "│"
  }

  /** `LEFT_LATEX` / `RIGHT_LATEX`. */
  function LatexSymbol(k: Bracket, left: bool): string {
    match k
    case Round => if left then "(" else ")"
    case Square => if left then "[" else "]"
    case Curly => if left then "\\{" else "\\}"
    case Angle => if left then "<" else ">"
    case Ceil => if left then "\\lceil" else "\\rceil"
    case Floor => if left then "\\lfloor" else "\\rfloor"
    case Abs => "\\vert"
  }

  // ---------------------------------------------------------------------------
  // Mirror images: the right bracket is the left one seen in a mirror

  /** The glyph a character turns into when the picture is flipped left to right. */
  function MirrorChar(c: char): char {
    match c
    case '(' => ')' case ')' => '('
    case '[' => ']' case ']' => '['
    case '{' => '}' case '}' => '{'
    case '<' => '>' case '>' => '<'
    case '/' => '\\' case '\\' => '/'
    case '⟨' => '⟩' case '⟩' => '⟨'
    case '⌈' => '⌉' case '⌉' => '⌈'
    case '⌊' => '⌋' case '⌋' => '⌊'
    case '⎛' => '⎞' case '⎞' => '⎛'
    case '⎜' => '⎟' case '⎟' => '⎜'
    case '⎝' => '⎠' case '⎠' => '⎝'
    case '⎡' => '⎤' case '⎤' => '⎡'
    case '⎢' => '⎥' case '⎥' => '⎢'
    case '⎣' => '⎦' case '⎦' => '⎣'
    case '⎧' => '⎫' case '⎫' => '⎧'
    case '⎨' => '⎬' case '⎬' => '⎨'
    case '⎩' => '⎭' case '⎭' => '⎩'
    case '⎰' => '⎱' case '⎱' => '⎰'
    case _ => c
  }

  /** A row read right to left with every glyph flipped. */
  function Mirror(s: string): (r: string)
    ensures |r| == |s|
    ensures forall j :: 0 <= j < |s| ==> r[j] == MirrorChar(s[|s| - 1 - j])
  {
    seq(|s|, j requires 0 <= j < |s| => MirrorChar(s[|s| - 1 - j]))
  }

  /** Flipping twice gives the row back. */
  lemma MirrorInvolution(s: string)
    ensures Mirror(Mirror(s)) == s
  {
    assert forall j :: 0 <= j < |s| ==> MirrorChar(MirrorChar(s[j])) == s[j];
  }

  /** Every right symbol of both glyph tables is the mirror image of the left one. */
  lemma SymbolsMirror(k: Bracket)
    ensures Mirror(AsciiSymbol(k, true)) == AsciiSymbol(k, false)
    ensures Mirror(UnicodeSymbol(k, true)) == UnicodeSymbol(k, false)
  {
    var a, u := AsciiSymbol(k, true), UnicodeSymbol(k, true);
    assert Mirror(a)[..] == AsciiSymbol(k, false);
    assert Mirror(u)[..] == UnicodeSymbol(k, false);
  }

  // ---------------------------------------------------------------------------
  // Stretched shapes

  /** Row `i` of a stretched Unicode bracket of height `h`. */
  function UnicodeRow(k: Bracket, left: bool, h: nat, i: nat): string {
    match k
    case Round =>
      if i == 0 then (if left then "⎛" else "⎞")
      else if i == h - 1 then (if left then "⎝" else "⎠")
      else if left then "⎜" else "⎟"
    case Square =>
      if i == 0 then (if left then "⎡" else "⎤")
      else if i == h - 1 then (if left then "⎣" else "⎦")
      else if left then "⎢" else "⎥"
    case Curly =>
      if i == 0 then (if left then "⎧" else "⎫")
      else if i == h - 1 then (if left then "⎩" else "⎭")
      else if h % 2 == 1 && i == h / 2 then (if left then "⎨" else "⎬")
      else if h % 2 == 0 && i == h / 2 - 1 then (if left then "⎭" else "⎩")
      else if h % 2 == 0 && i == h / 2 then (if left then "⎫" else "⎧")
      else "⎪"
    case Angle => AngleRow(left, h, i, '⟨', '⟩')
    case Ceil =>
      if i == 0 then (if left then "⎡" else "⎤")
      else if left then "⎢" else "⎥"
    case Floor =>
      if i == h - 1 then (if left then "⎣" else "⎦")
      else if left then "⎢" else "⎥"
    case Abs => UnicodeSymbol(Abs, left)
  }

  /** The distance of row `i` from the nearer end of a bracket of height `h`. */
  function EndDistance(h: nat, i: nat): nat
    requires i < h
  {
    if i <= h - i - 1 then i else h - i - 1
  }

  /** Row `i` of an angle bracket, ASCII or Unicode alike: diagonals that
      meet in the middle row, where an odd height places the point glyph. */
  function AngleRow(left: bool, h: nat, i: nat, lt: char, gt: char): string {
    if i >= h then ""
    else if h % 2 == 1 && i == h / 2 then (if left then [lt] else Blank(h / 2) + [gt])
    else if left then Blank(h / 2 - EndDistance(h, i)) + (if i < h / 2 then "/" else "\\")
    else Blank(EndDistance(h, i)) + (if i < h / 2 then "\\" else "/")
  }

  function UnicodeGen(k: Bracket, left: bool, h: nat): nat -> string {
    (i: nat) => UnicodeRow(k, left, h, i)
  }

  /** `renderBracketUnicode(type, left, height)`. */
  function UnicodeShape(k: Bracket, left: bool, h: nat): (r: Art)
    ensures r.Valid()
    ensures r.Height() == if h <= 1 then 1 else h
    ensures r.center == r.Height() / 2
    ensures h <= 1 ==> r.lines == [UnicodeSymbol(k, left)]
    ensures h == 2 && k == Curly ==> r.lines == if left then ["⎰", "⎱"] else ["⎱", "⎰"]
  {
    if h <= 1 then
      FromTextSingleLine(UnicodeSymbol(k, left));
      FromText(UnicodeSymbol(k, left))
    else if k == Curly && h == 2 then
      var top, bottom := if left then "⎰" else "⎱", if left then "⎱" else "⎰";
      FromTextTwoLines(top, bottom);
      PadEven([top, bottom]);
      FromText(top + "\n" + bottom)
    else
      FromGenerator(h, UnicodeGen(k, left, h))
  }

  /** Row `i` of a stretched ASCII bracket for content of height `h`. Square
      and ceiling brackets have one extra row on top carrying the cap. */
  function AsciiRow(k: Bracket, left: bool, h: nat, i: nat): string {
    match k
    case Round =>
      if i == 0 then (if left then "/" else "\\")
      else if i == h - 1 then (if left then "\\" else "/")
      else "|"
    case Square =>
      if i == 0 then (if left then " _" else "_")
      else if i == h then (if left then "|_" else "_|")
      else if left then "|" else " |"
    case Curly =>
      if i == 0 then (if left then "/ " else " \\")
      else if i == h - 1 then (if left then "\\" else " /")
      else if h % 2 == 1 && i == h / 2 then (if left then "<" else " >")
      else if h % 2 == 0 && i == h / 2 - 1 then (if left then "/" else " \\")
      else if h % 2 == 0 && i == h / 2 then (if left then "\\" else " /")
      else if left then "|" else " |"
    case Angle => AngleRow(left, h, i, '<', '>')
    case Ceil =>
      if i == 0 then (if left then " _" else "_")
      else if left then "|" else " |"
    case Floor =>
      if i == h - 1 then (if left then "|_" else "_|")
      else if left then "|" else " |"
    case Abs => "|"
  }

  function AsciiGen(k: Bracket, left: bool, h: nat): nat -> string {
    (i: nat) => AsciiRow(k, left, h, i)
  }

  /** How many rows the generated ASCII shape has. */
  function AsciiRows(k: Bracket, h: nat): nat {
    if k == Square || k == Ceil then h + 1 else h
  }

  /** `renderBracketAscii(type, left, height)`. */
  function AsciiShape(k: Bracket, left: bool, h: nat): (r: Art)
    ensures r.Valid()
    ensures r.Height() ==
      if k == Ceil then h + 1
      else if h <= 1 then 1
      else if k == Square then h + 1
      else h
    ensures r.center == r.Height() / 2
    ensures h <= 1 && k != Ceil ==> r.lines == [AsciiSymbol(k, left)]
    ensures h == 2 && k == Curly ==> r.lines == if left then ["/", "\\"] else ["\\", "/"]
  {
    if h <= 1 && k != Ceil then
      FromTextSingleLine(AsciiSymbol(k, left));
      FromText(AsciiSymbol(k, left))
    else if k == Curly && h == 2 then
      var top, bottom := if left then "/" else "\\", if left then "\\" else "/";
      FromTextTwoLines(top, bottom);
      PadEven([top, bottom]);
      FromText(top + "\n" + bottom)
    else
      FromGenerator(AsciiRows(k, h), AsciiGen(k, left, h))
  }

  // ---------------------------------------------------------------------------
  // The right shape is the mirror image of the left one

  /** Every row of a block flipped left to right. */
  function MirrorLines(ls: seq<string>): (r: seq<string>)
    ensures |r| == |ls|
    ensures forall i :: 0 <= i < |ls| ==> r[i] == Mirror(ls[i])
  {
    seq(|ls|, i requires 0 <= i < |ls| => Mirror(ls[i]))
  }

  /** The cell a padded row shows in column `j`. */
  function PadAt(s: string, j: nat): char {
    if j < |s| then s[j] else ' '
  }

  /** Two generated blocks of the same width `w` are mirror images when each
      padded right row is the flipped padded left row; `il` and `ir` are rows
      of full width. */
  lemma GeneratorMirror(n: nat, gl: nat -> string, gr: nat -> string, w: nat, il: nat, ir: nat)
    requires forall i :: 0 <= i < n ==> RowMirrored(gl(i), gr(i), w)
    requires n > 0 ==> il < n && ir < n && |gl(il)| == w && |gr(ir)| == w
    ensures FromGenerator(n, gr).lines == MirrorLines(FromGenerator(n, gl).lines)
  {
    var l, r := FromGenerator(n, gl), FromGenerator(n, gr);
    if n > 0 {
      GeneratedWidth(n, gl, w, il);
      GeneratedWidth(n, gr, w, ir);
      forall i | 0 <= i < n
        ensures r.lines[i] == Mirror(l.lines[i])
      {
        PaddedMirror(l.lines[i], r.lines[i], gl(i), gr(i), w);
      }
    }
  }

  /** A generated block is as wide as its widest row. */
  lemma GeneratedWidth(n: nat, g: nat -> string, w: nat, i0: nat)
    requires i0 < n && |g(i0)| == w
    requires forall i :: 0 <= i < n ==> |g(i)| <= w
    ensures FromGenerator(n, g).Width() == w
  {
  }

  /** Rows padded from mirrored generator rows are mirror images. */
  lemma PaddedMirror(l: string, r: string, gl: string, gr: string, w: nat)
    requires |l| == w && |r| == w && RowMirrored(gl, gr, w)
    requires forall j :: 0 <= j < w ==> l[j] == PadAt(gl, j)
    requires forall j :: 0 <= j < w ==> r[j] == PadAt(gr, j)
    ensures r == Mirror(l)
  {
  }

  /** The width of the generated ASCII shapes (angles of odd height only). */
  function AsciiWidth(k: Bracket, h: nat): nat {
    match k
    case Round => 1
    case Abs => 1
    case Angle => h / 2 + 1
    case _ => 2
  }

  /** Row `i` of the right shape is row `i` of the left shape, flipped,
      once both are padded to width `w`. */
  predicate RowMirrored(l: string, r: string, w: nat) {
    |l| <= w && |r| <= w && forall j :: 0 <= j < w ==> PadAt(r, j) == MirrorChar(PadAt(l, w - 1 - j))
  }

  /** Row lengths and mirrored cells of the generated ASCII rows. */
  lemma AsciiRowsMirror(k: Bracket, h: nat, i: nat)
    requires h >= 2 || (k == Ceil && h == 1)
    requires k == Curly ==> h >= 3
    requires k == Angle ==> h % 2 == 1
    requires i < AsciiRows(k, h)
    ensures RowMirrored(AsciiRow(k, true, h, i), AsciiRow(k, false, h, i), AsciiWidth(k, h))
  {
    var l, r, w := AsciiRow(k, true, h, i), AsciiRow(k, false, h, i), AsciiWidth(k, h);
    if k == Angle {
      AngleRowMirror(h, i, '<', '>');
    } else {
      forall j | 0 <= j < w
        ensures PadAt(r, j) == MirrorChar(PadAt(l, w - 1 - j))
      {
      }
    }
  }

  /** The angle rows are mirror images for odd heights. */
  lemma AngleRowMirror(h: nat, i: nat, lt: char, gt: char)
    requires h % 2 == 1 && i < h && MirrorChar(lt) == gt
    ensures RowMirrored(AngleRow(true, h, i, lt, gt), AngleRow(false, h, i, lt, gt), h / 2 + 1)
  {
    var l, r, w := AngleRow(true, h, i, lt, gt), AngleRow(false, h, i, lt, gt), h / 2 + 1;
    forall j | 0 <= j < w
      ensures PadAt(r, j) == MirrorChar(PadAt(l, w - 1 - j))
    {
      if i != h / 2 {
        var m := EndDistance(h, i);
        assert |l| == h / 2 - m + 1 && |r| == m + 1;
      }
    }
  }

  /** `renderBracketAscii(type, false, h)` is `renderBracketAscii(type, true, h)`
      flipped left to right, except for an angle bracket of even height (its
      left shape keeps a blank first column) and a ceiling over empty content. */
  lemma AsciiMirror(k: Bracket, h: nat)
    requires k == Angle ==> h % 2 == 1 || h <= 1
    requires k == Ceil ==> h >= 1
    ensures AsciiShape(k, false, h).lines == MirrorLines(AsciiShape(k, true, h).lines)
  {
    if h <= 1 && k != Ceil {
      SymbolsMirror(k);
      SingleMirror(AsciiSymbol(k, true), AsciiSymbol(k, false));
    } else if k == Curly && h == 2 {
      PairMirror("/", "\\");
    } else {
      AsciiMirrorTall(k, h);
    }
  }

  /** A one-row block flips to its flipped row. */
  lemma SingleMirror(s: string, t: string)
    requires Mirror(s) == t
    ensures MirrorLines([s]) == [t]
  {
  }

  /** The two-row curly brace: each one-glyph row is the other's mirror image. */
  lemma PairMirror(top: string, bottom: string)
    requires |top| == 1 && |bottom| == 1 && MirrorChar(top[0]) == bottom[0] && MirrorChar(bottom[0]) == top[0]
    ensures MirrorLines([top, bottom]) == [bottom, top]
  {
    assert Mirror(top) == bottom;
    assert Mirror(bottom) == top;
  }

  /** The generated case of `AsciiMirror`. */
  lemma AsciiMirrorTall(k: Bracket, h: nat)
    requires h >= 2 || (k == Ceil && h == 1)
    requires k == Curly ==> h >= 3
    requires k == Angle ==> h % 2 == 1
    ensures FromGenerator(AsciiRows(k, h), AsciiGen(k, false, h)).lines
      == MirrorLines(FromGenerator(AsciiRows(k, h), AsciiGen(k, true, h)).lines)
  {
    var n, w := AsciiRows(k, h), AsciiWidth(k, h);
    var gl, gr := AsciiGen(k, true, h), AsciiGen(k, false, h);
    forall i | 0 <= i < n
      ensures RowMirrored(gl(i), gr(i), w)
    {
      AsciiRowsMirror(k, h, i);
    }
    var il := if k == Floor then n - 1 else 0;
    var ir := if k == Angle then h / 2 else n - 1;
    assert gl(il) == AsciiRow(k, true, h, il);
    assert gr(ir) == AsciiRow(k, false, h, ir);
    if k == Angle {
      assert |AsciiRow(k, true, h, 0)| == |Blank(h / 2 - EndDistance(h, 0))| + 1;
    }
    GeneratorMirror(n, gl, gr, w, il, ir);
  }

  /** Row lengths and mirrored cells of the generated Unicode rows. */
  lemma UnicodeRowsMirror(k: Bracket, h: nat, i: nat)
    requires h >= 2 && (k == Curly ==> h >= 3) && (k == Angle ==> h % 2 == 1)
    requires i < h
    ensures RowMirrored(UnicodeRow(k, true, h, i), UnicodeRow(k, false, h, i), if k == Angle then h / 2 + 1 else 1)
  {
    if k == Angle {
      AngleRowMirror(h, i, '⟨', '⟩');
    } else {
      var l, r := UnicodeRow(k, true, h, i), UnicodeRow(k, false, h, i);
      assert PadAt(r, 0) == MirrorChar(PadAt(l, 0));
    }
  }

  /** `renderBracketUnicode(type, false, h)` is `renderBracketUnicode(type, true, h)`
      flipped left to right, except for an angle bracket of even height. */
  lemma UnicodeMirror(k: Bracket, h: nat)
    requires k == Angle ==> h % 2 == 1 || h <= 1
    ensures UnicodeShape(k, false, h).lines == MirrorLines(UnicodeShape(k, true, h).lines)
  {
    if h <= 1 {
      SymbolsMirror(k);
      SingleMirror(UnicodeSymbol(k, true), UnicodeSymbol(k, false));
    } else if k == Curly && h == 2 {
      PairMirror("⎰", "⎱");
    } else {
      UnicodeMirrorTall(k, h);
    }
  }

  /** The generated case of `UnicodeMirror`. */
  lemma UnicodeMirrorTall(k: Bracket, h: nat)
    requires h >= 2 && (k == Curly ==> h >= 3) && (k == Angle ==> h % 2 == 1)
    ensures FromGenerator(h, UnicodeGen(k, false, h)).lines == MirrorLines(FromGenerator(h, UnicodeGen(k, true, h)).lines)
  {
    var w := if k == Angle then h / 2 + 1 else 1;
    var gl, gr := UnicodeGen(k, true, h), UnicodeGen(k, false, h);
    forall i | 0 <= i < h
      ensures RowMirrored(gl(i), gr(i), w)
    {
      UnicodeRowsMirror(k, h, i);
    }
    var ir := if k == Angle then h / 2 else 0;
    assert gl(0) == UnicodeRow(k, true, h, 0);
    assert gr(ir) == UnicodeRow(k, false, h, ir);
    if k == Angle {
      assert |UnicodeRow(k, true, h, 0)| == |Blank(h / 2 - EndDistance(h, 0))| + 1;
    }
    GeneratorMirror(h, gl, gr, w, 0, ir);
  }
}

=== FILE: builders.dfy ===
/** The static factory methods of `RenderableExpression`: they pick node
    classes, merge scripts, decide on augmented grids and reject malformed
    arguments. Methods that throw return a `Result`. */
module Builders {
  import opened Java
  import opened Wrappers
  import opened Strings
  import opened BracketShapes
  import opened Expr
  import Glyphs
  import Precedence
  import Rationals

  const DEFAULT_MATRIX_BRACKET: Bracket := Square

  // ---------------------------------------------------------------------------
  // Numbers and names

  /** `num(numerator, denominator)`: a zero denominator is an arithmetic
      error; otherwise the value is kept in lowest terms. */
  function Num(n: int, d: int): (r: Result<Node>)
    ensures r.Ok? <==> d != 0
    ensures r.Err? ==> r.error == Arithmetic
    ensures r.Ok? ==> (r.value.Rational?
                       && Rationals.Normal(r.value.numerator, r.value.denominator)
                       && r.value.numerator * d == n * r.value.denominator)
  {
    if d == 0 then Err(Arithmetic)
    else
      Rationals.FromPartsNormal(n, d);
      var (p, q) := Rationals.FromParts(n, d).value;
      Ok(Rational(p, q))
  }

  /** `num(value)`: an integer is its own lowest-terms fraction. */
  function NumInteger(v: int): (r: Node)
    ensures r == Rational(v, 1)
  {
    var x := Num(v, 1).value;
    assert Rationals.Normal(v, 1) by {
      assert Rationals.Gcd(Java.Abs(v), 1) == Rationals.Gcd(1, 0);
    }
    Rationals.NormalUnique(x.numerator, x.denominator, v, 1);
    x
  }

  /** `num(String)`: the text is kept verbatim. */
  function NumLiteral(s: string): (r: Node)
    ensures r.NumberLiteral? && r.digits == s
    ensures WellFormed(r)
  {
    NumberLiteral(s)
  }

  function Name(s: string): Node { Literal(false, s) }

  function Symbol(s: string): Node { Literal(true, s) }

  /** `name(inline, ascii, unicode, latex, mathML)` and `symbol(...)`: the inline
      text must fit on one line. */
  function SpecialOf(inline: string, ascii: string, unicode: string, latex: string): (r: Result<Node>)
    ensures r.Ok? <==> !Contains(inline, '\n')
    ensures r.Err? ==> r.error == IllegalArgument
    ensures r.Ok? ==> r.value == Glyphs.Special(inline, ascii, unicode, latex)
  {
    if Contains(inline, '\n') then Err(IllegalArgument)
    else Ok(Glyphs.Special(inline, ascii, unicode, latex))
  }

  /** The overloads taking ready-made pictures. */
  function SpecialArtOf(inline: string, ascii: Block, unicode: Block, latex: string): (r: Result<Node>)
    ensures r.Ok? <==> !Contains(inline, '\n')
    ensures r.Err? ==> r.error == IllegalArgument
    ensures r.Ok? ==> r.value == SpecialLiteral(inline, ascii, unicode, latex)
  {
    if Contains(inline, '\n') then Err(IllegalArgument)
    else Ok(SpecialLiteral(inline, ascii, unicode, latex))
  }

  /** `text(s)`: binds as tightly as possible. */
  function TextOf(s: string): (r: Node)
    ensures r.Text? && r.text == s && r.prec == Precedence.MAX
    ensures WellFormed(r)
  {
    Text(s, Precedence.MAX)
  }

  // ---------------------------------------------------------------------------
  // Brackets

  function Par(inner: Node): (r: Node)
    ensures r.Brackets? && r.kind == Round && r.inner == inner
    ensures WellFormed(r) <==> WellFormed(inner)
  {
    Brackets(Round, inner)
  }

  function Left(k: Bracket, inner: Node): Node { BracketLiteral(k, true, inner) }

  function Right(k: Bracket, inner: Node): Node { BracketLiteral(k, false, inner) }

  // ---------------------------------------------------------------------------
  // Grids and matrices

  /** `grid(rows)`: the Grid constructor's checks. */
  function GridRows(rows: seq<Row>): (r: Result<Node>)
    ensures r.Ok? <==> Rectangular(rows)
    ensures r.Err? ==> r.error == IllegalArgument
    ensures r.Ok? ==> r.value == Grid(rows)
    ensures r.Ok? && CellsWellFormed(rows) ==> WellFormed(r.value)
  {
    if Rectangular(rows) then Ok(Grid(rows)) else Err(IllegalArgument)
  }

  lemma MulStep(i: int, m: int, n: int)
    requires 0 <= i < m && n >= 0
    ensures i * n + n <= m * n
  {
    var k := m - i - 1;
    MulNonNegative(k, n);
    assert m * n == (i + 1) * n + k * n;
  }

  lemma MulNonNegative(a: int, b: int)
    requires a >= 0 && b >= 0
    ensures a * b >= 0
  {
  }

  /** Row `i` of an `m` by `n` grid filled row by row. */
  function RowOf(xs: seq<Node>, n: nat, i: nat): (row: Row)
    requires i * n + n <= |xs|
    ensures |row.cells| == n
    ensures forall j :: 0 <= j < n ==> row.cells[j] == xs[i * n + j]
  {
    Row(xs[i * n .. i * n + n])
  }

  /** Row `i` of a grid holds elements `i * n` to `i * n + n - 1`. */
  ghost predicate FilledFrom(rows: seq<Row>, n: nat, xs: seq<Node>) {
    forall i :: 0 <= i < |rows| ==> i * n + n <= |xs| && rows[i].cells == xs[i * n .. i * n + n]
  }

  lemma FilledWellFormed(rows: seq<Row>, n: nat, xs: seq<Node>)
    requires FilledFrom(rows, n, xs)
    ensures ListWellFormed(xs) ==> CellsWellFormed(rows)
  {
    if ListWellFormed(xs) {
      forall i | 0 <= i < |rows|
        ensures ListWellFormed(rows[i].cells)
      {
        var k := i * n;
        assert k + n <= |xs| && rows[i].cells == xs[k .. k + n];
        forall j | 0 <= j < n
          ensures WellFormed(rows[i].cells[j])
        {
          assert rows[i].cells[j] == xs[k + j];
        }
      }
    }
  }

  /** The rows of an `m` by `n` grid filled row by row from `xs`. */
  function FillRows(m: nat, n: nat, xs: seq<Node>): (rows: seq<Row>)
    requires m > 0 && n > 0 && m * n == |xs|
    ensures Rectangular(rows) && |rows| == m
    ensures FilledFrom(rows, n, xs)
    ensures ListWellFormed(xs) ==> CellsWellFormed(rows)
  {
    var rows := seq(m, (i: int) requires 0 <= i < m => MulStep(i, m, n); RowOf(xs, n, i));
    assert FilledFrom(rows, n, xs) by {
      forall i | 0 <= i < m
        ensures i * n + n <= |xs| && rows[i].cells == xs[i * n .. i * n + n]
      {
        MulStep(i, m, n);
      }
    }
    assert forall i :: 0 <= i < m ==> |rows[i].cells| == n;
    FilledWellFormed(rows, n, xs);
    rows
  }

  /** `grid(m, n, elements)`: `m` rows of `n` elements taken row by row.
      The size check compares the 32-bit product, so a product that wraps
      onto the number of elements passes it; the array allocation then
      refuses a negative `n`, the Grid constructor an empty grid, and the
      row-by-row copy runs past the end of the elements when the true
      product is larger than their number. */
  function GridOf(m: Int32, n: Int32, xs: seq<Node>): (r: Result<Node>)
    ensures r.Ok? <==> m > 0 && n > 0 && m * n == |xs| && |xs| <= MAX_INT
    ensures r.Err? && m >= 0 && Mul(m, n) == |xs| && n < 0 ==> r.error == NegativeArraySize
    ensures r.Err? && m > 0 && Mul(m, n) == |xs| && n > 0 ==> r.error == IndexOutOfBounds && m * n > MAX_INT
    ensures r.Err? && (m < 0 || Mul(m, n) != |xs| || m == 0 <= n || n == 0) ==> r.error == IllegalArgument
    ensures r.Ok? ==> r.value.Grid? && |r.value.rows| == m && FilledFrom(r.value.rows, n, xs)
    ensures r.Ok? && ListWellFormed(xs) ==> WellFormed(r.value)
  {
    if m < 0 || Mul(m, n) != |xs| then Err(IllegalArgument)
    else if n < 0 then Err(NegativeArraySize)
    else if m == 0 || n == 0 then Err(IllegalArgument)
    else if m * n != |xs| then Err(IndexOutOfBounds)
    else Ok(Grid(FillRows(m, n, xs)))
  }

  /** Sizes whose product overflows: `2` by `-2^31` wraps to an empty
      product and fails on the allocation, `2^16` by `2^16` wraps to an
      empty product and fails in the copy. */
  lemma GridOfWraps()
    ensures GridOf(2, MIN_INT, []) == Err(NegativeArraySize)
    ensures GridOf(0x1_0000, 0x1_0000, []) == Err(IndexOutOfBounds)
    ensures GridOf(0, -1, []) == Err(NegativeArraySize)
  {
  }

  /** `row(elements)`: a grid of one row. */
  function RowGrid(xs: seq<Node>): (r: Result<Node>)
    ensures r.Ok? <==> xs != []
    ensures r.Ok? ==> r.value == Grid([Row(xs)])
  {
    GridRows([Row(xs)])
  }

  /** `column(elements)`: a grid of one column. */
  function ColumnGrid(xs: seq<Node>): (r: Result<Node>)
    ensures r.Ok? <==> xs != []
    ensures r.Ok? ==> (r.value.Grid? && |r.value.rows| == |xs|
                       && forall i :: 0 <= i < |xs| ==> r.value.rows[i] == Row([xs[i]]))
  {
    if xs == [] then Err(IllegalArgument)
    else
      var rows := FillRows(|xs|, 1, xs);
      forall i | 0 <= i < |xs|
        ensures rows[i] == Row([xs[i]])
      {
        assert rows[i].cells[0] == xs[i * 1 + 0];
      }
      GridRows(rows)
  }

  /** `matrix(bracketType, rows)`: brackets of the given kind around the grid,
      or the bare grid when no kind is given. */
  function Matrix(k: Option<Bracket>, rows: seq<Row>): (r: Result<Node>)
    ensures r.Ok? <==> Rectangular(rows)
    ensures r.Ok? ==> r.value == (if k.Some? then Brackets(k.value, Grid(rows)) else Grid(rows))
  {
    var g :- GridRows(rows);
    Ok(if k.Some? then Brackets(k.value, g) else g)
  }

  /** `vec(bracketType, elements)`: a column vector, that is the one-column
      grid of the elements in brackets of the given kind. */
  function Vec(k: Option<Bracket>, xs: seq<Node>): (r: Result<Node>)
    ensures r.Ok? <==> xs != []
    ensures r.Ok? ==> (ColumnGrid(xs).Ok?
      && r.value == (if k.Some? then Brackets(k.value, ColumnGrid(xs).value) else ColumnGrid(xs).value))
  {
    var rows := seq(|xs|, (i: int) requires 0 <= i < |xs| => Row([xs[i]]));
    var c := ColumnGrid(xs);
    assert c.Ok? ==> c.value == Grid(rows);
    Matrix(k, rows)
  }

  /** `rowVec(bracketType, elements)`: a row vector, that is the one-row grid
      of the elements in brackets of the given kind. */
  function RowVec(k: Option<Bracket>, xs: seq<Node>): (r: Result<Node>)
    ensures r.Ok? <==> xs != []
    ensures r.Ok? ==> (RowGrid(xs).Ok?
      && r.value == (if k.Some? then Brackets(k.value, RowGrid(xs).value) else RowGrid(xs).value))
  {
    Matrix(k, [Row(xs)])
  }

  /** `matrix(rows)`: brackets chosen by the options at rendering time. */
  function MatrixRows(rows: seq<Row>): (r: Result<Node>)
    ensures r.Ok? <==> Rectangular(rows)
    ensures r.Ok? ==> r.value == MatrixBrackets(Grid(rows))
  {
    var g :- GridRows(rows);
    Ok(MatrixBrackets(g))
  }

  /** `matrix(m, n, elements)`. */
  function MatrixOf(m: Int32, n: Int32, xs: seq<Node>): (r: Result<Node>)
    ensures r.Ok? <==> m > 0 && n > 0 && m * n == |xs| && |xs| <= MAX_INT
    ensures r.Err? ==> GridOf(m, n, xs).Err? && r.error == GridOf(m, n, xs).error
    ensures r.Ok? ==> r.value.MatrixBrackets? && r.value.inner == GridOf(m, n, xs).value
  {
    var g :- GridOf(m, n, xs);
    Ok(MatrixBrackets(g))
  }

  /** `mid(a, b)`: two grids of equally many rows become an augmented
      matrix, anything else a plain vertical bar. */
  function Mid(a: Node, b: Node): (r: Node)
    ensures r.AugmentedGrid? <==> a.Grid? && b.Grid? && |a.rows| == |b.rows|
    ensures r.AugmentedGrid? ==> r.left == a.rows && r.right == b.rows
    ensures !r.AugmentedGrid? ==> r == Middle(a, b)
    ensures WellFormed(a) && WellFormed(b) ==> WellFormed(r)
  {
    if a.Grid? && b.Grid? && |a.rows| == |b.rows| then AugmentedGrid(a.rows, b.rows)
    else Middle(a, b)
  }

  /** `augMatrix(bracketType, a, b)`. */
  function AugMatrix(k: Option<Bracket>, a: Node, b: Node): (r: Node)
    ensures k.Some? ==> r == Brackets(k.value, Mid(a, b))
    ensures k.None? ==> r == Mid(a, b)
    ensures WellFormed(r) <==> WellFormed(a) && WellFormed(b)
  {
    if k.Some? then Brackets(k.value, Mid(a, b)) else Mid(a, b)
  }

  /** `set(elementPattern, predicate)`: curly braces around a vertical bar. */
  function SetOf(pattern: Node, condition: Node): (r: Node)
    ensures r.Brackets? && r.kind == Curly && r.inner == Mid(pattern, condition)
    ensures WellFormed(r) <==> WellFormed(pattern) && WellFormed(condition)
  {
    Brackets(Curly, Mid(pattern, condition))
  }

  // ---------------------------------------------------------------------------
  // Lists, calls, concatenation

  function ListOf(xs: seq<Node>): (r: Node)
    ensures r.List? && r.delimiter == Symbol(",") && r.elements == xs
    ensures WellFormed(r) <==> ListWellFormed(xs)
  {
    List(Symbol(","), xs)
  }

  function Tuple(xs: seq<Node>): (r: Node)
    ensures r == Par(ListOf(xs))
    ensures WellFormed(r) <==> ListWellFormed(xs)
  {
    Par(ListOf(xs))
  }

  function Implicit(a: Node, b: Node): Node { Concatenation(a, b, true) }

  function Concat(a: Node, b: Node): Node { Concatenation(a, b, false) }

  /** `call(f, params)`: the function followed by its parameters in round
      brackets. A single parameter that already is in round brackets is not
      wrapped a second time; several (or no) parameters form a list. */
  function Call(f: Node, params: seq<Node>): (r: Node)
    ensures r.Concatenation? && r.maybeSpace && r.a == f
    ensures r.b.Brackets? && r.b.kind == Round
    ensures |params| != 1 ==> r.b.inner == ListOf(params)
    ensures |params| == 1 ==> (r.b == params[0] <==> params[0].Brackets? && params[0].kind == Round)
    ensures |params| == 1 && r.b != params[0] ==> r.b.inner == params[0]
  {
    if |params| != 1 then Implicit(f, Par(ListOf(params)))
    else if params[0].Brackets? && params[0].kind == Round then Implicit(f, params[0])
    else Implicit(f, Par(params[0]))
  }

  // ---------------------------------------------------------------------------
  // Operators

  datatype BinaryOp =
    | Plus | Minus | Multiply | Divide | Cross | Modulo
    | Equals | NotEquals | Approx | NotApprox
    | Less | NotLess | LessOrEqual | NotLessOrEqual
    | Greater | NotGreater | GreaterOrEqual | NotGreaterOrEqual
    | Define | DefineReverse | In | NotIn | Owns | NotOwns
    | And | Or

  function OpSymbol(op: BinaryOp): Node {
    match op
    case Plus => Glyphs.PLUS
    case Minus => Glyphs.MINUS
    case Multiply => Glyphs.MULTIPLY
    case Divide => Glyphs.DIVIDE
    case Cross => Glyphs.CROSS
    case Modulo => Glyphs.MODULO
    case Equals => Glyphs.EQUALS
    case NotEquals => Glyphs.NOT_EQUALS
    case Approx => Glyphs.APPROXIMATELY
    case NotApprox => Glyphs.NOT_APPROXIMATELY
    case Less => Glyphs.LESS
    case NotLess => Glyphs.NOT_LESS
    case LessOrEqual => Glyphs.LESS_OR_EQUAL
    case NotLessOrEqual => Glyphs.NOT_LESS_OR_EQUAL
    case Greater => Glyphs.GREATER
    case NotGreater => Glyphs.NOT_GREATER
    case GreaterOrEqual => Glyphs.GREATER_OR_EQUAL
    case NotGreaterOrEqual => Glyphs.NOT_GREATER_OR_EQUAL
    case Define => Glyphs.DEFINE
    case DefineReverse => Glyphs.DEFINE_REVERSE
    case In => Glyphs.IN
    case NotIn => Glyphs.NOT_IN
    case Owns => Glyphs.CONTAINS
    case NotOwns => Glyphs.CONTAINS_NOT
    case And => Glyphs.AND
    case Or => Glyphs.OR
  }

  function OpPrecedence(op: BinaryOp): Int32 {
    match op
    case Plus | Minus => Precedence.PLUS
    case Multiply | Cross => Precedence.MULTIPLY
    case Divide => Precedence.DIVIDE
    case Modulo => Precedence.MODULO
    case Equals | NotEquals | Approx | NotApprox => Precedence.EQUALS
    case Less | NotLess => Precedence.LESS
    case LessOrEqual | NotLessOrEqual => Precedence.LESS_OR_EQUAL
    case Greater | NotGreater => Precedence.GREATER
    case GreaterOrEqual | NotGreaterOrEqual => Precedence.GREATER_OR_EQUAL
    case Define | DefineReverse => Precedence.DEFINE
    case In | NotIn | Owns | NotOwns => Precedence.IN
    case And => Precedence.AND
    case Or => Precedence.OR
  }

  /** Every operator symbol is a leaf. */
  lemma OpSymbolLeaf(op: BinaryOp)
    ensures OpSymbol(op).SpecialLiteral? || OpSymbol(op).Literal?
    ensures WellFormed(OpSymbol(op))
  {
    match op
    case Plus | Minus | Multiply | Divide | Cross | Modulo =>
    case Equals | NotEquals | Approx | NotApprox =>
    case Less | NotLess | LessOrEqual | NotLessOrEqual =>
    case Greater | NotGreater | GreaterOrEqual | NotGreaterOrEqual =>
    case Define | DefineReverse | In | NotIn | Owns | NotOwns | And | Or =>
  }

  /** Whether `a op (b op c)` may drop its brackets. */
  predicate OpAssociative(op: BinaryOp) {
    !(op.Minus? || op.Divide? || op.Modulo? || op.In? || op.NotIn? || op.Owns? || op.NotOwns?)
  }

  /** `plus(a, b)`, `minus(a, b)`, ...: an infix operation with the operator's
      symbol, precedence and associativity; adding a negation is a subtraction. */
  function Binary(op: BinaryOp, a: Node, b: Node): (r: Node)
    ensures r.Infix? && r.a == a
    ensures op == Plus && b.Negate? ==> r.symbol == OpSymbol(Minus) && r.b == b.value && !r.associative
    ensures !(op == Plus && b.Negate?) ==>
      r.symbol == OpSymbol(op) && r.b == b && r.prec == OpPrecedence(op) && r.associative == OpAssociative(op)
    ensures WellFormed(a) && WellFormed(b) ==> WellFormed(r)
  {
    OpSymbolLeaf(op);
    OpSymbolLeaf(Minus);
    if op == Plus && b.Negate? then Infix(OpSymbol(Minus), a, b.value, OpPrecedence(Minus), OpAssociative(Minus))
    else Infix(OpSymbol(op), a, b, OpPrecedence(op), OpAssociative(op))
  }

  /** `infix(String symbol, ...)`: the symbol must fit on one line. */
  function InfixNamed(symbol: string, a: Node, b: Node, prec: Int32, associative: bool): (r: Result<Node>)
    ensures r.Ok? <==> !Contains(symbol, '\n')
    ensures r.Err? ==> r.error == IllegalArgument
    ensures r.Ok? ==> r.value == Infix(Symbol(symbol), a, b, prec, associative)
  {
    if Contains(symbol, '\n') then Err(IllegalArgument) else Ok(Infix(Symbol(symbol), a, b, prec, associative))
  }

  function Neg(x: Node): Node { Negate(x) }

  function Not(x: Node): (r: Node)
    ensures r == Prefix(Glyphs.NOT, x, Precedence.NOT)
    ensures WellFormed(r) <==> WellFormed(x)
  {
    Prefix(Glyphs.NOT, x, Precedence.NOT)
  }

  function PrefixNamed(symbol: string, x: Node, prec: Int32): (r: Result<Node>)
    ensures r.Ok? <==> !Contains(symbol, '\n')
    ensures r.Err? ==> r.error == IllegalArgument
    ensures r.Ok? ==> r.value == Prefix(Symbol(symbol), x, prec)
  {
    if Contains(symbol, '\n') then Err(IllegalArgument) else Ok(Prefix(Symbol(symbol), x, prec))
  }

  /** `postfix(symbol, value, precedence)`. */
  function PostfixOf(symbol: Node, x: Node, prec: Int32): (r: Node)
    ensures r.Postfix? && r.symbol == symbol && r.value == x && r.prec == prec
    ensures WellFormed(r) <==> WellFormed(symbol) && WellFormed(x)
  {
    Postfix(symbol, x, prec)
  }

  function PostfixNamed(symbol: string, x: Node, prec: Int32): (r: Result<Node>)
    ensures r.Ok? <==> !Contains(symbol, '\n')
    ensures r.Err? ==> r.error == IllegalArgument
    ensures r.Ok? ==> r.value == PostfixOf(Symbol(symbol), x, prec)
  {
    if Contains(symbol, '\n') then Err(IllegalArgument) else Ok(PostfixOf(Symbol(symbol), x, prec))
  }

  function Factorial(x: Node): (r: Node)
    ensures r == PostfixOf(Glyphs.FACTORIAL, x, Precedence.FACTORIAL)
    ensures WellFormed(r) <==> WellFormed(x)
  {
    PostfixOf(Glyphs.FACTORIAL, x, Precedence.FACTORIAL)
  }

  /** `percent(value)` as written: the constructor receives the percent sign
      in the operand's place and the operand in the symbol's place. */
  function PercentAsWritten(x: Node): (r: Node)
    ensures r.Postfix? && r.value == Glyphs.PERCENT && r.symbol == x
  {
    Postfix(x, Glyphs.PERCENT, Precedence.PERCENT)
  }

  /** `deg(value)` as written, with the same exchange. */
  function DegAsWritten(x: Node): (r: Node)
    ensures r.Postfix? && r.value == Glyphs.DEGREE && r.symbol == x
  {
    Postfix(x, Glyphs.DEGREE, Precedence.DEGREE)
  }

  /** The written percent and degree nodes differ from what `postfix` builds
      for every operand other than the sign itself. */
  lemma PercentAsWrittenSwapped(x: Node)
    requires x != Glyphs.PERCENT && x != Glyphs.DEGREE
    ensures PercentAsWritten(x) != PostfixOf(Glyphs.PERCENT, x, Precedence.PERCENT)
    ensures DegAsWritten(x) != PostfixOf(Glyphs.DEGREE, x, Precedence.DEGREE)
  {
  }

  /** `percent(value)` as `factorial` does it: the operand, then the sign. */
  function Percent(x: Node): (r: Node)
    ensures r.Postfix? && r.value == x && r.symbol == Glyphs.PERCENT && r.prec == Precedence.PERCENT
  {
    PostfixOf(Glyphs.PERCENT, x, Precedence.PERCENT)
  }

  function Deg(x: Node): (r: Node)
    ensures r.Postfix? && r.value == x && r.symbol == Glyphs.DEGREE && r.prec == Precedence.DEGREE
  {
    PostfixOf(Glyphs.DEGREE, x, Precedence.DEGREE)
  }

  // ---------------------------------------------------------------------------
  // Scripts, roots, big operators

  /** `sup(a, b)` (and `pow`): a superscript on a subscripted base joins it. */
  function Sup(a: Node, b: Node): (r: Node)
    ensures r.SuperSubscript? <==> a.Subscript?
    ensures WellFormed(a) && WellFormed(b) ==> WellFormed(r)
  {
    if a.Subscript? then SuperSubscript(a.a, b, a.b) else Superscript(a, b)
  }

  /** `sub(a, b)`: a subscript on a superscripted base joins it. */
  function Sub(a: Node, b: Node): (r: Node)
    ensures r.SuperSubscript? <==> a.Superscript?
    ensures WellFormed(a) && WellFormed(b) ==> WellFormed(r)
  {
    if a.Superscript? then SuperSubscript(a.a, a.b, b) else Subscript(a, b)
  }

  /** Attaching a superscript and a subscript gives the same node in either
      order, and the base and both scripts end up in their places. */
  lemma ScriptsCommute(x: Node, p: Node, s: Node)
    requires !x.Subscript? && !x.Superscript?
    ensures Sub(Sup(x, p), s) == Sup(Sub(x, s), p) == SuperSubscript(x, p, s)
  {
  }

  /** `pow(name("e"), v)` is the plain power node, well formed with `v` and
      smaller than `Exp(v)`. */
  lemma ExpPowerWellFormed(v: Node)
    requires WellFormed(v)
    ensures Sup(Name("e"), v) == Superscript(Name("e"), v)
    ensures WellFormed(Superscript(Name("e"), v))
    ensures Size(Superscript(Name("e"), v)) <= 3 + Size(v)
  {
  }

  function Sqrt(v: Node): (r: Node)
    ensures r == Root(NumberLiteral(""), v)
    ensures WellFormed(r) <==> WellFormed(v)
  {
    Root(NumLiteral(""), v)
  }

  function Cbrt(v: Node): (r: Node)
    ensures r.Root? && r.value == v && r.degree.NumberLiteral? && r.degree.digits == "3"
    ensures WellFormed(r) <==> WellFormed(v)
  {
    Root(NumLiteral("3"), v)
  }

  /** `big(symbol, subscript, superscript, value)`; either script may be absent. */
  function Big(symbol: Node, sub: Option<Node>, sup: Option<Node>, value: Node): (r: Node)
    ensures r.BigSymbol? && r.symbol == symbol && r.under == sub && r.over == sup && r.value == value
    ensures WellFormed(r) <==> WellFormed(symbol) && OptWellFormed(sub) && OptWellFormed(sup) && WellFormed(value)
  {
    BigSymbol(symbol, sub, sup, value)
  }

  function Sum(sub: Node, sup: Option<Node>, value: Node): (r: Node)
    ensures r == Big(Glyphs.SUM, Some(sub), sup, value)
    ensures WellFormed(r) <==> WellFormed(sub) && OptWellFormed(sup) && WellFormed(value)
  {
    Big(Glyphs.SUM, Some(sub), sup, value)
  }

  function Prod(sub: Node, sup: Option<Node>, value: Node): (r: Node)
    ensures r == Big(Glyphs.PRODUCT, Some(sub), sup, value)
    ensures WellFormed(r) <==> WellFormed(sub) && OptWellFormed(sup) && WellFormed(value)
  {
    Big(Glyphs.PRODUCT, Some(sub), sup, value)
  }

  /** `lim(var, target, value)`: "lim" with `var -> target` underneath. */
  function Lim(v: Node, target: Node, value: Node): (r: Node)
    ensures r.BigSymbol? && r.symbol == Glyphs.LIMES && r.over.None? && r.value == value
    ensures r.under == Some(Infix(Glyphs.Arrow(Some(true), false), v, target, Precedence.LAMBDA, false))
    ensures WellFormed(r) <==> WellFormed(v) && WellFormed(target) && WellFormed(value)
  {
    var arrow := Infix(Glyphs.Arrow(Some(true), false), v, target, Precedence.LAMBDA, false);
    assert WellFormed(Glyphs.LIMES) && WellFormed(Glyphs.Arrow(Some(true), false));
    assert OptWellFormed(Some(arrow)) <==> WellFormed(v) && WellFormed(target);
    Big(Glyphs.LIMES, Some(arrow), None, value)
  }

  /** `integral(lower, upper, value, indeterminant)`: the integrand is
      followed by " d" and the variable, without implicit spacing. */
  function IntegralOf(lower: Option<Node>, upper: Option<Node>, value: Node, variable: Node): (r: Node)
    ensures r.Integral? && r.lower == lower && r.upper == upper
    ensures r.value == Concat(value, Concat(NumberLiteral(" d"), variable))
    ensures WellFormed(r) <==> OptWellFormed(lower) && OptWellFormed(upper) && WellFormed(value) && WellFormed(variable)
  {
    var integrand := Concat(value, Concat(NumLiteral(" d"), variable));
    assert WellFormed(integrand) <==> WellFormed(value) && WellFormed(variable);
    Integral(lower, upper, integrand)
  }
}

=== FILE: canvas.dfy ===
/** `AsciiArt`: an immutable block of equally long text lines with a vertical
    anchor row (the center) used to align neighbouring blocks. */
module Canvas {
  import opened Strings
  import opened Java

  datatype Art = Art(lines: seq<string>, center: int) {

    function Height(): nat { |lines| }

    /** The length of the first line; a block without lines has width 0. */
    function Width(): nat { if lines == [] then 0 else |lines[0]| }

    /** What every constructor and operation establishes: all lines equally
        long, and the center is a row index or the row just below the block. */
    ghost predicate Valid() {
      (forall i :: 0 <= i < |lines| ==> |lines[i]| == Width())
      && 0 <= center <= |lines|
    }

    function Cell(i: nat, j: nat): char
      requires Valid() && i < Height() && j < Width()
    {
      lines[i][j]
    }
  }

  /** Two well-formed blocks with the same size and the same cells have the same lines. */
  lemma SameCells(a: Art, b: Art)
    requires a.Valid() && b.Valid()
    requires a.Height() == b.Height() && a.Width() == b.Width()
    requires forall i, j :: 0 <= i < a.Height() && 0 <= j < a.Width() ==> a.lines[i][j] == b.lines[i][j]
    ensures a.lines == b.lines
  {
    forall i | 0 <= i < a.Height()
      ensures a.lines[i] == b.lines[i]
    {
      assert |a.lines[i]| == |b.lines[i]|;
    }
  }

  // ---------------------------------------------------------------------------
  // Construction

  /** The length of the longest line. */
  function MaxLen(ls: seq<string>): (w: nat)
    ensures forall i :: 0 <= i < |ls| ==> |ls[i]| <= w
    ensures ls == [] ==> w == 0
    ensures ls != [] ==> exists i :: 0 <= i < |ls| && |ls[i]| == w
  {
    if ls == [] then 0
    else
      var rest := MaxLen(ls[1..]);
      assert forall i :: 1 <= i < |ls| ==> ls[i] == ls[1..][i - 1];
      if |ls[0]| >= rest then |ls[0]| else rest
  }

  /** `pad()`: every line is filled with spaces up to the longest one. */
  function Pad(ls: seq<string>): (r: seq<string>)
    ensures |r| == |ls|
    ensures forall i :: 0 <= i < |r| ==> |r[i]| == MaxLen(ls)
    ensures forall i, j :: 0 <= i < |r| && 0 <= j < MaxLen(ls) ==>
      r[i][j] == if j < |ls[i]| then ls[i][j] else ' '
  {
    var w := MaxLen(ls);
    seq(|ls|, i requires 0 <= i < |ls| => ls[i] + Blank(w - |ls[i]|))
  }

  /** Lines that are already equally long need no padding. */
  lemma PadEven(ls: seq<string>)
    requires forall i :: 0 <= i < |ls| ==> |ls[i]| == |ls[0]|
    ensures Pad(ls) == ls
  {
    if ls != [] {
      assert MaxLen(ls) == |ls[0]|;
      forall i | 0 <= i < |ls|
        ensures Pad(ls)[i] == ls[i]
      {
        assert Pad(ls)[i] == ls[i] + Blank(0);
      }
    }
  }

  /** `new AsciiArt(String[])`: the lines padded, centered on the middle row. */
  function FromLines(ls: seq<string>): (r: Art)
    ensures r.Valid()
    ensures r.Height() == |ls| && r.center == |ls| / 2
    ensures r.Width() == MaxLen(ls)
    ensures forall i, j :: 0 <= i < |ls| && 0 <= j < r.Width() ==>
      r.lines[i][j] == if j < |ls[i]| then ls[i][j] else ' '
  {
    Art(Pad(ls), |ls| / 2)
  }

  /** `new AsciiArt(String)`: one row per line of the text, padded to the
      longest line, centered on the middle row. */
  function FromText(s: string): (r: Art)
    ensures r.Valid()
    ensures r.Height() == |Lines(s)| && r.center == |Lines(s)| / 2
    ensures r.Width() == MaxLen(Lines(s))
    ensures forall i, j :: 0 <= i < |Lines(s)| && 0 <= j < r.Width() ==>
      r.lines[i][j] == if j < |Lines(s)[i]| then Lines(s)[i][j] else ' '
  {
    FromLines(Lines(s))
  }

  /** `new AsciiArt(int, IntFunction<String>)`: row `i` is `gen(i)`. */
  function FromGenerator(height: nat, gen: nat -> string): (r: Art)
    ensures r.Valid()
    ensures r.Height() == height && r.center == height / 2
    ensures forall i :: 0 <= i < height ==> |gen(i)| <= r.Width()
    ensures height > 0 ==> exists i :: 0 <= i < height && |gen(i)| == r.Width()
    ensures forall i, j :: 0 <= i < height && 0 <= j < r.Width() ==>
      r.lines[i][j] == if j < |gen(i)| then gen(i)[j] else ' '
  {
    var ls := seq(height, (i: int) requires 0 <= i => gen(i));
    assert forall i :: 0 <= i < height ==> ls[i] == gen(i);
    FromLines(ls)
  }

  /** `AsciiArt.empty`: a blank block of the given size. */
  function Empty(w: nat, h: nat): (r: Art)
    ensures r.Valid()
    ensures r.Height() == h && r.center == h / 2
    ensures h > 0 ==> r.Width() == w
    ensures forall i, j :: 0 <= i < h && 0 <= j < r.Width() ==> r.lines[i][j] == ' '
  {
    Art(seq(h, _ => Blank(w)), h / 2)
  }

  /** `toString()`: the lines joined by line feeds. */
  function ToString(a: Art): string {
    JoinLines(a.lines)
  }

  /** Printing a block and reading the text back recovers its rows, as long
      as the rows are free of line breaks and the block has some width. */
  lemma FromTextToString(a: Art)
    requires a.Valid() && a.Width() > 0
    requires forall i :: 0 <= i < a.Height() ==> NoTerminator(a.lines[i])
    ensures FromText(ToString(a)).lines == a.lines
    ensures FromText(ToString(a)).center == a.Height() / 2
  {
    LinesJoinLines(a.lines);
    var r := FromText(ToString(a));
    assert MaxLen(a.lines) == a.Width();
    SameCells(r, a);
  }

  /** A glyph text without line breaks is a one-row block. */
  lemma FromTextSingleLine(s: string)
    requires NoTerminator(s) && s != []
    ensures FromText(s) == Art([s], 0)
  {
    assert JoinLines([s]) == s;
    LinesJoinLines([s]);
    assert MaxLen([s]) == |s|;
    assert Pad([s]) == [s + Blank(0)];
    assert s + Blank(0) == s;
  }

  /** A lone line feed ends one empty line: a single row of width 0. */
  lemma FromTextLineFeed()
    ensures FromText("\n") == Art([""], 0)
  {
    assert LineEnd("\n") == 0;
    assert Lines("\n") == [""];
    assert Pad([""]) == [""];
  }

  /** A text of two non-empty lines is a two-row block. */
  lemma FromTextTwoLines(s: string, t: string)
    requires NoTerminator(s) && NoTerminator(t) && t != []
    ensures FromText(s + "\n" + t) == FromLines([s, t])
  {
    assert JoinLines([s, t]) == s + "\n" + JoinLines([t]);
    assert JoinLines([s, t]) == s + "\n" + t;
    LinesJoinLines([s, t]);
  }

  /** `setCenter`: the same rows anchored at another row. */
  function SetCenter(a: Art, c: int): (r: Art)
    requires a.Valid() && 0 <= c <= a.Height()
    ensures r.Valid() && r.lines == a.lines && r.center == c
  {
    a.(center := c)
  }

  /** `recalculateCenter`: anchor at the middle row. */
  function RecalculateCenter(a: Art): (r: Art)
    requires a.Valid()
    ensures r.Valid() && r.lines == a.lines && r.center == a.Height() / 2
  {
    SetCenter(a, a.Height() / 2)
  }

  // ---------------------------------------------------------------------------
  // Drawing one block onto another

  /** Where `draw(a, (x, y))` puts both blocks: the result's origin moves so
      that neither block has negative coordinates. */
  datatype Placement = Placement(sx: nat, sy: nat, ax: nat, ay: nat, w: nat, h: nat)

  function Place(s: Art, a: Art, x: int, y: int): (p: Placement)
    ensures p.sx == 0 || p.ax == 0
    ensures p.sy == 0 || p.ay == 0
    ensures p.ax - p.sx == x && p.ay - p.sy == y
    ensures p.w == Max(p.sx + s.Width(), p.ax + a.Width())
    ensures p.h == Max(p.sy + s.Height(), p.ay + a.Height())
  {
    var sx, sy, ax, ay := Max(0, -x), Max(0, -y), Max(0, x), Max(0, y);
    Placement(sx, sy, ax, ay, Max(sx + s.Width(), ax + a.Width()), Max(sy + s.Height(), ay + a.Height()))
  }

  /** The cell at row `i`, column `j` of a canvas that shows `x` with its top
      left corner at row `top`, column `left`, and blanks everywhere else. */
  function PlacedCell(x: Art, top: int, left: int, i: int, j: int): char
    requires x.Valid()
  {
    if top <= i < top + x.Height() && left <= j < left + x.Width() then x.lines[i - top][j - left] else ' '
  }

  /** The reference meaning of `draw`: inside `a`'s rectangle the cell comes
      from `a` (its spaces included), elsewhere inside the base block from
      the base block, and everything else is blank. */
  function DrawCell(s: Art, a: Art, x: int, y: int, i: nat, j: nat): char
    requires s.Valid() && a.Valid()
  {
    var p := Place(s, a, x, y);
    if p.ay <= i < p.ay + a.Height() && p.ax <= j < p.ax + a.Width() then a.lines[i - p.ay][j - p.ax]
    else if p.sy <= i < p.sy + s.Height() && p.sx <= j < p.sx + s.Width() then s.lines[i - p.sy][j - p.sx]
    else ' '
  }

  /** A row where the base line `l1` starts at column 0 and `l2` starts at
      column `ax`: the base up to `ax` (padded with blanks when shorter),
      `l2`, then whatever of the base reaches past `l2`. */
  function UnshiftedLine(l1: string, l2: string, ax: nat, w: nat): string
    requires w == Max(|l1|, ax + |l2|)
  {
    var line := (if ax < |l1| then l1[..ax] else l1 + Blank(ax - |l1|)) + l2;
    if w != ax + |l2| then line + l1[|line|..] else line
  }

  /** A row where `l2` starts at column 0 and the base line `l1` at column
      `sx`: `l2`, then the rest of the base (after blanks when it starts
      further right). */
  function ShiftedLine(l1: string, l2: string, sx: nat, w: nat): string
    requires w == Max(sx + |l1|, |l2|)
  {
    if w != |l2| then
      if sx < |l2| then l2 + l1[|l2| - sx..]
      else l2 + (Blank(sx - |l2|) + l1)
    else l2
  }

  /** A row holding only the line `l`, starting at column `left`, blank
      elsewhere up to width `w`. */
  function PaddedLine(l: string, left: nat, w: nat): string
    requires left + |l| <= w
  {
    Blank(left) + l + Blank(w - left - |l|)
  }

  /** Row `i` of `draw(a, (x, y))`, assembled by the same case split as the
      library: rows shared by both blocks, rows of only one block, blank rows. */
  function DrawLine(s: Art, a: Art, x: int, y: int, i: nat): string
    requires s.Valid() && a.Valid()
  {
    var p := Place(s, a, x, y);
    var h1, h2 := s.Height(), a.Height();
    if p.sy <= i < p.sy + h1 then
      var l1 := s.lines[i - p.sy];
      if p.ay <= i < p.ay + h2 then
        var l2 := a.lines[i - p.ay];
        if p.sx == 0 then UnshiftedLine(l1, l2, p.ax, p.w)
        else ShiftedLine(l1, l2, p.sx, p.w)
      else PaddedLine(l1, p.sx, p.w)
    else if p.ay <= i < p.ay + h2 then PaddedLine(a.lines[i - p.ay], p.ax, p.w)
    else Blank(p.w)
  }

  /** The unshifted row shows `l2` on its columns and the base elsewhere,
      blanks where the base is too short. */
  lemma UnshiftedLineCells(l1: string, l2: string, ax: nat, w: nat)
    requires w == Max(|l1|, ax + |l2|)
    ensures var r := UnshiftedLine(l1, l2, ax, w);
      |r| == w && forall j :: 0 <= j < w ==>
        r[j] == if ax <= j < ax + |l2| then l2[j - ax] else if j < |l1| then l1[j] else ' '
  {
  }

  /** The shifted row shows `l2` on its columns and the base elsewhere,
      blanks in the gap between them. */
  lemma ShiftedLineCells(l1: string, l2: string, sx: nat, w: nat)
    requires w == Max(sx + |l1|, |l2|)
    ensures var r := ShiftedLine(l1, l2, sx, w);
      |r| == w && forall j :: 0 <= j < w ==>
        r[j] == if j < |l2| then l2[j] else if sx <= j then l1[j - sx] else ' '
  {
  }

  /** The padded row shows `l` on its columns and blanks elsewhere. */
  lemma PaddedLineCells(l: string, left: nat, w: nat)
    requires left + |l| <= w
    ensures var r := PaddedLine(l, left, w);
      |r| == w && forall j :: 0 <= j < w ==> r[j] == if left <= j < left + |l| then l[j - left] else ' '
  {
  }

  /** Every assembled row has the full width and agrees with the reference. */
  lemma DrawLineCells(s: Art, a: Art, x: int, y: int, i: nat)
    requires s.Valid() && a.Valid()
    ensures var p := Place(s, a, x, y);
      |DrawLine(s, a, x, y, i)| == p.w
      && forall j :: 0 <= j < p.w ==> DrawLine(s, a, x, y, i)[j] == DrawCell(s, a, x, y, i, j)
  {
    var p := Place(s, a, x, y);
    var inS, inA := p.sy <= i < p.sy + s.Height(), p.ay <= i < p.ay + a.Height();
    if inS && inA && p.sx == 0 {
      DrawSharedRowUnshifted(s, a, x, y, i);
    } else if inS && inA {
      DrawSharedRowShifted(s, a, x, y, i);
    } else if inS {
      DrawBaseRow(s, a, x, y, i);
    } else if inA {
      DrawOverRow(s, a, x, y, i);
    }
  }

  /** Row of both blocks, base block not shifted. */
  lemma DrawSharedRowUnshifted(s: Art, a: Art, x: int, y: int, i: nat)
    requires s.Valid() && a.Valid()
    requires var p := Place(s, a, x, y);
      p.sy <= i < p.sy + s.Height() && p.ay <= i < p.ay + a.Height() && p.sx == 0
    ensures var p := Place(s, a, x, y);
      |DrawLine(s, a, x, y, i)| == p.w
      && forall j :: 0 <= j < p.w ==> DrawLine(s, a, x, y, i)[j] == DrawCell(s, a, x, y, i, j)
  {
    var p := Place(s, a, x, y);
    var l1, l2 := s.lines[i - p.sy], a.lines[i - p.ay];
    assert DrawLine(s, a, x, y, i) == UnshiftedLine(l1, l2, p.ax, p.w);
    UnshiftedLineCells(l1, l2, p.ax, p.w);
    forall j | 0 <= j < p.w
      ensures DrawLine(s, a, x, y, i)[j] == DrawCell(s, a, x, y, i, j)
    {
      if p.ax <= j < p.ax + |l2| {
        assert DrawCell(s, a, x, y, i, j) == l2[j - p.ax];
      } else if j < |l1| {
        assert DrawCell(s, a, x, y, i, j) == l1[j];
      }
    }
  }

  /** Row of both blocks, base block shifted right. */
  lemma DrawSharedRowShifted(s: Art, a: Art, x: int, y: int, i: nat)
    requires s.Valid() && a.Valid()
    requires var p := Place(s, a, x, y);
      p.sy <= i < p.sy + s.Height() && p.ay <= i < p.ay + a.Height() && p.sx != 0
    ensures var p := Place(s, a, x, y);
      |DrawLine(s, a, x, y, i)| == p.w
      && forall j :: 0 <= j < p.w ==> DrawLine(s, a, x, y, i)[j] == DrawCell(s, a, x, y, i, j)
  {
    var p := Place(s, a, x, y);
    var l1, l2 := s.lines[i - p.sy], a.lines[i - p.ay];
    assert DrawLine(s, a, x, y, i) == ShiftedLine(l1, l2, p.sx, p.w);
    ShiftedLineCells(l1, l2, p.sx, p.w);
    forall j | 0 <= j < p.w
      ensures DrawLine(s, a, x, y, i)[j] == DrawCell(s, a, x, y, i, j)
    {
      if j < |l2| {
        assert DrawCell(s, a, x, y, i, j) == l2[j];
      } else if p.sx <= j {
        assert DrawCell(s, a, x, y, i, j) == l1[j - p.sx];
      }
    }
  }

  /** A row of the base block only. */
  lemma DrawBaseRow(s: Art, a: Art, x: int, y: int, i: nat)
    requires s.Valid() && a.Valid()
    requires var p := Place(s, a, x, y);
      p.sy <= i < p.sy + s.Height() && !(p.ay <= i < p.ay + a.Height())
    ensures var p := Place(s, a, x, y);
      |DrawLine(s, a, x, y, i)| == p.w
      && forall j :: 0 <= j < p.w ==> DrawLine(s, a, x, y, i)[j] == DrawCell(s, a, x, y, i, j)
  {
    var p := Place(s, a, x, y);
    var l1 := s.lines[i - p.sy];
    assert DrawLine(s, a, x, y, i) == PaddedLine(l1, p.sx, p.w);
    PaddedLineCells(l1, p.sx, p.w);
    forall j | 0 <= j < p.w
      ensures DrawLine(s, a, x, y, i)[j] == DrawCell(s, a, x, y, i, j)
    {
      if p.sx <= j < p.sx + |l1| {
        assert DrawCell(s, a, x, y, i, j) == l1[j - p.sx];
      }
    }
  }

  /** A row of the drawn block only. */
  lemma DrawOverRow(s: Art, a: Art, x: int, y: int, i: nat)
    requires s.Valid() && a.Valid()
    requires var p := Place(s, a, x, y);
      !(p.sy <= i < p.sy + s.Height()) && p.ay <= i < p.ay + a.Height()
    ensures var p := Place(s, a, x, y);
      |DrawLine(s, a, x, y, i)| == p.w
      && forall j :: 0 <= j < p.w ==> DrawLine(s, a, x, y, i)[j] == DrawCell(s, a, x, y, i, j)
  {
    var p := Place(s, a, x, y);
    var l2 := a.lines[i - p.ay];
    assert DrawLine(s, a, x, y, i) == PaddedLine(l2, p.ax, p.w);
    PaddedLineCells(l2, p.ax, p.w);
    forall j | 0 <= j < p.w
      ensures DrawLine(s, a, x, y, i)[j] == DrawCell(s, a, x, y, i, j)
    {
      if p.ax <= j < p.ax + |l2| {
        assert DrawCell(s, a, x, y, i, j) == l2[j - p.ax];
      }
    }
  }

  /** `draw(a, (x, y), keepCenter)`: the base block with `a` painted over it
      at offset (x, y); the center follows the base block or `a`. The cells
      are stated by `DrawCells`. */
  function Draw(s: Art, a: Art, x: int, y: int, keepCenter: bool): (r: Art)
    requires s.Valid() && a.Valid()
    ensures r.Valid()
    ensures var p := Place(s, a, x, y);
      && r.Height() == p.h
      && (p.h > 0 ==> r.Width() == p.w)
      && r.center == (if keepCenter then p.sy + s.center else p.ay + a.center)
  {
    var p := Place(s, a, x, y);
    var rows := DrawLines(s, a, x, y, p.h);
    assert forall i :: 0 <= i < p.h ==> |rows[i]| == p.w by {
      forall i | 0 <= i < p.h
        ensures |rows[i]| == p.w
      {
        DrawLinesIndex(s, a, x, y, p.h, i);
        DrawLineCells(s, a, x, y, i);
      }
    }
    Art(rows, if keepCenter then p.sy + s.center else p.ay + a.center)
  }

  /** The first `n` rows of a drawing. */
  function DrawLines(s: Art, a: Art, x: int, y: int, n: nat): (rows: seq<string>)
    requires s.Valid() && a.Valid()
    ensures |rows| == n
  {
    if n == 0 then [] else DrawLines(s, a, x, y, n - 1) + [DrawLine(s, a, x, y, n - 1)]
  }

  lemma {:induction false} DrawLinesIndex(s: Art, a: Art, x: int, y: int, n: nat, i: nat)
    requires s.Valid() && a.Valid() && i < n
    ensures DrawLines(s, a, x, y, n)[i] == DrawLine(s, a, x, y, i)
  {
    if i < n - 1 {
      DrawLinesIndex(s, a, x, y, n - 1, i);
    }
  }

  /** Every cell of `draw` is the reference cell: `a`'s inside its
      rectangle, the base block's elsewhere inside the base, blank outside. */
  lemma DrawCells(s: Art, a: Art, x: int, y: int, keepCenter: bool)
    requires s.Valid() && a.Valid()
    ensures var r, p := Draw(s, a, x, y, keepCenter), Place(s, a, x, y);
      forall i, j :: 0 <= i < p.h && 0 <= j < p.w ==> r.lines[i][j] == DrawCell(s, a, x, y, i, j)
  {
    var p := Place(s, a, x, y);
    var r := Draw(s, a, x, y, keepCenter);
    forall i | 0 <= i < p.h
      ensures forall j :: 0 <= j < p.w ==> r.lines[i][j] == DrawCell(s, a, x, y, i, j)
    {
      DrawLinesIndex(s, a, x, y, p.h, i);
      DrawLineCells(s, a, x, y, i);
    }
  }

  // ---------------------------------------------------------------------------
  // Side-by-side composition

  /** One row of a side-by-side composition: the base block's row `i1` (or a
      blank of its width) followed by `a`'s row `i2` (or a blank). */
  function JoinRow(s: Art, a: Art, i1: int, i2: int): (row: string)
    requires s.Valid() && a.Valid()
    ensures |row| == s.Width() + a.Width()
    ensures forall j :: 0 <= j < s.Width() ==>
      row[j] == if 0 <= i1 < s.Height() then s.lines[i1][j] else ' '
    ensures forall j :: s.Width() <= j < s.Width() + a.Width() ==>
      row[j] == if 0 <= i2 < a.Height() then a.lines[i2][j - s.Width()] else ' '
  {
    (if 0 <= i1 < s.Height() then s.lines[i1] else Blank(s.Width()))
    + (if 0 <= i2 < a.Height() then a.lines[i2] else Blank(a.Width()))
  }

  /** `appendTop(a, keepCenter)`: `a` to the right of the base block, both
      aligned at their first row; the shorter one is filled with blank rows
      below. */
  function AppendTop(s: Art, a: Art, keepCenter: bool): (r: Art)
    requires s.Valid() && a.Valid()
    ensures r.Valid()
    ensures r.Height() == Max(s.Height(), a.Height())
    ensures r.Height() > 0 ==> r.Width() == s.Width() + a.Width()
    ensures r.center == if keepCenter then s.center else a.center
    ensures forall i, j :: 0 <= i < r.Height() && 0 <= j < s.Width() ==>
      r.lines[i][j] == if i < s.Height() then s.lines[i][j] else ' '
    ensures forall i, j :: 0 <= i < r.Height() && s.Width() <= j < s.Width() + a.Width() ==>
      r.lines[i][j] == if i < a.Height() then a.lines[i][j - s.Width()] else ' '
  {
    var h := Max(s.Height(), a.Height());
    Art(seq(h, i requires 0 <= i < h => JoinRow(s, a, i, i)), if keepCenter then s.center else a.center)
  }

  /** Two single rows aligned at the top join into one row. */
  lemma AppendTopOneRow(s: Art, a: Art)
    requires s.Valid() && a.Valid()
    requires s.Height() == 1 && a.Height() == 1 && s.center == 0
    ensures AppendTop(s, a, true) == Art([s.lines[0] + a.lines[0]], 0)
  {
    SameCells(AppendTop(s, a, true), Art([s.lines[0] + a.lines[0]], 0));
  }

  /** Top alignment is drawing `a` at the base block's right edge, on row 0. */
  lemma AppendTopIsDraw(s: Art, a: Art, keepCenter: bool)
    requires s.Valid() && a.Valid()
    ensures AppendTop(s, a, keepCenter) == Draw(s, a, s.Width(), 0, keepCenter)
  {
    var r := AppendTop(s, a, keepCenter);
    forall i, j | 0 <= i < r.Height() && 0 <= j < s.Width() + a.Width()
      ensures r.lines[i][j] == DrawCell(s, a, s.Width(), 0, i, j)
    {
      TopCell(s, a, keepCenter, i, j);
    }
    EqualsDraw(r, s, a, s.Width(), 0, keepCenter);
  }

  /** One cell of `AppendTopIsDraw`. */
  lemma TopCell(s: Art, a: Art, keepCenter: bool, i: nat, j: nat)
    requires s.Valid() && a.Valid()
    requires i < Max(s.Height(), a.Height()) && j < s.Width() + a.Width()
    ensures AppendTop(s, a, keepCenter).lines[i][j] == DrawCell(s, a, s.Width(), 0, i, j)
  {
    DrawCellBeside(s, a, 0, i, j);
  }

  /** A block that has the size, center and cells of `draw(a, (x, y))` is
      that block. */
  lemma EqualsDraw(r: Art, s: Art, a: Art, x: int, y: int, keepCenter: bool)
    requires r.Valid() && s.Valid() && a.Valid()
    requires var p := Place(s, a, x, y);
      && r.Height() == p.h && (p.h > 0 ==> r.Width() == p.w)
      && r.center == (if keepCenter then p.sy + s.center else p.ay + a.center)
      && forall i, j :: 0 <= i < p.h && 0 <= j < p.w ==> r.lines[i][j] == DrawCell(s, a, x, y, i, j)
    ensures r == Draw(s, a, x, y, keepCenter)
  {
    var d := Draw(s, a, x, y, keepCenter);
    DrawCells(s, a, x, y, keepCenter);
    SameCells(r, d);
  }

  /** Rows of `appendBottom`: both blocks aligned at their last row; the
      shorter one is filled with blank rows above. Row `h - 1 - i` holds the
      rows `i` places above the bottom. */
  function BottomRows(s: Art, a: Art): (rows: seq<string>)
    requires s.Valid() && a.Valid()
    ensures |rows| == Max(s.Height(), a.Height())
    ensures forall r :: 0 <= r < |rows| ==>
      rows[r] == JoinRow(s, a, r - (|rows| - s.Height()), r - (|rows| - a.Height()))
  {
    var h := Max(s.Height(), a.Height());
    seq(h, r requires 0 <= r < h =>
      var i := h - 1 - r;
      (if i < s.Height() then s.lines[s.Height() - i - 1] else Blank(s.Width()))
      + (if i < a.Height() then a.lines[a.Height() - i - 1] else Blank(a.Width())))
  }

  /** Cell view of the bottom-aligned rows: each side moved down so that
      the last rows coincide. */
  lemma BottomRowCell(s: Art, a: Art, i: nat, j: nat)
    requires s.Valid() && a.Valid()
    requires i < Max(s.Height(), a.Height())
    ensures |BottomRows(s, a)[i]| == s.Width() + a.Width()
    ensures j < s.Width() ==> BottomRows(s, a)[i][j] == PlacedCell(s, Max(s.Height(), a.Height()) - s.Height(), 0, i, j)
    ensures s.Width() <= j < s.Width() + a.Width() ==>
      BottomRows(s, a)[i][j] == PlacedCell(a, Max(s.Height(), a.Height()) - a.Height(), s.Width(), i, j)
  {
  }

  /** `appendBottom(a, keepCenter)` as the library writes it: with keepCenter
      the offset `max(0, a.height - lines.length)` reads the height of the
      NEW block, so it is always 0 and the base block's center is not moved
      down together with its rows. */
  function AppendBottomAsWritten(s: Art, a: Art, keepCenter: bool): (r: Art)
    requires s.Valid() && a.Valid()
    ensures r.lines == BottomRows(s, a)
    ensures keepCenter ==> r.center == s.center
    ensures !keepCenter ==> r.center == Max(s.Height(), a.Height()) - a.Height() + a.center
  {
    var rows := BottomRows(s, a);
    Art(rows, if keepCenter then Max(0, a.Height() - |rows|) + s.center
              else Max(0, |rows| - a.Height()) + a.center)
  }

  /** `appendBottom(a, keepCenter)` with the center offset the other branch
      and `appendTop` use: the anchor row moves with the rows it belongs to. */
  function AppendBottom(s: Art, a: Art, keepCenter: bool): (r: Art)
    requires s.Valid() && a.Valid()
    ensures r.Valid()
    ensures r.Height() == Max(s.Height(), a.Height())
    ensures r.Height() > 0 ==> r.Width() == s.Width() + a.Width()
    ensures r.center == if keepCenter then r.Height() - s.Height() + s.center
                        else r.Height() - a.Height() + a.center
    ensures forall i, j :: 0 <= i < r.Height() && 0 <= j < s.Width() ==>
      r.lines[i][j] == PlacedCell(s, r.Height() - s.Height(), 0, i, j)
    ensures forall i, j :: 0 <= i < r.Height() && s.Width() <= j < s.Width() + a.Width() ==>
      r.lines[i][j] == PlacedCell(a, r.Height() - a.Height(), s.Width(), i, j)
  {
    var rows := BottomRows(s, a);
    var h := |rows|;
    var c := if keepCenter then Max(0, h - s.Height()) + s.center
             else Max(0, h - a.Height()) + a.center;
    BottomArt(s, a, c);
    Art(rows, c)
  }

  /** The bottom-aligned rows with any center row form a valid block whose
      columns split at the base block's width. */
  lemma BottomArt(s: Art, a: Art, c: nat)
    requires s.Valid() && a.Valid() && c <= Max(s.Height(), a.Height())
    ensures var r := Art(BottomRows(s, a), c);
      && r.Valid()
      && r.Height() == Max(s.Height(), a.Height())
      && (r.Height() > 0 ==> r.Width() == s.Width() + a.Width())
      && (forall i, j :: 0 <= i < r.Height() && 0 <= j < s.Width() ==>
        r.lines[i][j] == PlacedCell(s, r.Height() - s.Height(), 0, i, j))
      && (forall i, j :: 0 <= i < r.Height() && s.Width() <= j < s.Width() + a.Width() ==>
        r.lines[i][j] == PlacedCell(a, r.Height() - a.Height(), s.Width(), i, j))
  {
    var rows := BottomRows(s, a);
    forall i, j | 0 <= i < |rows| && 0 <= j < s.Width() + a.Width()
      ensures |rows[i]| == s.Width() + a.Width()
      ensures j < s.Width() ==> rows[i][j] == PlacedCell(s, |rows| - s.Height(), 0, i, j)
      ensures s.Width() <= j ==> rows[i][j] == PlacedCell(a, |rows| - a.Height(), s.Width(), i, j)
    {
      BottomRowCell(s, a, i, j);
    }
    forall i | 0 <= i < |rows|
      ensures |rows[i]| == s.Width() + a.Width()
    {
      BottomRowCell(s, a, i, 0);
    }
  }

  /** Two single rows aligned at the bottom join into one row. */
  lemma AppendBottomOneRow(s: Art, a: Art)
    requires s.Valid() && a.Valid()
    requires s.Height() == 1 && a.Height() == 1 && s.center == 0
    ensures AppendBottom(s, a, true) == Art([s.lines[0] + a.lines[0]], 0)
  {
    SameCells(AppendBottom(s, a, true), Art([s.lines[0] + a.lines[0]], 0));
  }

  /** Bottom alignment is drawing `a` so that the last rows coincide. */
  lemma AppendBottomIsDraw(s: Art, a: Art, keepCenter: bool)
    requires s.Valid() && a.Valid()
    ensures AppendBottom(s, a, keepCenter) == Draw(s, a, s.Width(), s.Height() - a.Height(), keepCenter)
  {
    var r := AppendBottom(s, a, keepCenter);
    var h := Max(s.Height(), a.Height());
    assert Place(s, a, s.Width(), s.Height() - a.Height()) == Placement(0, h - s.Height(), s.Width(), h - a.Height(), s.Width() + a.Width(), h);
    forall i, j | 0 <= i < r.Height() && 0 <= j < s.Width() + a.Width()
      ensures r.lines[i][j] == DrawCell(s, a, s.Width(), s.Height() - a.Height(), i, j)
    {
      BottomCell(s, a, keepCenter, i, j);
    }
    EqualsDraw(r, s, a, s.Width(), s.Height() - a.Height(), keepCenter);
  }

  /** One cell of `AppendBottomIsDraw`. */
  lemma BottomCell(s: Art, a: Art, keepCenter: bool, i: nat, j: nat)
    requires s.Valid() && a.Valid()
    requires i < Max(s.Height(), a.Height()) && j < s.Width() + a.Width()
    ensures AppendBottom(s, a, keepCenter).lines[i][j] == DrawCell(s, a, s.Width(), s.Height() - a.Height(), i, j)
  {
    var h := Max(s.Height(), a.Height());
    var p := Place(s, a, s.Width(), s.Height() - a.Height());
    assert p.sy == h - s.Height() && p.ay == h - a.Height();
    DrawCellBeside(s, a, s.Height() - a.Height(), i, j);
  }

  /** With `a` drawn at the base block's right edge, every cell comes from
      exactly one of the two blocks, each at its own vertical offset. */
  lemma DrawCellBeside(s: Art, a: Art, y: int, i: nat, j: nat)
    requires s.Valid() && a.Valid()
    ensures var p := Place(s, a, s.Width(), y);
      DrawCell(s, a, s.Width(), y, i, j)
        == if j < s.Width() then PlacedCell(s, p.sy, 0, i, j) else PlacedCell(a, p.ay, s.Width(), i, j)
  {
  }

  /** The written center and the intended one differ exactly when the base
      block is the shorter one and its center is kept. */
  lemma AppendBottomAsWrittenDiffers(s: Art, a: Art, keepCenter: bool)
    requires s.Valid() && a.Valid()
    ensures AppendBottomAsWritten(s, a, keepCenter) == AppendBottom(s, a, keepCenter)
      <==> !keepCenter || s.Height() >= a.Height()
  {
  }

  /** A one-row block appended at the bottom of a three-row block: the written
      code reports row 0 as the base block's center, but the base block's row
      ends up as row 2. */
  lemma AppendBottomAsWrittenCounterexample()
    ensures var s, a := Art(["x"], 0), Art(["a", "b", "c"], 1);
      && s.Valid() && a.Valid()
      && AppendBottomAsWritten(s, a, true).center == 0
      && AppendBottomAsWritten(s, a, true).lines == [" a", " b", "xc"]
      && AppendBottom(s, a, true).center == 2
  {
    var s, a := Art(["x"], 0), Art(["a", "b", "c"], 1);
    var rows := BottomRows(s, a);
    assert Blank(1) == " ";
    assert rows[0] == " a" && rows[1] == " b" && rows[2] == "xc";
  }

  /** `appendCenter(a)`: `a` to the right of the base block with both centers
      on one row. */
  function AppendCenter(s: Art, a: Art): (r: Art)
    requires s.Valid() && a.Valid()
    ensures r.Valid()
  {
    Draw(s, a, s.Width(), s.center - a.center, true)
  }

  /** Center alignment: the result's center row holds both centers, the rows
      above and below are as many as the taller side needs, and the columns
      split at the base block's width, each side moved down to the common
      center row. */
  lemma AppendCenterLayout(s: Art, a: Art)
    requires s.Valid() && a.Valid()
    ensures var r, c := AppendCenter(s, a), Max(s.center, a.center);
      && r.center == c
      && r.Height() == c + Max(s.Height() - s.center, a.Height() - a.center)
      && (r.Height() > 0 ==> r.Width() == s.Width() + a.Width())
      && (forall i, j :: 0 <= i < r.Height() && 0 <= j < s.Width() ==>
            r.lines[i][j] == PlacedCell(s, c - s.center, 0, i, j))
      && (forall i, j :: 0 <= i < r.Height() && s.Width() <= j < s.Width() + a.Width() ==>
            r.lines[i][j] == PlacedCell(a, c - a.center, s.Width(), i, j))
  {
    AppendCenterLeft(s, a);
    AppendCenterRight(s, a);
  }

  /** Center alignment puts the two blocks side by side: the widths add up,
      also when both blocks are empty. */
  lemma AppendCenterWidth(s: Art, a: Art)
    requires s.Valid() && a.Valid()
    ensures AppendCenter(s, a).Width() == s.Width() + a.Width()
  {
    AppendCenterLeft(s, a);
  }

  /** Center alignment against a block at least as high above and below the
      center: the base block stays as it is, `a` is moved down to its
      center row. */
  lemma AppendCenterOnto(s: Art, a: Art)
    requires s.Valid() && a.Valid()
    requires a.center <= s.center && a.Height() - a.center <= s.Height() - s.center
    ensures var r := AppendCenter(s, a);
      && r.Height() == s.Height() && r.center == s.center && r.Width() == s.Width() + a.Width()
      && (forall i, j :: 0 <= i < r.Height() && 0 <= j < s.Width() ==> r.lines[i][j] == s.lines[i][j])
      && (forall i, j :: 0 <= i < r.Height() && s.Width() <= j < s.Width() + a.Width() ==>
            r.lines[i][j] == PlacedCell(a, s.center - a.center, s.Width(), i, j))
  {
    AppendCenterLeft(s, a);
    AppendCenterRight(s, a);
  }

  /** Center alignment of a block that `a` covers above and below the
      center: `a` stays as it is, the base block is moved down to its
      center row. */
  lemma AppendCenterUnder(s: Art, a: Art)
    requires s.Valid() && a.Valid()
    requires s.center <= a.center && s.Height() - s.center <= a.Height() - a.center
    ensures var r := AppendCenter(s, a);
      && r.Height() == a.Height() && r.center == a.center && r.Width() == s.Width() + a.Width()
      && (forall i, j :: 0 <= i < r.Height() && 0 <= j < s.Width() ==>
            r.lines[i][j] == PlacedCell(s, a.center - s.center, 0, i, j))
      && (forall i, j :: 0 <= i < r.Height() && s.Width() <= j < s.Width() + a.Width() ==>
            r.lines[i][j] == a.lines[i][j - s.Width()])
  {
    AppendCenterLeft(s, a);
    AppendCenterRight(s, a);
  }

  /** Two single rows anchored on their only row join into one row. */
  lemma AppendCenterOneRow(s: Art, a: Art)
    requires s.Valid() && a.Valid()
    requires s.Height() == 1 && a.Height() == 1 && s.center == 0 && a.center == 0
    ensures AppendCenter(s, a) == Art([s.lines[0] + a.lines[0]], 0)
  {
    AppendCenterOnto(s, a);
    var r := AppendCenter(s, a);
    SameCells(r, Art([s.lines[0] + a.lines[0]], 0));
  }

  /** The left half of a center alignment: the dimensions and the base
      block's columns. */
  lemma AppendCenterLeft(s: Art, a: Art)
    requires s.Valid() && a.Valid()
    ensures var r, c := AppendCenter(s, a), Max(s.center, a.center);
      && r.center == c
      && r.Height() == c + Max(s.Height() - s.center, a.Height() - a.center)
      && (r.Height() > 0 ==> r.Width() == s.Width() + a.Width())
      && (forall i, j :: 0 <= i < r.Height() && 0 <= j < s.Width() ==>
            r.lines[i][j] == PlacedCell(s, c - s.center, 0, i, j))
  {
    var r, c := AppendCenter(s, a), Max(s.center, a.center);
    var y := s.center - a.center;
    var p := Place(s, a, s.Width(), y);
    assert p.sy == c - s.center && p.ay == c - a.center;
    forall i, j | 0 <= i < r.Height() && 0 <= j < s.Width()
      ensures r.lines[i][j] == PlacedCell(s, c - s.center, 0, i, j)
    {
      DrawCellAt(s, a, s.Width(), y, true, i, j);
      DrawCellBeside(s, a, y, i, j);
    }
  }

  /** The right half of a center alignment: the appended block's columns. */
  lemma AppendCenterRight(s: Art, a: Art)
    requires s.Valid() && a.Valid()
    ensures var r, c := AppendCenter(s, a), Max(s.center, a.center);
      forall i, j :: 0 <= i < r.Height() && s.Width() <= j < s.Width() + a.Width() ==>
        r.lines[i][j] == PlacedCell(a, c - a.center, s.Width(), i, j)
  {
    var r, c := AppendCenter(s, a), Max(s.center, a.center);
    var y := s.center - a.center;
    var p := Place(s, a, s.Width(), y);
    assert p.ay == c - a.center;
    forall i, j | 0 <= i < r.Height() && s.Width() <= j < s.Width() + a.Width()
      ensures r.lines[i][j] == PlacedCell(a, c - a.center, s.Width(), i, j)
    {
      DrawCellAt(s, a, s.Width(), y, true, i, j);
      DrawCellBeside(s, a, y, i, j);
    }
  }

  /** One cell of `draw`. */
  lemma DrawCellAt(s: Art, a: Art, x: int, y: int, keepCenter: bool, i: nat, j: nat)
    requires s.Valid() && a.Valid()
    requires var p := Place(s, a, x, y); i < p.h && j < p.w
    ensures var r := Draw(s, a, x, y, keepCenter);
      i < r.Height() && j < |r.lines[i]| && r.lines[i][j] == DrawCell(s, a, x, y, i, j)
  {
    DrawLinesIndex(s, a, x, y, Place(s, a, x, y).h, i);
    DrawLineCells(s, a, x, y, i);
  }
}

=== FILE: charset.dfy ===
/** `CharacterSet`: which characters the output medium can display, with the
    fallback choice the renderers make between a Unicode glyph and its ASCII
    replacement. */
module Charsets {
  import opened Strings
  import Canvas

  /** A set of displayable characters, given by its membership test. */
  datatype CharSet = CharSet(accepts: char -> bool)

  /** The charsets the library builds from encoders accept exactly what the
      encoding can represent: US-ASCII the code points below 128, ISO-8859-1
      those below 256, UTF-8 every scalar value. */
  function Ascii(): CharSet { CharSet(c => c as int < 0x80) }

  function Iso88591(): CharSet { CharSet(c => c as int < 0x100) }

  function Unicode(): CharSet { CharSet(_ => true) }

  /** The arrows and definition signs `MOD_UNICODE` leaves out. */
  const MOD_UNICODE_EXCLUDE: set<char> := {'≔', '≕', '⇔', '↔', '⇒', '→', '⇐', '←'}

  /** `new CharacterSet(base, filter)`: what the base accepts and the filter admits. */
  function Restrict(base: CharSet, filter: char -> bool): (r: CharSet)
    ensures forall c :: r.accepts(c) <==> base.accepts(c) && filter(c)
  {
    CharSet(c => base.accepts(c) && filter(c))
  }

  /** `MOD_UNICODE`: Unicode without the eight arrow and definition glyphs. */
  function ModUnicode(): (r: CharSet)
    ensures forall c :: r.accepts(c) <==> c !in MOD_UNICODE_EXCLUDE
  {
    Restrict(Unicode(), c => c !in MOD_UNICODE_EXCLUDE)
  }

  /** `CharacterSet.intersection`. */
  function Intersection(a: CharSet, b: CharSet): (r: CharSet)
    ensures forall c :: r.accepts(c) <==> a.accepts(c) && b.accepts(c)
  {
    CharSet(c => a.accepts(c) && b.accepts(c))
  }

  /** Restricting by a filter is intersecting with the filter's own charset. */
  lemma RestrictIsIntersection(base: CharSet, filter: char -> bool, c: char)
    ensures Restrict(base, filter).accepts(c) == Intersection(base, CharSet(filter)).accepts(c)
  {
  }

  /** ASCII is contained in ISO-8859-1, which is contained in Unicode. */
  lemma CharsetsNested(c: char)
    ensures Ascii().accepts(c) ==> Iso88591().accepts(c)
    ensures Iso88591().accepts(c) ==> Unicode().accepts(c)
  {
  }

  // ---------------------------------------------------------------------------
  // Display tests

  /** The memo table of `canDisplay(int)`: every remembered answer is the
      membership test's answer. */
  ghost predicate CacheSound(cs: CharSet, cache: map<char, bool>) {
    forall c :: c in cache ==> cache[c] == cs.accepts(c)
  }

  /** `canDisplay(int)`: the answer is remembered on first use
      (`computeIfAbsent`), so a sound table stays sound. */
  method CanDisplayChar(cs: CharSet, cache: map<char, bool>, c: char) returns (b: bool, cache': map<char, bool>)
    requires CacheSound(cs, cache)
    ensures b == cs.accepts(c)
    ensures CacheSound(cs, cache') && c in cache'
    ensures forall k :: k in cache ==> k in cache' && cache'[k] == cache[k]
  {
    if c in cache {
      return cache[c], cache;
    }
    b := cs.accepts(c);
    cache' := cache[c := b];
  }

  /** Every character of `s` is displayable. */
  predicate CanDisplay(cs: CharSet, s: string) {
    forall i :: 0 <= i < |s| ==> cs.accepts(s[i])
  }

  /** `canDisplay(String)`: tests the characters left to right and stops at
      the first one the charset cannot show. */
  method CanDisplayString(cs: CharSet, cache: map<char, bool>, s: string) returns (b: bool, cache': map<char, bool>)
    requires CacheSound(cs, cache)
    ensures b <==> CanDisplay(cs, s)
    ensures CacheSound(cs, cache')
  {
    cache' := cache;
    var i := 0;
    while i < |s|
      invariant 0 <= i <= |s|
      invariant CacheSound(cs, cache')
      invariant forall j :: 0 <= j < i ==> cs.accepts(s[j])
    {
      var ok;
      ok, cache' := CanDisplayChar(cs, cache', s[i]);
      if !ok {
        return false, cache';
      }
      i := i + 1;
    }
    return true, cache';
  }

  /** `canDisplay(AsciiArt)`: tests the printed block. */
  predicate CanDisplayArt(cs: CharSet, a: Canvas.Art) {
    CanDisplay(cs, Canvas.ToString(a))
  }

  /** A block is displayable when its cells are, plus the line feed between
      rows once there are at least two of them. */
  lemma {:induction false} CanDisplayJoined(cs: CharSet, ls: seq<string>)
    ensures CanDisplay(cs, JoinLines(ls)) <==>
      (forall i, j :: 0 <= i < |ls| && 0 <= j < |ls[i]| ==> cs.accepts(ls[i][j]))
      && (|ls| >= 2 ==> cs.accepts('\n'))
    decreases |ls|
  {
    if |ls| >= 2 {
      var rest := JoinLines(ls[1..]);
      assert JoinLines(ls) == ls[0] + "\n" + rest;
      CanDisplayJoined(cs, ls[1..]);
      CanDisplayConcat(cs, ls[0] + "\n", rest);
      CanDisplayConcat(cs, ls[0], "\n");
      CanDisplaySingle(cs, '\n');
      var cells := forall i, j :: 0 <= i < |ls| && 0 <= j < |ls[i]| ==> cs.accepts(ls[i][j]);
      var restCells := forall i, j :: 0 <= i < |ls[1..]| && 0 <= j < |ls[1..][i]| ==> cs.accepts(ls[1..][i][j]);
      assert cells <==> CanDisplay(cs, ls[0]) && restCells by {
        assert forall i :: 1 <= i < |ls| ==> ls[i] == ls[1..][i - 1];
      }
    }
  }

  lemma CanDisplayConcat(cs: CharSet, s: string, t: string)
    ensures CanDisplay(cs, s + t) <==> CanDisplay(cs, s) && CanDisplay(cs, t)
  {
    if CanDisplay(cs, s) && CanDisplay(cs, t) {
      forall i | 0 <= i < |s + t|
        ensures cs.accepts((s + t)[i])
      {
        if i >= |s| {
          assert (s + t)[i] == t[i - |s|];
        }
      }
    }
    if CanDisplay(cs, s + t) {
      forall i | 0 <= i < |s|
        ensures cs.accepts(s[i])
      {
        assert (s + t)[i] == s[i];
      }
      forall i | 0 <= i < |t|
        ensures cs.accepts(t[i])
      {
        assert (s + t)[|s| + i] == t[i];
      }
    }
  }

  /** The cell-wise reading of `CanDisplayArt`. */
  lemma CanDisplayArtCells(cs: CharSet, a: Canvas.Art)
    requires a.Valid()
    ensures CanDisplayArt(cs, a) <==>
      (forall i, j :: 0 <= i < a.Height() && 0 <= j < a.Width() ==> cs.accepts(a.lines[i][j]))
      && (a.Height() >= 2 ==> cs.accepts('\n'))
  {
    CanDisplayJoined(cs, a.lines);
  }

  // ---------------------------------------------------------------------------
  // Fallbacks

  /** `orFallback(String, String)`: the preferred text when it can be
      displayed, the fallback otherwise. */
  function OrFallback(cs: CharSet, maybe: string, fallback: string): (r: string)
    ensures CanDisplay(cs, maybe) ==> r == maybe
    ensures !CanDisplay(cs, maybe) ==> r == fallback
  {
    if CanDisplay(cs, maybe) then maybe else fallback
  }

  /** `orFallback(char, char)`. */
  function OrFallbackChar(cs: CharSet, maybe: char, fallback: char): (r: char)
    ensures cs.accepts(maybe) ==> r == maybe
    ensures !cs.accepts(maybe) ==> r == fallback
  {
    if cs.accepts(maybe) then maybe else fallback
  }

  /** `orFallback(AsciiArt, AsciiArt)`. */
  function OrFallbackArt(cs: CharSet, maybe: Canvas.Art, fallback: Canvas.Art): (r: Canvas.Art)
    ensures CanDisplayArt(cs, maybe) ==> r == maybe
    ensures !CanDisplayArt(cs, maybe) ==> r == fallback
  {
    if CanDisplayArt(cs, maybe) then maybe else fallback
  }

  /** A fallback never makes things worse: the choice is displayable whenever
      either candidate is displayable and the fallback is. */
  lemma OrFallbackDisplayable(cs: CharSet, maybe: string, fallback: string)
    ensures CanDisplay(cs, fallback) ==> CanDisplay(cs, OrFallback(cs, maybe, fallback))
    ensures OrFallback(cs, maybe, fallback) == maybe || OrFallback(cs, maybe, fallback) == fallback
  {
  }

  /** A text of a single character is displayable exactly when the character is. */
  lemma CanDisplaySingle(cs: CharSet, c: char)
    ensures CanDisplay(cs, [c]) <==> cs.accepts(c)
  {
    assert [c][0] == c;
  }
}

=== FILE: expr.dfy ===
/** The expression tree: one constructor per `RenderableExpression` class.
    The constructors after `Exp` stand for classes whose rendering lies
    outside this model (plain literals, simple operators, rationals, single
    bracket literals); the renderers treat them through a `Foreign` record. */
module Expr {
  import opened Java
  import opened Wrappers
  import opened Canvas
  import opened BracketShapes

  /** A well-formed block: what every `AsciiArt` constructor produces. */
  type Block = a: Art | a.Valid() witness Art([], 0)

  datatype Node =
    | NumberLiteral(digits: string)
    | Text(text: string, prec: Int32)
    | SpecialLiteral(inline: string, ascii: Block, unicode: Block, latex: string)
    | Grid(rows: seq<Row>)
    | AugmentedGrid(left: seq<Row>, right: seq<Row>)
    | Fraction(a: Node, b: Node)
    | Root(degree: Node, value: Node)
    | Subscript(a: Node, b: Node)
    | Superscript(a: Node, b: Node)
    | SuperSubscript(main: Node, sup: Node, sub: Node)
    | Brackets(kind: Bracket, inner: Node)
    | MatrixBrackets(inner: Node)
    | List(delimiter: Node, elements: seq<Node>)
    | Concatenation(a: Node, b: Node, maybeSpace: bool)
    | Middle(a: Node, b: Node)
    | BigSymbol(symbol: Node, under: Option<Node>, over: Option<Node>, value: Node)
    | Integral(lower: Option<Node>, upper: Option<Node>, value: Node)
    | Exp(value: Node)
    | Literal(operator: bool, name: string)
    | BracketLiteral(kind: Bracket, opening: bool, inner: Node)
    | Infix(symbol: Node, a: Node, b: Node, prec: Int32, associative: bool)
    | Prefix(symbol: Node, value: Node, prec: Int32)
    | Negate(value: Node)
    | Postfix(symbol: Node, value: Node, prec: Int32)
    | Rational(numerator: int, denominator: int)

  /** One row of a grid (`elements[i]`). */
  datatype Row = Row(cells: seq<Node>)

  /** The nodes rendered by code outside this model. */
  predicate IsForeign(n: Node) {
    n.Literal? || n.BracketLiteral? || n.Infix? || n.Prefix? || n.Negate? || n.Postfix? || n.Rational?
  }

  // ---------------------------------------------------------------------------
  // Size: a measure that also decreases when a node renders by building a
  // slightly different tree (a superscript of a subscript, a big symbol, a
  // function call, a power of e, plain brackets)

  function Size(n: Node): (s: nat)
    ensures s >= 1
    decreases n
  {
    match n
    case NumberLiteral(_) => 1
    case Text(_, _) => 1
    case SpecialLiteral(_, _, _, _) => 1
    case Grid(rows) => 1 + SizeRows(rows)
    case AugmentedGrid(l, r) => 1 + SizeRows(l) + SizeRows(r)
    case Fraction(a, b) => 1 + Size(a) + Size(b)
    case Root(d, v) => 1 + Size(d) + Size(v)
    case Subscript(a, b) => 1 + Size(a) + Size(b)
    case Superscript(a, b) => 1 + Size(a) + Size(b)
    case SuperSubscript(m, p, b) => 3 + Size(m) + Size(p) + Size(b)
    case Brackets(_, x) => 1 + Size(x)
    case MatrixBrackets(x) => 2 + Size(x)
    case List(d, xs) => 1 + Size(d) + SizeList(xs)
    case Concatenation(a, b, _) => 1 + Size(a) + Size(b)
    case Middle(a, b) => 1 + Size(a) + Size(b)
    case BigSymbol(s, u, o, v) => 4 + Size(s) + SizeOpt(u) + SizeOpt(o) + Size(v)
    case Integral(l, u, v) => 6 + SizeOpt(l) + SizeOpt(u) + Size(v)
    case Exp(v) => 10 + Size(v)
    case Literal(_, _) => 1
    case BracketLiteral(_, _, x) => 1 + Size(x)
    case Infix(s, a, b, _, _) => 1 + Size(s) + Size(a) + Size(b)
    case Prefix(s, v, _) => 1 + Size(s) + Size(v)
    case Negate(v) => 1 + Size(v)
    case Postfix(s, v, _) => 1 + Size(s) + Size(v)
    case Rational(_, _) => 1
  }

  function SizeOpt(o: Option<Node>): nat
    decreases o
  {
    match o
    case None => 0
    case Some(x) => Size(x)
  }

  function SizeList(xs: seq<Node>): (s: nat)
    ensures s >= |xs|
    decreases xs
  {
    if xs == [] then 0 else Size(xs[0]) + SizeList(xs[1..])
  }

  function SizeRows(rows: seq<Row>): nat
    decreases rows
  {
    if rows == [] then 0 else 1 + SizeList(rows[0].cells) + SizeRows(rows[1..])
  }

  /** Every element weighs no more than the list. */
  lemma {:induction false} SizeListElement(xs: seq<Node>, i: nat)
    requires i < |xs|
    ensures Size(xs[i]) <= SizeList(xs)
    decreases i
  {
    if i > 0 {
      SizeListElement(xs[1..], i - 1);
    }
  }

  /** Every row weighs no more than the grid. */
  lemma {:induction false} SizeRowsRow(rows: seq<Row>, i: nat)
    requires i < |rows|
    ensures SizeList(rows[i].cells) <= SizeRows(rows)
    decreases i
  {
    if i > 0 {
      SizeRowsRow(rows[1..], i - 1);
    }
  }

  // ---------------------------------------------------------------------------
  // The invariant the constructors establish

  /** `new Grid(rows)` accepts a non-empty list of equally long, non-empty rows. */
  predicate Rectangular(rows: seq<Row>) {
    |rows| > 0 && |rows[0].cells| > 0 && forall i :: 0 <= i < |rows| ==> |rows[i].cells| == |rows[0].cells|
  }

  /** Every grid in the tree, also inside an augmented grid, is rectangular,
      and an augmented grid joins grids with equally many rows. */
  ghost predicate WellFormed(n: Node)
    decreases n
  {
    match n
    case Grid(rows) => Rectangular(rows) && CellsWellFormed(rows)
    case AugmentedGrid(l, r) =>
      Rectangular(l) && Rectangular(r) && |l| == |r| && CellsWellFormed(l) && CellsWellFormed(r)
    case Fraction(a, b) => WellFormed(a) && WellFormed(b)
    case Root(d, v) => WellFormed(d) && WellFormed(v)
    case Subscript(a, b) => WellFormed(a) && WellFormed(b)
    case Superscript(a, b) => WellFormed(a) && WellFormed(b)
    case SuperSubscript(m, p, b) => WellFormed(m) && WellFormed(p) && WellFormed(b)
    case Brackets(_, x) => WellFormed(x)
    case MatrixBrackets(x) => WellFormed(x)
    case List(d, xs) => WellFormed(d) && ListWellFormed(xs)
    case Concatenation(a, b, _) => WellFormed(a) && WellFormed(b)
    case Middle(a, b) => WellFormed(a) && WellFormed(b)
    case BigSymbol(s, u, o, v) => WellFormed(s) && OptWellFormed(u) && OptWellFormed(o) && WellFormed(v)
    case Integral(l, u, v) => OptWellFormed(l) && OptWellFormed(u) && WellFormed(v)
    case Exp(v) => WellFormed(v)
    case BracketLiteral(_, _, x) => WellFormed(x)
    case Infix(s, a, b, _, _) => WellFormed(s) && WellFormed(a) && WellFormed(b)
    case Prefix(s, v, _) => WellFormed(s) && WellFormed(v)
    case Negate(v) => WellFormed(v)
    case Postfix(s, v, _) => WellFormed(s) && WellFormed(v)
    case _ => true
  }

  ghost predicate OptWellFormed(o: Option<Node>)
    decreases o
  {
    match o
    case None => true
    case Some(x) => WellFormed(x)
  }

  ghost predicate ListWellFormed(xs: seq<Node>)
    decreases xs
  {
    forall i :: 0 <= i < |xs| ==> WellFormed(xs[i])
  }

  ghost predicate CellsWellFormed(rows: seq<Row>)
    decreases rows
  {
    forall i :: 0 <= i < |rows| ==> ListWellFormed(rows[i].cells)
  }
}

=== FILE: glyphs.dfy ===
/** The named symbols of `SpecialLiteral` (constants, sets of numbers,
    operators, arrows). A special literal carries one text per output form;
    the operator flag of the string constructors only matters for MathML and
    is dropped. Plain `Literal` symbols stay foreign nodes. */
module Glyphs {
  import opened Strings
  import opened Canvas
  import opened Expr

  /** `new SpecialLiteral(operator, inline, ascii, unicode, latex)`: both
      pictures are built with `new AsciiArt(String)`. */
  function Special(inline: string, ascii: string, unicode: string, latex: string): (r: Node)
    ensures r.SpecialLiteral? && r.inline == inline && r.latex == latex
    ensures r.ascii.lines == Pad(Lines(ascii)) && r.unicode.lines == Pad(Lines(unicode))
  {
    SpecialLiteral(inline, FromText(ascii), FromText(unicode), latex)
  }

  /** A special literal whose texts are single lines: each picture is that
      line as one row anchored on it. */
  function Glyph(inline: string, ascii: string, unicode: string, latex: string): Node {
    SpecialLiteral(inline, Art([ascii], 0), Art([unicode], 0), latex)
  }

  /** For texts without line breaks, the one-row glyph is the special literal
      the string constructor builds. */
  lemma GlyphIsSpecial(inline: string, ascii: string, unicode: string, latex: string)
    requires NoTerminator(ascii) && ascii != [] && NoTerminator(unicode) && unicode != []
    ensures Glyph(inline, ascii, unicode, latex) == Special(inline, ascii, unicode, latex)
  {
    FromTextSingleLine(ascii);
    FromTextSingleLine(unicode);
  }

  /** `new AsciiArt(String.join("\n", ls)).setCenter(c)` for terminator-free
      lines: one row per line, anchored at row `c`. */
  function Figure(ls: seq<string>, c: nat): (r: Block)
    requires forall i :: 0 <= i < |ls| ==> NoTerminator(ls[i])
    requires ls != [] && ls[|ls| - 1] != [] && c <= |ls|
    ensures r.Height() == |ls| && r.center == c
    ensures r.lines == Pad(ls)
  {
    LinesJoinLines(ls);
    SetCenter(FromText(JoinLines(ls)), c)
  }

  const PI: Node := Glyph("π", "pi", "π", "\\pi")
  const CAP_PI: Node := Glyph("Π", "Pi", "Π", "\\Pi")

  const NATURAL_NUMS: Node := Glyph("ℕ", "N", "ℕ", "\\NN")
  /** The integers as the library writes them: a copy of the rationals. */
  const INT_NUMS_AS_WRITTEN: Node := Special("ℚ", "Q", "ℚ", "\\QQ")
  const INT_NUMS: Node := Special("ℤ", "Z", "ℤ", "\\ZZ")
  const RATIONAL_NUMS: Node := Special("ℚ", "Q", "ℚ", "\\QQ")
  const REAL_NUMS: Node := Glyph("ℝ", "R", "ℝ", "\\RR")
  const COMPLEX_NUMS: Node := Glyph("ℂ", "C", "ℂ", "\\CC")

  const INFINITY: Node := Glyph("∞", "oo", "∞", "\\infty")

  const SUM: Node := Special("Σ", "__\n\\\n/_", "__\n╲\n╱_", "\\sum")
  const PRODUCT: Node := Special("Π", "___\n| |\n| |", "___\n│ │\n│ │", "\\prod")
  const LIMES: Node := Glyph("lim", "lim", "lim", "\\lim")

  const PLUS: Node := Literal(true, "+")
  const MINUS: Node := Glyph("-", "-", "-", "-")
  const MULTIPLY: Node := Glyph("·", "*", "·", "\\cdot")
  const DIVIDE: Node := Literal(true, "/")
  const CROSS: Node := Glyph("⨯", "x", "⨯", "\\times")
  const MODULO: Node := Glyph(" mod ", " mod ", " mod ", "\\mod")
  const EQUALS: Node := Literal(true, "=")
  const NOT_EQUALS: Node := Glyph("!=", "!=", "≠", "\\not=")
  const APPROXIMATELY: Node := Glyph("≈", "~", "≈", "\\approx")
  const NOT_APPROXIMATELY: Node := Glyph("≉", "!~", "≉", "\\not\\approx")
  const LESS: Node := Literal(true, "<")
  const NOT_LESS: Node := Glyph("≮", "!<", "≮", "\\not<")
  const GREATER: Node := Literal(true, ">")
  const NOT_GREATER: Node := Special("≯", "!>", "≯", "\\not>")
  const LESS_OR_EQUAL: Node := Glyph("<=", "<=", "⩽", "\\leq")
  const NOT_LESS_OR_EQUAL: Node := Special("≰", "!<=", "≰", "\\not\\leq")
  const GREATER_OR_EQUAL: Node := Glyph(">=", ">=", "⩾", "\\geq")
  /** "Not greater or equal" as the library writes it: with the ASCII text of
      "not less or equal". */
  const NOT_GREATER_OR_EQUAL_AS_WRITTEN: Node := Special("≱", "!<=", "≱", "\\not\\geq")
  const NOT_GREATER_OR_EQUAL: Node := Special("≱", "!>=", "≱", "\\not\\geq")
  const DEFINE: Node := Glyph(" := ", " := ", " ≔ ", " := ")
  const DEFINE_REVERSE: Node := Glyph(" =: ", " =: ", " ≕ ", " =: ")
  const IN: Node :=
    SpecialLiteral(" ∈ ", Figure(["  __ ", " /__ ", " \\__ "], 1), FromText(" ∈ "), "\\in")
  const NOT_IN: Node :=
    SpecialLiteral(" ∉ ", Figure(["  __/", " /_/ ", " \\/_ ", " /"], 1), FromText(" ∉ "), "\\not\\in")
  const CONTAINS: Node :=
    SpecialLiteral(" ∋ ", Figure([" __/", " _/\\ ", " /_/", "/"], 1), FromText(" ∋ "), "\\ni")
  const CONTAINS_NOT: Node :=
    SpecialLiteral(" ∌ ", Figure(["  __/", " /_/ ", " \\/_ ", " /"], 1), FromText(" ∌ "), "\\not\\ni")
  const AND: Node := Glyph("∧", "&", "∧", "\\land")
  const OR: Node := Glyph("∨", " || ", "∨", "\\lor")
  const NEGATE: Node := Literal(true, "-")
  const NOT: Node := Glyph("¬", "!", "¬", "\\lnot")
  const FACTORIAL: Node := Literal(true, "!")
  const PERCENT: Node := Glyph("%", "%", "%", "\\%")
  const DEGREE: Node := Glyph("°", "°", "°", "^\\circ")

  const LEFT_ARROW: Node := Glyph("<-", "<-", "←", "\\leftarrow")
  const D_LEFT_ARROW: Node := Glyph("<==", "<==", "⇐", "\\Leftarrow")
  const RIGHT_ARROW: Node := Glyph("->", "->", "→", "\\rightarrow")
  const D_RIGHT_ARROW: Node := Glyph("=>", "=>", "⇒", "\\Rightarrow")
  const LEFT_RIGHT_ARROW: Node := Glyph("<->", "<->", "↔", "\\leftrightarrow")
  const D_LEFT_RIGHT_ARROW: Node := Glyph("<=>", "<=>", "⇔", "\\Leftrightarrow")

  /** `arrow(right, doubleLine)`: no direction (Java's null) points both ways. */
  function Arrow(right: Wrappers.Option<bool>, doubleLine: bool): (r: Node)
    ensures r.SpecialLiteral?
    ensures right.None? ==> r.inline == (if doubleLine then "<=>" else "<->")
    ensures right == Wrappers.Some(true) ==> r.inline == (if doubleLine then "=>" else "->")
    ensures right == Wrappers.Some(false) ==> r.inline == (if doubleLine then "<==" else "<-")
  {
    match right
    case None => if doubleLine then D_LEFT_RIGHT_ARROW else LEFT_RIGHT_ARROW
    case Some(true) => if doubleLine then D_RIGHT_ARROW else RIGHT_ARROW
    case Some(false) => if doubleLine then D_LEFT_ARROW else LEFT_ARROW
  }

  /** The integers as written are indistinguishable from the rationals in
      every output form. */
  lemma IntegersAsWrittenAreRationals()
    ensures INT_NUMS_AS_WRITTEN == RATIONAL_NUMS
  {
  }

  /** The corrected integers differ from the rationals in every output form. */
  lemma IntegersDistinct()
    ensures INT_NUMS.inline != RATIONAL_NUMS.inline
    ensures INT_NUMS.ascii.lines != RATIONAL_NUMS.ascii.lines
    ensures INT_NUMS.latex != RATIONAL_NUMS.latex
  {
    FromTextSingleLine("Z");
    FromTextSingleLine("Q");
    assert "Z"[0] != "Q"[0];
  }

  /** As written, "not greater or equal" and "not less or equal" print the
      same ASCII picture. */
  lemma NotGeqAsWrittenCollides()
    ensures NOT_GREATER_OR_EQUAL_AS_WRITTEN.ascii == NOT_LESS_OR_EQUAL.ascii
    ensures NOT_GREATER_OR_EQUAL_AS_WRITTEN.inline != NOT_LESS_OR_EQUAL.inline
  {
    assert "≱"[0] != "≰"[0];
  }

  /** The corrected ASCII picture mirrors the comparison of "not greater". */
  lemma NotGeqDistinct()
    ensures NOT_GREATER_OR_EQUAL.ascii.lines == ["!>="]
    ensures NOT_GREATER_OR_EQUAL.ascii.lines != NOT_LESS_OR_EQUAL.ascii.lines
    ensures NOT_GREATER.ascii.lines[0] <= NOT_GREATER_OR_EQUAL.ascii.lines[0]
  {
    FromTextSingleLine("!>=");
    FromTextSingleLine("!<=");
    FromTextSingleLine("!>");
    assert "!>="[1] != "!<="[1];
  }
}

=== FILE: inline.dfy ===
/** `renderInline` of every node class, reached through `render(INLINE, o)`:
    the automatic parentheses of `RenderableExpression.render` around the
    class's own one-line rendering. */
module Inline {
  import opened Java
  import opened Wrappers
  import opened Strings
  import opened Expr
  import opened Options
  import opened Charsets
  import opened BracketShapes
  import opened Render
  import Utils
  import Precedence
  import Builders

  /** `n.render(INLINE, o)`: an exponential never gets parentheses, an
      integral renders itself (as a big symbol) directly, a matrix bracket
      renders as the configured bracket node, and every other node goes into
      round brackets exactly when the surrounding operator binds tighter. */
  function Inline(n: Node, o: Options, env: Foreign): string
    requires WellFormed(n)
    decreases Size(n), if WillWrap(n, o, env) then 6 else 4
  {
    if n.Exp? || n.Integral? then InlineBody(n, o, env)
    else if n.MatrixBrackets? then Inline(Brackets(o.matrixBrackets, n.inner), o, env)
    else if WillWrap(n, o, env) then BracketsInline(Round, n, o, env)
    else InlineBody(n, o, env)
  }

  /** `renderInline` of each class. */
  function InlineBody(n: Node, o: Options, env: Foreign): string
    requires WellFormed(n)
    decreases Size(n), 3
  {
    if n.NumberLiteral? || n.Text? || n.SpecialLiteral? || n.Grid? || n.AugmentedGrid? || n.Fraction?
       || n.Root? || n.Subscript? || n.Superscript? || n.SuperSubscript? || n.Brackets? || n.MatrixBrackets?
    then TightInline(n, o, env)
    else LooseInline(n, o, env)
  }

  /** `renderInline` of literals, tables, fractions, roots, scripts and
      brackets. */
  function TightInline(n: Node, o: Options, env: Foreign): string
    requires WellFormed(n)
    decreases Size(n), 2
  {
    match n
    case NumberLiteral(d) => ReplaceNewlines(d)
    case Text(t, _) => ReplaceNewlines(t)
    case SpecialLiteral(s, _, _, _) => s
    case Grid(rows) => GridInline(rows, o, env)
    case AugmentedGrid(l, r) => AugmentedInline(l, r, o, env)
    case Fraction(a, b) => FractionInline(a, b, o, env)
    case Root(d, v) => RootInline(d, v, o, env)
    case Subscript(a, b) => SubscriptInline(a, b, o, env)
    case Superscript(a, b) => SuperscriptInline(a, b, o, env)
    case SuperSubscript(m, p, b) => SuperscriptInline(Subscript(m, b), p, o, env)
    case Brackets(k, x) => BracketsInline(k, x, o, env)
    case MatrixBrackets(x) => BracketsInline(o.matrixBrackets, x, o, env)
    case _ => LooseInline(n, o, env)
  }

  /** `renderInline` of lists, concatenations, bars, big operators,
      exponentials and the classes outside this model. */
  function LooseInline(n: Node, o: Options, env: Foreign): string
    requires WellFormed(n)
    decreases Size(n), 1
  {
    match n
    case List(d, xs) => ListInline(d, xs, o, env)
    case Concatenation(a, b, maybeSpace) => ConcatInline(a, b, maybeSpace, o, env)
    case Middle(a, b) => MiddleInline(a, b, o, env)
    case BigSymbol(s, u, v, x) => BigSymbolInline(s, u, v, x, o, env)
    case Integral(l, u, v) => IntegralInline(l, u, v, o, env)
    case Exp(v) => ExpInline(v, o, env)
    case _ => env.inline(n, o)
  }

  /** `Integral.renderInline`: a big symbol whose symbol is the integral
      sign as a number literal, the bounds below and above it. */
  function IntegralInline(l: Option<Node>, u: Option<Node>, v: Node, o: Options, env: Foreign): string
    requires OptWellFormed(l) && OptWellFormed(u) && WellFormed(v)
    decreases 6 + SizeOpt(l) + SizeOpt(u) + Size(v), 0
  {
    assert Size(BigSymbol(NumberLiteral("∫"), l, u, v)) == 5 + SizeOpt(l) + SizeOpt(u) + Size(v);
    Inline(BigSymbol(NumberLiteral("∫"), l, u, v), o, env)
  }

  /** `Exp.renderInline`: the call `exp(v)`. */
  function ExpInline(v: Node, o: Options, env: Foreign): string
    requires WellFormed(v)
    decreases 10 + Size(v), 0
  {
    ExpCallWellFormed(v);
    Inline(Builders.Call(Builders.Name("exp"), [v]), o, env)
  }

  /** `Grid.renderInline`: the cells at the lowest precedence, two blanks
      between the cells of a row and a comma between rows. */
  function GridInline(rows: seq<Row>, o: Options, env: Foreign): string
    requires CellsWellFormed(rows)
    decreases 1 + SizeRows(rows), 0
  {
    Join(InlineRows(rows, At(o, Precedence.MIN), env, "  "), if o.spaceMode == Compact then "," else ", ")
  }

  /** `Fraction.renderInline`: numerator and denominator around a slash, the
      denominator one level tighter so that a quotient in it is bracketed. */
  function FractionInline(a: Node, b: Node, o: Options, env: Foreign): string
    requires WellFormed(a) && WellFormed(b)
    decreases 1 + Size(a) + Size(b), 0
  {
    Inline(a, At(o, Precedence.DIVIDE), env) + "/" + Inline(b, At(o, Precedence.DIVIDE + 1), env)
  }

  /** `Subscript.renderInline`: the Unicode subscript form of the index when
      it has one the charset shows and the base is not already a subscript,
      otherwise an underscore and the index at the highest precedence. */
  function SubscriptInline(a: Node, b: Node, o: Options, env: Foreign): string
    requires WellFormed(a) && WellFormed(b)
    decreases 1 + Size(a) + Size(b), 0
  {
    var sa, sb := Inline(a, At(o, Precedence.MAX), env), Inline(b, At(o, Precedence.MIN), env);
    var sub := Utils.ToSubscript(sb);
    if !Utils.IsSubscript(sa) && sub.Some? && CanDisplay(o.charset, sub.value) then sa + sub.value
    else sa + "_" + Inline(b, At(o, Precedence.MAX), env)
  }

  /** `Superscript.renderInline`, also used by `SuperSubscript` on a
      subscripted base: the Unicode superscript form of the exponent when it
      has one the charset shows and the base is not already a superscript,
      otherwise a caret and the exponent at the highest precedence. */
  function SuperscriptInline(a: Node, b: Node, o: Options, env: Foreign): string
    requires WellFormed(a) && WellFormed(b)
    decreases 1 + Size(a) + Size(b), 0
  {
    var sa, sb := Inline(a, At(o, Precedence.SUPERSCRIPT + 1), env), Inline(b, At(o, Precedence.MIN), env);
    var sup := Utils.ToSuperscript(sb);
    if !Utils.IsSuperscript(sa) && sup.Some? && CanDisplay(o.charset, sup.value) then sa + sup.value
    else sa + "^" + Inline(b, At(o, Precedence.MAX), env)
  }

  /** `Concatenation.renderInline`: both operands at the concatenation's own
      precedence, with a blank between them where the spacing rule asks. */
  function ConcatInline(a: Node, b: Node, maybeSpace: bool, o: Options, env: Foreign): string
    requires WellFormed(a) && WellFormed(b)
    decreases 1 + Size(a) + Size(b), 0
  {
    var o' := At(o, Prec(Concatenation(a, b, maybeSpace), env));
    Inline(a, o', env) + (if RenderSpace(a, b, maybeSpace, o.spaceMode) then " " else "") + Inline(b, o', env)
  }

  /** `Middle.renderInline`: both sides just above the bar's precedence
      around a bar, padded with blanks unless spacing is compact. */
  function MiddleInline(a: Node, b: Node, o: Options, env: Foreign): string
    requires WellFormed(a) && WellFormed(b)
    decreases 1 + Size(a) + Size(b), 0
  {
    var o', space := At(o, Precedence.MID + 1), if o.spaceMode == Compact then "" else " ";
    Inline(a, o', env) + space + "|" + space + Inline(b, o', env)
  }

  /** `Brackets.renderInline`: the contents at the lowest precedence between
      the ASCII symbols of the kind, ceiling and floor spelled as calls. */
  function BracketsInline(k: Bracket, x: Node, o: Options, env: Foreign): string
    requires WellFormed(x)
    decreases Size(x), 5
  {
    var s := Inline(x, At(o, Precedence.MIN), env);
    if k == Ceil then "ceil(" + s + ")"
    else if k == Floor then "floor(" + s + ")"
    else AsciiSymbol(k, true) + s + AsciiSymbol(k, false)
  }

  /** `Root.renderInline`: a square root (no degree or degree 2) is the
      radical sign when the charset has it, else a `sqrt` call; another
      degree is raised in front of the sign when it has a superscript form
      the charset shows, else the root is spelled as a two-argument call. */
  function RootInline(d: Node, v: Node, o: Options, env: Foreign): string
    requires WellFormed(d) && WellFormed(v)
    decreases Size(d) + Size(v) + 1, 0
  {
    var deg := Inline(d, At(o, Precedence.MIN), env);
    if deg == "" || deg == "2" then
      if CanDisplay(o.charset, "√") then "√" + Inline(v, At(o, Precedence.MAX), env)
      else if v.Brackets? && v.kind == Round then "sqrt" + Inline(v, o, env)
      else "sqrt(" + Inline(v, At(o, Precedence.MIN), env) + ")"
    else
      var sup := Utils.ToSuperscript(deg);
      if sup.Some? && CanDisplay(o.charset, "√" + sup.value) then
        sup.value + "√" + Inline(v, At(o, Precedence.MAX), env)
      else
        var o' := At(o, Precedence.COMMA + 1);
        "root(" + Inline(d, o', env) + ", " + Inline(v, o', env) + ")"
  }

  /** `List.renderInline`: nothing for no elements, a single element as if
      the list were not there, otherwise the elements, one precedence level
      above the delimiter, with the delimiter between them. */
  function ListInline(d: Node, xs: seq<Node>, o: Options, env: Foreign): string
    requires WellFormed(d) && ListWellFormed(xs)
    decreases 1 + Size(d) + SizeList(xs), 0
  {
    if |xs| == 0 then ""
    else if |xs| == 1 then
      assert WellFormed(xs[0]);
      Inline(xs[0], o, env)
    else Join(InlineList(xs, At(o, ListInner(d, env)), env), Inline(d, o, env))
  }

  /** `BigSymbol.renderInline`: the symbol with its bounds as sub- and
      superscripts, then the operand, all at iteration precedence. */
  function BigSymbolInline(s: Node, u: Option<Node>, v: Option<Node>, x: Node, o: Options, env: Foreign): string
    requires WellFormed(s) && OptWellFormed(u) && OptWellFormed(v) && WellFormed(x)
    decreases 4 + Size(s) + SizeOpt(u) + SizeOpt(v) + Size(x), 0
  {
    var o' := At(o, Precedence.ITERATION);
    var head :=
      if v.None? then
        if u.None? then Inline(s, o', env) else Inline(Subscript(s, u.value), o', env)
      else if u.None? then Inline(Superscript(s, v.value), o', env)
      else Inline(SuperSubscript(s, v.value, u.value), o', env);
    head + Inline(x, o', env)
  }

  /** `AugmentedGrid.renderInline` with each row's right-hand cells after
      the bar. */
  function AugmentedInline(l: seq<Row>, r: seq<Row>, o: Options, env: Foreign): string
    requires Rectangular(l) && Rectangular(r) && |l| == |r| && CellsWellFormed(l) && CellsWellFormed(r)
    decreases 1 + SizeRows(l) + SizeRows(r), 0
  {
    var o' := At(o, Precedence.MID);
    var compact := o.spaceMode == Compact;
    var left, right := InlineRows(l, o', env, if compact then " " else "  "), InlineRows(r, o', env, if compact then " " else "  ");
    var bar := if compact then "|" else " | ";
    Join(seq(|l|, i requires 0 <= i < |l| => left[i] + bar + right[i]), if compact then "," else ", ")
  }

  /** The inline rendering of each row: its cells separated by `space`. */
  function InlineRows(rows: seq<Row>, o: Options, env: Foreign, space: string): (rs: seq<string>)
    requires CellsWellFormed(rows)
    ensures |rs| == |rows|
    decreases SizeRows(rows), 8
  {
    if rows == [] then []
    else [Join(InlineList(rows[0].cells, o, env), space)] + InlineRows(rows[1..], o, env, space)
  }

  /** The inline rendering of each node of a sequence. */
  function InlineList(xs: seq<Node>, o: Options, env: Foreign): (rs: seq<string>)
    requires ListWellFormed(xs)
    ensures |rs| == |xs|
    decreases SizeList(xs), 7
  {
    if xs == [] then [] else [Inline(xs[0], o, env)] + InlineList(xs[1..], o, env)
  }

  /** `call("exp", v)` is well formed with `v`, and smaller than `Exp(v)`. */
  lemma ExpCallWellFormed(v: Node)
    requires WellFormed(v)
    ensures WellFormed(Builders.Call(Builders.Name("exp"), [v]))
    ensures Size(Builders.Call(Builders.Name("exp"), [v])) <= 3 + Size(v)
  {
  }

  // ---------------------------------------------------------------------------
  // The automatic parentheses

  /** Every class that keeps the default `render` gets parentheses exactly
      when its precedence is below the surrounding one, and then renders
      inside them at the lowest precedence, just as an explicit round
      bracket node around it would; otherwise it renders as its class does. */
  lemma WrapRule(n: Node, o: Options, env: Foreign)
    requires WellFormed(n)
    requires !n.Exp? && !n.Integral? && !n.MatrixBrackets?
    ensures WillWrap(n, o, env) ==> Inline(n, o, env) == "(" + InlineBody(n, At(o, Precedence.MIN), env) + ")"
    ensures WillWrap(n, o, env) ==> Inline(n, o, env) == Inline(Brackets(Round, n), o, env)
    ensures !WillWrap(n, o, env) ==> Inline(n, o, env) == InlineBody(n, o, env)
  {
    if WillWrap(n, o, env) {
      var low := At(o, Precedence.MIN);
      NoWrap(n, low, env);
      NoWrap(Brackets(Round, n), o, env);
      assert Inline(n, low, env) == InlineBody(n, low, env);
      assert AsciiSymbol(Round, true) == "(" && AsciiSymbol(Round, false) == ")";
      assert Inline(n, o, env) == BracketsInline(Round, n, o, env);
      assert Inline(Brackets(Round, n), o, env) == TightInline(Brackets(Round, n), o, env);
    }
  }

  /** An exponential and an integral are never put in parentheses, and a
      matrix bracket renders exactly as a bracket node of the configured kind. */
  lemma OverridesInline(n: Node, o: Options, env: Foreign)
    requires WellFormed(n)
    ensures n.Exp? || n.Integral? ==> Inline(n, o, env) == InlineBody(n, o, env)
    ensures n.MatrixBrackets? ==>
      Inline(n, o, env) == Inline(Brackets(o.matrixBrackets, n.inner), o, env) == InlineBody(n, o, env)
  {
    if n.MatrixBrackets? {
      var b := Brackets(o.matrixBrackets, n.inner);
      NoWrap(b, o, env);
      assert Inline(b, o, env) == TightInline(b, o, env) == BracketsInline(o.matrixBrackets, n.inner, o, env);
      assert InlineBody(n, o, env) == TightInline(n, o, env);
    }
  }

  /** The class renderings use the surrounding precedence only through
      `render`: apart from lists (whose delimiter and single element see it),
      integrals, exponentials and the classes outside this model, they set
      their own precedence for every operand. */
  lemma BodyIgnoresPrecedence(n: Node, o: Options, p: Int32, env: Foreign)
    requires WellFormed(n)
    requires !IsForeign(n) && !n.Exp? && !n.Integral? && !n.List?
    ensures InlineBody(n, At(o, p), env) == InlineBody(n, o, env)
  {
    var o' := At(o, p);
    forall q: Int32 ensures At(o', q) == At(o, q) {
      AtTwice(o, p, q);
    }
    if n.Concatenation? || n.Middle? || n.BigSymbol? {
      LooseIgnoresPrecedence(n, o, o', env);
    } else if n.Root? {
      RootIgnoresPrecedence(n.degree, n.value, o, o', env);
    } else if n.Grid? || n.AugmentedGrid? || n.Fraction? {
      TableIgnoresPrecedence(n, o, o', env);
    } else if n.Subscript? || n.Superscript? || n.SuperSubscript? {
      ScriptIgnoresPrecedence(n, o, o', env);
    } else if n.Brackets? || n.MatrixBrackets? {
      BracketsIgnorePrecedence(n, o, o', env);
    }
  }

  lemma LooseIgnoresPrecedence(n: Node, o: Options, o': Options, env: Foreign)
    requires WellFormed(n) && (n.Concatenation? || n.Middle? || n.BigSymbol?)
    requires o'.(outsidePrecedence := o.outsidePrecedence) == o
    requires forall q: Int32 :: At(o', q) == At(o, q)
    ensures InlineBody(n, o', env) == InlineBody(n, o, env)
  {
    match n
    case Concatenation(a, b, m) =>
      assert LooseInline(n, o', env) == ConcatInline(a, b, m, o', env) == ConcatInline(a, b, m, o, env);
    case Middle(a, b) =>
      assert LooseInline(n, o', env) == MiddleInline(a, b, o', env) == MiddleInline(a, b, o, env);
    case BigSymbol(s, u, v, x) =>
      assert LooseInline(n, o', env) == BigSymbolInline(s, u, v, x, o', env) == BigSymbolInline(s, u, v, x, o, env);
  }

  lemma RootIgnoresPrecedence(d: Node, v: Node, o: Options, o': Options, env: Foreign)
    requires WellFormed(d) && WellFormed(v)
    requires o'.(outsidePrecedence := o.outsidePrecedence) == o
    requires forall q: Int32 :: At(o', q) == At(o, q)
    ensures InlineBody(Root(d, v), o', env) == InlineBody(Root(d, v), o, env)
  {
    if v.Brackets? {
      NoWrap(v, o, env);
      NoWrap(v, o', env);
      assert Inline(v, o', env) == TightInline(v, o', env) == BracketsInline(v.kind, v.inner, o', env);
      assert Inline(v, o, env) == TightInline(v, o, env) == BracketsInline(v.kind, v.inner, o, env);
    }
    assert TightInline(Root(d, v), o', env) == RootInline(d, v, o', env) == RootInline(d, v, o, env);
  }

  lemma TableIgnoresPrecedence(n: Node, o: Options, o': Options, env: Foreign)
    requires WellFormed(n) && (n.Grid? || n.AugmentedGrid? || n.Fraction?)
    requires o'.(outsidePrecedence := o.outsidePrecedence) == o
    requires forall q: Int32 :: At(o', q) == At(o, q)
    ensures InlineBody(n, o', env) == InlineBody(n, o, env)
  {
    match n
    case Grid(rows) =>
      assert TightInline(n, o', env) == GridInline(rows, o', env) == GridInline(rows, o, env);
    case AugmentedGrid(l, r) =>
      assert TightInline(n, o', env) == AugmentedInline(l, r, o', env) == AugmentedInline(l, r, o, env);
    case Fraction(a, b) =>
      assert TightInline(n, o', env) == FractionInline(a, b, o', env) == FractionInline(a, b, o, env);
  }

  lemma ScriptIgnoresPrecedence(n: Node, o: Options, o': Options, env: Foreign)
    requires WellFormed(n) && (n.Subscript? || n.Superscript? || n.SuperSubscript?)
    requires o'.(outsidePrecedence := o.outsidePrecedence) == o
    requires forall q: Int32 :: At(o', q) == At(o, q)
    ensures InlineBody(n, o', env) == InlineBody(n, o, env)
  {
    match n
    case Subscript(a, b) =>
      assert TightInline(n, o', env) == SubscriptInline(a, b, o', env) == SubscriptInline(a, b, o, env);
    case Superscript(a, b) =>
      assert TightInline(n, o', env) == SuperscriptInline(a, b, o', env) == SuperscriptInline(a, b, o, env);
    case SuperSubscript(m, q, b) =>
      assert TightInline(n, o', env) == SuperscriptInline(Subscript(m, b), q, o', env)
        == SuperscriptInline(Subscript(m, b), q, o, env);
  }

  lemma BracketsIgnorePrecedence(n: Node, o: Options, o': Options, env: Foreign)
    requires WellFormed(n) && (n.Brackets? || n.MatrixBrackets?)
    requires o'.(outsidePrecedence := o.outsidePrecedence) == o
    requires forall q: Int32 :: At(o', q) == At(o, q)
    ensures InlineBody(n, o', env) == InlineBody(n, o, env)
  {
    match n
    case Brackets(k, x) =>
      assert TightInline(n, o', env) == BracketsInline(k, x, o', env) == BracketsInline(k, x, o, env);
    case MatrixBrackets(x) =>
      assert TightInline(n, o', env) == BracketsInline(o.matrixBrackets, x, o', env)
        == BracketsInline(o.matrixBrackets, x, o, env);
  }

  // ---------------------------------------------------------------------------
  // Transparent wrappers and delegations

  /** A one-element list renders as its element alone: it has the element's
      precedence, so it is bracketed exactly when the element would be
      (the element classes that are never bracketed aside). */
  lemma SingletonListInline(d: Node, x: Node, o: Options, env: Foreign)
    requires WellFormed(d) && WellFormed(x)
    requires !(x.Exp? || x.Integral?) || !WillWrap(x, o, env)
    ensures Inline(List(d, [x]), o, env) == Inline(x, o, env)
  {
    var n := List(d, [x]);
    assert Prec(n, env) == Prec(x, env);
    assert InlineBody(n, o, env) == LooseInline(n, o, env) == ListInline(d, [x], o, env) == Inline(x, o, env);
    if WillWrap(n, o, env) {
      var low := At(o, Precedence.MIN);
      NoWrap(n, low, env);
      NoWrap(x, low, env);
      NoWrap(x, o, env);
      assert InlineBody(n, low, env) == LooseInline(n, low, env) == ListInline(d, [x], low, env);
      WrapRule(n, o, env);
      WrapRule(x, o, env);
    } else {
      WrapRule(n, o, env);
    }
  }

  /** A one-by-one grid renders as its only cell: the grid has the cell's
      precedence, and the cell renders the same at any precedence it is not
      bracketed at. */
  lemma UnitGridInline(x: Node, o: Options, env: Foreign)
    requires WellFormed(x)
    requires !IsForeign(x) && !x.Exp? && !x.Integral? && !x.List? && !x.MatrixBrackets?
    ensures Inline(Grid([Row([x])]), o, env) == Inline(x, o, env)
  {
    var n, low := Grid([Row([x])]), At(o, Precedence.MIN);
    assert WellFormed(n) by {
      assert CellsWellFormed([Row([x])]);
    }
    assert Prec(n, env) == Prec(x, env);
    NoWrap(x, low, env);
    assert InlineList([x], low, env) == [Inline(x, low, env)];
    assert InlineRows([Row([x])], low, env, "  ") == [Inline(x, low, env)];
    assert Inline(x, low, env) == InlineBody(x, low, env);
    forall o': Options | o'.outsidePrecedence == Precedence.MIN && o'.(outsidePrecedence := o.outsidePrecedence) == o
      ensures InlineBody(n, o', env) == InlineBody(x, o', env)
    {
      assert o' == low;
      assert InlineBody(n, o', env) == TightInline(n, o', env) == GridInline([Row([x])], o', env);
      assert At(o', Precedence.MIN) == o' by {
        AtTwice(o, Precedence.MIN, Precedence.MIN);
      }
    }
    WrapRule(n, o, env);
    WrapRule(x, o, env);
    if !WillWrap(n, o, env) {
      assert InlineBody(n, o, env) == TightInline(n, o, env) == GridInline([Row([x])], o, env);
      BodyIgnoresPrecedence(x, o, Precedence.MIN, env);
    }
  }

  /** A square root is written the same with no degree and with degree two,
      and with the radical sign available it is the sign followed by the
      radicand at the highest precedence. */
  lemma SqrtInline(v: Node, o: Options, env: Foreign)
    requires WellFormed(v)
    ensures InlineBody(Builders.Sqrt(v), o, env) == InlineBody(Root(NumberLiteral("2"), v), o, env)
    ensures CanDisplay(o.charset, "√") ==>
      InlineBody(Builders.Sqrt(v), o, env) == "√" + Inline(v, At(o, Precedence.MAX), env)
  {
    var low := At(o, Precedence.MIN);
    NoWrap(NumberLiteral(""), low, env);
    NoWrap(NumberLiteral("2"), low, env);
    assert Inline(NumberLiteral(""), low, env) == "";
    assert Inline(NumberLiteral("2"), low, env) == "2";
    assert InlineBody(Builders.Sqrt(v), o, env) == TightInline(Builders.Sqrt(v), o, env)
      == RootInline(NumberLiteral(""), v, o, env);
    assert InlineBody(Root(NumberLiteral("2"), v), o, env) == TightInline(Root(NumberLiteral("2"), v), o, env)
      == RootInline(NumberLiteral("2"), v, o, env);
  }

  /** A cube root raises its degree in front of the radical sign when the
      charset shows both, and is otherwise spelled as a two-argument call. */
  lemma CbrtInline(v: Node, o: Options, env: Foreign)
    requires WellFormed(v)
    ensures CanDisplay(o.charset, "√³") ==>
      InlineBody(Builders.Cbrt(v), o, env) == "³√" + Inline(v, At(o, Precedence.MAX), env)
    ensures !CanDisplay(o.charset, "√³") ==>
      InlineBody(Builders.Cbrt(v), o, env) == "root(3, " + Inline(v, At(o, Precedence.COMMA + 1), env) + ")"
  {
    var low, comma := At(o, Precedence.MIN), At(o, Precedence.COMMA + 1);
    NoWrap(NumberLiteral("3"), low, env);
    assert Inline(NumberLiteral("3"), low, env) == "3";
    assert Inline(NumberLiteral("3"), comma, env) == "3";
    assert Utils.ToSuperscript("3") == Some("³") by {
      assert "3"[0] == '3' && '3' in Utils.SUPERSCRIPT && Utils.SUPERSCRIPT['3'] == '³';
      var t := Utils.ToSuperscript("3");
      assert t.Some? && |t.value| == 1 && t.value[0] == '³';
      assert t.value == "³";
    }
    assert "3" != "" && "3" != "2" && "√" + "³" == "√³";
    assert InlineBody(Builders.Cbrt(v), o, env) == TightInline(Builders.Cbrt(v), o, env)
      == RootInline(NumberLiteral("3"), v, o, env);
    if CanDisplay(o.charset, "√³") {
      assert RootInline(NumberLiteral("3"), v, o, env) == "³" + "√" + Inline(v, At(o, Precedence.MAX), env);
    } else {
      var x := Inline(v, comma, env);
      assert RootInline(NumberLiteral("3"), v, o, env) == "root(" + "3" + ", " + x + ")";
      assert "root(" + "3" + ", " + x + ")" == "root(3, " + x + ")";
    }
  }

  /** A superscript on a subscripted base renders as the superscript of the
      subscript, which is what building it in either order gives. */
  lemma SuperSubscriptInline(m: Node, p: Node, b: Node, o: Options, env: Foreign)
    requires WellFormed(m) && WellFormed(p) && WellFormed(b)
    requires !m.Subscript? && !m.Superscript?
    ensures InlineBody(Builders.Sup(Builders.Sub(m, b), p), o, env)
         == InlineBody(Superscript(Subscript(m, b), p), o, env)
  {
    var n := SuperSubscript(m, p, b);
    Builders.ScriptsCommute(m, p, b);
    assert InlineBody(n, o, env) == TightInline(n, o, env);
    assert InlineBody(Superscript(Subscript(m, b), p), o, env) == TightInline(Superscript(Subscript(m, b), p), o, env);
  }

  /** An integral renders inline as a big operator whose symbol is the
      integral sign, lower bound below and upper bound above, and it is
      bracketed as that big operator would be. */
  lemma IntegralAsBigSymbol(l: Option<Node>, u: Option<Node>, v: Node, o: Options, env: Foreign)
    requires OptWellFormed(l) && OptWellFormed(u) && WellFormed(v)
    ensures Inline(Integral(l, u, v), o, env) == Inline(BigSymbol(NumberLiteral("∫"), l, u, v), o, env)
  {
    var n := Integral(l, u, v);
    assert Inline(n, o, env) == InlineBody(n, o, env) == LooseInline(n, o, env) == IntegralInline(l, u, v, o, env);
  }

  /** An exponential renders inline as the call `exp(v)`, bracketed as that
      call would be. */
  lemma ExpAsCall(v: Node, o: Options, env: Foreign)
    requires WellFormed(v)
    ensures WellFormed(Builders.Call(Builders.Name("exp"), [v]))
    ensures Inline(Exp(v), o, env) == Inline(Builders.Call(Builders.Name("exp"), [v]), o, env)
  {
    ExpCallWellFormed(v);
    var n := Exp(v);
    assert Inline(n, o, env) == InlineBody(n, o, env) == LooseInline(n, o, env) == ExpInline(v, o, env);
  }

  // ---------------------------------------------------------------------------
  // The augmented grid's right-hand cells

  /** `AugmentedGrid.renderInline` as written: the loop after the bar walks
      the left grid's cells a second time, so the right grid is never
      rendered. */
  function AugmentedInlineAsWritten(l: seq<Row>, r: seq<Row>, o: Options, env: Foreign): string
    requires Rectangular(l) && Rectangular(r) && |l| == |r| && CellsWellFormed(l) && CellsWellFormed(r)
  {
    var o' := At(o, Precedence.MID);
    var compact := o.spaceMode == Compact;
    var left := InlineRows(l, o', env, if compact then " " else "  ");
    var bar := if compact then "|" else " | ";
    Join(seq(|l|, i requires 0 <= i < |l| => left[i] + bar + left[i]), if compact then "," else ", ")
  }

  /** As written, the text does not depend on the right grid at all. */
  lemma AugmentedInlineIgnoresRight(l: seq<Row>, r1: seq<Row>, r2: seq<Row>, o: Options, env: Foreign)
    requires Rectangular(l) && CellsWellFormed(l)
    requires Rectangular(r1) && |l| == |r1| && CellsWellFormed(r1)
    requires Rectangular(r2) && |l| == |r2| && CellsWellFormed(r2)
    ensures AugmentedInlineAsWritten(l, r1, o, env) == AugmentedInlineAsWritten(l, r2, o, env)
  {
  }

  /** The single cells `1` and `2` on either side of the bar: as written the
      text repeats the left cell, the corrected rendering shows the right one. */
  lemma AugmentedInlineCounterexample(env: Foreign)
    ensures var l, r := [Row([NumberLiteral("1")])], [Row([NumberLiteral("2")])];
      && AugmentedInlineAsWritten(l, r, DEFAULT, env) == "1 | 1"
      && AugmentedInline(l, r, DEFAULT, env) == "1 | 2"
  {
    var l, r := [Row([NumberLiteral("1")])], [Row([NumberLiteral("2")])];
    var mid := At(DEFAULT, Precedence.MID);
    UnitRowText(NumberLiteral("1"), mid, env);
    UnitRowText(NumberLiteral("2"), mid, env);
    assert ReplaceNewlines("1") == "1" && ReplaceNewlines("2") == "2";
  }

  /** The text of a single-cell table row. */
  lemma UnitRowText(x: Node, o: Options, env: Foreign)
    requires WellFormed(x) && !WillWrap(x, o, env) && x.NumberLiteral?
    ensures InlineRows([Row([x])], o, env, " ") == InlineRows([Row([x])], o, env, "  ") == [ReplaceNewlines(x.digits)]
  {
    assert InlineList([x], o, env) == [Inline(x, o, env)];
    assert Inline(x, o, env) == InlineBody(x, o, env) == TightInline(x, o, env);
  }

  /** The corrected rendering of one-by-one grids: the left cell, the bar
      and the right cell, each cell at the bar's precedence. */
  lemma AugmentedInlineUnit(x: Node, y: Node, o: Options, env: Foreign)
    requires WellFormed(x) && WellFormed(y)
    ensures var mid, bar := At(o, Precedence.MID), if o.spaceMode == Compact then "|" else " | ";
      AugmentedInline([Row([x])], [Row([y])], o, env) == Inline(x, mid, env) + bar + Inline(y, mid, env)
  {
    var mid := At(o, Precedence.MID);
    assert InlineList([x], mid, env) == [Inline(x, mid, env)];
    assert InlineList([y], mid, env) == [Inline(y, mid, env)];
  }
}

=== FILE: java.dfy ===
/** Java `int` arithmetic that the layout code relies on: 32-bit range,
    wrap-around on overflow, and `/` truncating toward zero. */
module Java {

  const MIN_INT: int := -0x8000_0000
  const MAX_INT: int := 0x7FFF_FFFF

  /** A value of Java type `int`. */
  type Int32 = x: int | MIN_INT <= x <= MAX_INT

  /** Reduction into the 32-bit range, as two's-complement overflow does. */
  function Wrap(x: int): (r: Int32)
    ensures (r - x) % 0x1_0000_0000 == 0
    ensures MIN_INT <= x <= MAX_INT ==> r == x
  {
    (x - MIN_INT) % 0x1_0000_0000 + MIN_INT
  }

  /** Java `p + 1` on an `int`. */
  function Succ(p: Int32): (r: Int32)
    ensures p < MAX_INT ==> r == p + 1
    ensures p == MAX_INT ==> r == MIN_INT
  {
    Wrap(p + 1)
  }

  /** Java `a * b` on `int`s: the product reduced into the 32-bit range. */
  function Mul(a: Int32, b: Int32): (r: Int32)
    ensures (r - a * b) % 0x1_0000_0000 == 0
    ensures MIN_INT <= a * b <= MAX_INT ==> r == a * b
  {
    Wrap(a * b)
  }

  function Max(a: int, b: int): int { if a >= b then a else b }

  function Min(a: int, b: int): int { if a <= b then a else b }

  function Abs(a: int): nat { if a < 0 then -a else a }

  /** Java integer division: the quotient is truncated toward zero, so the
      remainder takes the sign of the dividend (Dafny's `/` is Euclidean). */
  function Div(a: int, b: int): int
    requires b != 0
  {
    if (a >= 0) == (b > 0) then Abs(a) / Abs(b) else -(Abs(a) / Abs(b))
  }

  /** The quotient leaves a remainder smaller than the divisor with the sign
      of the dividend. */
  lemma DivSpec(a: int, b: int)
    requires b != 0
    ensures var q := Div(a, b);
      && Abs(a - q * b) < Abs(b)
      && (a >= 0 ==> 0 <= a - q * b)
      && (a <= 0 ==> a - q * b <= 0)
  {
  }

  /** Java's `x / 2`, written with a constant divisor. */
  function Half(x: int): (h: int)
    ensures x >= 0 ==> 0 <= h && x - 1 <= 2 * h <= x
    ensures x <= 0 ==> h <= 0 && x <= 2 * h <= x + 1
  {
    if x >= 0 then x / 2 else -((-x) / 2)
  }

  /** Halving is Java division by two. */
  lemma HalfIsDiv(x: int)
    ensures Half(x) == Div(x, 2)
  {
  }

  /** On non-negative operands Java and Dafny division coincide. */
  lemma DivNonNegative(a: int, b: int)
    requires a >= 0 && b > 0
    ensures Div(a, b) == a / b
  {
  }

  /** Truncation is symmetric: negating the dividend negates the quotient,
      which Euclidean division does not do. */
  lemma DivNegate(a: int, b: int)
    requires b != 0
    ensures Div(-a, b) == -Div(a, b)
  {
  }
}

=== FILE: latex.dfy ===
/** `renderLatex` of every node class, reached through `render(LATEX, o)`:
    the automatic parentheses of `RenderableExpression.render`, here as a
    stretching `\left( … \right)` pair, around the class's own LaTeX. */
module Latex {
  import opened Java
  import opened Wrappers
  import opened Strings
  import opened Expr
  import opened Options
  import opened BracketShapes
  import opened Render
  import Precedence
  import Builders
  import Inline

  /** `n.render(LATEX, o)`: as for the inline text, an exponential and an
      integral render themselves directly, a matrix bracket renders as the
      configured bracket node, and any other node is bracketed exactly when
      the surrounding operator binds tighter. */
  function Latex(n: Node, o: Options, env: Foreign): string
    requires WellFormed(n)
    decreases Size(n), if WillWrap(n, o, env) then 6 else 4
  {
    if n.Exp? || n.Integral? then LatexBody(n, o, env)
    else if n.MatrixBrackets? then Latex(Brackets(o.matrixBrackets, n.inner), o, env)
    else if WillWrap(n, o, env) then BracketsLatex(Round, n, o, env)
    else LatexBody(n, o, env)
  }

  /** `renderLatex` of each class. */
  function LatexBody(n: Node, o: Options, env: Foreign): string
    requires WellFormed(n)
    decreases Size(n), 3
  {
    if n.NumberLiteral? || n.Text? || n.SpecialLiteral? || n.Grid? || n.AugmentedGrid? || n.Fraction?
       || n.Root? || n.Subscript? || n.Superscript? || n.SuperSubscript? || n.Brackets? || n.MatrixBrackets?
    then TightLatex(n, o, env)
    else LooseLatex(n, o, env)
  }

  /** `renderLatex` of literals, tables, fractions, roots, scripts and
      brackets. */
  function TightLatex(n: Node, o: Options, env: Foreign): string
    requires WellFormed(n)
    decreases Size(n), 2
  {
    match n
    case NumberLiteral(d) => d
    case Text(t, _) => "\\text{" + t + "}"
    case SpecialLiteral(_, _, _, s) => s
    case Grid(rows) =>
      "\\begin{matrix}" + Join(LatexRows(rows, At(o, Precedence.MIN), env), "\\\\") + "\\end{matrix}"
    case AugmentedGrid(l, r) => AugmentedLatex(l, r, o, env)
    case Fraction(a, b) => FractionLatex(a, b, o, env)
    case Root(d, v) => RootLatex(d, v, o, env)
    case Subscript(a, b) => SubscriptLatex(a, b, o, env)
    case Superscript(a, b) => SuperscriptLatex(a, b, o, env)
    case SuperSubscript(m, p, b) => SuperSubscriptLatex(m, p, b, o, env)
    case Brackets(k, x) => BracketsLatex(k, x, o, env)
    case MatrixBrackets(x) => BracketsLatex(o.matrixBrackets, x, o, env)
    case _ => LooseLatex(n, o, env)
  }

  /** `renderLatex` of lists, concatenations, bars, big operators,
      exponentials and the classes outside this model. */
  function LooseLatex(n: Node, o: Options, env: Foreign): string
    requires WellFormed(n)
    decreases Size(n), 1
  {
    match n
    case List(d, xs) => ListLatex(d, xs, o, env)
    case Concatenation(a, b, maybeSpace) => ConcatLatex(a, b, maybeSpace, o, env)
    case Middle(a, b) => MiddleLatex(a, b, o, env)
    case BigSymbol(s, u, v, x) => BigSymbolLatex(s, u, v, x, o, env)
    case Integral(l, u, v) => IntegralLatex(l, u, v, o, env)
    case Exp(v) => ExpLatex(v, o, env)
    case _ => env.latex(n, o)
  }

  /** `Brackets.renderLatex`: the contents at the lowest precedence between
      the stretching LaTeX delimiters of the kind. */
  function BracketsLatex(k: Bracket, x: Node, o: Options, env: Foreign): string
    requires WellFormed(x)
    decreases Size(x), 5
  {
    "\\left" + LatexSymbol(k, true) + Latex(x, At(o, Precedence.MIN), env) + "\\right" + LatexSymbol(k, false)
  }

  /** `Fraction.renderLatex`: `\frac` with both operands at the lowest
      precedence, as the braces group them. */
  function FractionLatex(a: Node, b: Node, o: Options, env: Foreign): string
    requires WellFormed(a) && WellFormed(b)
    decreases 1 + Size(a) + Size(b), 0
  {
    var low := At(o, Precedence.MIN);
    "\\frac{" + Latex(a, low, env) + "}{" + Latex(b, low, env) + "}"
  }

  /** `Root.renderLatex`: `\sqrt` with the degree as optional argument. */
  function RootLatex(d: Node, v: Node, o: Options, env: Foreign): string
    requires WellFormed(d) && WellFormed(v)
    decreases 1 + Size(d) + Size(v), 0
  {
    var low := At(o, Precedence.MIN);
    "\\sqrt[" + Latex(d, low, env) + "]{" + Latex(v, low, env) + "}"
  }

  /** `Subscript.renderLatex`: the base at the highest precedence, braced,
      and the braced index. */
  function SubscriptLatex(a: Node, b: Node, o: Options, env: Foreign): string
    requires WellFormed(a) && WellFormed(b)
    decreases 1 + Size(a) + Size(b), 0
  {
    "{" + Latex(a, At(o, Precedence.MAX), env) + "}_{" + Latex(b, At(o, Precedence.MIN), env) + "}"
  }

  /** `Superscript.renderLatex`: the base just above power precedence, so
      that a power as base is bracketed, and the braced exponent. */
  function SuperscriptLatex(a: Node, b: Node, o: Options, env: Foreign): string
    requires WellFormed(a) && WellFormed(b)
    decreases 1 + Size(a) + Size(b), 0
  {
    "{" + Latex(a, At(o, Precedence.SUPERSCRIPT + 1), env) + "}^{" + Latex(b, At(o, Precedence.MIN), env) + "}"
  }

  /** `SuperSubscript.renderLatex`: the base, then exponent and index. */
  function SuperSubscriptLatex(m: Node, p: Node, b: Node, o: Options, env: Foreign): string
    requires WellFormed(m) && WellFormed(p) && WellFormed(b)
    decreases 3 + Size(m) + Size(p) + Size(b), 0
  {
    var low := At(o, Precedence.MIN);
    "{" + Latex(m, At(o, Precedence.MAX), env) + "}^{" + Latex(p, low, env) + "}_{" + Latex(b, low, env) + "}"
  }

  /** `List.renderLatex`: as the inline text, with LaTeX parts. */
  function ListLatex(d: Node, xs: seq<Node>, o: Options, env: Foreign): string
    requires WellFormed(d) && ListWellFormed(xs)
    decreases 1 + Size(d) + SizeList(xs), 0
  {
    if |xs| == 0 then ""
    else if |xs| == 1 then
      assert WellFormed(xs[0]);
      Latex(xs[0], o, env)
    else Join(LatexList(xs, At(o, ListInner(d, env)), env), Latex(d, o, env))
  }

  /** `Concatenation.renderLatex`: a thick space `\;` where the spacing rule
      asks for a blank, otherwise a plain blank, which math mode ignores. */
  function ConcatLatex(a: Node, b: Node, maybeSpace: bool, o: Options, env: Foreign): string
    requires WellFormed(a) && WellFormed(b)
    decreases 1 + Size(a) + Size(b), 0
  {
    var o' := At(o, Prec(Concatenation(a, b, maybeSpace), env));
    Latex(a, o', env) + (if RenderSpace(a, b, maybeSpace, o.spaceMode) then " \\; " else " ") + Latex(b, o', env)
  }

  /** `Middle.renderLatex`: an invisible stretching pair around both sides
      with a stretching bar between them. */
  function MiddleLatex(a: Node, b: Node, o: Options, env: Foreign): string
    requires WellFormed(a) && WellFormed(b)
    decreases 1 + Size(a) + Size(b), 0
  {
    var o', space := At(o, Precedence.MID + 1), if o.spaceMode == Compact then "" else "\\;";
    "\\left." + Latex(a, o', env) + space + "\\middle|" + space + Latex(b, o', env) + "\\right."
  }

  /** `BigSymbol.renderLatex`: the symbol, the lower bound as subscript, the
      upper bound as superscript, then the braced operand. */
  function BigSymbolLatex(s: Node, u: Option<Node>, v: Option<Node>, x: Node, o: Options, env: Foreign): string
    requires WellFormed(s) && OptWellFormed(u) && OptWellFormed(v) && WellFormed(x)
    decreases 4 + Size(s) + SizeOpt(u) + SizeOpt(v) + Size(x), 0
  {
    var o', low := At(o, Precedence.ITERATION), At(o, Precedence.MIN);
    Latex(s, o', env)
    + (if u.Some? then "_{" + Latex(u.value, low, env) + "}" else "")
    + (if v.Some? then "^{" + Latex(v.value, low, env) + "}" else "")
    + "{" + Latex(x, o', env) + "}"
  }

  /** `Integral.renderLatex`: the big symbol with the integral sign. */
  function IntegralLatex(l: Option<Node>, u: Option<Node>, v: Node, o: Options, env: Foreign): string
    requires OptWellFormed(l) && OptWellFormed(u) && WellFormed(v)
    decreases 6 + SizeOpt(l) + SizeOpt(u) + Size(v), 0
  {
    assert Size(BigSymbol(NumberLiteral("∫"), l, u, v)) == 5 + SizeOpt(l) + SizeOpt(u) + Size(v);
    Latex(BigSymbol(NumberLiteral("∫"), l, u, v), o, env)
  }

  /** `Exp.renderLatex`: the power `e^v`. */
  function ExpLatex(v: Node, o: Options, env: Foreign): string
    requires WellFormed(v)
    decreases 10 + Size(v), 0
  {
    Builders.ExpPowerWellFormed(v);
    Latex(Builders.Sup(Builders.Name("e"), v), o, env)
  }

  /** `AugmentedGrid.renderLatex`: every left cell followed by `&`, the bar,
      then `&` before every right cell; rows separated by `\\`. */
  function AugmentedLatex(l: seq<Row>, r: seq<Row>, o: Options, env: Foreign): string
    requires Rectangular(l) && Rectangular(r) && |l| == |r| && CellsWellFormed(l) && CellsWellFormed(r)
    decreases 1 + SizeRows(l) + SizeRows(r), 0
  {
    var o' := At(o, Precedence.MID);
    var left, right := LatexCells(l, o', env), LatexCells(r, o', env);
    var rows := seq(|l|, i requires 0 <= i < |l| => Terminated(left[i], "&") + "\\bigm|" + Led("&", right[i]));
    "\\begin{matrix}" + Join(rows, "\\\\") + "\\end{matrix}"
  }

  /** The LaTeX of each row: its cells separated by `&`. */
  function LatexRows(rows: seq<Row>, o: Options, env: Foreign): (rs: seq<string>)
    requires CellsWellFormed(rows)
    ensures |rs| == |rows|
    decreases SizeRows(rows), 8
  {
    if rows == [] then []
    else [Join(LatexList(rows[0].cells, o, env), "&")] + LatexRows(rows[1..], o, env)
  }

  /** The LaTeX of every cell, row by row. */
  function LatexCells(rows: seq<Row>, o: Options, env: Foreign): (rs: seq<seq<string>>)
    requires CellsWellFormed(rows)
    ensures |rs| == |rows|
    decreases SizeRows(rows), 8
  {
    if rows == [] then []
    else [LatexList(rows[0].cells, o, env)] + LatexCells(rows[1..], o, env)
  }

  /** The LaTeX of each node of a sequence. */
  function LatexList(xs: seq<Node>, o: Options, env: Foreign): (rs: seq<string>)
    requires ListWellFormed(xs)
    ensures |rs| == |xs|
    decreases SizeList(xs), 7
  {
    if xs == [] then [] else [Latex(xs[0], o, env)] + LatexList(xs[1..], o, env)
  }
  // ---------------------------------------------------------------------------
  // The automatic parentheses

  /** A class keeping the default `render` is put between `\left(` and
      `\right)` exactly when its precedence is below the surrounding one, and
      then renders inside them at the lowest precedence, as an explicit round
      bracket node around it would; otherwise it renders as its class does. */
  lemma WrapRuleLatex(n: Node, o: Options, env: Foreign)
    requires WellFormed(n)
    requires !n.Exp? && !n.Integral? && !n.MatrixBrackets?
    ensures WillWrap(n, o, env) ==>
      Latex(n, o, env) == "\\left(" + LatexBody(n, At(o, Precedence.MIN), env) + "\\right)"
    ensures WillWrap(n, o, env) ==> Latex(n, o, env) == Latex(Brackets(Round, n), o, env)
    ensures !WillWrap(n, o, env) ==> Latex(n, o, env) == LatexBody(n, o, env)
  {
    if WillWrap(n, o, env) {
      var low := At(o, Precedence.MIN);
      NoWrap(n, low, env);
      NoWrap(Brackets(Round, n), o, env);
      assert Latex(n, low, env) == LatexBody(n, low, env);
      assert LatexSymbol(Round, true) == "(" && LatexSymbol(Round, false) == ")";
      assert Latex(n, o, env) == BracketsLatex(Round, n, o, env);
      assert Latex(Brackets(Round, n), o, env) == TightLatex(Brackets(Round, n), o, env);
    }
  }

  /** An exponential and an integral are never bracketed, and a matrix
      bracket renders exactly as a bracket node of the configured kind. */
  lemma OverridesLatex(n: Node, o: Options, env: Foreign)
    requires WellFormed(n)
    ensures n.Exp? || n.Integral? ==> Latex(n, o, env) == LatexBody(n, o, env)
    ensures n.MatrixBrackets? ==>
      Latex(n, o, env) == Latex(Brackets(o.matrixBrackets, n.inner), o, env) == LatexBody(n, o, env)
  {
    if n.MatrixBrackets? {
      var b := Brackets(o.matrixBrackets, n.inner);
      NoWrap(b, o, env);
      assert Latex(b, o, env) == TightLatex(b, o, env) == BracketsLatex(o.matrixBrackets, n.inner, o, env);
      assert LatexBody(n, o, env) == TightLatex(n, o, env);
    }
  }

  /** As for the inline text, the LaTeX of a class sets the precedence of
      every operand itself (lists, integrals, exponentials and the classes
      outside this model aside), so the surrounding precedence only decides
      the automatic brackets. */
  lemma LatexBodyIgnoresPrecedence(n: Node, o: Options, p: Int32, env: Foreign)
    requires WellFormed(n)
    requires !IsForeign(n) && !n.Exp? && !n.Integral? && !n.List?
    ensures LatexBody(n, At(o, p), env) == LatexBody(n, o, env)
  {
    var o' := At(o, p);
    forall q: Int32 ensures At(o', q) == At(o, q) {
      AtTwice(o, p, q);
    }
    if n.Concatenation? || n.Middle? || n.BigSymbol? {
      LooseLatexIgnoresPrecedence(n, o, o', env);
    } else {
      TightLatexIgnoresPrecedence(n, o, o', env);
    }
  }

  lemma LooseLatexIgnoresPrecedence(n: Node, o: Options, o': Options, env: Foreign)
    requires WellFormed(n) && (n.Concatenation? || n.Middle? || n.BigSymbol?)
    requires o'.(outsidePrecedence := o.outsidePrecedence) == o
    requires forall q: Int32 :: At(o', q) == At(o, q)
    ensures LatexBody(n, o', env) == LatexBody(n, o, env)
  {
    match n
    case Concatenation(a, b, m) =>
      assert LooseLatex(n, o', env) == ConcatLatex(a, b, m, o', env) == ConcatLatex(a, b, m, o, env);
    case Middle(a, b) =>
      assert LooseLatex(n, o', env) == MiddleLatex(a, b, o', env) == MiddleLatex(a, b, o, env);
    case BigSymbol(s, u, v, x) =>
      assert LooseLatex(n, o', env) == BigSymbolLatex(s, u, v, x, o', env) == BigSymbolLatex(s, u, v, x, o, env);
  }

  lemma TightLatexIgnoresPrecedence(n: Node, o: Options, o': Options, env: Foreign)
    requires WellFormed(n) && !IsForeign(n) && !n.Exp? && !n.Integral? && !n.List?
    requires !n.Concatenation? && !n.Middle? && !n.BigSymbol?
    requires o'.(outsidePrecedence := o.outsidePrecedence) == o
    requires forall q: Int32 :: At(o', q) == At(o, q)
    ensures LatexBody(n, o', env) == LatexBody(n, o, env)
  {
    if n.Subscript? || n.Superscript? || n.SuperSubscript? || n.Brackets? || n.MatrixBrackets? {
      ScriptLatexIgnoresPrecedence(n, o, o', env);
    } else {
      TableLatexIgnoresPrecedence(n, o, o', env);
    }
  }

  lemma TableLatexIgnoresPrecedence(n: Node, o: Options, o': Options, env: Foreign)
    requires WellFormed(n) && !IsForeign(n) && !n.Exp? && !n.Integral? && !n.List?
    requires !n.Concatenation? && !n.Middle? && !n.BigSymbol?
    requires !n.Subscript? && !n.Superscript? && !n.SuperSubscript? && !n.Brackets? && !n.MatrixBrackets?
    requires o'.(outsidePrecedence := o.outsidePrecedence) == o
    requires forall q: Int32 :: At(o', q) == At(o, q)
    ensures LatexBody(n, o', env) == LatexBody(n, o, env)
  {
    match n
    case AugmentedGrid(l, r) =>
      assert TightLatex(n, o', env) == AugmentedLatex(l, r, o', env) == AugmentedLatex(l, r, o, env);
    case Fraction(a, b) =>
      assert TightLatex(n, o', env) == FractionLatex(a, b, o', env) == FractionLatex(a, b, o, env);
    case Root(d, v) =>
      assert TightLatex(n, o', env) == RootLatex(d, v, o', env) == RootLatex(d, v, o, env);
    case _ =>
  }

  lemma ScriptLatexIgnoresPrecedence(n: Node, o: Options, o': Options, env: Foreign)
    requires WellFormed(n) && (n.Subscript? || n.Superscript? || n.SuperSubscript? || n.Brackets? || n.MatrixBrackets?)
    requires o'.(outsidePrecedence := o.outsidePrecedence) == o
    requires forall q: Int32 :: At(o', q) == At(o, q)
    ensures LatexBody(n, o', env) == LatexBody(n, o, env)
  {
    match n
    case Subscript(a, b) =>
      assert TightLatex(n, o', env) == SubscriptLatex(a, b, o', env) == SubscriptLatex(a, b, o, env);
    case Superscript(a, b) =>
      assert TightLatex(n, o', env) == SuperscriptLatex(a, b, o', env) == SuperscriptLatex(a, b, o, env);
    case SuperSubscript(m, q, b) =>
      assert TightLatex(n, o', env) == SuperSubscriptLatex(m, q, b, o', env) == SuperSubscriptLatex(m, q, b, o, env);
    case Brackets(k, x) =>
      assert TightLatex(n, o', env) == BracketsLatex(k, x, o', env) == BracketsLatex(k, x, o, env);
    case MatrixBrackets(x) =>
      assert TightLatex(n, o', env) == BracketsLatex(o.matrixBrackets, x, o', env)
        == BracketsLatex(o.matrixBrackets, x, o, env);
  }

  // ---------------------------------------------------------------------------
  // Transparent wrappers and delegations

  /** A one-element list renders as its element alone, bracketed exactly
      when the element would be. */
  lemma SingletonListLatex(d: Node, x: Node, o: Options, env: Foreign)
    requires WellFormed(d) && WellFormed(x)
    requires !(x.Exp? || x.Integral?) || !WillWrap(x, o, env)
    ensures Latex(List(d, [x]), o, env) == Latex(x, o, env)
  {
    var n := List(d, [x]);
    assert Prec(n, env) == Prec(x, env);
    assert LatexBody(n, o, env) == LooseLatex(n, o, env) == ListLatex(d, [x], o, env) == Latex(x, o, env);
    if WillWrap(n, o, env) {
      var low := At(o, Precedence.MIN);
      NoWrap(n, low, env);
      NoWrap(x, low, env);
      NoWrap(x, o, env);
      assert LatexBody(n, low, env) == LooseLatex(n, low, env) == ListLatex(d, [x], low, env);
      WrapRuleLatex(n, o, env);
      WrapRuleLatex(x, o, env);
    } else {
      WrapRuleLatex(n, o, env);
    }
  }

  /** An integral is the big operator with the integral sign, bracketed as
      that big operator would be. */
  lemma IntegralAsBigSymbolLatex(l: Option<Node>, u: Option<Node>, v: Node, o: Options, env: Foreign)
    requires OptWellFormed(l) && OptWellFormed(u) && WellFormed(v)
    ensures Latex(Integral(l, u, v), o, env) == Latex(BigSymbol(NumberLiteral("∫"), l, u, v), o, env)
  {
    var n := Integral(l, u, v);
    assert Latex(n, o, env) == LatexBody(n, o, env) == LooseLatex(n, o, env) == IntegralLatex(l, u, v, o, env);
  }

  /** An exponential is the power `e^v`, bracketed as that power would be:
      `{e}^{v}` with the exponent at the lowest precedence. */
  lemma ExpAsPowerLatex(v: Node, o: Options, env: Foreign)
    requires WellFormed(v)
    ensures WellFormed(Superscript(Builders.Name("e"), v))
    ensures Latex(Exp(v), o, env) == Latex(Superscript(Builders.Name("e"), v), o, env)
    ensures !WillWrap(Superscript(Builders.Name("e"), v), o, env) ==>
      Latex(Exp(v), o, env) == "{" + Latex(Builders.Name("e"), At(o, Precedence.SUPERSCRIPT + 1), env)
        + "}^{" + Latex(v, At(o, Precedence.MIN), env) + "}"
  {
    Builders.ExpPowerWellFormed(v);
    var n, p := Exp(v), Superscript(Builders.Name("e"), v);
    assert Latex(n, o, env) == LatexBody(n, o, env) == LooseLatex(n, o, env) == ExpLatex(v, o, env);
    if !WillWrap(p, o, env) {
      assert Latex(p, o, env) == LatexBody(p, o, env) == TightLatex(p, o, env)
        == SuperscriptLatex(Builders.Name("e"), v, o, env);
    }
  }

  /** A square root without degree is written with an empty optional
      argument, `\sqrt[]{v}`. */
  lemma SqrtLatex(v: Node, o: Options, env: Foreign)
    requires WellFormed(v)
    ensures LatexBody(Builders.Sqrt(v), o, env) == "\\sqrt[]{" + Latex(v, At(o, Precedence.MIN), env) + "}"
  {
    var low := At(o, Precedence.MIN);
    NoWrap(NumberLiteral(""), low, env);
    assert Latex(NumberLiteral(""), low, env) == LatexBody(NumberLiteral(""), low, env) == "";
    assert LatexBody(Builders.Sqrt(v), o, env) == TightLatex(Builders.Sqrt(v), o, env)
      == RootLatex(NumberLiteral(""), v, o, env);
  }

  /** The LaTeX of one-by-one augmented grids has the left cell, the bar
      and the right cell: unlike the inline text, both sides are shown. */
  lemma AugmentedLatexUnit(x: Node, y: Node, o: Options, env: Foreign)
    requires WellFormed(x) && WellFormed(y)
    ensures var mid := At(o, Precedence.MID);
      AugmentedLatex([Row([x])], [Row([y])], o, env)
        == "\\begin{matrix}" + Latex(x, mid, env) + "&\\bigm|&" + Latex(y, mid, env) + "\\end{matrix}"
  {
    var mid := At(o, Precedence.MID);
    assert LatexList([x], mid, env) == [Latex(x, mid, env)];
    assert LatexList([y], mid, env) == [Latex(y, mid, env)];
    assert LatexCells([Row([x])], mid, env) == [[Latex(x, mid, env)]];
    assert LatexCells([Row([y])], mid, env) == [[Latex(y, mid, env)]];
    assert Terminated([Latex(x, mid, env)], "&") == Latex(x, mid, env) + "&";
    assert Led("&", [Latex(y, mid, env)]) == "&" + Latex(y, mid, env);
  }

  /** A grid's rows are its cells separated by `&`, the rows separated by
      `\\`, all inside a `matrix` environment. */
  lemma GridLatexRows(rows: seq<Row>, o: Options, env: Foreign, i: nat)
    requires CellsWellFormed(rows) && i < |rows|
    ensures i < |LatexRows(rows, o, env)|
    ensures LatexRows(rows, o, env)[i] == Join(LatexList(rows[i].cells, o, env), "&")
    decreases i
  {
    if i > 0 {
      GridLatexRows(rows[1..], o, env, i - 1);
    }
  }

  /** A number literal's LaTeX is its digits, and its inline text is the
      same exactly when the digits hold no line feed. */
  lemma NumberLatexIsInline(d: string, o: Options, env: Foreign)
    ensures LatexBody(NumberLiteral(d), o, env) == d
    ensures Inline.InlineBody(NumberLiteral(d), o, env) == d <==> '\n' !in d
  {
    var n := NumberLiteral(d);
    assert LatexBody(n, o, env) == TightLatex(n, o, env);
    assert Inline.InlineBody(n, o, env) == Inline.TightInline(n, o, env) == ReplaceNewlines(d);
    if '\n' in d {
      var k :| 0 <= k < |d| && d[k] == '\n';
      assert ReplaceNewlines(d)[k] == ' ';
    } else {
      assert ReplaceNewlines(d) == d;
    }
  }
}

=== FILE: layout.dfy ===
/** The canvas layouts of the node classes, separated from the recursion
    over the tree: each takes the already rendered blocks of the children. */
module Layout {
  import opened Java
  import opened Wrappers
  import opened Strings
  import opened Canvas
  import opened Expr
  import opened Options
  import opened Charsets
  import opened BracketShapes
  import Utils

  /** `new AsciiArt(s)` for a text without line breaks: one row, anchored
      at it (no rows at all for the empty text). */
  function Line(s: string): (r: Block)
    requires NoTerminator(s)
    ensures s != [] ==> r == Art([s], 0)
    ensures s == [] ==> r == Art([], 0)
  {
    if s != [] then Art([s], 0) else Art([], 0)
  }

  /** `Line` is the general text constructor on texts without line breaks. */
  lemma LineIsFromText(s: string)
    requires NoTerminator(s)
    ensures Line(s) == FromText(s)
  {
    if s != [] {
      FromTextSingleLine(s);
    } else {
      assert Lines(s) == [];
    }
  }

  // ---------------------------------------------------------------------------
  // Fraction

  /** The bar: as wide as the wider operand, two columns more once the
      fraction is more than two rows high. */
  function BarWidth(a: Block, b: Block): nat {
    Max(a.Width(), b.Width()) + (if a.Height() + b.Height() > 2 then 2 else 0)
  }

  /** The stacked fraction: the denominator drawn one row below the bar, then
      the numerator right above it, each centered over the bar (rounded
      right). Whenever the bar has any width the picture is numerator rows,
      the bar row of dashes (the center), then denominator rows, and nothing
      else. */
  function FractionStack(a: Block, b: Block): (r: Block)
    ensures var w := BarWidth(a, b); w > 0 ==>
      && Banded(r, a, Half(w - a.Width() + 1), Line(Repeat('-', w)), b, Half(w - b.Width() + 1))
      && r.Height() == a.Height() + 1 + b.Height()
      && r.center == a.Height()
      && forall j :: 0 <= j < w ==> r.lines[a.Height()][j] == '-'
  {
    FractionFits(a, b);
    BarBetween(a, Half(BarWidth(a, b) - a.Width() + 1), b, Half(BarWidth(a, b) - b.Width() + 1), BarWidth(a, b))
  }

  /** A bar of `w` dashes with `b` drawn one row below its top, `xb` columns
      in, and `a` right above it, `xa` columns in; when the bar has a width
      and both fit, the three bands are all there is and the bar row is the
      center. */
  function BarBetween(a: Block, xa: int, b: Block, xb: int, w: nat): (r: Block)
    ensures w > 0 && SandwichFits(Line(Repeat('-', w)), b, xb, 1, a, xa) ==>
      && Banded(r, a, xa, Line(Repeat('-', w)), b, xb)
      && r.Height() == a.Height() + 1 + b.Height()
      && r.center == a.Height()
      && forall j :: 0 <= j < w ==> r.lines[a.Height()][j] == '-'
  {
    var bar := Line(Repeat('-', w));
    if w > 0 && SandwichFits(bar, b, xb, 1, a, xa) then
      SandwichLayout(bar, b, xb, 1, a, xa);
      BandedMiddleRow(Sandwich(bar, b, xb, 1, a, xa), a, xa, bar, b, xb);
      Sandwich(bar, b, xb, 1, a, xa)
    else Sandwich(bar, b, xb, 1, a, xa)
  }

  /** A centered operand fits the bar. */
  lemma CenteredFits(w: nat, x: nat)
    requires x <= w
    ensures 0 <= Half(w - x + 1) && Half(w - x + 1) + x <= w
  {
  }

  /** Drawing `a` right below a block it fits under, `x` columns in. */
  lemma StackBelow(s: Block, a: Block, x: int)
    requires s.Height() > 0 && 0 <= x && x + a.Width() <= s.Width()
    ensures var r := Draw(s, a, x, s.Height(), true);
      && r.Height() == s.Height() + a.Height() && r.Width() == s.Width() && r.center == s.center
      && (forall i, j :: 0 <= i < s.Height() && 0 <= j < s.Width() ==> r.lines[i][j] == s.lines[i][j])
      && (forall i, j :: s.Height() <= i < r.Height() && 0 <= j < s.Width() ==>
            r.lines[i][j] == PlacedCell(a, s.Height(), x, i, j))
  {
    var r := Draw(s, a, x, s.Height(), true);
    StackBelowShape(s, a, x);
    forall i, j | 0 <= i < s.Height() + a.Height() && 0 <= j < s.Width()
      ensures r.lines[i][j] == if i < s.Height() then s.lines[i][j] else PlacedCell(a, s.Height(), x, i, j)
    {
      StackBelowCell(s, a, x, i, j);
    }
  }

  lemma StackBelowShape(s: Block, a: Block, x: int)
    requires s.Height() > 0 && 0 <= x && x + a.Width() <= s.Width()
    ensures var r := Draw(s, a, x, s.Height(), true);
      r.Height() == s.Height() + a.Height() && r.Width() == s.Width() && r.center == s.center
  {
    var p := Place(s, a, x, s.Height());
    assert p.w == s.Width() && p.h == s.Height() + a.Height() && p.sy == 0;
  }

  lemma StackBelowCell(s: Block, a: Block, x: int, i: nat, j: nat)
    requires s.Height() > 0 && 0 <= x && x + a.Width() <= s.Width()
    requires i < s.Height() + a.Height() && j < s.Width()
    ensures var r := Draw(s, a, x, s.Height(), true);
      r.lines[i][j] == if i < s.Height() then s.lines[i][j] else PlacedCell(a, s.Height(), x, i, j)
  {
    var p := Place(s, a, x, s.Height());
    assert p.w == s.Width() && p.h == s.Height() + a.Height() && p.sx == 0 && p.sy == 0;
    DrawCellAt(s, a, x, s.Height(), true, i, j);
  }

  /** Drawing `a` right above a block it fits over, `x` columns in. */
  lemma StackAbove(s: Block, a: Block, x: int)
    requires s.Height() > 0 && 0 <= x && x + a.Width() <= s.Width()
    ensures var r := Draw(s, a, x, -(a.Height() as int), true);
      && r.Height() == a.Height() + s.Height() && r.Width() == s.Width() && r.center == a.Height() + s.center
      && (forall i, j :: 0 <= i < a.Height() && 0 <= j < s.Width() ==> r.lines[i][j] == PlacedCell(a, 0, x, i, j))
      && (forall i, j :: a.Height() <= i < r.Height() && 0 <= j < s.Width() ==>
            r.lines[i][j] == s.lines[i - a.Height()][j])
  {
    var r := Draw(s, a, x, -(a.Height() as int), true);
    StackAboveShape(s, a, x);
    forall i, j | 0 <= i < a.Height() + s.Height() && 0 <= j < s.Width()
      ensures r.lines[i][j] == if i < a.Height() then PlacedCell(a, 0, x, i, j) else s.lines[i - a.Height()][j]
    {
      StackAboveCell(s, a, x, i, j);
    }
  }

  lemma StackAboveShape(s: Block, a: Block, x: int)
    requires s.Height() > 0 && 0 <= x && x + a.Width() <= s.Width()
    ensures var r := Draw(s, a, x, -(a.Height() as int), true);
      r.Height() == a.Height() + s.Height() && r.Width() == s.Width() && r.center == a.Height() + s.center
  {
    var p := Place(s, a, x, -(a.Height() as int));
    assert p.w == s.Width() && p.h == a.Height() + s.Height() && p.sy == a.Height();
  }

  lemma StackAboveCell(s: Block, a: Block, x: int, i: nat, j: nat)
    requires s.Height() > 0 && 0 <= x && x + a.Width() <= s.Width()
    requires i < a.Height() + s.Height() && j < s.Width()
    ensures var r := Draw(s, a, x, -(a.Height() as int), true);
      r.lines[i][j] == if i < a.Height() then PlacedCell(a, 0, x, i, j) else s.lines[i - a.Height()][j]
  {
    var y := -(a.Height() as int);
    var p := Place(s, a, x, y);
    assert p.w == s.Width() && p.h == a.Height() + s.Height() && p.sx == 0 && p.sy == a.Height() && p.ay == 0;
    DrawCellAt(s, a, x, y, true, i, j);
  }

  /** `below` drawn `yb` rows down from the top of `mid`, then `above` right
      over the result. */
  function Sandwich(mid: Block, below: Block, xb: int, yb: int, above: Block, xa: int): Block {
    Draw(Draw(mid, below, xb, yb, true), above, xa, -(above.Height() as int), true)
  }

  /** The conditions under which both drawn blocks fit the middle one, the
      lower one starting right under it. */
  predicate SandwichFits(mid: Block, below: Block, xb: int, yb: int, above: Block, xa: int) {
    && mid.Height() > 0 && yb == mid.Height()
    && 0 <= xb && xb + below.Width() <= mid.Width() && 0 <= xa && xa + above.Width() <= mid.Width()
  }

  /** The picture of `r`: `above` (shifted `xa` columns in) over `mid` over
      `below` (shifted `xb` columns in), as wide as `mid`, anchored at
      `mid`'s center, and nothing else. */
  ghost predicate Banded(r: Block, above: Block, xa: int, mid: Block, below: Block, xb: int) {
    && r.Height() == above.Height() + mid.Height() + below.Height() && r.Width() == mid.Width()
    && r.center == above.Height() + mid.center
    && (forall i, j :: 0 <= i < above.Height() && 0 <= j < mid.Width() ==> r.lines[i][j] == PlacedCell(above, 0, xa, i, j))
    && (forall i, j :: above.Height() <= i < above.Height() + mid.Height() && 0 <= j < mid.Width() ==>
          r.lines[i][j] == mid.lines[i - above.Height()][j])
    && (forall i, j :: above.Height() + mid.Height() <= i < r.Height() && 0 <= j < mid.Width() ==>
          r.lines[i][j] == PlacedCell(below, above.Height() + mid.Height(), xb, i, j))
  }

  lemma SandwichTop(mid: Block, below: Block, xb: int, yb: int, above: Block, xa: int)
    requires SandwichFits(mid, below, xb, yb, above, xa)
    ensures var r := Sandwich(mid, below, xb, yb, above, xa);
      && r.Height() == above.Height() + mid.Height() + below.Height() && r.Width() == mid.Width()
      && r.center == above.Height() + mid.center
      && forall i, j :: 0 <= i < above.Height() && 0 <= j < mid.Width() ==> r.lines[i][j] == PlacedCell(above, 0, xa, i, j)
  {
    StackBelowShape(mid, below, xb);
    StackAbove(Draw(mid, below, xb, mid.Height(), true), above, xa);
  }

  /** A cell below the top band of a sandwich is the cell of the middle
      block with the lower one drawn under it. */
  lemma SandwichCell(mid: Block, below: Block, xb: int, yb: int, above: Block, xa: int, i: nat, j: nat)
    requires SandwichFits(mid, below, xb, yb, above, xa)
    requires above.Height() <= i < above.Height() + mid.Height() + below.Height() && j < mid.Width()
    ensures var r, k := Sandwich(mid, below, xb, yb, above, xa), i - above.Height();
      r.lines[i][j] == if k < mid.Height() then mid.lines[k][j] else PlacedCell(below, mid.Height(), xb, k, j)
  {
    var d := Draw(mid, below, xb, mid.Height(), true);
    var k := i - above.Height();
    StackBelowShape(mid, below, xb);
    StackAboveCell(d, above, xa, i, j);
    StackBelowCell(mid, below, xb, k, j);
  }

  lemma SandwichMiddle(mid: Block, below: Block, xb: int, yb: int, above: Block, xa: int)
    requires SandwichFits(mid, below, xb, yb, above, xa)
    ensures var r := Sandwich(mid, below, xb, yb, above, xa);
      forall i, j :: above.Height() <= i < above.Height() + mid.Height() && 0 <= j < mid.Width() ==>
        r.lines[i][j] == mid.lines[i - above.Height()][j]
  {
    forall i, j | above.Height() <= i < above.Height() + mid.Height() && 0 <= j < mid.Width() {
      SandwichCell(mid, below, xb, yb, above, xa, i, j);
    }
  }

  lemma SandwichBottom(mid: Block, below: Block, xb: int, yb: int, above: Block, xa: int)
    requires SandwichFits(mid, below, xb, yb, above, xa)
    ensures var r := Sandwich(mid, below, xb, yb, above, xa);
      forall i, j :: above.Height() + mid.Height() <= i < r.Height() && 0 <= j < mid.Width() ==>
        r.lines[i][j] == PlacedCell(below, above.Height() + mid.Height(), xb, i, j)
  {
    var r := Sandwich(mid, below, xb, yb, above, xa);
    SandwichTop(mid, below, xb, yb, above, xa);
    forall i, j | above.Height() + mid.Height() <= i < r.Height() && 0 <= j < mid.Width() {
      SandwichCell(mid, below, xb, yb, above, xa, i, j);
    }
  }

  /** A block with one block drawn right under it and one right over it,
      both fitting its width: three bands of rows, the middle one anchoring
      the center, nothing else drawn. */
  lemma SandwichLayout(mid: Block, below: Block, xb: int, yb: int, above: Block, xa: int)
    requires SandwichFits(mid, below, xb, yb, above, xa)
    ensures Banded(Sandwich(mid, below, xb, yb, above, xa), above, xa, mid, below, xb)
  {
    SandwichTop(mid, below, xb, yb, above, xa);
    SandwichMiddle(mid, below, xb, yb, above, xa);
    SandwichBottom(mid, below, xb, yb, above, xa);
  }

  /** The bar is one row of dashes that both operands fit. */
  lemma FractionFits(a: Block, b: Block)
    ensures var w := BarWidth(a, b); w > 0 ==>
      && Line(Repeat('-', w)).lines == [Repeat('-', w)]
      && SandwichFits(Line(Repeat('-', w)), b, Half(w - b.Width() + 1), 1, a, Half(w - a.Width() + 1))
  {
    var w := BarWidth(a, b);
    if w > 0 {
      CenteredFits(w, a.Width());
      CenteredFits(w, b.Width());
    }
  }

  /** The first row of a one-row middle band shows the middle block. */
  lemma BandedMiddleRow(r: Block, above: Block, xa: int, mid: Block, below: Block, xb: int)
    requires Banded(r, above, xa, mid, below, xb) && mid.Height() == 1
    ensures forall j :: 0 <= j < mid.Width() ==> r.lines[above.Height()][j] == mid.lines[0][j]
  {
    forall j | 0 <= j < mid.Width()
      ensures r.lines[above.Height()][j] == mid.lines[0][j]
    {
      assert r.lines[above.Height()][j] == mid.lines[above.Height() - above.Height()][j];
    }
  }

  // ---------------------------------------------------------------------------
  // Root

  /** How many of the lowest rows of a root sign carry the left stroke. */
  function BarHeight(h: int): (bh: int)
    ensures bh >= 1
    ensures h >= 2 ==> bh <= h - 1
  {
    Max((h + 1) / 3, 1)
  }

  /** Row `i` of a root sign `h` rows high: the rising right stroke, preceded
      in the lowest rows by the left stroke. */
  function RootRow(h: nat, ld: char, rd: char, i: nat): string {
    var bh := BarHeight(h);
    if i >= h then ""
    else if i < h - bh then Blank(bh + h - i - 1) + [rd]
    else Blank(i - (h - bh)) + [ld] + Blank(2 * (h - i - 1)) + [rd]
  }

  /** `createRootShape`: a single `\` and right stroke for one row, else the
      generated sign. */
  function RootShape(h: nat, ld: char, rd: char): (r: Block)
    requires !IsTerminator(rd)
  {
    if h <= 1 then Line("\\" + [rd])
    else FromGenerator(h, (i: nat) => RootRow(h, ld, rd, i))
  }

  /** The sign of a root two rows or more high: the right stroke is a straight
      diagonal from the top right corner, the left stroke a shorter one in
      the lowest `BarHeight` rows ending right before it, and the rest blank;
      a single row shows `\` and the right stroke. */
  lemma RootShapeLayout(h: nat, ld: char, rd: char)
    requires !IsTerminator(rd)
    ensures var r, bh := RootShape(h, ld, rd), BarHeight(h);
      && (h <= 1 ==> r.lines == ["\\" + [rd]] && r.center == 0)
      && (h >= 2 ==>
            && r.Height() == h && r.Width() == bh + h && r.center == h / 2
            && forall i, j :: 0 <= i < h && 0 <= j < bh + h ==>
                 r.lines[i][j] == (if j == bh + h - 1 - i then rd
                                   else if i >= h - bh && j == i - (h - bh) then ld
                                   else ' '))
  {
    var r, bh := RootShape(h, ld, rd), BarHeight(h);
    if h >= 2 {
      var gen := (i: nat) => RootRow(h, ld, rd, i);
      assert forall i :: 0 <= i < h ==> |gen(i)| == bh + h - i;
      assert r.Width() == bh + h by {
        assert |gen(0)| <= r.Width();
        var k :| 0 <= k < h && |gen(k)| == r.Width();
      }
      forall i, j | 0 <= i < h && 0 <= j < bh + h
        ensures r.lines[i][j] == (if j == bh + h - 1 - i then rd
                                  else if i >= h - bh && j == i - (h - bh) then ld
                                  else ' ')
      {
        assert r.lines[i][j] == if j < |gen(i)| then gen(i)[j] else ' ';
      }
    }
  }

  /** The sign with the radicand to its right and, for signs of three rows
      or more, a short vertical stroke after the radicand at the top. */
  function RootSide(v: Block, ld: char, rd: char, vert: char): Block
    requires !IsTerminator(rd)
  {
    var shape := RootShape(v.Height(), ld, rd);
    var root := AppendTop(shape, v, true);
    if shape.Height() >= 3 then AppendTop(root, FromGenerator(shape.Height() / 3, _ => [vert]), true) else root
  }

  /** ... and a bar of `_` over the radicand, one row higher. */
  function RootBody(v: Block, ld: char, rd: char, vert: char): Block
    requires !IsTerminator(rd)
  {
    Draw(RootSide(v, ld, rd, vert), Line(Repeat('_', v.Width())), RootShape(v.Height(), ld, rd).Width(), -1, true)
  }

  lemma RootSideLayout(v: Block, ld: char, rd: char, vert: char)
    requires !IsTerminator(rd) && v.Height() > 0
    ensures var r, s := RootSide(v, ld, rd, vert), RootShape(v.Height(), ld, rd);
      && s.Height() == v.Height() && s.center == v.Height() / 2
      && r.Height() == v.Height() && r.center == v.Height() / 2
      && r.Width() == s.Width() + v.Width() + (if v.Height() >= 3 then 1 else 0)
      && (forall i, j :: 0 <= i < r.Height() && 0 <= j < s.Width() ==> r.lines[i][j] == s.lines[i][j])
      && (forall i, j :: 0 <= i < r.Height() && s.Width() <= j < s.Width() + v.Width() ==>
            r.lines[i][j] == v.lines[i][j - s.Width()])
  {
    RootShapeLayout(v.Height(), ld, rd);
  }

  /** The root without its degree: the sign, the radicand to its right with
      a bar of `_` over it in the row above, and nothing else in the sign's
      and the radicand's columns. */
  lemma RootBodyLayout(v: Block, ld: char, rd: char, vert: char)
    requires !IsTerminator(rd) && v.Width() > 0
    ensures var r, s := RootBody(v, ld, rd, vert), RootShape(v.Height(), ld, rd);
      && s.Height() == v.Height()
      && r.Height() == v.Height() + 1 && r.center == v.Height() / 2 + 1
      && r.Width() == s.Width() + v.Width() + (if v.Height() >= 3 then 1 else 0)
      && (forall j :: 0 <= j < s.Width() ==> r.lines[0][j] == ' ')
      && (forall j :: s.Width() <= j < s.Width() + v.Width() ==> r.lines[0][j] == '_')
      && (forall i, j :: 1 <= i < r.Height() && 0 <= j < s.Width() ==> r.lines[i][j] == s.lines[i - 1][j])
      && (forall i, j :: 1 <= i < r.Height() && s.Width() <= j < s.Width() + v.Width() ==>
            r.lines[i][j] == v.lines[i - 1][j - s.Width()])
  {
    RootSideLayout(v, ld, rd, vert);
    BarOver(RootSide(v, ld, rd, vert), RootShape(v.Height(), ld, rd).Width(), v.Width());
  }

  /** A bar of `w` underscores drawn on the row above a block, `x` columns in. */
  lemma BarOver(side: Block, x: nat, w: nat)
    requires w > 0 && side.Height() > 0 && x + w <= side.Width()
    ensures var r := Draw(side, Line(Repeat('_', w)), x, -1, true);
      && r.Height() == side.Height() + 1 && r.Width() == side.Width() && r.center == side.center + 1
      && (forall j :: 0 <= j < side.Width() ==> r.lines[0][j] == (if x <= j < x + w then '_' else ' '))
      && (forall i, j :: 1 <= i < r.Height() && 0 <= j < side.Width() ==> r.lines[i][j] == side.lines[i - 1][j])
  {
    var bar := Line(Repeat('_', w));
    assert bar.lines == [Repeat('_', w)];
    StackAbove(side, bar, x);
    var r := Draw(side, bar, x, -1, true);
    forall j | 0 <= j < side.Width()
      ensures r.lines[0][j] == if x <= j < x + w then '_' else ' '
    {
      assert r.lines[0][j] == PlacedCell(bar, 0, x, 0, j);
    }
  }

  /** `Root.renderAsciiArt` from the pictures of degree and radicand: the
      degree ends on the row above the left stroke, moving everything right
      when it is wider than the stroke. */
  function RootArt(d: Block, v: Block, ld: char, rd: char, vert: char): Block
    requires !IsTerminator(rd)
  {
    var root := RootBody(v, ld, rd, vert);
    if v.Width() == 0 then root
    else DegreeOn(root, d, BarHeight(RootShape(v.Height(), ld, rd).Height()))
  }

  /** The degree `d` drawn on the radical `root` whose left stroke is `bh`
      rows high: its last row on the row above the stroke, and its right
      edge at column `2 * bh - 1` or to the left of column 0. */
  function DegreeOn(root: Block, d: Block, bh: int): Block {
    Draw(root, d, Min(0, 2 * bh - 1 - d.Width()), root.Height() - bh - 1 - d.Height() + 1, true)
  }

  /** `r` is the radical `root`, whose left stroke is `bh` rows high, with
      the degree `d` over it: the radical moved `sx` columns right (as far as
      the degree is wider than `2 * bh - 1`) and `sy` rows down (as far as
      the degree reaches above the top); the degree in column 0 with its last
      row on the row above the left stroke; every cell of the radical right
      of the degree or in the left stroke's rows kept. */
  ghost predicate DegreeLayout(r: Block, root: Block, d: Block, bh: int) {
    var sx, sy := Max(0, d.Width() - (2 * bh - 1)), Max(0, d.Height() + bh - root.Height());
    && 1 <= bh < root.Height() && 2 * bh <= root.Width()
    && r.Height() == sy + root.Height() && r.Width() == sx + root.Width() && r.center == sy + root.center
    && (forall i, j :: 0 <= i < d.Height() && 0 <= j < d.Width() ==>
          r.lines[sy + root.Height() - bh - d.Height() + i][j] == d.lines[i][j])
    && (forall i, j :: 0 <= i < root.Height() && 0 <= j < root.Width() && (sx + j >= d.Width() || i >= root.Height() - bh) ==>
          r.lines[sy + i][sx + j] == root.lines[i][j])
  }

  /** Where the degree goes. Without a radicand the degree is dropped;
      otherwise it is placed as `DegreeLayout` says. */
  lemma RootArtLayout(d: Block, v: Block, ld: char, rd: char, vert: char)
    requires !IsTerminator(rd)
    ensures v.Width() == 0 ==> RootArt(d, v, ld, rd, vert) == RootBody(v, ld, rd, vert)
    ensures v.Width() > 0 ==>
      DegreeLayout(RootArt(d, v, ld, rd, vert), RootBody(v, ld, rd, vert), d, BarHeight(RootShape(v.Height(), ld, rd).Height()))
  {
    if v.Width() > 0 {
      var root := RootBody(v, ld, rd, vert);
      var bh := BarHeight(RootShape(v.Height(), ld, rd).Height());
      RootMeasures(v, ld, rd, vert);
      DegreeOver(root, d, bh);
      assert RootArt(d, v, ld, rd, vert) == DegreeOn(root, d, bh);
    }
  }

  /** The radical leaves room for the degree: the left stroke is lower than
      the top row and narrower than the radical. */
  lemma RootMeasures(v: Block, ld: char, rd: char, vert: char)
    requires !IsTerminator(rd) && v.Width() > 0
    ensures var root, bh := RootBody(v, ld, rd, vert), BarHeight(RootShape(v.Height(), ld, rd).Height());
      bh < root.Height() && 2 * bh <= root.Width()
  {
    RootShapeLayout(v.Height(), ld, rd);
    RootBodyLayout(v, ld, rd, vert);
  }

  /** Where `DegreeOn` puts the degree and the radical. */
  lemma DegreeOver(root: Block, d: Block, bh: int)
    requires 1 <= bh < root.Height() && 2 * bh <= root.Width()
    ensures DegreeLayout(DegreeOn(root, d, bh), root, d, bh)
  {
    var x, y := Min(0, 2 * bh - 1 - d.Width()), root.Height() - bh - 1 - d.Height() + 1;
    var sx, sy := Max(0, d.Width() - (2 * bh - 1)), Max(0, d.Height() + bh - root.Height());
    var r := DegreeOn(root, d, bh);
    assert r == Draw(root, d, x, y, true);
    var p := Place(root, d, x, y);
    assert p.sx == sx && p.sy == sy && p.ax == 0 && p.ay == Max(0, y);
    assert p.h == sy + root.Height() && p.w == sx + root.Width();
    forall i, j | 0 <= i < d.Height() && 0 <= j < d.Width()
      ensures r.lines[sy + root.Height() - bh - d.Height() + i][j] == d.lines[i][j]
    {
      DrawCellAt(root, d, x, y, true, sy + root.Height() - bh - d.Height() + i, j);
    }
    forall i, j | 0 <= i < root.Height() && 0 <= j < root.Width() && (sx + j >= d.Width() || i >= root.Height() - bh)
      ensures r.lines[sy + i][sx + j] == root.lines[i][j]
    {
      DrawCellAt(root, d, x, y, true, sy + i, sx + j);
    }
  }


  // ---------------------------------------------------------------------------
  // Scripts

  /** Drawing `a` against the right edge of `s`, `y` rows down (up when
      negative): the columns split at `s`'s width, and whichever block starts
      lower is pushed down by the difference. */
  lemma BesideAt(s: Block, a: Block, y: int)
    requires s.Height() > 0 && a.Height() > 0
    ensures var r, sy, ay := Draw(s, a, s.Width(), y, true), Max(0, -y), Max(0, y);
      && r.Height() == Max(sy + s.Height(), ay + a.Height())
      && r.Width() == s.Width() + a.Width()
      && r.center == sy + s.center
      && (forall i, j :: 0 <= i < r.Height() && 0 <= j < s.Width() ==>
            r.lines[i][j] == if sy <= i < sy + s.Height() then s.lines[i - sy][j] else ' ')
      && (forall i, j :: 0 <= i < r.Height() && s.Width() <= j < s.Width() + a.Width() ==>
            r.lines[i][j] == if ay <= i < ay + a.Height() then a.lines[i - ay][j - s.Width()] else ' ')
  {
    BesideLeft(s, a, y);
    BesideRight(s, a, y);
  }

  /** Where `BesideAt` puts the two blocks. */
  lemma BesidePlace(s: Block, a: Block, y: int)
    requires s.Height() > 0 && a.Height() > 0
    ensures var p := Place(s, a, s.Width(), y);
      && p.sx == 0 && p.ax == s.Width() && p.sy == Max(0, -y) && p.ay == Max(0, y)
      && p.w == s.Width() + a.Width() && p.h == Max(p.sy + s.Height(), p.ay + a.Height())
  {
  }

  lemma BesideLeft(s: Block, a: Block, y: int)
    requires s.Height() > 0 && a.Height() > 0
    ensures var r, sy := Draw(s, a, s.Width(), y, true), Max(0, -y);
      && r.Height() == Max(sy + s.Height(), Max(0, y) + a.Height())
      && r.Width() == s.Width() + a.Width()
      && r.center == sy + s.center
      && forall i, j :: 0 <= i < r.Height() && 0 <= j < s.Width() ==>
           r.lines[i][j] == if sy <= i < sy + s.Height() then s.lines[i - sy][j] else ' '
  {
    var r, p := Draw(s, a, s.Width(), y, true), Place(s, a, s.Width(), y);
    BesidePlace(s, a, y);
    DrawCells(s, a, s.Width(), y, true);
    forall i, j | 0 <= i < r.Height() && 0 <= j < s.Width()
      ensures r.lines[i][j] == if p.sy <= i < p.sy + s.Height() then s.lines[i - p.sy][j] else ' '
    {
      assert r.lines[i][j] == DrawCell(s, a, s.Width(), y, i, j);
    }
  }

  lemma BesideRight(s: Block, a: Block, y: int)
    requires s.Height() > 0 && a.Height() > 0
    ensures var r, ay := Draw(s, a, s.Width(), y, true), Max(0, y);
      forall i, j :: 0 <= i < r.Height() && s.Width() <= j < s.Width() + a.Width() ==>
        r.lines[i][j] == if ay <= i < ay + a.Height() then a.lines[i - ay][j - s.Width()] else ' '
  {
    var r, p := Draw(s, a, s.Width(), y, true), Place(s, a, s.Width(), y);
    BesidePlace(s, a, y);
    DrawCells(s, a, s.Width(), y, true);
    forall i, j | 0 <= i < r.Height() && s.Width() <= j < s.Width() + a.Width()
      ensures r.lines[i][j] == if p.ay <= i < p.ay + a.Height() then a.lines[i - p.ay][j - s.Width()] else ' '
    {
      assert r.lines[i][j] == DrawCell(s, a, s.Width(), y, i, j);
    }
  }

  /** The row (relative to the base's top) where a drawn subscript starts:
      half of it hangs below the base, but it never starts above the base's
      second row; after a subscript, the bound uses the base's width as the
      library does. */
  function SubscriptOffset(a: Block, b: Block, aIsSub: bool, aw: int, ah: int): int {
    Max(a.Height() - (b.Height() + 1) / 2, if aIsSub then aw - b.Height() + 1 else a.Height() - ah + 1)
  }

  /** `Subscript.renderArt`. */
  function SubscriptArt(a: Block, b: Block, aIsSub: bool, aw: int, ah: int): Block {
    Draw(a, b, aw, SubscriptOffset(a, b, aIsSub, aw, ah), true)
  }

  /** The row (relative to the base's top) where a drawn superscript starts:
      at least half of it above the base, and it ends above the base's last
      row; after a superscript, it ends at the latest on the row above. */
  function SuperscriptOffset(a: Block, b: Block, aIsSup: bool, ah: int): int {
    Min(Half(-(b.Height() as int)), if aIsSup then -1 else ah - b.Height() - 1)
  }

  /** `Superscript.renderArt`. */
  function SuperscriptArt(a: Block, b: Block, aIsSup: bool, aw: int, ah: int): Block {
    Draw(a, b, aw, SuperscriptOffset(a, b, aIsSup, ah), true)
  }

  /** A subscript drawn on a base that is not a subscript: the base keeps its
      place and center; the subscript starts below the base's first row
      and at least half of it lies below the base's last row. */
  lemma SubscriptLayout(a: Block, b: Block)
    requires a.Height() > 0 && b.Height() > 0
    ensures var r, y := SubscriptArt(a, b, false, a.Width(), a.Height()), SubscriptOffset(a, b, false, a.Width(), a.Height());
      && 1 <= y && a.Height() + b.Height() / 2 <= y + b.Height()
      && r.center == a.center
      && r.Height() == Max(a.Height(), y + b.Height())
      && r.Width() == a.Width() + b.Width()
      && (forall i, j :: 0 <= i < r.Height() && 0 <= j < a.Width() ==>
            r.lines[i][j] == if i < a.Height() then a.lines[i][j] else ' ')
      && (forall i, j :: 0 <= i < r.Height() && a.Width() <= j < a.Width() + b.Width() ==>
            r.lines[i][j] == if y <= i < y + b.Height() then b.lines[i - y][j - a.Width()] else ' ')
  {
    BesideAt(a, b, SubscriptOffset(a, b, false, a.Width(), a.Height()));
  }

  /** A superscript drawn on a base: the base moves down by `s` rows (its
      center with it), at least half the superscript lies above the base, it
      ends above the base's last row, and after a superscript it ends above
      the base. */
  lemma SuperscriptLayout(a: Block, b: Block, aIsSup: bool)
    requires a.Height() > 0 && b.Height() > 0
    ensures var r, s := SuperscriptArt(a, b, aIsSup, a.Width(), a.Height()), -SuperscriptOffset(a, b, aIsSup, a.Height());
      && b.Height() / 2 <= s
      && (aIsSup ==> 1 <= s)
      && (!aIsSup ==> b.Height() + 1 <= s + a.Height())
      && r.center == s + a.center
      && r.Height() == Max(s + a.Height(), b.Height())
      && r.Width() == a.Width() + b.Width()
      && (forall i, j :: 0 <= i < r.Height() && 0 <= j < a.Width() ==>
            r.lines[i][j] == if s <= i < s + a.Height() then a.lines[i - s][j] else ' ')
      && (forall i, j :: 0 <= i < r.Height() && a.Width() <= j < a.Width() + b.Width() ==>
            r.lines[i][j] == if i < b.Height() then b.lines[i][j - a.Width()] else ' ')
  {
    BesideAt(a, b, SuperscriptOffset(a, b, aIsSup, a.Height()));
  }

  // ---------------------------------------------------------------------------
  // Middle bar

  /** The bar between the two sides: `height` rows above the center row and
      `depth` from it on, each row the bar glyph between two spacers, the
      last one always a plain `|`. */
  function MiddleBarArt(height: nat, depth: nat, space: string, mid: char): (r: Block)
  {
    var total := height + depth;
    SetCenter(FromGenerator(total, (i: nat) => if i == total - 1 then space + "|" + space else space + [mid] + space), height)
  }

  /** `Middle.renderAsciiArt` from the pictures of both sides: the bar is
      exactly as high as the two sides aligned on their centers need, and
      anchored at the common center row. */
  function MiddleArt(a: Block, b: Block, space: string, mid: char): (r: Block)
    ensures var height, depth := Max(a.center, b.center), Max(a.Height() - a.center, b.Height() - b.center);
      && r.Height() == height + depth
      && r.center == height
      && (r.Height() > 0 ==> r.Width() == a.Width() + 2 * |space| + 1 + b.Width())
  {
    var left := MiddleLeft(a, b, space, mid);
    AppendCenterOnto(left, b);
    AppendCenter(left, b)
  }

  /** The bar glyph runs down the column between the two sides, ending in a
      plain `|` on the last row. */
  lemma MiddleBarColumn(a: Block, b: Block, space: string, mid: char)
    ensures var r := MiddleArt(a, b, space, mid);
      forall i :: 0 <= i < r.Height() ==> r.lines[i][a.Width() + |space|] == if i == r.Height() - 1 then '|' else mid
  {
    var left := MiddleLeft(a, b, space, mid);
    AppendCenterOnto(left, b);
  }

  /** The left side keeps its cells, moved down to the common center row. */
  lemma MiddleLeftCells(a: Block, b: Block, space: string, mid: char)
    ensures var r, height := MiddleArt(a, b, space, mid), Max(a.center, b.center);
      forall i, j :: 0 <= i < r.Height() && 0 <= j < a.Width() ==> r.lines[i][j] == PlacedCell(a, height - a.center, 0, i, j)
  {
    var left := MiddleLeft(a, b, space, mid);
    AppendCenterOnto(left, b);
  }

  /** The right side of the middle bar sits right after the bar, moved down
      to the common center row. */
  lemma MiddleRight(a: Block, b: Block, space: string, mid: char)
    ensures var r, height := MiddleArt(a, b, space, mid), Max(a.center, b.center);
      forall i, j :: 0 <= i < r.Height() && a.Width() + 2 * |space| + 1 <= j < r.Width() ==>
        r.lines[i][j] == PlacedCell(b, height - b.center, a.Width() + 2 * |space| + 1, i, j)
  {
    var height := Max(a.center, b.center);
    var left := MiddleLeft(a, b, space, mid);
    var r := MiddleArt(a, b, space, mid);
    assert r == AppendCenter(left, b);
    AppendCenterOnto(left, b);
    if r.Height() > 0 {
      assert left.Width() == a.Width() + 2 * |space| + 1;
      assert left.center - b.center == height - b.center;
    }
  }

  lemma MiddleBarLayout(height: nat, depth: nat, space: string, mid: char)
    requires height + depth > 0
    ensures var r := MiddleBarArt(height, depth, space, mid);
      && r.Height() == height + depth && r.center == height && r.Width() == 2 * |space| + 1
      && forall i :: 0 <= i < r.Height() ==> r.lines[i][|space|] == if i == r.Height() - 1 then '|' else mid
  {
    var total := height + depth;
    var gen := (i: nat) => if i == total - 1 then space + "|" + space else space + [mid] + space;
    var r := MiddleBarArt(height, depth, space, mid);
    assert forall i :: 0 <= i < total ==> |gen(i)| == 2 * |space| + 1;
    assert r.Width() == 2 * |space| + 1 by {
      var k :| 0 <= k < total && |gen(k)| == r.Width();
    }
    forall i | 0 <= i < total
      ensures r.lines[i][|space|] == if i == total - 1 then '|' else mid
    {
      assert r.lines[i][|space|] == gen(i)[|space|];
    }
  }

  /** The left side with the bar appended: as high as both sides need, the
      bar glyph in the column after the left side's and its spacer. */
  function MiddleLeft(a: Block, b: Block, space: string, mid: char): (r: Block)
    ensures var height, depth := Max(a.center, b.center), Max(a.Height() - a.center, b.Height() - b.center);
      && r.Height() == height + depth
      && r.center == height
      && (r.Height() > 0 ==> r.Width() == a.Width() + 2 * |space| + 1)
      && (forall i :: 0 <= i < r.Height() ==>
            r.lines[i][a.Width() + |space|] == if i == r.Height() - 1 then '|' else mid)
      && (forall i, j :: 0 <= i < r.Height() && 0 <= j < a.Width() ==>
            r.lines[i][j] == PlacedCell(a, height - a.center, 0, i, j))
  {
    var height, depth := Max(a.center, b.center), Max(a.Height() - a.center, b.Height() - b.center);
    var bar := MiddleBarArt(height, depth, space, mid);
    if height + depth > 0 then
      MiddleBarLayout(height, depth, space, mid);
      AppendCenterUnder(a, bar);
      AppendCenter(a, bar)
    else
      AppendCenterLeft(a, bar);
      AppendCenter(a, bar)
  }

  // ---------------------------------------------------------------------------
  // Big operators and integrals

  /** Drawing `a` right below `s` at any column keeps `s`'s center and adds
      `a`'s rows. */
  lemma BelowAt(s: Block, a: Block, x: int)
    ensures var r := Draw(s, a, x, s.Height(), true);
      r.Height() == s.Height() + a.Height() && r.center == s.center
  {
  }

  /** Drawing `a` right above `s` at any column moves `s`'s center down by
      `a`'s rows. */
  lemma AboveAt(s: Block, a: Block, x: int)
    ensures var r := Draw(s, a, x, -(a.Height() as int), true);
      r.Height() == a.Height() + s.Height() && r.center == a.Height() + s.center
  {
  }

  /** The symbol of a big operator with its lower bound centered below and
      its upper bound centered above (the upper one rounded right). The
      bounds add their rows above and below the symbol, whose center row
      moves down by the upper bound's rows; bounds no wider than the symbol
      leave nothing else on the canvas. */
  function BigSymbolHead(sym: Block, sub: Option<Block>, sup: Option<Block>): (r: Block)
    ensures var above, below := (if sup.Some? then sup.value.Height() else 0), (if sub.Some? then sub.value.Height() else 0);
      r.Height() == above + sym.Height() + below && r.center == above + sym.center
    ensures sub.Some? && sup.Some? && sym.Height() > 0 && sub.value.Width() <= sym.Width() && sup.value.Width() <= sym.Width() ==>
      Banded(r, sup.value, Half(sym.Width() - sup.value.Width() + 1), sym, sub.value, Half(sym.Width() - sub.value.Width()))
  {
    if sub.Some? && sup.Some? then BoundsAround(sym, sub.value, Half(sym.Width() - sub.value.Width()), sup.value, Half(sym.Width() - sup.value.Width() + 1))
    else if sub.Some? then BoundBelow(sym, sub.value, Half(sym.Width() - sub.value.Width()))
    else if sup.Some? then BoundAbove(sym, sup.value, Half(sym.Width() - sup.value.Width() + 1))
    else sym
  }

  /** `lo` drawn right under `sym`, `xb` columns in, and `hi` right over it,
      `xa` columns in: the rows add up, the center row is the symbol's, and
      when both fit nothing else is drawn. */
  function BoundsAround(sym: Block, lo: Block, xb: int, hi: Block, xa: int): (r: Block)
    ensures r.Height() == hi.Height() + sym.Height() + lo.Height() && r.center == hi.Height() + sym.center
    ensures SandwichFits(sym, lo, xb, sym.Height(), hi, xa) ==> Banded(r, hi, xa, sym, lo, xb)
  {
    BelowAt(sym, lo, xb);
    AboveAt(Draw(sym, lo, xb, sym.Height(), true), hi, xa);
    if SandwichFits(sym, lo, xb, sym.Height(), hi, xa) then
      SandwichLayout(sym, lo, xb, sym.Height(), hi, xa);
      Sandwich(sym, lo, xb, sym.Height(), hi, xa)
    else Sandwich(sym, lo, xb, sym.Height(), hi, xa)
  }

  /** `lo` drawn right under `sym`, `xb` columns in. */
  function BoundBelow(sym: Block, lo: Block, xb: int): (r: Block)
    ensures r.Height() == sym.Height() + lo.Height() && r.center == sym.center
  {
    BelowAt(sym, lo, xb);
    Draw(sym, lo, xb, sym.Height(), true)
  }

  /** `hi` drawn right over `sym`, `xa` columns in. */
  function BoundAbove(sym: Block, hi: Block, xa: int): (r: Block)
    ensures r.Height() == hi.Height() + sym.Height() && r.center == hi.Height() + sym.center
  {
    AboveAt(sym, hi, xa);
    Draw(sym, hi, xa, -(hi.Height() as int), true)
  }

  /** `BigSymbol.renderAsciiArt` from the pictures of its parts: the head,
      one blank column, then the operand aligned on the head's center. */
  function BigSymbolArt(sym: Block, sub: Option<Block>, sup: Option<Block>, value: Block): Block {
    AppendCenter(AppendTop(BigSymbolHead(sym, sub, sup), Line(" "), true), value)
  }

  /** `Integral.createSymbol`: at least `minHeight` rows; a single row shows
      the one-line glyph, taller ones a top piece, middle pieces and a
      bottom piece, each followed by a blank. */
  function IntegralSymbol(height: nat, minHeight: nat, single: string, top: string, middle: string, bottom: string): Block {
    var h := Max(height, minHeight);
    if h <= 1 then FromText(single)
    else FromGenerator(h, (i: nat) => (if i == 0 then top else if i == h - 1 then bottom else middle) + " ")
  }

  /** A symbol of two rows or more is as high as the integrand (or the
      minimum), made of the top piece, middle pieces and the bottom piece,
      followed by a blank column; the one-line glyph is only used for at
      most one row, so the ASCII symbol with its minimum of three never
      needs one. */
  lemma IntegralSymbolLayout(height: nat, minHeight: nat, single: string, top: char, middle: char, bottom: char)
    requires Max(height, minHeight) >= 2
    ensures var r, h := IntegralSymbol(height, minHeight, single, [top], [middle], [bottom]), Max(height, minHeight);
      && r.Height() == h && r.Width() == 2 && r.center == h / 2
      && (forall i :: 0 <= i < h ==> r.lines[i][1] == ' ')
      && r.lines[0][0] == top && r.lines[h - 1][0] == bottom
      && (forall i :: 0 < i < h - 1 ==> r.lines[i][0] == middle)
      && (forall s :: IntegralSymbol(height, minHeight, s, [top], [middle], [bottom]) == r)
  {
    var h := Max(height, minHeight);
    var gen := (i: nat) => (if i == 0 then [top] else if i == h - 1 then [bottom] else [middle]) + " ";
    var r := IntegralSymbol(height, minHeight, single, [top], [middle], [bottom]);
    assert forall i :: 0 <= i < h ==> |gen(i)| == 2;
    assert r.Width() == 2 by {
      var k :| 0 <= k < h && |gen(k)| == r.Width();
    }
    assert forall i :: 0 <= i < h ==> r.lines[i][0] == gen(i)[0] && r.lines[i][1] == gen(i)[1];
  }

  /** `Integral.renderAsciiArt` from the pictures of its parts: the lower
      bound centered below the symbol, the upper bound centered above it
      (both rounded left), then the integrand aligned on the center. */
  function IntegralArt(sym: Block, lower: Option<Block>, upper: Option<Block>, value: Block): Block {
    AppendCenter(IntegralHead(sym, lower, upper), value)
  }

  /** The integral sign with its bounds: they add their rows above and
      below the sign, whose center row moves down by the upper bound's rows. */
  function IntegralHead(sym: Block, lower: Option<Block>, upper: Option<Block>): (r: Block)
    ensures var above, below := (if upper.Some? then upper.value.Height() else 0), (if lower.Some? then lower.value.Height() else 0);
      r.Height() == above + sym.Height() + below && r.center == above + sym.center
  {
    if lower.Some? && upper.Some? then BoundsAround(sym, lower.value, Half(1 - lower.value.Width()), upper.value, Half(-(upper.value.Width() as int)))
    else if lower.Some? then BoundBelow(sym, lower.value, Half(1 - lower.value.Width()))
    else if upper.Some? then BoundAbove(sym, upper.value, Half(-(upper.value.Width() as int)))
    else sym
  }

  /** The integrand lines up with the sign's center row, which the upper
      bound pushes down. */
  lemma IntegralCenter(sym: Block, lower: Option<Block>, upper: Option<Block>, value: Block)
    ensures var r, above, below := IntegralArt(sym, lower, upper, value),
                                   (if upper.Some? then upper.value.Height() else 0), (if lower.Some? then lower.value.Height() else 0);
      && r.center == Max(above + sym.center, value.center)
      && r.Height() == r.center + Max(sym.Height() + below - sym.center, value.Height() - value.center)
  {
    AppendCenterLayout(IntegralHead(sym, lower, upper), value);
  }

  // ---------------------------------------------------------------------------
  // Brackets

  /** The left and right shapes of a stretched bracket pair around content
      `h` rows high. */
  function BracketSides(k: Bracket, h: nat, cs: CharSet): (sides: (Block, Block))
    ensures sides.0.Height() >= 1 && sides.1.Height() >= 1
  {
    ChooseSides(UnicodeShape(k, true, h), UnicodeShape(k, false, h), AsciiShape(k, true, h), AsciiShape(k, false, h), cs)
  }

  /** The choice between Unicode shapes `ul`, `ur` and ASCII shapes `al`,
      `ar`: the Unicode ones where the charset can show them, the ASCII ones
      otherwise; an undisplayable left shape turns both sides to ASCII. */
  function ChooseSides(ul: Block, ur: Block, al: Block, ar: Block, cs: CharSet): (sides: (Block, Block))
    ensures ul.Height() >= 1 && ur.Height() >= 1 && al.Height() >= 1 && ar.Height() >= 1 ==>
      sides.0.Height() >= 1 && sides.1.Height() >= 1
  {
    if !CanDisplayArt(cs, ul) then (al, ar)
    else if !CanDisplayArt(cs, ur) then (ul, ar)
    else (ul, ur)
  }

  /** The fallback never produces a side the charset cannot show when the
      ASCII shapes can be shown, the left side is Unicode exactly when the
      charset shows it, and the right side is only Unicode when the left one
      is. */
  lemma ChooseSidesDisplayable(ul: Block, ur: Block, al: Block, ar: Block, cs: CharSet)
    ensures var (l, r) := ChooseSides(ul, ur, al, ar, cs);
      && (CanDisplayArt(cs, al) ==> CanDisplayArt(cs, l))
      && (CanDisplayArt(cs, ar) ==> CanDisplayArt(cs, r))
      && (l == ul || l == al) && (r == ur || r == ar)
      && (CanDisplayArt(cs, ul) ==> l == ul)
      && (!CanDisplayArt(cs, ul) ==> l == al && r == ar)
      && (r == ur && ur != ar ==> l == ul)
      && (CanDisplayArt(cs, ul) && CanDisplayArt(cs, ur) ==> r == ur)
  {
  }

  /** `Brackets.renderAsciiArt` from the picture of the content: left
      shape, content and right shape aligned at their last rows, anchored
      where the left shape is. */
  function BracketsArt(k: Bracket, x: Block, cs: CharSet): Block {
    var sides := BracketSides(k, x.Height(), cs);
    BottomAligned(sides.0, x, sides.1)
  }

  /** Three blocks side by side, aligned at their last rows, anchored where
      the first one is. */
  function BottomAligned(l: Block, x: Block, r: Block): Block {
    AppendBottom(AppendBottom(l, x, true), r, true)
  }

  /** Three blocks aligned at their last rows are as high as the tallest,
      anchored where the first one is and as wide as all three together. */
  lemma BottomAlignedShape(l: Block, x: Block, r: Block)
    requires l.Height() >= 1
    ensures var a := BottomAligned(l, x, r);
      && a.Height() == Max(Max(l.Height(), x.Height()), r.Height())
      && a.center == a.Height() - l.Height() + l.center
      && a.Width() == l.Width() + x.Width() + r.Width()
  {
    var m := AppendBottom(l, x, true);
    assert m.Width() == l.Width() + x.Width();
  }

  /** The middle block sits bottom-aligned right after the first one; the
      picture is as high as the tallest of the three and as wide as all
      three together. */
  lemma BottomAlignedLayout(l: Block, x: Block, r: Block)
    requires l.Height() >= 1
    ensures var a := BottomAligned(l, x, r);
      && a.Height() == Max(Max(l.Height(), x.Height()), r.Height())
      && a.center == a.Height() - l.Height() + l.center
      && a.Width() == l.Width() + x.Width() + r.Width()
      && (forall i, j :: 0 <= i < a.Height() && l.Width() <= j < l.Width() + x.Width() ==>
            a.lines[i][j] == PlacedCell(x, a.Height() - x.Height(), l.Width(), i, j))
  {
    BottomAlignedShape(l, x, r);
    forall i, j | 0 <= i < BottomAligned(l, x, r).Height() && l.Width() <= j < l.Width() + x.Width() {
      BottomAlignedCell(l, x, r, i, j);
    }
  }

  /** A column of the middle block shows that block moved down so that the
      last rows coincide. */
  lemma BottomAlignedCell(l: Block, x: Block, r: Block, i: nat, j: nat)
    requires l.Height() >= 1
    requires i < BottomAligned(l, x, r).Height() && l.Width() <= j < l.Width() + x.Width()
    ensures var a := BottomAligned(l, x, r);
      a.lines[i][j] == PlacedCell(x, a.Height() - x.Height(), l.Width(), i, j)
  {
    var m := AppendBottom(l, x, true);
    var a := AppendBottom(m, r, true);
    assert m.Width() == l.Width() + x.Width();
    var top := a.Height() - m.Height();
    assert a.lines[i][j] == PlacedCell(m, top, 0, i, j);
    if i < top {
      assert i < a.Height() - x.Height();
    } else {
      MiddleCell(l, x, i - top, j);
    }
  }

  /** A column of the second block of a bottom-aligned pair shows that
      block moved down so that the last rows coincide. */
  lemma MiddleCell(l: Block, x: Block, i: nat, j: nat)
    requires l.Height() >= 1
    requires i < AppendBottom(l, x, true).Height() && l.Width() <= j < l.Width() + x.Width()
    ensures var m := AppendBottom(l, x, true);
      m.lines[i][j] == PlacedCell(x, m.Height() - x.Height(), l.Width(), i, j)
  {
  }

  /** The brackets are exactly as high as content of two rows or more, and
      anchored on its middle row, unless an ASCII square or ceiling shape
      adds its cap row on top; a content of at most one row gets one-row
      brackets, except for the ASCII ceiling, which always has a cap. */
  lemma BracketsHeight(k: Bracket, x: Block, cs: CharSet)
    ensures var sides := BracketSides(k, x.Height(), cs);
      var a := BracketsArt(k, x, cs);
      && (x.Height() >= 2 && k != Square && k != Ceil ==> a.Height() == x.Height() && a.center == x.Height() / 2)
      && (x.Height() >= 2 && CanDisplayArt(cs, UnicodeShape(k, true, x.Height()))
          && CanDisplayArt(cs, UnicodeShape(k, false, x.Height())) ==>
            a.Height() == x.Height() && a.center == x.Height() / 2)
      && (x.Height() >= 2 && (k == Square || k == Ceil) && !CanDisplayArt(cs, UnicodeShape(k, true, x.Height())) ==>
            a.Height() == x.Height() + 1 && a.center == (x.Height() + 1) / 2)
      && (x.Height() <= 1 && k != Ceil ==> a.Height() == 1 && a.center == 0)
  {
    var sides := BracketSides(k, x.Height(), cs);
    var l, r := sides.0, sides.1;
    assert BracketsArt(k, x, cs) == BottomAligned(l, x, r);
    SidesHeight(k, x.Height(), cs);
    if 1 <= l.Height() == r.Height() && x.Height() <= l.Height() {
      EqualSidesShape(l, x, r);
    }
  }

  /** Two sides of equal height, anchored on their middle rows, around a
      content no taller than they are: the picture keeps their height and
      anchor. */
  lemma EqualSidesShape(l: Block, x: Block, r: Block)
    requires 1 <= l.Height() == r.Height() && x.Height() <= l.Height() && l.center == l.Height() / 2
    ensures BottomAligned(l, x, r).Height() == l.Height() && BottomAligned(l, x, r).center == l.Height() / 2
  {
    BottomAlignedShape(l, x, r);
  }

  /** The heights and anchors of the two bracket shapes for content of
      height `h`. */
  lemma SidesHeight(k: Bracket, h: nat, cs: CharSet)
    ensures var sides := BracketSides(k, h, cs);
      var l, r := sides.0, sides.1;
      && l.center == l.Height() / 2
      && (h >= 2 && k != Square && k != Ceil ==> l.Height() == h && r.Height() == h)
      && (h >= 2 && CanDisplayArt(cs, UnicodeShape(k, true, h)) && CanDisplayArt(cs, UnicodeShape(k, false, h)) ==>
            l.Height() == h && r.Height() == h)
      && (h >= 2 && (k == Square || k == Ceil) && !CanDisplayArt(cs, UnicodeShape(k, true, h)) ==>
            l.Height() == h + 1 && r.Height() == h + 1)
      && (h <= 1 && k != Ceil ==> l.Height() == 1 && r.Height() == 1)
  {
    var ul, ur := UnicodeShape(k, true, h), UnicodeShape(k, false, h);
    var al, ar := AsciiShape(k, true, h), AsciiShape(k, false, h);
    assert BracketSides(k, h, cs) == ChooseSides(ul, ur, al, ar, cs);
  }

  /** Round, square and curly brackets around a single row anchored on it
      are the plain bracket glyphs on both ends of that row, whatever the
      charset. */
  lemma BracketsOneRow(k: Bracket, x: Block, cs: CharSet)
    requires k == Round || k == Square || k == Curly
    requires x.Height() == 1 && x.center == 0
    ensures BracketsArt(k, x, cs) == Art([AsciiSymbol(k, true) + x.lines[0] + AsciiSymbol(k, false)], 0)
  {
    var sides := BracketSides(k, 1, cs);
    assert sides.0 == Art([AsciiSymbol(k, true)], 0) && sides.1 == Art([AsciiSymbol(k, false)], 0);
    AppendBottomOneRow(sides.0, x);
    AppendBottomOneRow(AppendBottom(sides.0, x, true), sides.1);
  }

  // ---------------------------------------------------------------------------
  // Lists

  /** The list delimiter gets a blank column after it when it is not padded
      already and either spacing is forced or, automatically, some element
      is more than a single character. */
  predicate NeedsPadding(d: Block, es: seq<Block>, mode: SpaceMode) {
    !Utils.HasPadding(ToString(d))
    && (mode == Force || (mode == Auto && exists i :: 0 <= i < |es| && es[i].Width() * es[i].Height() != 1))
  }

  /** The delimiter with a blank column to its right. */
  function Padded(d: Block): (r: Block)
    ensures r.Width() == d.Width() + 1
    ensures r.center == d.center && r.Height() == Max(d.Height(), d.center + 1)
    ensures forall i, j :: 0 <= i < r.Height() && 0 <= j < d.Width() ==> r.lines[i][j] == PlacedCell(d, 0, 0, i, j)
    ensures forall i :: d.center <= i < d.center + 1 ==> r.lines[i][d.Width()] == ' '
  {
    AppendCenterLayout(d, Line(" "));
    AppendCenterWidth(d, Line(" "));
    AppendCenter(d, Line(" "))
  }

  /** The fold of `List.renderAsciiArt`: the picture so far, then the
      delimiter and the next element, each aligned on the common center. */
  function JoinArt(first: Block, d: Block, rest: seq<Block>): Block
    decreases |rest|
  {
    if rest == [] then first
    else JoinArt(JoinStep(first, d, rest[0]), d, rest[1..])
  }

  /** The highest center (rows above the anchor) among some blocks. */
  function MaxCenter(bs: seq<Block>): (m: nat)
    ensures forall i :: 0 <= i < |bs| ==> bs[i].center <= m
  {
    if bs == [] then 0 else Max(bs[0].center, MaxCenter(bs[1..]))
  }

  /** The largest depth (rows from the anchor down) among some blocks. */
  function MaxDepth(bs: seq<Block>): (m: nat)
    ensures forall i :: 0 <= i < |bs| ==> bs[i].Height() - bs[i].center <= m
  {
    if bs == [] then 0 else Max(bs[0].Height() - bs[0].center, MaxDepth(bs[1..]))
  }

  function SumWidth(bs: seq<Block>): nat {
    if bs == [] then 0 else bs[0].Width() + SumWidth(bs[1..])
  }

  /** A row of blocks joined by a delimiter reaches as high above the common
      anchor as the highest part and as deep below it as the deepest, and is
      as wide as all parts together. */
  lemma JoinLayout(first: Block, d: Block, rest: seq<Block>)
    ensures var r, dc, dd := JoinArt(first, d, rest),
                             (if rest == [] then 0 else d.center),
                             (if rest == [] then 0 else d.Height() - d.center);
      && r.center == Max(first.center, Max(dc, MaxCenter(rest)))
      && r.Height() - r.center == Max(first.Height() - first.center, Max(dd, MaxDepth(rest)))
      && r.Width() == first.Width() + |rest| * d.Width() + SumWidth(rest)
  {
    JoinCenter(first, d, rest);
    JoinDepth(first, d, rest);
    JoinWidth(first, d, rest);
  }

  lemma {:induction false} JoinCenter(first: Block, d: Block, rest: seq<Block>)
    ensures JoinArt(first, d, rest).center
      == Max(first.center, Max(if rest == [] then 0 else d.center, MaxCenter(rest)))
    decreases |rest|
  {
    if rest != [] {
      var f := JoinStep(first, d, rest[0]);
      JoinCenter(f, d, rest[1..]);
      assert MaxCenter(rest) == Max(rest[0].center, MaxCenter(rest[1..]));
    }
  }

  lemma {:induction false} JoinDepth(first: Block, d: Block, rest: seq<Block>)
    ensures var r := JoinArt(first, d, rest);
      r.Height() - r.center
      == Max(first.Height() - first.center, Max(if rest == [] then 0 else d.Height() - d.center, MaxDepth(rest)))
    decreases |rest|
  {
    if rest != [] {
      var f := JoinStep(first, d, rest[0]);
      JoinDepth(f, d, rest[1..]);
      assert MaxDepth(rest) == Max(rest[0].Height() - rest[0].center, MaxDepth(rest[1..]));
    }
  }

  lemma {:induction false} JoinWidth(first: Block, d: Block, rest: seq<Block>)
    ensures JoinArt(first, d, rest).Width() == first.Width() + |rest| * d.Width() + SumWidth(rest)
    decreases |rest|
  {
    if rest != [] {
      var f := JoinStep(first, d, rest[0]);
      JoinWidth(f, d, rest[1..]);
      assert SumWidth(rest) == rest[0].Width() + SumWidth(rest[1..]);
      Repeated(|rest[1..]|, d.Width());
    }
  }

  /** `n + 1` copies of width `w` are one copy more than `n`. */
  lemma Repeated(n: nat, w: nat)
    ensures (n + 1) * w == w + n * w
  {
  }

  /** One step of the fold: the picture so far, the delimiter and the next
      element on their common center. */
  function JoinStep(first: Block, d: Block, e: Block): (f: Block)
    ensures f == AppendCenter(AppendCenter(first, d), e)
    ensures f.center == Max(Max(first.center, d.center), e.center)
    ensures f.Height() - f.center == Max(Max(first.Height() - first.center, d.Height() - d.center),
                                         e.Height() - e.center)
    ensures f.Width() == first.Width() + d.Width() + e.Width()
  {
    var m := AppendCenter(first, d);
    AppendCenterLayout(first, d);
    AppendCenterWidth(first, d);
    AppendCenterLayout(m, e);
    AppendCenterWidth(m, e);
    AppendCenter(m, e)
  }

  /** `List.renderAsciiArt` for two or more element pictures. */
  function ListArt(d: Block, es: seq<Block>, mode: SpaceMode): Block
    requires es != []
  {
    JoinArt(es[0], if NeedsPadding(d, es, mode) then Padded(d) else d, es[1..])
  }

  // ---------------------------------------------------------------------------
  // Concatenation

  /** `Concatenation.renderAsciiArt` from the pictures of both operands:
      side by side on a common center, with a blank column between them
      when spaced. */
  function ConcatArt(a: Block, b: Block, space: bool): Block {
    if space then AppendCenter(AppendTop(a, Line(" "), true), b) else AppendCenter(a, b)
  }

  /** The operands keep their cells, each moved down to the common center
      row, the right one after the left one and the optional blank column;
      the blank column is blank on every row. */
  lemma ConcatLayout(a: Block, b: Block, space: bool)
    ensures var r, c, s := ConcatArt(a, b, space), Max(a.center, b.center), (if space then 1 else 0);
      && r.center == c
      && r.Width() == a.Width() + s + b.Width()
      && r.Height() == c + Max(Max(a.Height(), s) - a.center, b.Height() - b.center)
      && (forall i, j :: 0 <= i < r.Height() && 0 <= j < a.Width() ==>
            r.lines[i][j] == PlacedCell(a, c - a.center, 0, i, j))
      && (forall i, j :: 0 <= i < r.Height() && a.Width() + s <= j < r.Width() ==>
            r.lines[i][j] == PlacedCell(b, c - b.center, a.Width() + s, i, j))
      && (space ==> forall i :: 0 <= i < r.Height() ==> r.lines[i][a.Width()] == ' ')
  {
    if space {
      var t := AppendTop(a, Line(" "), true);
      AppendCenterLayout(t, b);
      AppendCenterWidth(t, b);
      var r, c := AppendCenter(t, b), Max(a.center, b.center);
      forall i, j | 0 <= i < r.Height() && 0 <= j < a.Width()
        ensures r.lines[i][j] == PlacedCell(a, c - a.center, 0, i, j)
      {
        assert r.lines[i][j] == PlacedCell(t, c - a.center, 0, i, j);
      }
    } else {
      AppendCenterLayout(a, b);
      AppendCenterWidth(a, b);
    }
  }
}

=== FILE: numbers.dfy ===
/** The number-theoretic helpers of `Utils` that work on `BigInteger`
    (modelled as unbounded `int`): the factor that turns a number into a power
    of ten, and the integer logarithm. */
module NumberTheory {
  import opened Wrappers

  function Pow(b: int, k: nat): int {
    if k == 0 then 1 else b * Pow(b, k - 1)
  }

  ghost predicate IsPowerOf(b: int, f: int) {
    exists k: nat :: Pow(b, k) == f
  }

  lemma {:induction false} PowPositive(b: int, k: nat)
    requires b > 0
    ensures Pow(b, k) > 0
  {
    if k > 0 {
      PowPositive(b, k - 1);
    }
  }

  lemma {:induction false} PowAdd(b: int, i: nat, j: nat)
    ensures Pow(b, i) * Pow(b, j) == Pow(b, i + j)
  {
    if i > 0 {
      var x, y := Pow(b, i - 1), Pow(b, j);
      PowAdd(b, i - 1, j);
      assert (b * x) * y == b * (x * y);
    }
  }

  lemma {:induction false} PowMul(a: int, b: int, k: nat)
    ensures Pow(a, k) * Pow(b, k) == Pow(a * b, k)
  {
    if k > 0 {
      var x, y, z := Pow(a, k - 1), Pow(b, k - 1), Pow(a * b, k - 1);
      PowMul(a, b, k - 1);
      assert x * y == z;
      assert Pow(a, k) == a * x && Pow(b, k) == b * y && Pow(a * b, k) == (a * b) * z;
      assert (a * x) * (b * y) == (a * b) * (x * y);
    }
  }

  lemma MultipleInRange(n: int, d: int)
    requires n > 0 && -n < n * d < n
    ensures d == 0
  {
  }
  /** Adding a multiple of `n` does not change a remainder modulo `n`. */
  lemma ModMultipleAdd(n: int, k: int, x: int)
    requires n > 0
    ensures (n * k + x) % n == x % n
  {
    var y := n * k + x;
    var d := y / n - k - x / n;
    assert n * d == x % n - y % n by {
      assert y == n * (y / n) + y % n;
      assert x == n * (x / n) + x % n;
    }
    MultipleInRange(n, d);
  }
  /** An odd factor does not contribute to evenness. */
  lemma OddFactor(m: int, q: int)
    requires m % 2 == 1 && (m * q) % 2 == 0
    ensures q % 2 == 0
  {
    var c, s := q / 2, q % 2;
    assert m * q == 2 * (m * c) + m * s by {
      assert q == 2 * c + s;
    }
    ModMultipleAdd(2, m * c, m * s);
    assert s == 0 || m * s == m;
  }
  /** Five is prime: it divides a product only through one of the factors. */
  lemma FivePrime(m: int, q: int)
    requires m % 5 != 0 && (m * q) % 5 == 0
    ensures q % 5 == 0
  {
    var a, r := m / 5, m % 5;
    var c, s := q / 5, q % 5;
    assert m * q == 5 * (m * c + a * s) + r * s by {
      assert q == 5 * c + s;
      assert m * q == 5 * (m * c) + m * s;
      assert m == 5 * a + r;
      assert m * s == 5 * (a * s) + r * s;
    }
    ModMultipleAdd(5, m * c + a * s, r * s);
    ResiduesOfFive(r, s);
  }

  /** No two non-zero residues modulo 5 multiply to a multiple of 5. */
  lemma ResiduesOfFive(r: int, s: int)
    requires 0 < r < 5 && 0 <= s < 5 && (r * s) % 5 == 0
    ensures s == 0
  {
    assert r == 1 || r == 2 || r == 3 || r == 4;
    assert s == 0 || s == 1 || s == 2 || s == 3 || s == 4;
  }

  lemma MulSign(m: int, q: int)
    requires m > 0
    ensures q > 0 ==> m * q >= m
    ensures q <= 0 ==> m * q <= 0
  {
  }

  /** A number prime to 2 and 5 that divides a power of ten is 1. */
  lemma {:induction false} CoprimeDividesPowerOfTen(m: int, k: nat, q: int)
    requires m > 0 && m % 2 == 1 && m % 5 != 0
    requires m * q == Pow(10, k)
    ensures m == 1
  {
    if k == 0 {
      MulSign(m, q);
    } else {
      HalveTenth(m, q, Pow(10, k - 1));
      CoprimeDividesPowerOfTen(m, k - 1, q / 10);
    }
  }

  /** Dividing `m * q == 10 * t` by ten when `m` has neither factor 2 nor 5:
      the ten divides `q`. */
  lemma HalveTenth(m: int, q: int, t: int)
    requires m % 2 == 1 && m % 5 != 0 && m * q == 10 * t
    ensures m * (q / 10) == t
  {
    var q2 := q / 2;
    ModMultipleAdd(2, 5 * t, 0);
    OddFactor(m, q);
    assert q == 2 * q2;
    MulLeft(m, 2, q2);
    assert m * q2 == 5 * t;
    ModMultipleAdd(5, t, 0);
    FivePrime(m, q2);
    var q10 := q2 / 5;
    assert q2 == 5 * q10;
    MulLeft(m, 5, q10);
    assert q / 10 == q10;
  }

  lemma MulLeft(m: int, a: int, b: int)
    ensures m * (a * b) == a * (m * b)
  {
  }

  /** Once the factors 2 and 5 are stripped from `x`, anything left over other
      than 1 keeps every power of ten from being a multiple of `x`. */
  lemma NoPowerOfTenMultiple(x: int, t: nat, v: nat, m: int)
    requires m > 1 && m % 2 == 1 && m % 5 != 0
    requires x == Pow(2, t) * Pow(5, v) * m
    ensures x > 0
    ensures forall k: nat :: Pow(10, k) % x != 0
  {
    PowPositive(2, t);
    PowPositive(5, v);
    var p := Pow(2, t) * Pow(5, v);
    assert x == p * m;
    MulSign(p, m);
    forall k: nat
      ensures Pow(10, k) % x != 0
    {
      NotMultipleAt(x, p, m, k);
    }
  }

  lemma NotMultipleAt(x: int, p: int, m: int, k: nat)
    requires m > 1 && m % 2 == 1 && m % 5 != 0 && p > 0 && x == p * m
    ensures Pow(10, k) % x != 0
  {
    var y := Pow(10, k);
    MulSign(p, m);
    var c := y / x;
    MulRotate(p, m, c);
    CoprimeNotPowerOfTen(m, k, p * c);
    assert y == x * c + y % x;
  }

  lemma MulRotate(a: int, b: int, c: int)
    ensures (a * b) * c == b * (a * c)
  {
  }

  /** A factor other than 1 without the prime factors 2 and 5 does not
      complete any number to a power of ten. */
  lemma CoprimeNotPowerOfTen(m: int, k: nat, q: int)
    requires m > 1 && m % 2 == 1 && m % 5 != 0
    ensures m * q != Pow(10, k)
  {
    if m * q == Pow(10, k) {
      CoprimeDividesPowerOfTen(m, k, q);
    }
  }

  /** Moving one factor `b` from `x` into the power `b^k`. */
  lemma StripFactor(x0: int, p: int, b: int, k: nat, x: int)
    requires b > 1 && x >= 1 && x % b == 0
    requires x0 == p * Pow(b, k) * x
    ensures x0 == p * Pow(b, k + 1) * (x / b)
    ensures 1 <= x / b < x
  {
    var q := x / b;
    assert x == b * q;
    MulSign(b, q);
    assert b * q == q + (b - 1) * q;
    MulSign(b - 1, q);
    var y := Pow(b, k);
    assert Pow(b, k + 1) == b * y;
    assert p * y * (b * q) == p * (b * y) * q;
  }

  /** An odd multiple of 5 leaves an odd quotient. */
  lemma OddQuotient(x: int)
    requires x % 2 == 1 && x % 5 == 0
    ensures (x / 5) % 2 == 1
  {
    var q := x / 5;
    assert x == 2 * (2 * q) + q;
    ModMultipleAdd(2, 2 * q, q);
  }

  /** `2^t * 5^v` times the factor the algorithm picks is `10^max(t, v)`. */
  lemma CompleteToPowerOfTen(t: nat, v: nat)
    ensures t >= v ==> Pow(2, t) * Pow(5, v) * Pow(5, t - v) == Pow(10, t)
    ensures t <= v ==> Pow(2, t) * Pow(5, v) * Pow(2, v - t) == Pow(10, v)
  {
    if t >= v {
      PowAdd(5, v, t - v);
      PowMul(2, 5, t);
      assert Pow(2, t) * Pow(5, v) * Pow(5, t - v) == Pow(2, t) * (Pow(5, v) * Pow(5, t - v));
    }
    if t <= v {
      PowAdd(2, t, v - t);
      PowMul(2, 5, v);
      assert Pow(2, t) * Pow(5, v) * Pow(2, v - t) == (Pow(2, t) * Pow(2, v - t)) * Pow(5, v);
    }
  }

  /** `Utils.getFactorToPowerOfTen`: the factor `f` such that `x * f` is a power
      of ten, or None when there is none; non-positive input is an arithmetic
      error. The factor is a power of 2 or of 5. */
  method GetFactorToPowerOfTen(x0: int) returns (r: Result<Option<int>>)
    ensures x0 == 1 ==> r == Ok(Some(1))
    ensures x0 <= 0 <==> r == Err(Arithmetic)
    ensures r.Ok? && r.value.Some? ==>
      var f := r.value.value;
      f > 0 && (IsPowerOf(2, f) || IsPowerOf(5, f)) && exists k: nat :: Pow(10, k) == x0 * f
    ensures r == Ok(None) ==> forall k: nat :: Pow(10, k) % x0 != 0
  {
    if x0 == 1 {
      assert Pow(10, 0) == 1 * 1 && Pow(2, 0) == 1;
      return Ok(Some(1));
    }
    if x0 <= 0 {
      return Err(Arithmetic);
    }
    var x, twoCount, fiveCount := x0, 0, 0;
    while x % 2 == 0
      invariant x >= 1 && x0 == 1 * Pow(2, twoCount) * x
      decreases x
    {
      StripFactor(x0, 1, 2, twoCount, x);
      x, twoCount := x / 2, twoCount + 1;
    }
    while x % 5 == 0
      invariant x >= 1 && x % 2 == 1
      invariant x0 == Pow(2, twoCount) * Pow(5, fiveCount) * x
      decreases x
    {
      StripFactor(x0, Pow(2, twoCount), 5, fiveCount, x);
      OddQuotient(x);
      x, fiveCount := x / 5, fiveCount + 1;
    }
    if x != 1 {
      NoPowerOfTenMultiple(x0, twoCount, fiveCount, x);
      return Ok(None);
    }
    CompleteToPowerOfTen(twoCount, fiveCount);
    var f;
    if twoCount == fiveCount {
      f := 1;
      assert Pow(2, 0) == f;
      assert Pow(10, twoCount) == x0 * f;
    } else if twoCount > fiveCount {
      f := Pow(5, twoCount - fiveCount);
      PowPositive(5, twoCount - fiveCount);
      assert Pow(10, twoCount) == x0 * f;
    } else {
      f := Pow(2, fiveCount - twoCount);
      PowPositive(2, fiveCount - twoCount);
      assert Pow(10, fiveCount) == x0 * f;
    }
    return Ok(Some(f));
  }

  /** One division step of the logarithm loop keeps `x0` bracketed. */
  lemma LogStep(p: int, base: int, x: int, x0: int)
    requires p > 0 && base >= 2 && x >= base
    requires p * x <= x0 < p * (x + 1)
    ensures (p * base) * (x / base) <= x0 < (p * base) * (x / base + 1)
    ensures 1 <= x / base < x
  {
    var q := x / base;
    QuotientBounds(x, base);
    MulLe(p, base * q, x);
    MulLe(p, x + 1, base * (q + 1));
    MulAssoc(p, base, q);
    MulAssoc(p, base, q + 1);
  }

  /** The quotient of Euclidean division brackets the dividend. */
  lemma QuotientBounds(x: int, base: int)
    requires base >= 2 && x >= base
    ensures base * (x / base) <= x < base * (x / base + 1)
    ensures 1 <= x / base < x
  {
    var q, r := x / base, x % base;
    assert x == base * q + r && 0 <= r < base;
    assert base * (q + 1) == base * q + base;
    if q < 1 {
      MulLe(base, q, 0);
    }
    MulLe(q, 2, base);
  }

  lemma MulLe(p: int, a: int, b: int)
    requires p > 0 && a <= b
    ensures p * a <= p * b
  {
    assert p * b - p * a == p * (b - a);
  }

  lemma MulAssoc(a: int, b: int, c: int)
    ensures (a * b) * c == a * (b * c)
  {
  }

  /** `Utils.log`: the integer logarithm, the largest `k` with `base^k <= x`.
      Non-positive arguments are an arithmetic error; base 1 with `x >= 1`
      never leaves the loop, so the caller must not ask for it. */
  method Log(base: int, x0: int) returns (r: Result<nat>)
    requires base == 1 ==> x0 <= 0
    ensures base <= 0 || x0 <= 0 <==> r == Err(Arithmetic)
    ensures r.Ok? ==> Pow(base, r.value) <= x0 < Pow(base, r.value + 1)
  {
    if base <= 0 || x0 <= 0 {
      return Err(Arithmetic);
    }
    var x, log, p := x0, 0, 1;
    while x >= base
      invariant x >= 1 && p == Pow(base, log) && p > 0
      invariant p * x <= x0 < p * (x + 1)
      decreases x
    {
      LogStep(p, base, x, x0);
      MulLe(p, 1, base);
      assert Pow(base, log + 1) == p * base;
      x, log, p := x / base, log + 1, p * base;
    }
    MulLe(p, 1, x);
    MulLe(p, x + 1, base);
    assert Pow(base, log + 1) == p * base;
    return Ok(log);
  }
}

=== FILE: options.dfy ===
/** `RenderableExpression.RenderOptions`: the immutable settings every
    renderer receives. The constructor validates two numeric fields, every
    `setX` builds a copy through that constructor, and `equals` compares
    every field except the character set. */
module Options {
  import opened Java
  import opened Wrappers
  import Precedence
  import opened Charsets
  import opened BracketShapes

  datatype DecimalMode = ForceDecimal | ForceFraction | DecimalIfPossible | Smart

  datatype SpaceMode = Compact | Auto | Force

  datatype RenderOptions = RenderOptions(
    precision: Int32,
    decimalMode: DecimalMode,
    scientific: bool,
    smallFractionsSizeLimit: Int32,
    matrixBrackets: Bracket,
    charset: CharSet,
    autoParenthesis: bool,
    outsidePrecedence: Int32,
    spaceMode: SpaceMode)
  {
    /** What the constructor checks: a precision of at least one digit and a
        non-negative size limit for flat fractions. */
    predicate Valid() {
      precision >= 1 && smallFractionsSizeLimit >= 0
    }
  }

  /** The option values that can exist: every instance passed the constructor. */
  type Options = o: RenderOptions | o.Valid()
    witness RenderOptions(40, Smart, true, 4, Square, CharSet(_ => true), true, MIN_INT, Auto)

  /** `RenderOptions.DEFAULT`. */
  const DEFAULT: Options :=
    RenderOptions(40, Smart, true, 4, Square, Unicode(), true, Precedence.MIN, Auto)

  /** The constructor: rejects a precision below one and a negative size limit. */
  function New(precision: Int32, decimalMode: DecimalMode, scientific: bool,
               smallFractionsSizeLimit: Int32, matrixBrackets: Bracket, charset: CharSet,
               autoParenthesis: bool, outsidePrecedence: Int32, spaceMode: SpaceMode): (r: Result<Options>)
    ensures r.Ok? <==> precision >= 1 && smallFractionsSizeLimit >= 0
    ensures r.Err? ==> r.error == IllegalArgument
    ensures r.Ok? ==> (r.value.precision == precision && r.value.decimalMode == decimalMode
                       && r.value.scientific == scientific
                       && r.value.smallFractionsSizeLimit == smallFractionsSizeLimit
                       && r.value.matrixBrackets == matrixBrackets && r.value.charset == charset
                       && r.value.autoParenthesis == autoParenthesis
                       && r.value.outsidePrecedence == outsidePrecedence
                       && r.value.spaceMode == spaceMode)
  {
    if precision < 1 || smallFractionsSizeLimit < 0 then Err(IllegalArgument)
    else Ok(RenderOptions(precision, decimalMode, scientific, smallFractionsSizeLimit,
                          matrixBrackets, charset, autoParenthesis, outsidePrecedence, spaceMode))
  }

  /** `setPrecision`: fails exactly when the constructor would. */
  function SetPrecision(o: Options, precision: Int32): (r: Result<Options>)
    ensures r.Ok? <==> precision >= 1
    ensures r.Err? ==> r.error == IllegalArgument
    ensures r.Ok? ==> r.value.precision == precision && r.value.(precision := o.precision) == o
  {
    New(precision, o.decimalMode, o.scientific, o.smallFractionsSizeLimit, o.matrixBrackets,
        o.charset, o.autoParenthesis, o.outsidePrecedence, o.spaceMode)
  }

  /** `setSmallFractionsSizeLimit`: fails exactly when the constructor would. */
  function SetSmallFractionsSizeLimit(o: Options, limit: Int32): (r: Result<Options>)
    ensures r.Ok? <==> limit >= 0
    ensures r.Err? ==> r.error == IllegalArgument
    ensures r.Ok? ==> (r.value.smallFractionsSizeLimit == limit
                       && r.value.(smallFractionsSizeLimit := o.smallFractionsSizeLimit) == o)
  {
    New(o.precision, o.decimalMode, o.scientific, limit, o.matrixBrackets,
        o.charset, o.autoParenthesis, o.outsidePrecedence, o.spaceMode)
  }

  // The remaining setters cannot fail: the fields the constructor checks are
  // copied from an instance that already passed it.

  function SetDecimalMode(o: Options, m: DecimalMode): (r: Options)
    ensures r.decimalMode == m && r.(decimalMode := o.decimalMode) == o
  {
    New(o.precision, m, o.scientific, o.smallFractionsSizeLimit, o.matrixBrackets,
        o.charset, o.autoParenthesis, o.outsidePrecedence, o.spaceMode).value
  }

  function SetScientific(o: Options, b: bool): (r: Options)
    ensures r.scientific == b && r.(scientific := o.scientific) == o
  {
    New(o.precision, o.decimalMode, b, o.smallFractionsSizeLimit, o.matrixBrackets,
        o.charset, o.autoParenthesis, o.outsidePrecedence, o.spaceMode).value
  }

  function SetMatrixBrackets(o: Options, k: Bracket): (r: Options)
    ensures r.matrixBrackets == k && r.(matrixBrackets := o.matrixBrackets) == o
  {
    New(o.precision, o.decimalMode, o.scientific, o.smallFractionsSizeLimit, k,
        o.charset, o.autoParenthesis, o.outsidePrecedence, o.spaceMode).value
  }

  function SetCharset(o: Options, cs: CharSet): (r: Options)
    ensures r.charset == cs && r.(charset := o.charset) == o
  {
    New(o.precision, o.decimalMode, o.scientific, o.smallFractionsSizeLimit, o.matrixBrackets,
        cs, o.autoParenthesis, o.outsidePrecedence, o.spaceMode).value
  }

  function SetAutoParenthesis(o: Options, b: bool): (r: Options)
    ensures r.autoParenthesis == b && r.(autoParenthesis := o.autoParenthesis) == o
  {
    New(o.precision, o.decimalMode, o.scientific, o.smallFractionsSizeLimit, o.matrixBrackets,
        o.charset, b, o.outsidePrecedence, o.spaceMode).value
  }

  function SetOutsidePrecedence(o: Options, p: Int32): (r: Options)
    ensures r.outsidePrecedence == p && r.(outsidePrecedence := o.outsidePrecedence) == o
  {
    New(o.precision, o.decimalMode, o.scientific, o.smallFractionsSizeLimit, o.matrixBrackets,
        o.charset, o.autoParenthesis, p, o.spaceMode).value
  }

  function SetSpaceMode(o: Options, m: SpaceMode): (r: Options)
    ensures r.spaceMode == m && r.(spaceMode := o.spaceMode) == o
  {
    New(o.precision, o.decimalMode, o.scientific, o.smallFractionsSizeLimit, o.matrixBrackets,
        o.charset, o.autoParenthesis, o.outsidePrecedence, m).value
  }

  /** `equals`: field by field, leaving out the character set. */
  predicate Equals(a: Options, b: Options) {
    a.precision == b.precision && a.scientific == b.scientific && a.decimalMode == b.decimalMode
    && a.smallFractionsSizeLimit == b.smallFractionsSizeLimit && a.matrixBrackets == b.matrixBrackets
    && a.autoParenthesis == b.autoParenthesis && a.outsidePrecedence == b.outsidePrecedence
    && a.spaceMode == b.spaceMode
  }

  /** Two options are equal exactly when they agree once the charset is
      made the same: the charset is the only field `equals` ignores. */
  lemma EqualsIgnoresOnlyCharset(a: Options, b: Options)
    ensures Equals(a, b) <==> a.(charset := b.charset) == b
  {
  }

  /** `equals` is an equivalence relation. */
  lemma EqualsEquivalence(a: Options, b: Options, c: Options)
    ensures Equals(a, a)
    ensures Equals(a, b) ==> Equals(b, a)
    ensures Equals(a, b) && Equals(b, c) ==> Equals(a, c)
  {
  }

  /** Changing any other field is seen by `equals`; changing the charset is not. */
  lemma SettersAndEquals(o: Options, cs: CharSet, p: Int32, m: SpaceMode)
    ensures Equals(o, SetCharset(o, cs))
    ensures Equals(o, SetOutsidePrecedence(o, p)) <==> p == o.outsidePrecedence
    ensures Equals(o, SetSpaceMode(o, m)) <==> m == o.spaceMode
  {
  }
}

=== FILE: precedence.dfy ===
/** `Precedence`: the binding strengths of operators and layout nodes. A node
    whose precedence is below the precedence of its surrounding operator gets
    parenthesised. */
module Precedence {
  import opened Java

  const MIN: Int32 := MIN_INT
  const MAX: Int32 := MAX_INT

  const BRACKETS: Int32 := MAX
  const COMMA: Int32 := MIN
  const SINGLE_BRACKET: Int32 := 20

  const PLUS: Int32 := 100
  const MINUS: Int32 := PLUS
  const MULTIPLY: Int32 := 200
  const DIVIDE: Int32 := MULTIPLY
  const POWER: Int32 := 300
  const MODULO: Int32 := DIVIDE

  const NEGATE: Int32 := 110
  const FRACTION: Int32 := DIVIDE + 10
  const FACTORIAL: Int32 := 400

  const DEGREE: Int32 := 1200
  const PERCENT: Int32 := DEGREE
  const SQUARE: Int32 := POWER
  const CUBE: Int32 := POWER
  const ROOT: Int32 := MAX

  const DEFINE: Int32 := 0
  const LAMBDA: Int32 := 10

  const EQUALS: Int32 := 50
  const LESS: Int32 := EQUALS
  const LESS_OR_EQUAL: Int32 := EQUALS
  const GREATER: Int32 := EQUALS
  const GREATER_OR_EQUAL: Int32 := EQUALS

  const IN: Int32 := 60
  const AND: Int32 := 25
  const OR: Int32 := AND
  const NOT: Int32 := 30

  const IMPLICIT: Int32 := MULTIPLY + 1
  const FUNCTION_CALL: Int32 := IMPLICIT

  const MID: Int32 := 75
  const GRID: Int32 := 80
  const ITERATION: Int32 := IMPLICIT
  const SUBSCRIPT: Int32 := MAX
  const SUPERSCRIPT: Int32 := POWER

  /** The ordering the constants establish, from the weakest binding to the
      strongest: definitions, lambdas, logic, relations, the layout
      separators, the arithmetic operators and finally scripts and brackets. */
  lemma Ordering()
    ensures COMMA == MIN && BRACKETS == ROOT == SUBSCRIPT == MAX
    ensures DEFINE < LAMBDA < AND == OR < NOT < EQUALS
    ensures LESS == LESS_OR_EQUAL == GREATER == GREATER_OR_EQUAL == EQUALS < IN
    ensures IN < MID < GRID < PLUS == MINUS < NEGATE < MULTIPLY == DIVIDE == MODULO
    ensures DIVIDE < IMPLICIT == FUNCTION_CALL == ITERATION < FRACTION < POWER
    ensures SUPERSCRIPT == SQUARE == CUBE == POWER < FACTORIAL < DEGREE == PERCENT < MAX
  {
  }
}

=== FILE: rational.dfy ===
/** The constructors of `Rational`: a fraction is stored in lowest terms with
    a positive denominator. */
module Rationals {
  import opened Wrappers
  import opened Java
  import NumberTheory

  /** Euclid's algorithm (`BigInteger.gcd` on magnitudes). */
  function Gcd(a: nat, b: nat): nat
    decreases b
  {
    if b == 0 then a else Gcd(b, a % b)
  }

  ghost predicate Divides(d: int, x: int) {
    exists k :: d * k == x
  }

  /** `x % m` is `r` whenever `x = q * m + r` with `0 <= r < m`. */
  lemma ModUnique(x: int, m: int, q: int, r: int)
    requires m > 0 && 0 <= r < m && x == q * m + r
    ensures x % m == r && x / m == q
  {
    var d := x / m - q;
    assert m * d == r - x % m by {
      assert x == m * (x / m) + x % m;
    }
  }

  /** The greatest common divisor divides both arguments. */
  lemma {:induction false} GcdDivides(a: nat, b: nat)
    ensures Divides(Gcd(a, b), a) && Divides(Gcd(a, b), b)
    decreases b
  {
    if b == 0 {
      assert Gcd(a, b) * 1 == a && Gcd(a, b) * 0 == b;
    } else {
      GcdDivides(b, a % b);
      var g := Gcd(a, b);
      var k1 :| g * k1 == b;
      var k2 :| g * k2 == a % b;
      assert a == b * (a / b) + a % b;
      assert g * (k1 * (a / b) + k2) == a by {
        assert g * (k1 * (a / b)) == (g * k1) * (a / b);
      }
    }
  }

  /** Common factors come out of the gcd: gcd(k a, k b) = k gcd(a, b). */
  lemma {:induction false} GcdScale(k: nat, a: nat, b: nat)
    requires k > 0
    ensures Gcd(k * a, k * b) == k * Gcd(a, b)
    decreases b
  {
    if b != 0 {
      var q, r := a / b, a % b;
      assert k * a == q * (k * b) + k * r by {
        assert a == q * b + r;
        assert k * (q * b) == q * (k * b);
      }
      assert 0 <= k * r < k * b;
      ModUnique(k * a, k * b, q, k * r);
      GcdScale(k, b, r);
    }
  }

  lemma {:induction false} GcdPositive(a: nat, b: nat)
    requires a > 0 || b > 0
    ensures Gcd(a, b) > 0
    decreases b
  {
    if b != 0 {
      GcdPositive(b, a % b);
    }
  }

  /** The sign the library gives the gcd: that of the denominator. */
  function Sign(d: int): int { if d > 0 then 1 else -1 }

  /** The reduction step shared by both constructors: divide numerator and
      denominator by their gcd carrying the denominator's sign
      (`BigInteger.divide` truncates; here the division is exact). */
  function Reduce(n: int, d: int): (r: (int, int))
    requires d != 0
  {
    var g := Gcd(Abs(n), Abs(d)) * Sign(d);
    GcdPositive(Abs(n), Abs(d));
    (Div(n, g), Div(d, g))
  }

  /** A normalised fraction: positive denominator, no common factor. */
  ghost predicate Normal(n: int, d: int) {
    d > 0 && Gcd(Abs(n), d) == 1
  }

  /** Dividing out the gcd leaves coprime cofactors. */
  lemma GcdCofactors(a: nat, b: nat) returns (ka: nat, kb: nat)
    requires b > 0
    ensures Gcd(a, b) > 0
    ensures Gcd(a, b) * ka == a && Gcd(a, b) * kb == b
    ensures kb > 0 && Gcd(ka, kb) == 1
  {
    GcdPositive(a, b);
    var g := Gcd(a, b);
    GcdDivides(a, b);
    var ka0 :| g * ka0 == a;
    var kb0 :| g * kb0 == b;
    NumberTheory.MulSign(g, ka0);
    NumberTheory.MulSign(g, kb0);
    ka, kb := ka0, kb0;
    GcdScale(g, ka, kb);
    MulCancel(g, Gcd(ka, kb), 1);
  }

  lemma MulCancel(g: int, x: int, y: int)
    requires g > 0 && g * x == g * y
    ensures x == y
  {
    assert g * (x - y) == 0;
  }

  lemma MulSwap(a: int, b: int, c: int)
    ensures a * (b * c) == (b * a) * c
  {
  }

  lemma NegLeft(a: int, b: int)
    ensures (-a) * b == -(a * b)
  {
  }

  lemma NegRight(a: int, b: int)
    ensures a * (-b) == -(a * b)
  {
  }

  lemma NegBoth(a: int, b: int)
    ensures (-a) * (-b) == a * b
  {
  }

  /** Both parts are multiples of the signed gcd. */
  lemma SignedCofactors(n: int, d: int) returns (qn: int, kd: nat)
    requires d != 0
    ensures var g := Gcd(Abs(n), Abs(d)) * Sign(d);
      g != 0 && n == g * qn && d == g * kd && kd > 0 && Gcd(Abs(qn), kd) == 1
  {
    var kn;
    kn, kd := GcdCofactors(Abs(n), Abs(d));
    var g0 := Gcd(Abs(n), Abs(d));
    qn := if (n >= 0) == (d > 0) then kn as int else -(kn as int);
    var g := g0 * Sign(d);
    if d > 0 {
      assert g == g0;
      if n < 0 { NegRight(g0, kn); }
    } else {
      assert g == -g0;
      NegLeft(g0, kd);
      if n < 0 { NegLeft(g0, kn); } else { NegBoth(g0, kn); }
    }
    assert Abs(qn) == kn;
  }

  /** Reducing keeps the value and reaches lowest terms. */
  lemma ReduceSpec(n: int, d: int)
    requires d != 0
    ensures var (n', d') := Reduce(n, d);
      Normal(n', d') && n' * d == n * d'
  {
    var qn, kd := SignedCofactors(n, d);
    var g := Gcd(Abs(n), Abs(d)) * Sign(d);
    ExactDiv(n, g, qn);
    ExactDiv(d, g, kd);
    assert Reduce(n, d) == (qn, kd as int);
    MulSwap(qn, g, kd);
  }

  /** Magnitudes divide exactly when the values do. */
  lemma DivMagnitude(x: int, g: int, q: int)
    requires g != 0 && x == g * q
    ensures Abs(x) / Abs(g) == Abs(q)
  {
    assert Abs(x) == Abs(q) * Abs(g) by {
      if q < 0 && g < 0 { assert x == (-q) * (-g); }
      else if q < 0 { assert -x == (-q) * g; }
      else if g < 0 { assert -x == q * (-g); }
    }
    ModUnique(Abs(x), Abs(g), Abs(q), 0);
  }

  /** Java division is exact on multiples. */
  lemma ExactDiv(x: int, g: int, q: int)
    requires g != 0 && x == g * q
    ensures Div(x, g) == q
  {
    DivMagnitude(x, g, q);
    if q > 0 {
      assert g > 0 ==> x > 0;
      assert g < 0 ==> x < 0;
    } else if q < 0 {
      assert g > 0 ==> x < 0;
      assert g < 0 ==> x > 0;
    }
  }

  /** `new Rational(BigInteger n, BigInteger d)`: a zero denominator is an
      arithmetic error; zero becomes 0/1, equal parts become 1/1, everything
      else is reduced. */
  function FromParts(n: int, d: int): (r: Result<(int, int)>)
    ensures d == 0 <==> r.Err?
    ensures r.Err? ==> r.error == Arithmetic
  {
    if d == 0 then Err(Arithmetic)
    else if n == 0 then Ok((0, 1))
    else if n == d then Ok((1, 1))
    else Ok(Reduce(n, d))
  }

  /** The stored fraction is in lowest terms and has the value `n / d`. */
  lemma FromPartsNormal(n: int, d: int)
    requires d != 0
    ensures var (n', d') := FromParts(n, d).value;
      Normal(n', d') && n' * d == n * d'
  {
    if n == 0 {
      assert Gcd(0, 1) == 1;
    } else if n == d {
      assert Gcd(1, 1) == 1;
    } else {
      ReduceSpec(n, d);
    }
  }

  /** The two shortcuts give what the general reduction would give. */
  lemma FromPartsShortcuts(n: int, d: int)
    requires d != 0
    ensures FromParts(n, d) == Ok(Reduce(n, d))
  {
    var an, ad := Abs(n), Abs(d);
    if n == 0 {
      assert Gcd(0, ad) == ad by {
        assert Gcd(0, ad) == Gcd(ad, 0 % ad);
      }
      ExactDiv(0, ad * Sign(d), 0);
      ExactDiv(d, ad * Sign(d), 1);
    } else if n == d {
      assert Gcd(an, an) == an by {
        assert Gcd(an, an) == Gcd(an, an % an);
      }
      ExactDiv(n, an * Sign(d), 1);
    }
  }

  lemma CrossMagnitudes(n1: int, d1: int, n2: int, d2: int)
    requires d1 > 0 && d2 > 0 && n1 * d2 == n2 * d1
    ensures d2 * Abs(n1) == d1 * Abs(n2)
  {
    if n1 < 0 { assert -(n1 * d2) == Abs(n1) * d2; }
    if n2 < 0 { assert -(n2 * d1) == Abs(n2) * d1; }
  }

  lemma DenominatorsEqual(a1: nat, d1: nat, a2: nat, d2: nat)
    requires d1 > 0 && d2 > 0 && Gcd(a1, d1) == 1 && Gcd(a2, d2) == 1
    requires d2 * a1 == d1 * a2
    ensures d1 == d2
  {
    GcdScale(d2, a1, d1);
    GcdScale(d1, a2, d2);
    assert d2 * d1 == d1 * d2;
  }

  /** Lowest terms are unique: normal fractions of equal value are equal. */
  lemma NormalUnique(n1: int, d1: int, n2: int, d2: int)
    requires Normal(n1, d1) && Normal(n2, d2) && n1 * d2 == n2 * d1
    ensures n1 == n2 && d1 == d2
  {
    CrossMagnitudes(n1, d1, n2, d2);
    DenominatorsEqual(Abs(n1), d1, Abs(n2), d2);
    MulCancel(d1, n1, n2);
  }

  /** `new Rational(BigDecimal)`: the value `unscaled * 10^-scale`, reduced
      without the shortcuts of the two-argument constructor. */
  function FromDecimal(unscaled: int, scale: int): (r: (int, int))
  {
    var (n, d) :=
      if scale == 0 then (unscaled, 1)
      else if scale < 0 then (unscaled * NumberTheory.Pow(10, -scale), 1)
      else (unscaled, NumberTheory.Pow(10, scale));
    NumberTheory.PowPositive(10, if scale > 0 then scale else 0);
    Reduce(n, d)
  }

  /** A decimal becomes the normal fraction of its value. */
  lemma FromDecimalValue(unscaled: int, scale: int)
    ensures var (n', d') := FromDecimal(unscaled, scale);
      Normal(n', d')
      && (scale <= 0 ==> d' == 1 && n' == unscaled * NumberTheory.Pow(10, -scale))
      && (scale > 0 ==> n' * NumberTheory.Pow(10, scale) == unscaled * d')
  {
    if scale <= 0 {
      var n := if scale == 0 then unscaled else unscaled * NumberTheory.Pow(10, -scale);
      assert n == unscaled * NumberTheory.Pow(10, -scale);
      ReduceSpec(n, 1);
    } else {
      NumberTheory.PowPositive(10, scale);
      ReduceSpec(unscaled, NumberTheory.Pow(10, scale));
    }
  }

  /** Constructing from an already stored fraction changes nothing. */
  lemma FromPartsIdempotent(n: int, d: int)
    requires d != 0
    ensures var (n', d') := FromParts(n, d).value;
      FromParts(n', d') == FromParts(n, d)
  {
    var (n', d') := FromParts(n, d).value;
    FromPartsNormal(n, d);
    FromPartsNormal(n', d');
    var (n'', d'') := FromParts(n', d').value;
    NormalUnique(n'', d'', n', d');
  }

  /** Both constructors store the same fraction for the same value. */
  lemma FromDecimalAgrees(unscaled: int, scale: int)
    requires scale > 0
    ensures NumberTheory.Pow(10, scale) > 0
    ensures FromDecimal(unscaled, scale) == FromParts(unscaled, NumberTheory.Pow(10, scale)).value
  {
    var p := NumberTheory.Pow(10, scale);
    NumberTheory.PowPositive(10, scale);
    FromDecimalValue(unscaled, scale);
    FromPartsNormal(unscaled, p);
    var (n1, d1) := FromDecimal(unscaled, scale);
    var (n2, d2) := FromParts(unscaled, p).value;
    assert n1 * p == unscaled * d1 && n2 * p == unscaled * d2;
    assert n1 * d2 == n2 * d1 by {
      CrossValue(n1, d1, n2, d2, unscaled, p);
    }
    NormalUnique(n1, d1, n2, d2);
  }

  /** Two fractions equal to the same third one are equal to each other. */
  lemma CrossValue(n1: int, d1: int, n2: int, d2: int, n: int, d: int)
    requires d > 0 && n1 * d == n * d1 && n2 * d == n * d2
    ensures n1 * d2 == n2 * d1
  {
    assert (n1 * d2) * d == (n1 * d) * d2;
    assert (n2 * d1) * d == (n2 * d) * d1;
    assert (n * d1) * d2 == (n * d2) * d1;
    MulCancel(d, n1 * d2, n2 * d1);
  }
}

=== FILE: render.dfy ===
/** What every renderer shares: the precedence of a node, the automatic
    parenthesis rule of `RenderableExpression.render`, and the spacing rule of
    an implicit concatenation. */
module Render {
  import opened Java
  import opened Strings
  import opened Expr
  import opened Options
  import Utils
  import Precedence

  /** The renderings of the node classes outside this model (plain literals,
      simple operators, rationals, single bracket literals), supplied by the
      caller. */
  datatype Foreign = Foreign(
    precedence: Node -> Int32,
    inline: (Node, Options) -> string,
    art: (Node, Options) -> Block,
    latex: (Node, Options) -> string)

  /** `precedence()` of every node class. */
  function Prec(n: Node, env: Foreign): Int32
    decreases n
  {
    match n
    case NumberLiteral(d) => if |d| > 0 && d[0] == '-' then Precedence.NEGATE else Precedence.MAX
    case Text(_, p) => p
    case SpecialLiteral(_, _, _, _) => Precedence.MAX
    case Grid(rows) =>
      if |rows| == 1 && |rows[0].cells| == 1 then Prec(rows[0].cells[0], env) else Precedence.GRID
    case AugmentedGrid(_, _) => Precedence.MID
    case Fraction(_, _) => Precedence.FRACTION
    case Root(_, _) => Precedence.ROOT
    case Subscript(_, _) => Precedence.SUBSCRIPT
    case Superscript(_, _) => Precedence.SUPERSCRIPT
    case SuperSubscript(_, _, _) => Min(Precedence.SUPERSCRIPT, Precedence.SUBSCRIPT)
    case Brackets(_, _) => Precedence.BRACKETS
    case MatrixBrackets(_) => Precedence.BRACKETS
    case List(d, xs) =>
      if |xs| == 0 then Precedence.MAX
      else if |xs| == 1 then Prec(xs[0], env)
      else Prec(d, env)
    case Concatenation(a, b, maybeSpace) =>
      if maybeSpace then Precedence.IMPLICIT else Min(Prec(a, env), Prec(b, env))
    case Middle(_, _) => Precedence.MID
    case BigSymbol(_, _, _, _) => Precedence.ITERATION
    case Integral(_, _, _) => Precedence.ITERATION
    case Exp(_) => Min(Precedence.FUNCTION_CALL, Precedence.POWER)
    case _ => env.precedence(n)
  }

  /** `options.setOutsidePrecedence(p)`. */
  function At(o: Options, p: Int32): (r: Options)
    ensures r.outsidePrecedence == p && r.(outsidePrecedence := o.outsidePrecedence) == o
  {
    SetOutsidePrecedence(o, p)
  }

  /** Setting the precedence twice keeps only the second. */
  lemma AtTwice(o: Options, p: Int32, q: Int32)
    ensures At(At(o, p), q) == At(o, q)
  {
  }

  /** The test of `render`: the node goes into round brackets when automatic
      parentheses are on and the surrounding operator binds more tightly. */
  predicate WillWrap(n: Node, o: Options, env: Foreign) {
    o.autoParenthesis && o.outsidePrecedence > Prec(n, env)
  }

  /** The nodes whose class overrides `render`: an `Exp` is never wrapped, a
      matrix bracket hands over to a bracket node of the configured kind. */
  predicate OverridesRender(n: Node) {
    n.Exp? || n.MatrixBrackets?
  }

  /** Precedence `MIN` never wraps, and bracket nodes never wrap. */
  lemma NoWrap(n: Node, o: Options, env: Foreign)
    ensures o.outsidePrecedence == Precedence.MIN ==> !WillWrap(n, o, env)
    ensures n.Brackets? || n.MatrixBrackets? || n.SpecialLiteral? ==> !WillWrap(n, o, env)
    ensures !o.autoParenthesis ==> !WillWrap(n, o, env)
  {
  }

  /** A number literal binds like a negation exactly when it starts with a
      minus sign, and otherwise as tightly as possible. */
  lemma NumberPrecedence(d: string, env: Foreign)
    ensures Prec(NumberLiteral(d), env) == (if |d| > 0 && d[0] == '-' then Precedence.NEGATE else Precedence.MAX)
    ensures Prec(NumberLiteral(d), env) < Precedence.MAX <==> |d| > 0 && d[0] == '-'
  {
  }

  /** A one-by-one grid, a one-element list and an explicit (not implicit)
      concatenation are transparent for precedence: they bind like their
      contents. */
  lemma TransparentPrecedence(x: Node, d: Node, y: Node, env: Foreign)
    ensures Prec(Grid([Row([x])]), env) == Prec(x, env)
    ensures Prec(List(d, [x]), env) == Prec(x, env)
    ensures Prec(Concatenation(x, y, false), env) <= Prec(x, env)
    ensures Prec(Concatenation(x, y, false), env) <= Prec(y, env)
    ensures Prec(Concatenation(x, y, true), env) == Precedence.IMPLICIT
  {
  }

  /** The precedence the elements of a list of two or more are rendered at:
      one above the delimiter's, in 32-bit arithmetic. */
  function ListInner(d: Node, env: Foreign): (p: Int32)
    ensures Prec(d, env) < Precedence.MAX ==> p == Prec(d, env) + 1
    ensures Prec(d, env) == Precedence.MAX ==> p == Precedence.MIN
  {
    Succ(Prec(d, env))
  }

  // ---------------------------------------------------------------------------
  // Spacing of an implicit concatenation

  /** The classes after which (or before which) no space is put. */
  predicate NoSpaceClass(n: Node) {
    n.Brackets? || n.BracketLiteral? || n.Fraction? || n.Grid?
  }

  /** `Concatenation.renderSpace`. */
  predicate RenderSpace(a: Node, b: Node, maybeSpace: bool, mode: SpaceMode) {
    if !maybeSpace then false
    else if mode == Force then true
    else if NoSpaceClass(a) || NoSpaceClass(b) then false
    else if !(a.NumberLiteral? && b.NumberLiteral?) then true
    else if a.digits == [] || b.digits == [] then false
    else if Contains(a.digits, '\n') || Contains(b.digits, '\n') then true
    else Utils.IsDigit(a.digits[|a.digits| - 1]) && Utils.IsDigit(b.digits[0])
  }

  /** The space rule in one piece: never for plain concatenation, always when
      forced, otherwise only between operands that are not bracket-like, and
      between two number literals only where two digits would touch or a
      literal spans lines. */
  lemma RenderSpaceCases(a: Node, b: Node, maybeSpace: bool, mode: SpaceMode)
    ensures !maybeSpace ==> !RenderSpace(a, b, maybeSpace, mode)
    ensures maybeSpace && mode == Force ==> RenderSpace(a, b, maybeSpace, mode)
    ensures mode != Force && (NoSpaceClass(a) || NoSpaceClass(b)) ==> !RenderSpace(a, b, maybeSpace, mode)
    ensures (maybeSpace && mode != Force && !NoSpaceClass(a) && !NoSpaceClass(b)
             && !(a.NumberLiteral? && b.NumberLiteral?)) ==> RenderSpace(a, b, maybeSpace, mode)
    ensures (maybeSpace && mode != Force && a.NumberLiteral? && b.NumberLiteral?) ==>
      (RenderSpace(a, b, maybeSpace, mode) <==>
        a.digits != [] && b.digits != []
        && (Contains(a.digits, '\n') || Contains(b.digits, '\n')
            || (Utils.IsDigit(a.digits[|a.digits| - 1]) && Utils.IsDigit(b.digits[0]))))
  {
  }
}

=== FILE: strings.dfy ===
/** The `java.lang.String` operations the renderers rely on: blank padding,
    repetition, `String.lines()` and joining with a line feed. A `char` stands
    for one code point of the Basic Multilingual Plane. */
module Strings {

  /** `n` spaces (`Utils.blank`; the cached table only avoids allocation). */
  function Blank(n: nat): (r: string)
    ensures |r| == n
    ensures forall i :: 0 <= i < n ==> r[i] == ' '
  {
    Repeat(' ', n)
  }

  /** `String.valueOf(c).repeat(n)`. */
  function Repeat(c: char, n: nat): (r: string)
    ensures |r| == n
    ensures forall i :: 0 <= i < n ==> r[i] == c
  {
    seq(n, _ => c)
  }

  predicate IsTerminator(c: char) { c == '\n' || c == '\r' }

  predicate NoTerminator(s: string) {
    forall i :: 0 <= i < |s| ==> !IsTerminator(s[i])
  }

  /** A text is free of line breaks exactly when its parts are. */
  lemma NoTerminatorConcat(s: string, t: string)
    ensures NoTerminator(s + t) <==> NoTerminator(s) && NoTerminator(t)
  {
    assert forall i :: 0 <= i < |s| ==> s[i] == (s + t)[i];
    assert forall i :: 0 <= i < |t| ==> t[i] == (s + t)[|s| + i];
    assert forall i :: 0 <= i < |s + t| ==> (s + t)[i] == if i < |s| then s[i] else t[i - |s|];
  }

  /** Index of the first line terminator, or |s| when there is none. */
  function LineEnd(s: string): (k: nat)
    ensures k <= |s|
    ensures NoTerminator(s[..k])
    ensures k < |s| ==> IsTerminator(s[k])
  {
    if s == [] then 0
    else if IsTerminator(s[0]) then 0
    else
      var k := LineEnd(s[1..]);
      assert s[1..][..k] == s[1..k + 1];
      1 + k
  }

  /** What follows the first terminator; `\r\n` counts as one terminator. */
  function AfterTerminator(s: string, k: nat): (rest: string)
    requires k < |s| && IsTerminator(s[k])
    ensures |rest| < |s|
  {
    if s[k] == '\r' && k + 1 < |s| && s[k + 1] == '\n' then s[k + 2..] else s[k + 1..]
  }

  /** `s.lines()`: the lines split at `\n`, `\r` or `\r\n`; an empty string has
      no lines and a final terminator does not open an empty last line. */
  function Lines(s: string): (ls: seq<string>)
    ensures forall i :: 0 <= i < |ls| ==> NoTerminator(ls[i])
    ensures s == [] <==> ls == []
    decreases |s|
  {
    if s == [] then []
    else
      var k := LineEnd(s);
      if k == |s| then [s] else [s[..k]] + Lines(AfterTerminator(s, k))
  }

  /** `String.join("\n", ls)`. */
  function JoinLines(ls: seq<string>): (s: string)
    ensures ls == [] ==> s == []
  {
    if ls == [] then []
    else if |ls| == 1 then ls[0]
    else ls[0] + "\n" + JoinLines(ls[1..])
  }

  /** Joining terminator-free lines and splitting the result gives the lines
      back, as long as the last one is not empty (an empty last line has no
      trace in the joined string). */
  lemma {:induction false} LinesJoinLines(ls: seq<string>)
    requires forall i :: 0 <= i < |ls| ==> NoTerminator(ls[i])
    requires ls != [] ==> ls[|ls| - 1] != []
    ensures Lines(JoinLines(ls)) == ls
    decreases |ls|
  {
    if ls == [] {
    } else if |ls| == 1 {
      LineEndOfLine(ls[0], "");
      assert ls[0] + "" == ls[0];
    } else {
      var s := JoinLines(ls);
      var rest := JoinLines(ls[1..]);
      assert s == ls[0] + ("\n" + rest);
      LineEndOfLine(ls[0], "\n" + rest);
      assert LineEnd(s) == |ls[0]|;
      assert s[..|ls[0]|] == ls[0];
      assert AfterTerminator(s, |ls[0]|) == rest;
      LinesJoinLines(ls[1..]);
    }
  }

  /** A terminator-free prefix ends where the next terminator (if any) starts. */
  lemma {:induction false} LineEndOfLine(line: string, tail: string)
    requires NoTerminator(line)
    requires tail == [] || IsTerminator(tail[0])
    ensures LineEnd(line + tail) == |line|
    decreases |line|
  {
    if line != [] {
      assert (line + tail)[1..] == line[1..] + tail;
      LineEndOfLine(line[1..], tail);
    }
  }

  /** `s.replace('\n', ' ')`. */
  function ReplaceNewlines(s: string): (r: string)
    ensures |r| == |s|
    ensures forall i :: 0 <= i < |s| ==> r[i] == (if s[i] == '\n' then ' ' else s[i])
  {
    seq(|s|, i requires 0 <= i < |s| => if s[i] == '\n' then ' ' else s[i])
  }

  predicate Contains(s: string, c: char) {
    exists i :: 0 <= i < |s| && s[i] == c
  }

  /** Parts with a separator between each two of them (`String.join`). */
  function Join(parts: seq<string>, sep: string): string
    decreases |parts|
  {
    if parts == [] then []
    else if |parts| == 1 then parts[0]
    else parts[0] + sep + Join(parts[1..], sep)
  }

  /** The loop of a `StringBuilder` that appends the separator before every
      part but the first builds the same text: adding a part at the end adds
      the separator and the part. */
  lemma {:induction false} JoinSnoc(parts: seq<string>, p: string, sep: string)
    requires parts != []
    ensures Join(parts + [p], sep) == Join(parts, sep) + sep + p
    decreases |parts|
  {
    if |parts| > 1 {
      assert (parts + [p])[1..] == parts[1..] + [p];
      JoinSnoc(parts[1..], p, sep);
    }
  }

  /** Line feeds are the separator of `JoinLines`. */
  lemma {:induction false} JoinLinesIsJoin(ls: seq<string>)
    ensures JoinLines(ls) == Join(ls, "\n")
    decreases |ls|
  {
    if |ls| > 1 {
      JoinLinesIsJoin(ls[1..]);
    }
  }

  /** Every part followed by `t`, the loop `for(p : parts) str.append(p).append(t)`. */
  function Terminated(parts: seq<string>, t: string): string
    decreases |parts|
  {
    if parts == [] then [] else parts[0] + t + Terminated(parts[1..], t)
  }

  /** Every part preceded by `t`, the loop `for(p : parts) str.append(t).append(p)`. */
  function Led(t: string, parts: seq<string>): string
    decreases |parts|
  {
    if parts == [] then [] else t + parts[0] + Led(t, parts[1..])
  }

  /** Terminating every part is joining them and terminating the last. */
  lemma {:induction false} TerminatedIsJoin(parts: seq<string>, t: string)
    requires parts != []
    ensures Terminated(parts, t) == Join(parts, t) + t
    decreases |parts|
  {
    if |parts| > 1 {
      TerminatedIsJoin(parts[1..], t);
    }
  }

  /** Leading every part is joining them after one more separator. */
  lemma {:induction false} LedIsJoin(t: string, parts: seq<string>)
    requires parts != []
    ensures Led(t, parts) == t + Join(parts, t)
    decreases |parts|
  {
    if |parts| > 1 {
      LedIsJoin(t, parts[1..]);
    }
  }
}

=== FILE: tables.dfy ===
/** The table layouts of `Grid` and `AugmentedGrid`. Both draw every cell in
    turn onto a canvas that starts empty, at the offset of its column and
    row, centered in its box (rounded right and down), and finally anchor
    the result at its middle row. The drawing loops are a fold of `draw`
    over a sequence of stamps. */
module Tables {
  import opened Java
  import opened Canvas
  import opened Expr
  import Layout
  import opened Options

  /** One `art.draw(e, (x, y))` of the drawing loops. */
  datatype Stamp = Stamp(art: Block, x: int, y: int)

  function Right(p: Stamp): int { p.x + p.art.Width() }

  function Bottom(p: Stamp): int { p.y + p.art.Height() }

  /** No stamp lies left of or above the origin. */
  predicate Inside(ps: seq<Stamp>) {
    forall k :: 0 <= k < |ps| ==> ps[k].x >= 0 && ps[k].y >= 0
  }

  /** The rightmost column any stamp reaches (0 for none). */
  function MaxRight(ps: seq<Stamp>): (m: int)
    ensures m >= 0
  {
    if ps == [] then 0 else Max(Right(ps[0]), MaxRight(ps[1..]))
  }

  /** The lowest row any stamp reaches (0 for none). */
  function MaxBottom(ps: seq<Stamp>): (m: int)
    ensures m >= 0
  {
    if ps == [] then 0 else Max(Bottom(ps[0]), MaxBottom(ps[1..]))
  }

  /** Every stamp lies within the furthest reach. */
  lemma {:induction false} MaxReach(ps: seq<Stamp>, k: nat)
    requires k < |ps|
    ensures Right(ps[k]) <= MaxRight(ps) && Bottom(ps[k]) <= MaxBottom(ps)
    decreases k
  {
    if k > 0 {
      assert ps[1..][k - 1] == ps[k];
      MaxReach(ps[1..], k - 1);
    }
  }

  /** A bound on every stamp bounds the furthest reach. */
  lemma {:induction false} MaxBound(ps: seq<Stamp>, right: int, bottom: int)
    requires right >= 0 && forall k :: 0 <= k < |ps| ==> Right(ps[k]) <= right
    requires bottom >= 0 && forall k :: 0 <= k < |ps| ==> Bottom(ps[k]) <= bottom
    ensures MaxRight(ps) <= right && MaxBottom(ps) <= bottom
    decreases |ps|
  {
    if ps != [] {
      forall k | 0 <= k < |ps[1..]| ensures Right(ps[1..][k]) <= right && Bottom(ps[1..][k]) <= bottom {
        assert ps[1..][k] == ps[k + 1];
      }
      MaxBound(ps[1..], right, bottom);
    }
  }

  /** The drawing loop: each stamp drawn onto the result of the ones before,
      keeping the base block's center. */
  function DrawAll(base: Block, ps: seq<Stamp>): Block
    decreases |ps|
  {
    if ps == [] then base
    else DrawAll(Draw(base, ps[0].art, ps[0].x, ps[0].y, true), ps[1..])
  }

  /** Stamps at non-negative offsets never move the origin: the picture is
      as tall as the lowest stamp reaches, keeps its anchor, and is as wide
      as the rightmost stamp reaches once the base has a row. An empty base
      can lose the width of stamps drawn while it is still empty. */
  lemma {:induction false} DrawAllSize(base: Block, ps: seq<Stamp>)
    requires Inside(ps)
    ensures var r := DrawAll(base, ps);
      && r.Height() == Max(base.Height(), MaxBottom(ps))
      && r.center == base.center
      && r.Width() <= Max(base.Width(), MaxRight(ps))
      && (base.Height() > 0 ==> r.Width() == Max(base.Width(), MaxRight(ps)))
    decreases |ps|
  {
    if ps != [] {
      var p := ps[0];
      var d := Draw(base, p.art, p.x, p.y, true);
      DrawFirst(base, ps);
      DrawAllSize(d, ps[1..]);
    }
  }

  /** The first step of the drawing loop: the base grows to cover the first
      stamp and keeps its anchor; the other stamps are still inside. */
  lemma DrawFirst(base: Block, ps: seq<Stamp>)
    requires Inside(ps) && ps != []
    ensures var p := ps[0];
      var d := Draw(base, p.art, p.x, p.y, true);
      && d.Height() == Max(base.Height(), Bottom(p))
      && d.center == base.center
      && d.Width() <= Max(base.Width(), Right(p))
      && (d.Height() > 0 ==> d.Width() == Max(base.Width(), Right(p)))
      && Inside(ps[1..])
      && DrawAll(base, ps) == DrawAll(d, ps[1..])
  {
    var p := ps[0];
    var q := Place(base, p.art, p.x, p.y);
    assert q.sx == 0 && q.sy == 0;
    assert Inside(ps[1..]) by {
      forall k | 0 <= k < |ps[1..]| ensures ps[1..][k].x >= 0 && ps[1..][k].y >= 0 {
        assert ps[1..][k] == ps[k + 1];
      }
    }
  }

  /** Once a stamp with a row is drawn and no stamp before it reaches
      further right, no width is lost: the picture is exactly as wide as
      the rightmost stamp reaches. */
  lemma {:induction false} DrawAllWidth(base: Block, ps: seq<Stamp>, k: nat)
    requires Inside(ps) && k < |ps| && ps[k].art.Height() > 0
    requires forall l :: 0 <= l < k ==> Right(ps[l]) <= Right(ps[k])
    ensures DrawAll(base, ps).Width() == Max(base.Width(), MaxRight(ps))
    decreases k
  {
    var p := ps[0];
    var d := Draw(base, p.art, p.x, p.y, true);
    DrawFirst(base, ps);
    if k == 0 {
      DrawAllSize(d, ps[1..]);
    } else {
      assert ps[1..][k - 1] == ps[k];
      forall l | 0 <= l < k - 1 ensures Right(ps[1..][l]) <= Right(ps[1..][k - 1]) {
        assert ps[1..][l] == ps[l + 1];
      }
      DrawAllWidth(d, ps[1..], k - 1);
      MaxReach(ps[1..], k - 1);
    }
  }

  /** The stamps of `a` and then `b` reach as far as the further of both. */
  lemma {:induction false} MaxAppend(a: seq<Stamp>, b: seq<Stamp>)
    ensures MaxRight(a + b) == Max(MaxRight(a), MaxRight(b))
    ensures MaxBottom(a + b) == Max(MaxBottom(a), MaxBottom(b))
  {
    var right, bottom := Max(MaxRight(a), MaxRight(b)), Max(MaxBottom(a), MaxBottom(b));
    forall k | 0 <= k < |a + b| ensures Right((a + b)[k]) <= right && Bottom((a + b)[k]) <= bottom {
      if k < |a| {
        assert (a + b)[k] == a[k];
        MaxReach(a, k);
      } else {
        assert (a + b)[k] == b[k - |a|];
        MaxReach(b, k - |a|);
      }
    }
    MaxBound(a + b, right, bottom);
    forall k | 0 <= k < |a| ensures Right(a[k]) <= MaxRight(a + b) && Bottom(a[k]) <= MaxBottom(a + b) {
      assert (a + b)[k] == a[k];
      MaxReach(a + b, k);
    }
    forall k | 0 <= k < |b| ensures Right(b[k]) <= MaxRight(a + b) && Bottom(b[k]) <= MaxBottom(a + b) {
      assert (a + b)[|a| + k] == b[k];
      MaxReach(a + b, |a| + k);
    }
    MaxBound(a, MaxRight(a + b), MaxBottom(a + b));
    MaxBound(b, MaxRight(a + b), MaxBottom(a + b));
  }

  /** Stamps inside one after the other are inside. */
  lemma InsideAppend(a: seq<Stamp>, b: seq<Stamp>)
    requires Inside(a) && Inside(b)
    ensures Inside(a + b)
  {
    forall k | 0 <= k < |a + b| ensures (a + b)[k].x >= 0 && (a + b)[k].y >= 0 {
      if k < |a| { assert (a + b)[k] == a[k]; } else { assert (a + b)[k] == b[k - |a|]; }
    }
  }

  // ---------------------------------------------------------------------------
  // Rows of stamps: the outer drawing loop

  /** The furthest right any row reaches. */
  function RowsRight(rows: seq<seq<Stamp>>): (m: int)
    ensures m >= 0
  {
    if rows == [] then 0 else Max(MaxRight(rows[0]), RowsRight(rows[1..]))
  }

  /** The lowest any row reaches. */
  function RowsBottom(rows: seq<seq<Stamp>>): (m: int)
    ensures m >= 0
  {
    if rows == [] then 0 else Max(MaxBottom(rows[0]), RowsBottom(rows[1..]))
  }

  lemma {:induction false} RowsReach(rows: seq<seq<Stamp>>, i: nat)
    requires i < |rows|
    ensures MaxRight(rows[i]) <= RowsRight(rows) && MaxBottom(rows[i]) <= RowsBottom(rows)
    decreases i
  {
    if i > 0 {
      assert rows[1..][i - 1] == rows[i];
      RowsReach(rows[1..], i - 1);
    }
  }

  lemma {:induction false} RowsBound(rows: seq<seq<Stamp>>, right: int, bottom: int)
    requires right >= 0 && forall i :: 0 <= i < |rows| ==> MaxRight(rows[i]) <= right
    requires bottom >= 0 && forall i :: 0 <= i < |rows| ==> MaxBottom(rows[i]) <= bottom
    ensures RowsRight(rows) <= right && RowsBottom(rows) <= bottom
    decreases |rows|
  {
    if rows != [] {
      forall i | 0 <= i < |rows[1..]| ensures MaxRight(rows[1..][i]) <= right && MaxBottom(rows[1..][i]) <= bottom {
        assert rows[1..][i] == rows[i + 1];
      }
      RowsBound(rows[1..], right, bottom);
    }
  }

  predicate RowsInside(rows: seq<seq<Stamp>>) {
    forall i :: 0 <= i < |rows| ==> Inside(rows[i])
  }

  /** The nested drawing loops: the stamps of each row in turn. */
  function DrawRows(base: Block, rows: seq<seq<Stamp>>): Block
    decreases |rows|
  {
    if rows == [] then base else DrawRows(DrawAll(base, rows[0]), rows[1..])
  }

  /** `DrawAllSize`, row by row. */
  lemma {:induction false} DrawRowsSize(base: Block, rows: seq<seq<Stamp>>)
    requires RowsInside(rows)
    ensures var r := DrawRows(base, rows);
      && r.Height() == Max(base.Height(), RowsBottom(rows))
      && r.center == base.center
      && r.Width() <= Max(base.Width(), RowsRight(rows))
      && (base.Height() > 0 ==> r.Width() == Max(base.Width(), RowsRight(rows)))
    decreases |rows|
  {
    if rows != [] {
      DrawAllSize(base, rows[0]);
      assert RowsInside(rows[1..]) by {
        forall i | 0 <= i < |rows[1..]| ensures Inside(rows[1..][i]) {
          assert rows[1..][i] == rows[i + 1];
        }
      }
      DrawRowsSize(DrawAll(base, rows[0]), rows[1..]);
    }
  }

  /** `DrawAllWidth`, row by row: a stamp with a row in the first row of
      stamps, with no stamp before it reaching further right, keeps every
      width. */
  lemma DrawRowsWidth(base: Block, rows: seq<seq<Stamp>>, k: nat)
    requires RowsInside(rows) && |rows| > 0 && k < |rows[0]| && rows[0][k].art.Height() > 0
    requires forall l :: 0 <= l < k ==> Right(rows[0][l]) <= Right(rows[0][k])
    ensures DrawRows(base, rows).Width() == Max(base.Width(), RowsRight(rows))
  {
    var d := DrawAll(base, rows[0]);
    DrawAllWidth(base, rows[0], k);
    DrawAllSize(base, rows[0]);
    MaxReach(rows[0], k);
    assert RowsInside(rows[1..]) by {
      forall i | 0 <= i < |rows[1..]| ensures Inside(rows[1..][i]) {
        assert rows[1..][i] == rows[i + 1];
      }
    }
    DrawRowsSize(d, rows[1..]);
  }

  // ---------------------------------------------------------------------------
  // Column widths, row heights and offsets

  /** `widths[j]`: the widest cell of column `j`. */
  function ColumnWidth(cells: seq<seq<Block>>, j: nat): (w: nat)
    ensures forall i :: 0 <= i < |cells| && j < |cells[i]| ==> cells[i][j].Width() <= w
    decreases |cells|
  {
    if cells == [] then 0
    else Max(if j < |cells[0]| then cells[0][j].Width() else 0, ColumnWidth(cells[1..], j))
  }

  /** Some cell of the column is as wide as the column, unless it is empty. */
  lemma {:induction false} ColumnWidthAttained(cells: seq<seq<Block>>, j: nat) returns (i: nat)
    requires ColumnWidth(cells, j) > 0
    ensures i < |cells| && j < |cells[i]| && cells[i][j].Width() == ColumnWidth(cells, j)
    decreases |cells|
  {
    if j < |cells[0]| && cells[0][j].Width() == ColumnWidth(cells, j) {
      i := 0;
    } else {
      var i' := ColumnWidthAttained(cells[1..], j);
      i := i' + 1;
    }
  }

  /** `heights[i]`: the tallest cell of a row. */
  function RowHeight(row: seq<Block>): (h: nat)
    ensures forall j :: 0 <= j < |row| ==> row[j].Height() <= h
    decreases |row|
  {
    if row == [] then 0 else Max(row[0].Height(), RowHeight(row[1..]))
  }

  lemma {:induction false} RowHeightAttained(row: seq<Block>) returns (j: nat)
    requires RowHeight(row) > 0
    ensures j < |row| && row[j].Height() == RowHeight(row)
    decreases |row|
  {
    if row[0].Height() == RowHeight(row) {
      j := 0;
    } else {
      var j' := RowHeightAttained(row[1..]);
      j := j' + 1;
    }
  }

  function Widths(cells: seq<seq<Block>>, n: nat): (ws: seq<nat>)
    ensures |ws| == n && forall j :: 0 <= j < n ==> ws[j] == ColumnWidth(cells, j)
  {
    seq(n, j requires 0 <= j < n => ColumnWidth(cells, j))
  }

  function Heights(cells: seq<seq<Block>>): (hs: seq<nat>)
    ensures |hs| == |cells| && forall i :: 0 <= i < |cells| ==> hs[i] == RowHeight(cells[i])
  {
    seq(|cells|, i requires 0 <= i < |cells| => RowHeight(cells[i]))
  }

  function Sum(s: seq<nat>): nat
    decreases |s|
  {
    if s == [] then 0 else Sum(s[..|s| - 1]) + s[|s| - 1]
  }

  /** A longer prefix sums to at least as much. */
  lemma {:induction false} SumPrefix(s: seq<nat>, i: nat, j: nat)
    requires i <= j <= |s|
    ensures Sum(s[..i]) <= Sum(s[..j])
    decreases j
  {
    if i < j {
      assert s[..j][..j - 1] == s[..j - 1];
      SumPrefix(s, i, j - 1);
    }
  }

  /** The `xOff` of column `j`: the widths of the columns before it, each
      followed by the gap, added up column by column. */
  function Offset(ws: seq<nat>, gap: nat, j: nat): nat
    requires j <= |ws|
  {
    if j == 0 then 0 else Offset(ws, gap, j - 1) + ws[j - 1] + gap
  }

  /** Column `j` starts after the widths before it and `j` gaps. */
  lemma {:induction false} OffsetSum(ws: seq<nat>, gap: nat, j: nat)
    requires j <= |ws|
    ensures Offset(ws, gap, j) == Sum(ws[..j]) + gap * j
  {
    if j > 0 {
      assert ws[..j][..j - 1] == ws[..j - 1];
      OffsetSum(ws, gap, j - 1);
    }
  }

  /** The right end of the box of the last column. */
  function TableWidth(ws: seq<nat>, gap: nat): nat
    requires |ws| > 0
  {
    Offset(ws, gap, |ws| - 1) + ws[|ws| - 1]
  }

  /** The last box ends after all widths and one gap between neighbours. */
  lemma TableWidthSum(ws: seq<nat>, gap: nat)
    requires |ws| > 0
    ensures TableWidth(ws, gap) == Sum(ws) + gap * (|ws| - 1)
  {
    var n := |ws|;
    OffsetSum(ws, gap, n - 1);
    assert ws[..n] == ws;
    assert ws[..n][..n - 1] == ws[..n - 1];
  }

  /** Column `j`'s box ends no further right than the last column's. */
  lemma {:induction false} OffsetMonotone(ws: seq<nat>, gap: nat, j: nat)
    requires j < |ws|
    ensures Offset(ws, gap, j) + ws[j] <= TableWidth(ws, gap)
    decreases |ws| - j
  {
    if j < |ws| - 1 {
      OffsetMonotone(ws, gap, j + 1);
    }
  }

  // ---------------------------------------------------------------------------
  // Stamps of one row

  /** A cell centered in the box of width `w` and height `h` whose top left
      corner is `(x, y)`, any odd spare column or row going to the left and
      top: a cell that fits stays inside the box, and a cell as tall (wide)
      as the box fills it from top to bottom (left to right). */
  function CellStamp(cell: Block, x: int, y: int, w: nat, h: nat): (p: Stamp)
    ensures p.art == cell
    ensures cell.Width() <= w ==> x <= p.x && Right(p) <= x + w
    ensures cell.Height() <= h ==> y <= p.y && Bottom(p) <= y + h
    ensures cell.Width() == w ==> p.x == x
    ensures cell.Height() == h ==> p.y == y
  {
    var dx := Half(w - cell.Width() + 1);
    var dy := Half(h - cell.Height() + 1);
    CenterOffset(w, cell.Width());
    CenterOffset(h, cell.Height());
    Stamp(cell, x + dx, y + dy)
  }

  /** The offset that centers `c` in `w`, when it fits. */
  lemma CenterOffset(w: nat, c: nat)
    ensures c <= w ==> 0 <= Half(w - c + 1) && Half(w - c + 1) + c <= w
    ensures c == w ==> Half(w - c + 1) == 0
  {
    if c <= w {
      Layout.CenteredFits(w, c);
    }
  }

  /** The cells of one row, cell `j` centered in column `j`'s box (`x0` is
      where the first column starts) and in the row's box of height `h`. */
  function RowStamps(row: seq<Block>, ws: seq<nat>, gap: nat, x0: int, h: nat, y: int): (ps: seq<Stamp>)
    requires |row| <= |ws|
    ensures |ps| == |row|
    ensures forall j :: 0 <= j < |row| ==> ps[j] == RowCell(row, ws, gap, x0, h, y, j)
  {
    seq(|row|, j requires 0 <= j < |row| => RowCell(row, ws, gap, x0, h, y, j))
  }

  function RowCell(row: seq<Block>, ws: seq<nat>, gap: nat, x0: int, h: nat, y: int, j: nat): Stamp
    requires j < |row| <= |ws|
  {
    CellStamp(row[j], x0 + Offset(ws, gap, j), y, ws[j], h)
  }

  /** A row whose cells fit their boxes and the row's height lies inside
      the row's box and no further right than its last column's box. */
  lemma RowStampsBox(row: seq<Block>, ws: seq<nat>, gap: nat, x0: int, h: nat, y: int)
    requires 0 < |row| == |ws| && x0 >= 0 && y >= 0
    requires forall j :: 0 <= j < |row| ==> row[j].Width() <= ws[j] && row[j].Height() <= h
    ensures var ps := RowStamps(row, ws, gap, x0, h, y);
      && Inside(ps)
      && MaxBottom(ps) <= y + h
      && MaxRight(ps) <= x0 + TableWidth(ws, gap)
  {
    var ps := RowStamps(row, ws, gap, x0, h, y);
    forall j | 0 <= j < |ps|
      ensures ps[j].x >= 0 && ps[j].y >= 0 && Bottom(ps[j]) <= y + h && Right(ps[j]) <= x0 + TableWidth(ws, gap)
    {
      assert ps[j] == RowCell(row, ws, gap, x0, h, y, j);
      OffsetMonotone(ws, gap, j);
    }
    MaxBound(ps, x0 + TableWidth(ws, gap), y + h);
  }

  /** A cell as tall as the row's box reaches its bottom. */
  lemma RowStampsDeep(row: seq<Block>, ws: seq<nat>, gap: nat, x0: int, h: nat, y: int, j: nat)
    requires j < |row| <= |ws| && row[j].Height() == h
    ensures MaxBottom(RowStamps(row, ws, gap, x0, h, y)) >= y + h
  {
    MaxReach(RowStamps(row, ws, gap, x0, h, y), j);
  }

  /** A last cell as wide as the last column reaches the right end of the
      row. */
  lemma RowStampsReach(row: seq<Block>, ws: seq<nat>, gap: nat, x0: int, h: nat, y: int)
    requires 0 < |row| == |ws| && row[|ws| - 1].Width() == ws[|ws| - 1]
    ensures MaxRight(RowStamps(row, ws, gap, x0, h, y)) >= x0 + TableWidth(ws, gap)
  {
    MaxReach(RowStamps(row, ws, gap, x0, h, y), |ws| - 1);
  }

  // ---------------------------------------------------------------------------
  // Grid

  /** The cells of a `Grid`: at least one row, all rows equally long and
      not empty. */
  predicate Rectangle(cells: seq<seq<Block>>) {
    |cells| > 0 && |cells[0]| > 0 && forall i :: 0 <= i < |cells| ==> |cells[i]| == |cells[0]|
  }

  /** Row `i` starts below the rows before it. */
  function RowTop(hs: seq<nat>, i: nat): nat
    requires i <= |hs|
  {
    Sum(hs[..i])
  }

  /** The next row starts where this one ends. */
  lemma RowTopNext(hs: seq<nat>, i: nat)
    requires i < |hs|
    ensures RowTop(hs, i + 1) == RowTop(hs, i) + hs[i]
  {
    assert hs[..i + 1][..i] == hs[..i];
  }

  /** The stamps of the grid's rows, row `i` in a box as tall as its tallest
      cell starting below the rows before it. */
  function GridRows(cells: seq<seq<Block>>, ws: seq<nat>, hs: seq<nat>, gap: nat): (rows: seq<seq<Stamp>>)
    requires |hs| == |cells| && forall i :: 0 <= i < |cells| ==> |cells[i]| <= |ws|
    ensures |rows| == |cells|
    ensures forall i :: 0 <= i < |cells| ==> rows[i] == RowStamps(cells[i], ws, gap, 0, hs[i], RowTop(hs, i))
  {
    seq(|cells|, i requires 0 <= i < |cells| => RowStamps(cells[i], ws, gap, 0, hs[i], RowTop(hs, i)))
  }

  /** `Grid.renderAsciiArt` on the rendered cells: every cell drawn into
      its box (gap of two columns), anchored at the middle row. */
  function GridArt(cells: seq<seq<Block>>): Block
    requires Rectangle(cells)
  {
    var ws, hs := Widths(cells, |cells[0]|), Heights(cells);
    RecalculateCenter(DrawRows(Art([], 0), GridRows(cells, ws, hs, 2)))
  }

  /** All stamps of a grid lie inside, no row of stamps reaches below the
      last row or right of the last column, and the last row reaches its
      bottom. */
  lemma GridBox(cells: seq<seq<Block>>, gap: nat)
    requires Rectangle(cells)
    ensures var ws, hs := Widths(cells, |cells[0]|), Heights(cells);
      var rows := GridRows(cells, ws, hs, gap);
      && RowsInside(rows)
      && RowsBottom(rows) == Sum(hs)
      && RowsRight(rows) <= TableWidth(ws, gap)
  {
    var m, n := |cells|, |cells[0]|;
    var ws, hs := Widths(cells, n), Heights(cells);
    var rows := GridRows(cells, ws, hs, gap);
    forall i | 0 <= i < m
      ensures Inside(rows[i]) && MaxBottom(rows[i]) <= Sum(hs) && MaxRight(rows[i]) <= TableWidth(ws, gap)
    {
      GridRowBox(cells, ws, hs, gap, i);
    }
    RowsBound(rows, TableWidth(ws, gap), Sum(hs));
    GridLastRow(cells, ws, hs, gap);
    RowsReach(rows, m - 1);
  }

  /** One row of the grid stays inside the table's box. */
  lemma GridRowBox(cells: seq<seq<Block>>, ws: seq<nat>, hs: seq<nat>, gap: nat, i: nat)
    requires Rectangle(cells) && ws == Widths(cells, |cells[0]|) && hs == Heights(cells) && i < |cells|
    ensures var ps := RowStamps(cells[i], ws, gap, 0, hs[i], RowTop(hs, i));
      && Inside(ps) && MaxBottom(ps) <= Sum(hs) && MaxRight(ps) <= TableWidth(ws, gap)
  {
    var m := |cells|;
    RowStampsBox(cells[i], ws, gap, 0, hs[i], RowTop(hs, i));
    RowTopNext(hs, i);
    SumPrefix(hs, i + 1, m);
    assert hs[..m] == hs;
  }

  /** The last row of the grid reaches the table's bottom. */
  lemma GridLastRow(cells: seq<seq<Block>>, ws: seq<nat>, hs: seq<nat>, gap: nat)
    requires Rectangle(cells) && ws == Widths(cells, |cells[0]|) && hs == Heights(cells)
    ensures var m := |cells|;
      MaxBottom(RowStamps(cells[m - 1], ws, gap, 0, hs[m - 1], RowTop(hs, m - 1))) >= Sum(hs)
  {
    var m := |cells|;
    var top := 0;
    if hs[m - 1] > 0 {
      top := RowHeightAttained(cells[m - 1]);
    }
    RowStampsDeep(cells[m - 1], ws, gap, 0, hs[m - 1], RowTop(hs, m - 1), top);
    RowTopNext(hs, m - 1);
    assert hs[..m] == hs;
  }

  /** Some row's last cell fills the last column, so the rows reach the
      right end of the table. */
  lemma GridReach(cells: seq<seq<Block>>, gap: nat)
    requires Rectangle(cells)
    ensures var ws, hs := Widths(cells, |cells[0]|), Heights(cells);
      RowsRight(GridRows(cells, ws, hs, gap)) >= TableWidth(ws, gap)
  {
    var n := |cells[0]|;
    var ws, hs := Widths(cells, n), Heights(cells);
    var t := 0;
    if ws[n - 1] > 0 {
      t := ColumnWidthAttained(cells, n - 1);
    }
    RowStampsReach(cells[t], ws, gap, 0, hs[t], RowTop(hs, t));
    RowsReach(GridRows(cells, ws, hs, gap), t);
  }

  /** The grid picture is as tall as its rows together, anchored at the
      middle row, and no wider than its columns with a two-column gap
      between neighbours; it is exactly that wide when the top-left cell
      has a row (otherwise cells drawn while the canvas is still empty can
      leave no trace of their width). */
  lemma GridLayout(cells: seq<seq<Block>>)
    requires Rectangle(cells)
    ensures var ws, hs, r := Widths(cells, |cells[0]|), Heights(cells), GridArt(cells);
      && r.Height() == Sum(hs)
      && r.center == r.Height() / 2
      && r.Width() <= Sum(ws) + 2 * (|ws| - 1)
      && (cells[0][0].Height() > 0 ==> r.Width() == Sum(ws) + 2 * (|ws| - 1))
  {
    var n := |cells[0]|;
    var ws, hs := Widths(cells, n), Heights(cells);
    var rows := GridRows(cells, ws, hs, 2);
    GridBox(cells, 2);
    DrawRowsSize(Art([], 0), rows);
    TableWidthSum(ws, 2);
    if cells[0][0].Height() > 0 {
      DrawRowsWidth(Art([], 0), rows, 0);
      GridReach(cells, 2);
    }
  }

  // ---------------------------------------------------------------------------
  // Augmented grid

  /** The gap between columns: one when compact, two when forced, and
      otherwise one unless the grids have a single row. */
  function AugmentedGap(mode: SpaceMode, rows: nat): (gap: nat)
    ensures gap == 1 || gap == 2
    ensures mode == Compact ==> gap == 1
    ensures mode == Force ==> gap == 2
    ensures mode == Auto ==> (gap == 2 <==> rows == 1)
  {
    if mode == Compact then 1 else if mode == Force then 2 else if rows != 1 then 1 else 2
  }

  /** The space on each side of the bar: none when compact. */
  function BarSpace(mode: SpaceMode): (s: nat)
    ensures s <= 1 && (s == 0 <==> mode == Compact)
  {
    if mode == Compact then 0 else 1
  }

  /** The bar of one row: the vertical line character, but a plain `|` in
      the last row. */
  function BarArt(vert: char, last: bool): (b: Block)
    ensures b.Width() == 1 && b.Height() == 1 && b.center == 0
    ensures b.lines[0][0] == (if last then '|' else vert)
  {
    if last then Art(["|"], 0) else Art([[vert]], 0)
  }

  /** Row `i` of the left grid followed by row `i` of the right grid. */
  function Joined(l: seq<seq<Block>>, r: seq<seq<Block>>): (cells: seq<seq<Block>>)
    requires |l| == |r|
    ensures |cells| == |l| && forall i :: 0 <= i < |l| ==> cells[i] == l[i] + r[i]
  {
    seq(|l|, i requires 0 <= i < |l| => l[i] + r[i])
  }

  /** Where the bar is drawn: `barSpace` after the box of the last left
      column (the column loop leaves `xOff` one gap further, which the code
      takes back). */
  function BarColumn(wa: seq<nat>, gap: nat, barSpace: nat): nat
    requires |wa| > 0
  {
    TableWidth(wa, gap) + barSpace
  }

  /** Where the right grid's first column starts: after the bar and
      `barSpace` more. */
  function RightStart(wa: seq<nat>, gap: nat, barSpace: nat): nat
    requires |wa| > 0
  {
    BarColumn(wa, gap, barSpace) + 1 + barSpace
  }

  /** One row of an augmented grid: the left cells, the bar at the row's
      top, then the right cells. */
  function AugmentedRow(l: seq<Block>, r: seq<Block>, wa: seq<nat>, wb: seq<nat>, gap: nat, barSpace: nat,
                        h: nat, y: int, bar: Block): seq<Stamp>
    requires 0 < |l| <= |wa| && |r| <= |wb|
  {
    RowStamps(l, wa, gap, 0, h, y)
      + [Stamp(bar, BarColumn(wa, gap, barSpace), y)]
      + RowStamps(r, wb, gap, RightStart(wa, gap, barSpace), h, y)
  }

  /** Cells of the two grids that fit their boxes: every stamp of the row
      lies inside the row's box, at least one row tall because of the bar,
      and no further right than the right grid's last column. */
  lemma AugmentedRowBox(l: seq<Block>, r: seq<Block>, wa: seq<nat>, wb: seq<nat>, gap: nat, barSpace: nat,
                        h: nat, y: int, bar: Block)
    requires 0 < |l| == |wa| && 0 < |r| == |wb| && y >= 0 && bar.Width() == 1 && bar.Height() == 1
    requires forall j :: 0 <= j < |l| ==> l[j].Width() <= wa[j] && l[j].Height() <= h
    requires forall j :: 0 <= j < |r| ==> r[j].Width() <= wb[j] && r[j].Height() <= h
    ensures var ps := AugmentedRow(l, r, wa, wb, gap, barSpace, h, y, bar);
      && Inside(ps)
      && y + 1 <= MaxBottom(ps) <= y + Max(h, 1)
      && MaxRight(ps) <= RightStart(wa, gap, barSpace) + TableWidth(wb, gap)
  {
    var a := RowStamps(l, wa, gap, 0, h, y);
    var m := [Stamp(bar, BarColumn(wa, gap, barSpace), y)];
    var b := RowStamps(r, wb, gap, RightStart(wa, gap, barSpace), h, y);
    RowStampsBox(l, wa, gap, 0, h, y);
    RowStampsBox(r, wb, gap, RightStart(wa, gap, barSpace), h, y);
    assert MaxRight(m) == BarColumn(wa, gap, barSpace) + 1 && MaxBottom(m) == y + 1;
    MaxAppend(a, m);
    MaxAppend(a + m, b);
    InsideAppend(a, m);
    InsideAppend(a + m, b);
  }

  /** A cell as tall as the row reaches the row's bottom. */
  lemma AugmentedRowDeep(l: seq<Block>, r: seq<Block>, wa: seq<nat>, wb: seq<nat>, gap: nat, barSpace: nat,
                         h: nat, y: int, bar: Block, j: nat)
    requires 0 < |l| == |wa| && |r| == |wb| && j < |l + r| && (l + r)[j].Height() == h
    ensures MaxBottom(AugmentedRow(l, r, wa, wb, gap, barSpace, h, y, bar)) >= y + h
  {
    var a := RowStamps(l, wa, gap, 0, h, y);
    var m := [Stamp(bar, BarColumn(wa, gap, barSpace), y)];
    var b := RowStamps(r, wb, gap, RightStart(wa, gap, barSpace), h, y);
    MaxAppend(a, m);
    MaxAppend(a + m, b);
    if j < |l| {
      assert (l + r)[j] == l[j];
      RowStampsDeep(l, wa, gap, 0, h, y, j);
    } else {
      assert (l + r)[j] == r[j - |l|];
      RowStampsDeep(r, wb, gap, RightStart(wa, gap, barSpace), h, y, j - |l|);
    }
  }

  /** A last right cell as wide as its column reaches the right end. */
  lemma AugmentedRowReach(l: seq<Block>, r: seq<Block>, wa: seq<nat>, wb: seq<nat>, gap: nat, barSpace: nat,
                          h: nat, y: int, bar: Block)
    requires 0 < |l| == |wa| && 0 < |r| == |wb| && r[|wb| - 1].Width() == wb[|wb| - 1]
    ensures MaxRight(AugmentedRow(l, r, wa, wb, gap, barSpace, h, y, bar)) >= RightStart(wa, gap, barSpace) + TableWidth(wb, gap)
  {
    var a := RowStamps(l, wa, gap, 0, h, y);
    var m := [Stamp(bar, BarColumn(wa, gap, barSpace), y)];
    var b := RowStamps(r, wb, gap, RightStart(wa, gap, barSpace), h, y);
    MaxAppend(a + m, b);
    RowStampsReach(r, wb, gap, RightStart(wa, gap, barSpace), h, y);
  }

  /** The bar is stamp `|l|` of its row, and no left cell before it reaches
      further right. */
  lemma AugmentedRowBar(l: seq<Block>, r: seq<Block>, wa: seq<nat>, wb: seq<nat>, gap: nat, barSpace: nat,
                        h: nat, y: int, bar: Block)
    requires 0 < |l| == |wa| && |r| <= |wb| && y >= 0
    requires forall j :: 0 <= j < |l| ==> l[j].Width() <= wa[j] && l[j].Height() <= h
    ensures var ps := AugmentedRow(l, r, wa, wb, gap, barSpace, h, y, bar);
      && |l| < |ps| && ps[|l|] == Stamp(bar, BarColumn(wa, gap, barSpace), y)
      && forall k :: 0 <= k < |l| ==> Right(ps[k]) <= BarColumn(wa, gap, barSpace)
  {
    var a := RowStamps(l, wa, gap, 0, h, y);
    var m := [Stamp(bar, BarColumn(wa, gap, barSpace), y)];
    var b := RowStamps(r, wb, gap, RightStart(wa, gap, barSpace), h, y);
    assert (a + m + b)[|l|] == m[0];
    RowStampsBox(l, wa, gap, 0, h, y);
    forall k | 0 <= k < |l| ensures Right((a + m + b)[k]) <= BarColumn(wa, gap, barSpace) {
      assert (a + m + b)[k] == a[k];
      MaxReach(a, k);
    }
  }

  /** Two grids side by side with the column widths `wa` and `wb` and the
      row heights `hs`. */
  predicate AugmentedShape(l: seq<seq<Block>>, r: seq<seq<Block>>, wa: seq<nat>, wb: seq<nat>, hs: seq<nat>) {
    && |l| == |r| == |hs| > 0 && |wa| > 0 && |wb| > 0
    && forall i :: 0 <= i < |l| ==> |l[i]| == |wa| && |r[i]| == |wb|
  }

  /** Every cell of a row fits its column and the row's height. */
  predicate CellsFit(row: seq<Block>, ws: seq<nat>, h: nat) {
    |row| == |ws| && forall j :: 0 <= j < |row| ==> row[j].Width() <= ws[j] && row[j].Height() <= h
  }

  /** The stamps of all rows of an augmented grid. */
  function AugmentedRows(l: seq<seq<Block>>, r: seq<seq<Block>>, wa: seq<nat>, wb: seq<nat>, hs: seq<nat>,
                         gap: nat, barSpace: nat, vert: char): (rows: seq<seq<Stamp>>)
    requires AugmentedShape(l, r, wa, wb, hs)
    ensures |rows| == |l|
    ensures forall i :: 0 <= i < |l| ==> rows[i] == AugmentedRow(l[i], r[i], wa, wb, gap, barSpace,
                                                                   hs[i], RowTop(hs, i), BarArt(vert, i == |l| - 1))
  {
    seq(|l|, i requires 0 <= i < |l| =>
      AugmentedRow(l[i], r[i], wa, wb, gap, barSpace, hs[i], RowTop(hs, i), BarArt(vert, i == |l| - 1)))
  }

  /** Row bottoms never pass the bottom of the last row, at least one row
      tall. */
  lemma RowTopBelow(hs: seq<nat>, i: nat)
    requires i < |hs|
    ensures RowTop(hs, i) + Max(hs[i], 1) <= RowTop(hs, |hs| - 1) + Max(hs[|hs| - 1], 1)
  {
    if i < |hs| - 1 {
      RowTopNext(hs, i);
      SumPrefix(hs, i + 1, |hs| - 1);
    }
  }

  /** All stamps of an augmented grid lie inside, and the rows reach down
      to the bottom of the last row, which is at least one row tall because
      of its bar. */
  lemma AugmentedBox(l: seq<seq<Block>>, r: seq<seq<Block>>, wa: seq<nat>, wb: seq<nat>, hs: seq<nat>,
                     gap: nat, barSpace: nat, vert: char)
    requires AugmentedShape(l, r, wa, wb, hs)
    requires forall i :: 0 <= i < |l| ==> CellsFit(l[i], wa, hs[i]) && CellsFit(r[i], wb, hs[i])
    requires hs[|l| - 1] == RowHeight(l[|l| - 1] + r[|l| - 1])
    ensures var rows := AugmentedRows(l, r, wa, wb, hs, gap, barSpace, vert);
      && RowsInside(rows)
      && RowsBottom(rows) == RowTop(hs, |l| - 1) + Max(hs[|l| - 1], 1)
      && RowsRight(rows) <= RightStart(wa, gap, barSpace) + TableWidth(wb, gap)
  {
    var m := |l|;
    var rows := AugmentedRows(l, r, wa, wb, hs, gap, barSpace, vert);
    var right := RightStart(wa, gap, barSpace) + TableWidth(wb, gap);
    var bottom := RowTop(hs, m - 1) + Max(hs[m - 1], 1);
    forall i | 0 <= i < m ensures Inside(rows[i]) && MaxBottom(rows[i]) <= bottom && MaxRight(rows[i]) <= right {
      AugmentedRowBox(l[i], r[i], wa, wb, gap, barSpace, hs[i], RowTop(hs, i), BarArt(vert, i == m - 1));
      RowTopBelow(hs, i);
    }
    RowsBound(rows, right, bottom);
    AugmentedLastRow(l, r, wa, wb, hs, gap, barSpace, vert);
    RowsReach(rows, m - 1);
  }

  /** The last row reaches its bottom, at least one row below its top. */
  lemma AugmentedLastRow(l: seq<seq<Block>>, r: seq<seq<Block>>, wa: seq<nat>, wb: seq<nat>, hs: seq<nat>,
                         gap: nat, barSpace: nat, vert: char)
    requires AugmentedShape(l, r, wa, wb, hs)
    requires CellsFit(l[|l| - 1], wa, hs[|l| - 1]) && CellsFit(r[|l| - 1], wb, hs[|l| - 1])
    requires hs[|l| - 1] == RowHeight(l[|l| - 1] + r[|l| - 1])
    ensures MaxBottom(AugmentedRows(l, r, wa, wb, hs, gap, barSpace, vert)[|l| - 1])
      >= RowTop(hs, |l| - 1) + Max(hs[|l| - 1], 1)
  {
    var m := |l|;
    var y, h := RowTop(hs, m - 1), hs[m - 1];
    AugmentedRowBox(l[m - 1], r[m - 1], wa, wb, gap, barSpace, h, y, BarArt(vert, true));
    if h > 0 {
      var j := RowHeightAttained(l[m - 1] + r[m - 1]);
      AugmentedRowDeep(l[m - 1], r[m - 1], wa, wb, gap, barSpace, h, y, BarArt(vert, true), j);
    }
  }

  /** When row `t`'s last right cell fills the last column, the rows reach
      the right end of the right grid. */
  lemma AugmentedReach(l: seq<seq<Block>>, r: seq<seq<Block>>, wa: seq<nat>, wb: seq<nat>, hs: seq<nat>,
                       gap: nat, barSpace: nat, vert: char, t: nat)
    requires AugmentedShape(l, r, wa, wb, hs) && t < |l| && r[t][|wb| - 1].Width() == wb[|wb| - 1]
    ensures RowsRight(AugmentedRows(l, r, wa, wb, hs, gap, barSpace, vert))
      >= RightStart(wa, gap, barSpace) + TableWidth(wb, gap)
  {
    AugmentedRowReach(l[t], r[t], wa, wb, gap, barSpace, hs[t], RowTop(hs, t), BarArt(vert, t == |l| - 1));
    RowsReach(AugmentedRows(l, r, wa, wb, hs, gap, barSpace, vert), t);
  }

  /** With the bar of the first row drawn before any cell further right,
      the augmented picture keeps every width. */
  lemma AugmentedWidth(l: seq<seq<Block>>, r: seq<seq<Block>>, wa: seq<nat>, wb: seq<nat>, hs: seq<nat>,
                       gap: nat, barSpace: nat, vert: char)
    requires AugmentedShape(l, r, wa, wb, hs) && CellsFit(l[0], wa, hs[0])
    requires RowsInside(AugmentedRows(l, r, wa, wb, hs, gap, barSpace, vert))
    ensures var rows := AugmentedRows(l, r, wa, wb, hs, gap, barSpace, vert);
      DrawRows(Art([], 0), rows).Width() == RowsRight(rows)
  {
    var rows := AugmentedRows(l, r, wa, wb, hs, gap, barSpace, vert);
    AugmentedRowBar(l[0], r[0], wa, wb, gap, barSpace, hs[0], RowTop(hs, 0), BarArt(vert, 0 == |l| - 1));
    DrawRowsWidth(Art([], 0), rows, |wa|);
  }

  /** The cells of both grids fit the columns sized over the joined rows. */
  lemma AugmentedFits(l: seq<seq<Block>>, r: seq<seq<Block>>, wa: seq<nat>, wb: seq<nat>, hs: seq<nat>, i: nat)
    requires Rectangle(l) && Rectangle(r) && |l| == |r| && i < |l|
    requires wa == Widths(Joined(l, r), |l[0]| + |r[0]|)[..|l[0]|]
    requires wb == Widths(Joined(l, r), |l[0]| + |r[0]|)[|l[0]|..]
    requires hs == Heights(Joined(l, r))
    ensures CellsFit(l[i], wa, hs[i]) && CellsFit(r[i], wb, hs[i])
  {
    var n, cells := |l[0]|, Joined(l, r);
    forall j | 0 <= j < |l[i]| ensures l[i][j].Width() <= wa[j] && l[i][j].Height() <= hs[i] {
      assert cells[i][j] == l[i][j];
    }
    forall j | 0 <= j < |r[i]| ensures r[i][j].Width() <= wb[j] && r[i][j].Height() <= hs[i] {
      assert cells[i][n + j] == r[i][j];
    }
  }

  /** Some row's last right cell is as wide as the last column. */
  lemma AugmentedWidest(l: seq<seq<Block>>, r: seq<seq<Block>>, wb: seq<nat>)
    requires Rectangle(l) && Rectangle(r) && |l| == |r|
    requires wb == Widths(Joined(l, r), |l[0]| + |r[0]|)[|l[0]|..]
    ensures exists t :: 0 <= t < |l| && r[t][|wb| - 1].Width() == wb[|wb| - 1]
  {
    var k, cells := |l[0]| + |r[0]|, Joined(l, r);
    var t := 0;
    if ColumnWidth(cells, k - 1) > 0 {
      t := ColumnWidthAttained(cells, k - 1);
    }
    assert cells[t][k - 1] == r[t][|r[0]| - 1];
  }

  /** The augmented picture for given column widths and row heights, once
      every cell fits and some cells fill the last row and last column. */
  lemma AugmentedRowsLayout(l: seq<seq<Block>>, r: seq<seq<Block>>, wa: seq<nat>, wb: seq<nat>, hs: seq<nat>,
                            gap: nat, barSpace: nat, vert: char)
    requires AugmentedShape(l, r, wa, wb, hs)
    requires forall i :: 0 <= i < |l| ==> CellsFit(l[i], wa, hs[i]) && CellsFit(r[i], wb, hs[i])
    requires hs[|l| - 1] == RowHeight(l[|l| - 1] + r[|l| - 1])
    requires exists t :: 0 <= t < |l| && r[t][|wb| - 1].Width() == wb[|wb| - 1]
    ensures var a := AugmentedFrame(l, r, wa, wb, hs, gap, barSpace, vert);
      && a.Height() == RowTop(hs, |l| - 1) + Max(hs[|l| - 1], 1)
      && a.center == a.Height() / 2
      && a.Width() == RightStart(wa, gap, barSpace) + TableWidth(wb, gap)
  {
    var rows := AugmentedRows(l, r, wa, wb, hs, gap, barSpace, vert);
    AugmentedBox(l, r, wa, wb, hs, gap, barSpace, vert);
    var t :| 0 <= t < |l| && r[t][|wb| - 1].Width() == wb[|wb| - 1];
    AugmentedReach(l, r, wa, wb, hs, gap, barSpace, vert, t);
    DrawRowsSize(Art([], 0), rows);
    AugmentedWidth(l, r, wa, wb, hs, gap, barSpace, vert);
  }

  /** `AugmentedGrid.renderAsciiArt` on the rendered cells of both grids:
      columns sized over both grids together, a bar between them, anchored
      at the middle row. */
  function AugmentedArt(l: seq<seq<Block>>, r: seq<seq<Block>>, vert: char, mode: SpaceMode): Block
    requires Rectangle(l) && Rectangle(r) && |l| == |r|
  {
    var n, cells := |l[0]|, Joined(l, r);
    var ws, hs := Widths(cells, n + |r[0]|), Heights(cells);
    AugmentedFrame(l, r, ws[..n], ws[n..], hs, AugmentedGap(mode, |l|), BarSpace(mode), vert)
  }

  /** The drawing of an augmented grid for given column widths and row
      heights. */
  function AugmentedFrame(l: seq<seq<Block>>, r: seq<seq<Block>>, wa: seq<nat>, wb: seq<nat>, hs: seq<nat>,
                          gap: nat, barSpace: nat, vert: char): Block
    requires AugmentedShape(l, r, wa, wb, hs)
  {
    RecalculateCenter(DrawRows(Art([], 0), AugmentedRows(l, r, wa, wb, hs, gap, barSpace, vert)))
  }

  /** The augmented picture: as tall as its rows together, where a last row
      of empty cells still shows its bar; anchored at the middle row; and
      exactly as wide as the left columns, the bar with its spaces and the
      right columns, neighbouring columns `gap` apart. No width is ever
      lost, because the bar of the first row is drawn before any cell
      further right. */
  lemma AugmentedLayout(l: seq<seq<Block>>, r: seq<seq<Block>>, vert: char, mode: SpaceMode)
    requires Rectangle(l) && Rectangle(r) && |l| == |r|
    ensures var cells := Joined(l, r);
      var ws, hs := Widths(cells, |l[0]| + |r[0]|), Heights(cells);
      var gap, bs := AugmentedGap(mode, |l|), BarSpace(mode);
      var wa, wb := ws[..|l[0]|], ws[|l[0]|..];
      var a := AugmentedArt(l, r, vert, mode);
      && a.Height() == Sum(hs[..|l| - 1]) + Max(hs[|l| - 1], 1)
      && a.center == a.Height() / 2
      && a.Width() == TableWidth(wa, gap) + bs + 1 + bs + TableWidth(wb, gap)
  {
    AugmentedSized(l, r, vert, AugmentedGap(mode, |l|), BarSpace(mode));
  }

  /** `AugmentedRowsLayout` for the column widths and row heights of the
      joined rows. */
  lemma AugmentedSized(l: seq<seq<Block>>, r: seq<seq<Block>>, vert: char, gap: nat, bs: nat)
    requires Rectangle(l) && Rectangle(r) && |l| == |r|
    ensures var n, cells := |l[0]|, Joined(l, r);
      var ws, hs := Widths(cells, n + |r[0]|), Heights(cells);
      var wa, wb := ws[..n], ws[n..];
      && AugmentedShape(l, r, wa, wb, hs)
      && var a := AugmentedFrame(l, r, wa, wb, hs, gap, bs, vert);
      && a.Height() == Sum(hs[..|l| - 1]) + Max(hs[|l| - 1], 1)
      && a.center == a.Height() / 2
      && a.Width() == TableWidth(wa, gap) + bs + 1 + bs + TableWidth(wb, gap)
  {
    var n, m := |l[0]|, |l|;
    var cells := Joined(l, r);
    var ws, hs := Widths(cells, n + |r[0]|), Heights(cells);
    var wa, wb := ws[..n], ws[n..];
    assert AugmentedShape(l, r, wa, wb, hs);
    assert forall i :: 0 <= i < m ==> CellsFit(l[i], wa, hs[i]) && CellsFit(r[i], wb, hs[i]) by {
      forall i | 0 <= i < m ensures CellsFit(l[i], wa, hs[i]) && CellsFit(r[i], wb, hs[i]) {
        AugmentedFits(l, r, wa, wb, hs, i);
      }
    }
    assert hs[m - 1] == RowHeight(l[m - 1] + r[m - 1]) by {
      assert cells[m - 1] == l[m - 1] + r[m - 1];
    }
    assert exists t :: 0 <= t < |l| && r[t][|wb| - 1].Width() == wb[|wb| - 1] by {
      AugmentedWidest(l, r, wb);
    }
    AugmentedRowsLayout(l, r, wa, wb, hs, gap, bs, vert);
  }
}

=== FILE: utils.dfy ===
/** The string helpers of the renderer (`Utils`): number and variable
    classifiers, the Unicode super- and subscript tables, and the padding test
    used by lists. */
module Utils {
  import opened Wrappers
  import opened Strings

  predicate IsDigit(c: char) { '0' <= c <= '9' }

  /** Letters that may start a variable name: ASCII letters, pi and capital pi. */
  predicate IsVarChar(c: char) {
    'a' <= c <= 'z' || 'A' <= c <= 'Z' || c == 'π' || c == 'Π'
  }

  /** A (possibly negative) run of digits; a lone minus sign qualifies too. */
  predicate NumberToken(s: string) {
    s != [] && (s[0] == '-' || IsDigit(s[0])) && forall i :: 1 <= i < |s| ==> IsDigit(s[i])
  }

  /** A variable-like word: a letter followed by letters and digits. */
  predicate Word(s: string) {
    s != [] && IsVarChar(s[0]) && forall i :: 1 <= i < |s| ==> IsDigit(s[i]) || IsVarChar(s[i])
  }

  /** A word, optionally preceded by one minus sign. */
  predicate VarToken(s: string) {
    Word(s) || (|s| >= 2 && s[0] == '-' && Word(s[1..]))
  }

  /** `Utils.oneNumber`: the first character is read unconditionally, so an
      empty string is outside its domain. */
  method OneNumber(s: string) returns (b: bool)
    requires s != []
    ensures b <==> NumberToken(s)
  {
    var c := s[0];
    if c != '-' && !IsDigit(c) {
      return false;
    }
    var i := 1;
    while i < |s|
      invariant 1 <= i <= |s|
      invariant forall j :: 1 <= j < i ==> IsDigit(s[j])
    {
      if !IsDigit(s[i]) {
        return false;
      }
      i := i + 1;
    }
    return true;
  }

  /** The private `oneVar(s, allowMinus)`. */
  method OneVarFrom(s: string, allowMinus: bool) returns (b: bool)
    requires s != []
    ensures b <==> (Word(s) || (allowMinus && |s| >= 2 && s[0] == '-' && Word(s[1..])))
    decreases |s|
  {
    var c := s[0];
    if allowMinus && c == '-' {
      if |s| == 1 {
        return false;
      }
      b := OneVarFrom(s[1..], false);
      return;
    }
    if !IsVarChar(c) {
      return false;
    }
    var i := 1;
    while i < |s|
      invariant 1 <= i <= |s|
      invariant forall j :: 1 <= j < i ==> IsDigit(s[j]) || IsVarChar(s[j])
    {
      if !IsDigit(s[i]) && !IsVarChar(s[i]) {
        return false;
      }
      i := i + 1;
    }
    return true;
  }

  /** `Utils.oneVar`. */
  method OneVar(s: string) returns (b: bool)
    requires s != []
    ensures b <==> VarToken(s)
  {
    b := OneVarFrom(s, true);
  }

  /** `Utils.oneNumOrVar`. */
  method OneNumOrVar(s: string) returns (b: bool)
    requires s != []
    ensures b <==> NumberToken(s) || VarToken(s)
  {
    b := OneNumber(s);
    if !b {
      b := OneVar(s);
    }
  }

  /** No string is both a number and a variable. */
  lemma NumberNotVar(s: string)
    ensures !(NumberToken(s) && VarToken(s))
  {
    if |s| >= 2 {
      assert s[1..][0] == s[1];
    }
  }

  // ---------------------------------------------------------------------------
  // Unicode super- and subscripts

  const SUPERSCRIPT: map<char, char> := map[
    '0' := '⁰', '1' := '¹', '2' := '²', '3' := '³',
    '4' := '⁴', '5' := '⁵', '6' := '⁶', '7' := '⁷',
    '8' := '⁸', '9' := '⁹', '+' := '⁺', '-' := '⁻',
    '=' := '⁼', '(' := '⁽', ')' := '⁾']

  const SUBSCRIPT: map<char, char> := map[
    '0' := '₀', '1' := '₁', '2' := '₂', '3' := '₃',
    '4' := '₄', '5' := '₅', '6' := '₆', '7' := '₇',
    '8' := '₈', '9' := '₉', '+' := '₊', '-' := '₋',
    '=' := '₌', '(' := '₍', ')' := '₎']

  /** The character-wise image of `s` under `table`, or None as soon as one
      character has no image. */
  function ToScript(table: map<char, char>, s: string): (r: Option<string>)
    ensures r.Some? <==> forall i :: 0 <= i < |s| ==> s[i] in table
    ensures r.Some? ==> |r.value| == |s|
    ensures r.Some? ==> forall i :: 0 <= i < |s| ==> s[i] in table && r.value[i] == table[s[i]]
  {
    if s == [] then Some([])
    else if s[0] !in table then None
    else match ToScript(table, s[1..])
      case None => None
      case Some(t) => Some([table[s[0]]] + t)
  }

  /** `Utils.toSuperscript` (None stands for Java's null). */
  function ToSuperscript(s: string): (r: Option<string>)
    ensures r.Some? <==> forall i :: 0 <= i < |s| ==> s[i] in SUPERSCRIPT
  {
    ToScript(SUPERSCRIPT, s)
  }

  /** `Utils.toSubscript`. */
  function ToSubscript(s: string): (r: Option<string>)
    ensures r.Some? <==> forall i :: 0 <= i < |s| ==> s[i] in SUBSCRIPT
  {
    ToScript(SUBSCRIPT, s)
  }

  /** `Utils.isSuperscript`: the last character is a superscript glyph. */
  predicate IsSuperscript(s: string) {
    s != [] && s[|s| - 1] in SUPERSCRIPT.Values
  }

  /** `Utils.isSubscript`. */
  predicate IsSubscript(s: string) {
    s != [] && s[|s| - 1] in SUBSCRIPT.Values
  }

  /** A table is injective when no two keys share an image. */
  ghost predicate Injective(table: map<char, char>) {
    forall a, b :: a in table && b in table && table[a] == table[b] ==> a == b
  }

  /** A table with a left inverse is injective. */
  lemma InverseInjective(table: map<char, char>, inverse: map<char, char>)
    requires forall a | a in table :: table[a] in inverse && inverse[table[a]] == a
    ensures Injective(table)
  {
  }

  lemma ScriptTablesInjective()
    ensures Injective(SUPERSCRIPT) && Injective(SUBSCRIPT)
  {
    InverseInjective(SUPERSCRIPT, map[
      '⁰' := '0', '¹' := '1', '²' := '2', '³' := '3',
      '⁴' := '4', '⁵' := '5', '⁶' := '6', '⁷' := '7',
      '⁸' := '8', '⁹' := '9', '⁺' := '+', '⁻' := '-',
      '⁼' := '=', '⁽' := '(', '⁾' := ')']);
    InverseInjective(SUBSCRIPT, map[
      '₀' := '0', '₁' := '1', '₂' := '2', '₃' := '3',
      '₄' := '4', '₅' := '5', '₆' := '6', '₇' := '7',
      '₈' := '8', '₉' := '9', '₊' := '+', '₋' := '-',
      '₌' := '=', '₍' := '(', '₎' := ')']);
  }

  /** Converting to a script loses nothing: equal images come from equal
      strings, so the conversion can be undone. */
  lemma {:induction false} ToScriptInjective(table: map<char, char>, s: string, t: string)
    requires Injective(table)
    requires ToScript(table, s).Some? && ToScript(table, s) == ToScript(table, t)
    ensures s == t
  {
    assert |s| == |t|;
    forall i | 0 <= i < |s|
      ensures s[i] == t[i]
    {
      assert ToScript(table, s).value[i] == table[s[i]];
      assert ToScript(table, t).value[i] == table[t[i]];
    }
  }

  /** The image of a non-empty convertible string ends in a script glyph, so
      the renderers recognise their own output. */
  lemma SuperscriptRecognised(s: string)
    requires s != [] && ToSuperscript(s).Some?
    ensures IsSuperscript(ToSuperscript(s).value)
    ensures !IsSubscript(ToSuperscript(s).value)
  {
    var t := ToSuperscript(s).value;
    var c := s[|s| - 1];
    assert t[|t| - 1] == SUPERSCRIPT[c];
    assert SUPERSCRIPT[c] in SUPERSCRIPT.Values;
  }

  lemma SubscriptRecognised(s: string)
    requires s != [] && ToSubscript(s).Some?
    ensures IsSubscript(ToSubscript(s).value)
    ensures !IsSuperscript(ToSubscript(s).value)
  {
    var t := ToSubscript(s).value;
    var c := s[|s| - 1];
    assert t[|t| - 1] == SUBSCRIPT[c];
    assert SUBSCRIPT[c] in SUBSCRIPT.Values;
  }

  /** Script glyphs are printable: a converted string holds no line break,
      so it always makes a one-row picture. */
  lemma ScriptsPrintable(s: string)
    ensures ToSuperscript(s).Some? ==> NoTerminator(ToSuperscript(s).value)
    ensures ToSubscript(s).Some? ==> NoTerminator(ToSubscript(s).value)
  {
    assert forall c :: c in SUPERSCRIPT ==> !IsTerminator(SUPERSCRIPT[c]);
    assert forall c :: c in SUBSCRIPT ==> !IsTerminator(SUBSCRIPT[c]);
  }

  /** Every script glyph lies outside ASCII, so a text ending in an ASCII
      character is neither a superscript nor a subscript. */
  lemma AsciiEndNotScript(s: string)
    requires s != [] && s[|s| - 1] < 128 as char
    ensures !IsSuperscript(s) && !IsSubscript(s)
  {
    assert forall c :: c in SUPERSCRIPT ==> SUPERSCRIPT[c] >= 128 as char;
    assert forall c :: c in SUBSCRIPT ==> SUBSCRIPT[c] >= 128 as char;
  }

  /** A script glyph has no script image itself: conversion is not iterable. */
  lemma ScriptNotIterable(s: string)
    requires s != [] && ToSuperscript(s).Some?
    ensures ToSuperscript(ToSuperscript(s).value).None?
    ensures ToSubscript(ToSuperscript(s).value).None?
  {
    var t := ToSuperscript(s).value;
    assert t[0] == SUPERSCRIPT[s[0]];
    assert t[0] !in SUPERSCRIPT && t[0] !in SUBSCRIPT;
  }

  // ---------------------------------------------------------------------------
  // Padding

  /** A single line with a space at both ends and something in between. */
  predicate PaddedLine(s: string) {
    |s| >= 3 && s[0] == ' ' && s[|s| - 1] == ' '
  }

  /** `Utils.hasPadding`: a multi-line string is padded when each of its lines is. */
  predicate HasPadding(s: string) {
    if Contains(s, '\n') then
      var ls := Lines(s);
      forall i :: 0 <= i < |ls| ==> PaddedLine(ls[i])
    else PaddedLine(s)
  }

  /** Surrounding a line with spaces pads it. */
  lemma PadLine(s: string)
    requires NoTerminator(s) && s != []
    ensures HasPadding(" " + s + " ")
  {
    var p := " " + s + " ";
    assert forall i :: 1 <= i < |p| - 1 ==> p[i] == s[i - 1];
  }

  /** A block of lines is padded exactly when every line is. */
  lemma {:induction false} HasPaddingLines(ls: seq<string>)
    requires |ls| >= 2
    requires forall i :: 0 <= i < |ls| ==> NoTerminator(ls[i])
    requires ls[|ls| - 1] != []
    ensures HasPadding(JoinLines(ls)) <==> forall i :: 0 <= i < |ls| ==> PaddedLine(ls[i])
  {
    var s := JoinLines(ls);
    assert s == ls[0] + "\n" + JoinLines(ls[1..]);
    assert s[|ls[0]|] == '\n';
    LinesJoinLines(ls);
  }
}

=== FILE: wrappers.dfy ===
/** Failure-carrying results. The library reports malformed input by throwing
    (IllegalArgumentException, ArithmeticException, ...); the model returns Err. */
module Wrappers {

  datatype Option<+T> = None | Some(value: T)

  /** The exception classes the modelled code throws. */
  datatype Error = IllegalArgument | Arithmetic | NegativeArraySize | IndexOutOfBounds

  datatype Result<+T> = Ok(value: T) | Err(error: Error) {
    predicate IsFailure() { Err? }

    function PropagateFailure<U>(): Result<U>
      requires Err?
    {
      Err(error)
    }

    function Extract(): T
      requires Ok?
    {
      value
    }
  }
}
